=== FILE: README.md ===
# dockpit tunnel core, modelled in Dafny

dockpit runs every project in its own Docker container and lets a browser
reach the container's dev servers. Its centre is a TCP tunnel made of three
single-threaded state machines and a binary frame codec:

- the **port watcher** on the API server. It polls `ss -tlnp` in the
  container and reports a debounced, sorted list of listening ports.
- the **tunnel coordinator** on the API server. It tracks the focused
  project and its allow-list from `.dockpit/config.yaml`, the status of each
  port, and the container-side TCP connections it opens for the agent.
- the **host agent**. It opens one local listener per port and one socket
  per accepted client. A client's bytes are buffered until the server
  reports the container side connected. It also caches the last port list
  of each project.
- **data frames**: a big-endian `uint32` connection id followed by the
  payload. The terminal's frames are a `0x00` byte followed by UTF-8 text.

Around that sit smaller pure cores:

- the git output parsers;
- the Docker event mapping;
- the browser's project-list store;
- the preview proxy routes and the registry of preview proxy servers;
- the terminal session registry and the HTTP 101 header split;
- project create, update and delete over a table;
- the GitHub repository list and clone rules;
- port detection and container naming.

Everything is pure, and each handler is one atomic step. A handler returns
the next state and the effects it caused, in order: messages sent, sockets
destroyed, listeners started. Answers from the outside world are
parameters. This covers what Docker, `ss`, `git`, `gh`, the database,
`JSON.parse`, the clock and socket dials would return. Opaque regular
expressions are `Matcher` functions. Maps, sets and sequences stand for the
source's `Map`, `Set` and arrays. Integers are unbounded; where the source's
32-bit frame ids matter, the bound `U32_LIMIT` is explicit.

Modules, one per source file or concern:

- `Common`, `Text` and `Decimal`: `Option`/`Result`, sequence filtering,
  JavaScript string operations (`trim`, `split`, `indexOf`, lower case) and
  decimal numerals with `parseInt` and `Number`.
- `Frames`, `Utf8` and `WsProtocol`: the frame codecs.
- `SimpleYaml`: `parseSimpleYaml`.
- `SsProbe` and `PortWatcher`: port-watcher.ts.
- `TunnelProtocol`, `Coordinator` and `TunnelWs`: tunnel.ts and ws/tunnel.ts.
- `Agent` and `AgentProps`: apps/agent/src/index.ts and its guarantees.
- `Git`, `DockerEvents`, `Projects`, `ProjectStore`, `Containers`,
  `PortDetector`, `PreviewProxy`, `Proxy`, `Terminal` and `Github`: the
  remaining files, one module each.

The code and the source's own comments disagree in one place, and the model
follows the code. The comments at apps/api/src/docker/port-watcher.ts:7 and
:15 speak of "consecutive" polls. The code never resets the seen count of a
port that is not yet confirmed, so two sightings in total confirm a port
(`PortWatcher.CumulativeConfirmation`).

## Model

| member | source | states |
|---|---|---|
| Frames.U32RoundTrip | apps/agent/src/index.ts:261-264 | reading four big-endian bytes back gives the id that was written |
| Frames.U32ReadRoundTrip | apps/api/src/ws/tunnel.ts:31-33 | the four id bytes of any frame of at least 4 bytes re-encode to themselves |
| Frames.EncodeDataFrame | apps/agent/src/index.ts:215-221 | a frame exists exactly for ids below 2^32; it is 4 + \|payload\| bytes and carries the payload after the id |
| Frames.DecodeDataFrame | apps/api/src/ws/tunnel.ts:31-34 | a frame under 4 bytes decodes to nothing; otherwise the id is below 2^32 and the payload is everything after byte 4 |
| Frames.DecodeEncode | apps/api/src/services/tunnel.ts:320-328 | decoding an encoded frame gives the same id and payload |
| Frames.EncodeDecode | apps/api/src/ws/tunnel.ts:31-34 | re-encoding a decoded frame gives the same bytes |
| Utf8.EncodeChar | apps/web/src/lib/ws-protocol.ts:12-13 | every character encodes to 1 to 4 bytes, and to one byte exactly when it is ASCII |
| Utf8.DecodeOneEncodeChar | apps/web/src/lib/ws-protocol.ts:24-25 | decoding the start of a character's encoding gives that character and consumes its whole encoding |
| Utf8.DecodeEncode | apps/web/src/lib/ws-protocol.ts:11-26 | decoding an encoding gives the text back, except that a leading U+FEFF is dropped as a byte-order mark |
| Utf8.EncodeStartsWithBom | apps/web/src/lib/ws-protocol.ts:24-25 | only text starting with U+FEFF encodes to bytes starting with the byte-order mark |
| WsProtocol.EncodeTerminalInput | apps/web/src/lib/ws-protocol.ts:11-18 | the frame is the byte 0x00 followed by the UTF-8 encoding, one byte longer than the encoding |
| WsProtocol.DecodeTerminalOutput | apps/web/src/lib/ws-protocol.ts:20-26 | null exactly for an empty buffer or a first byte other than 0x00; otherwise the decoding of the rest |
| WsProtocol.TerminalRoundTrip | apps/web/src/lib/ws-protocol.ts:11-26 | decoding an encoded input gives the input back, less a leading U+FEFF |
| WsProtocol.Scheme | apps/web/src/lib/ws-protocol.ts:2 | the scheme is `wss:` exactly when the page protocol is `https:`, else `ws:` |
| WsProtocol.TerminalWsUrl | apps/web/src/lib/ws-protocol.ts:1-4 | the terminal URL is the scheme, `//`, the host and the terminal path; it starts with `wss:` exactly on `https:` pages |
| WsProtocol.TerminalPathParts | apps/web/src/lib/ws-protocol.ts:3 | for ids without `/`, the path splits into `ws`, `terminal`, the project id and the session id |
| WsProtocol.EventsWsUrl | apps/web/src/lib/ws-protocol.ts:6-9 | the events URL is the scheme, `//`, the host and `/ws/events`; it is secure exactly on `https:` pages |
| WsProtocol.EventsUrlParts | apps/web/src/lib/ws-protocol.ts:6-9 | the host and the events path read back out of the events URL at their places |
| WsProtocol.TerminalUrlParts | apps/web/src/lib/ws-protocol.ts:1-4 | the host and the terminal path read back out of the terminal URL at their places |
| SsProbe.FirstMatchFrom | apps/api/src/docker/port-watcher.ts:107 | the leftmost index where `:<digits><space>` matches, or none when no index does |
| SsProbe.Candidates | apps/api/src/docker/port-watcher.ts:105-112 | a port is a candidate exactly when some line's first match yields it and it is in 1024..32767 and not 22 |
| SsProbe.ScanIsDedupOfCandidates | apps/api/src/docker/port-watcher.ts:105-114 | the scan loop equals the first-seen deduplication of the filtered candidates |
| SsProbe.DetectAllPortsSpec | apps/api/src/docker/port-watcher.ts:91-119 | the result is duplicate-free, every port passes the filter, a port is present exactly when some line yields it, and a failed run gives [] |
| SsProbe.LinePortOfAddress | apps/api/src/docker/port-watcher.ts:107-109 | a line `addr:<port><space>...` whose address has no colon yields that port |
| PortWatcher.SortedList | apps/api/src/docker/port-watcher.ts:64 | the sorted list has exactly the set's ports, strictly increasing |
| PortWatcher.KeyInjective | apps/api/src/docker/port-watcher.ts:65-68 | two port lists have equal `join(",")` keys exactly when the lists are equal |
| PortWatcher.StopWatching | apps/api/src/docker/port-watcher.ts:79-89 | no session, no counters, no confirmed port and an empty last report |
| PortWatcher.StartWatching | apps/api/src/docker/port-watcher.ts:21-35 | the old session is cleared; exactly the seed ports get seen count 1 for the new container |
| PortWatcher.Sighted | apps/api/src/docker/port-watcher.ts:45-51 | each observed port's seen count rises by one and its absent count is cleared; a port is confirmed once its count reaches 2 |
| PortWatcher.Missed | apps/api/src/docker/port-watcher.ts:53-62 | a confirmed port missed by the poll loses its seen count and gains an absent count; at 2 it is dropped with its count; other ports are untouched |
| PortWatcher.Poll | apps/api/src/docker/port-watcher.ts:37-72 | a poll of a stale session changes nothing; otherwise the callback fires exactly when the sorted confirmed list differs from the last report, and carries that list |
| PortWatcher.ObservedPortCounts | apps/api/src/docker/port-watcher.ts:45-50 | after a poll every observed port has its previous seen count plus one and no absent count |
| PortWatcher.ConfirmationNeedsTwoSightings | apps/api/src/docker/port-watcher.ts:45-51 | a port becomes confirmed only in a poll that observes it with seen count at least 2 |
| PortWatcher.UnconfirmedCountKept | apps/api/src/docker/port-watcher.ts:45-62 | an unconfirmed, unobserved port keeps its seen count and stays unconfirmed |
| PortWatcher.MissingConfirmedPort | apps/api/src/docker/port-watcher.ts:53-61 | a missed confirmed port stays confirmed below 2 absences and is dropped at 2 |
| PortWatcher.PollValid | apps/api/src/docker/port-watcher.ts:37-72 | every poll keeps the invariant: absent counts only for confirmed ports, positive seen counts, a sorted last report |
| PortWatcher.StartWatchingValid | apps/api/src/docker/port-watcher.ts:21-35 | starting and stopping establish the invariant |
| PortWatcher.TwoAbsencesRemove | apps/api/src/docker/port-watcher.ts:53-61 | a confirmed port survives one missing poll and is removed by the second |
| PortWatcher.SeedConfirmedByFirstSighting | apps/api/src/docker/port-watcher.ts:30-35 | a seeded port is confirmed by the first poll that observes it |
| PortWatcher.OneSightingNeverConfirms | apps/api/src/docker/port-watcher.ts:45-51 | over any run of polls, a port whose seen count plus sightings stays below 2 is never confirmed |
| PortWatcher.FreshSessionOneSighting | apps/api/src/docker/port-watcher.ts:26-51 | an unseeded session never confirms a port observed in at most one poll |
| PortWatcher.CumulativeConfirmation | apps/api/src/docker/port-watcher.ts:45-51 | two sightings separated by a missing poll still confirm a port |
| SimpleYaml.Put | apps/api/src/services/tunnel.ts:167 | assigning keeps keys unique; an existing key keeps its place and a new key goes last |
| SimpleYaml.PutGet | apps/api/src/services/tunnel.ts:167-172 | after an assignment the key holds the new value and every other key is unchanged |
| SimpleYaml.LastKey | apps/api/src/services/tunnel.ts:175-176 | the last key in `Object.keys` order: none only for an empty section; a last key that is not an array index is it |
| SimpleYaml.KeyColon | apps/api/src/services/tunnel.ts:146-159 | a match splits the line into a non-empty word key, a colon and the rest |
| SimpleYaml.KeyValueIsNotItem | apps/api/src/services/tunnel.ts:155-173 | a `key: value` line never matches the `- item` pattern |
| SimpleYaml.BlankAndCommentLinesSkipped | apps/api/src/services/tunnel.ts:142-143 | blank and `#` lines change nothing |
| SimpleYaml.HeaderOpensSection | apps/api/src/services/tunnel.ts:146-151 | an unindented `word:` line makes `word` the current section and resets it to empty |
| SimpleYaml.IndentedBareKeyDropped | apps/api/src/services/tunnel.ts:146-186 | an indented bare `key:` line creates nothing |
| SimpleYaml.LinesOutsideSectionIgnored | apps/api/src/services/tunnel.ts:153 | before the first section only a header has an effect |
| SimpleYaml.InlineListOverwrites | apps/api/src/services/tunnel.ts:161-167 | `key: [..]` always sets the key to the list and leaves other keys and sections alone |
| SimpleYaml.KeyValueSetsOnlyFalsy | apps/api/src/services/tunnel.ts:168-172 | `key: value` changes nothing when the key is truthy and sets it otherwise |
| SimpleYaml.ItemAppendsToLastKey | apps/api/src/services/tunnel.ts:173-185 | `- item` is dropped without keys and otherwise appended to the last key's list, or to a fresh list |
| SimpleYaml.Parse | apps/api/src/services/tunnel.ts:137-189 | every parsed section has unique keys |
| SimpleYaml.PortsConfigRoundTrip | apps/api/src/services/tunnel.ts:137-189 | a config file listing ports inline reads back as exactly those numbers |
| SimpleYaml.ScalarPortsConfigRoundTrip | apps/api/src/services/tunnel.ts:137-189 | a config file giving `ports` one number reads back as that single number, not a list |
| SimpleYaml.ClassifyScalarPortsLine | apps/api/src/services/tunnel.ts:155-172 | `  ports: <n>` is a key-value line carrying the number n, not an inline list |
| Coordinator.SendPorts | apps/api/src/services/tunnel.ts:216-224 | the port list is sent only while the agent is linked |
| Coordinator.LoadConfig | apps/api/src/services/tunnel.ts:116-134 | a configuration exists exactly when the project has a directory, its file could be read, it has a `tunnel` section and `ports` is not a single value; a single value makes the log line's `join` throw and the catch resets the configuration to null |
| Coordinator.NumbersOf | apps/api/src/services/tunnel.ts:195 | the allowed set holds exactly the list's numbers |
| Coordinator.FilterPorts | apps/api/src/services/tunnel.ts:191-197 | identity without a configuration, without `ports` or with an empty list; otherwise the order-preserving subsequence of exactly the ports the list names |
| Coordinator.ScalarPortsAllowAll | apps/api/src/services/tunnel.ts:121-133 | a `tunnel` section whose `ports` is one value leaves no configuration, so every port passes the filter |
| Coordinator.ScalarConfigAllowsAll | apps/api/src/services/tunnel.ts:121-133 | the file `tunnel:` / `  ports: <n>` lets every port through, as if there were no file |
| Coordinator.ListedPortsAreAllowed | apps/api/src/services/tunnel.ts:116-134 | a config file listing ports inline allows exactly those ports |
| Coordinator.LoadedPorts | apps/api/src/services/tunnel.ts:124-127 | a non-empty `tunnel.ports` list allows exactly that list's numbers |
| Coordinator.EmptyListAllowsNothing | apps/api/src/services/tunnel.ts:163-166 | `ports: []` reads as [0] and so filters out every real port |
| Coordinator.StartProjectWatching | apps/api/src/services/tunnel.ts:199-214 | a project with a running container always gets a watch seeded with the given ports and becomes the watched project; otherwise nothing changes |
| Coordinator.PendingStatuses | apps/api/src/services/tunnel.ts:207-210 | exactly the reported ports get a status, each pending on its own number |
| Coordinator.OnPortsChanged | apps/api/src/services/tunnel.ts:203-213 | a callback for another project is ignored; otherwise the filtered list becomes active, pending, saved and sent whole |
| Coordinator.AfterPoll | apps/api/src/services/tunnel.ts:203-213 | after a poll the watcher is the polled one; the callback runs only when the poll emitted a list and a project is watched, and then on that list for that project |
| Coordinator.WatcherPolled | apps/api/src/services/tunnel.ts:203-213 | the watcher takes its poll step; when the poll emits nothing or no project is watched nothing else happens, otherwise the callback runs on the emitted list for the watched project |
| Coordinator.SetAgentConnection | apps/api/src/services/tunnel.ts:57-64 | linking the agent resends the active ports only when a project is focused |
| Coordinator.ClearAgentConnection | apps/api/src/services/tunnel.ts:66-73 | the link, all container-side connections and all port statuses are gone |
| Coordinator.SetFocusedProject | apps/api/src/services/tunnel.ts:75-110 | re-focusing the same project does nothing; any other focus tears everything down, then sends [] for no project or the filtered cached ports when non-empty, and watches the new project exactly when its container is running |
| Coordinator.FocusTwice | apps/api/src/services/tunnel.ts:77 | focusing a project a second time changes nothing and sends nothing |
| Coordinator.HandleTcpOpen | apps/api/src/services/tunnel.ts:266-303 | no focus or no container does nothing; no IP sends a close; a dial registers the connection and reports connected, and a failed dial sends a close |
| Coordinator.HandleAgentTcpClose | apps/api/src/services/tunnel.ts:312-318 | a registered connection is removed and destroyed with nothing else changed; an unknown id changes nothing |
| Coordinator.HandleAgentMessage | apps/api/src/services/tunnel.ts:226-264 | listening and error messages set that port's status; open goes to `HandleTcpOpen` and close to `HandleAgentTcpClose`; anything else is ignored |
| Coordinator.HandleAgentTcpData | apps/api/src/services/tunnel.ts:305-310 | bytes are written only to a registered connection |
| Coordinator.UpstreamData | apps/api/src/services/tunnel.ts:280-282 | while linked, container bytes go to the agent as the data frame of their connection id; unlinked, nothing is sent; the state never changes |
| Coordinator.UpstreamClosed | apps/api/src/services/tunnel.ts:284-292 | a closed container connection is forgotten, nothing else changes, and `tunnel:tcp:close` for its id goes to the agent exactly when linked |
| Coordinator.DisconnectPort | apps/api/src/services/tunnel.ts:339-349 | false and no change without a status; otherwise only that port leaves the active list and the statuses, and the rest is resent |
| Coordinator.OnContainerStopped | apps/api/src/services/tunnel.ts:351-357 | only for the focused project: the watch stops, ports and statuses clear, and [] is sent; focus, config, link and connections are kept |
| Coordinator.OnContainerStarted | apps/api/src/services/tunnel.ts:359-363 | the focused project with a running container gets a watch seeded with its cached ports passed through the current filter; in every other case nothing changes; nothing is sent |
| Coordinator.Shutdown | apps/api/src/services/tunnel.ts:365-372 | the watcher, the connections and the statuses are cleared; focus and link stay |
| Coordinator.StepValid | apps/api/src/services/tunnel.ts:57-372 | every handler keeps the invariant: the watch belongs to the focused project, statuses are keyed by port, and nothing is active without focus |
| Coordinator.RunValid | apps/api/src/services/tunnel.ts:57-372 | any run of events keeps the invariant |
| Coordinator.PollReportsToFocus | apps/api/src/services/tunnel.ts:204 | in a valid state a poll that reports always reports to the focused project |
| Coordinator.NothingSentWhileUnlinked | apps/api/src/services/tunnel.ts:216-217 | after the agent disconnects nothing is sent to it until it connects again |
| Coordinator.CloseAfterClearIsSilent | apps/api/src/services/tunnel.ts:66-73 | a socket destroyed on disconnect reports its close to nobody |
| TunnelWs.OnMessage | apps/api/src/ws/tunnel.ts:16-36 | text goes to the message handler verbatim, array buffers and buffers are decoded as frames, and any other data is ignored |
| TunnelWs.OnBinary | apps/api/src/ws/tunnel.ts:31-34 | short frames and frames for unknown connections have no effect |
| TunnelWs.OnClose | apps/api/src/ws/tunnel.ts:38-46 | close and error both unlink the agent and clear connections and statuses |
| TunnelWs.AgentFrameReachesUpstream | apps/api/src/ws/tunnel.ts:31-34 | a frame the agent encoded reaches the named container connection with its payload |
| TunnelWs.UnknownConnectionDropped | apps/api/src/ws/tunnel.ts:31-34 | a frame for an unregistered connection is dropped |
| Agent.SendBinary | apps/agent/src/index.ts:215-221 | a frame is sent only on an open socket and carries the id in 4 big-endian bytes, then the data |
| Agent.Forget | apps/agent/src/index.ts:405-411 | the ids leave the four per-connection maps and nothing else changes |
| Agent.CloseTunnels | apps/agent/src/index.ts:298-302 | the given ports' listeners close; other tunnels, the counter and the cache are untouched |
| Agent.Cleanup | apps/agent/src/index.ts:387-396 | the id leaves every per-connection map; tunnels, counter and cache are untouched |
| Agent.Accept | apps/agent/src/index.ts:331-343 | a new client gets the counter's id, starts unready with an empty buffer under its tunnel, and is announced |
| Agent.LocalData | apps/agent/src/index.ts:345-351 | data is framed out once ready, appended to the buffer before, and dropped for an untracked id |
| Agent.LocalClosed | apps/agent/src/index.ts:353-361 | a local close or error forgets the connection in every map; a close goes to the server exactly when the socket is open |
| Agent.TcpConnected | apps/agent/src/index.ts:428-438 | the connection becomes ready and its buffer is sent in order, then deleted |
| Agent.TcpClose | apps/agent/src/index.ts:440-446 | only a tracked connection is destroyed and cleaned up |
| Agent.BinaryFrame | apps/agent/src/index.ts:261-271 | a frame is written only when it is at least 4 bytes and names a tracked socket, and then with its payload |
| Agent.OpenOrReport | apps/agent/src/index.ts:305-316 | every desired port gets a tunnel; new ones start unbound and existing ones are kept |
| Agent.SyncTunnels | apps/agent/src/index.ts:294-324 | the tunnel set becomes exactly the desired set, keeping the listeners of ports still desired |
| Agent.Bound | apps/agent/src/index.ts:376-382 | a listener that binds records its port and reports it |
| Agent.BindFailed | apps/agent/src/index.ts:364-374 | address-in-use on the requested port retries on port 0; any other failure reports the error's own message and drops the tunnel |
| Agent.FocusId | apps/agent/src/index.ts:527 | the control server passes an empty id on as null: an absent or empty id is none, any other id is kept |
| Agent.UpdateCache | apps/agent/src/index.ts:237-245 | with a focused project a non-empty list replaces its cache entry and an empty list deletes it; unfocused, nothing changes |
| Agent.HandleControl | apps/agent/src/index.ts:225-259 | a port list syncs the tunnels with the sync's effects and updates the cache; connected and close go to their handlers; shutdown closes every tunnel and the socket; anything else is ignored |
| Agent.ProjectFocus | apps/agent/src/index.ts:275-290 | the focus is recorded with `""` read as none; an empty or uncached focus opens nothing; a non-empty cached list opens its tunnels, on focus and re-focus alike |
| AgentProps.ServerFrameReachesSocket | apps/agent/src/index.ts:261-270 | a frame from the server reaches the socket it names with the payload intact |
| AgentProps.UnknownSocketDropped | apps/agent/src/index.ts:267-270 | a frame for a socket the agent no longer holds is dropped |
| AgentProps.FlushPayloads | apps/agent/src/index.ts:431-436 | flushing sends each buffered chunk in its own frame, in buffer order |
| AgentProps.SentInOrder | apps/agent/src/index.ts:345-351 | over any run of a connection's events, the chunks sent then those still buffered equal the chunks buffered before then those received |
| AgentProps.NothingLost | apps/agent/src/index.ts:345-351 | once connected, the server got every chunk the client wrote, in order |
| AgentProps.StaysReady | apps/agent/src/index.ts:428-429 | once ready, a connection stays ready |
| AgentProps.ConnectedEmptiesBuffer | apps/agent/src/index.ts:437 | after the connected message nothing is left buffered |
| AgentProps.StepAnnounces | apps/agent/src/index.ts:332-343 | only an accepted client is announced, under the counter's current value |
| AgentProps.StepCounts | apps/agent/src/index.ts:332 | only an accepted client moves the counter on, by one |
| AgentProps.IdsIncrease | apps/agent/src/index.ts:73 | the announced connection ids are strictly increasing and lie between the counter's start and end values |
| AgentProps.AcceptFresh | apps/agent/src/index.ts:332-341 | a newly accepted client gets an id no tracked connection holds |
| AgentProps.CleanupForgets | apps/agent/src/index.ts:391-395 | cleanup removes the id from its tunnel's id set too |
| AgentProps.CleanupSparesOthers | apps/agent/src/index.ts:387-396 | cleanup leaves every other connection as it was |
| AgentProps.CloseTunnelForgets | apps/agent/src/index.ts:398-419 | closing a tunnel destroys and forgets exactly its connections and removes the tunnel |
| AgentProps.CloseTunnelIsolated | apps/agent/src/index.ts:402-414 | closing one tunnel leaves every connection of the other tunnels as it was |
| AgentProps.StepValid | apps/agent/src/index.ts:225-446 | every event keeps the bookkeeping consistent: ids already handed out, each in its own tunnel's set, buffers only for tracked ids |
| AgentProps.RunValid | apps/agent/src/index.ts:225-446 | any run of events keeps the bookkeeping consistent |
| AgentProps.SyncEmits | apps/agent/src/index.ts:305-316 | each desired port missing a tunnel starts a listener on its own number; a bound one is re-reported |
| AgentProps.SyncKeepsDesired | apps/agent/src/index.ts:298-302 | tunnels that stay desired keep every one of their connections |
| AgentProps.BindRetriesOnce | apps/agent/src/index.ts:364-374 | address-in-use moves the listener to port 0 once; a second failure reports and drops the tunnel |
| AgentProps.CachedPortsReopen | apps/agent/src/index.ts:237-245 | the ports last sent for a focused project reopen the same tunnels when it is focused again |
| AgentProps.EmptyListForgotten | apps/agent/src/index.ts:241-243 | an empty list forgets the project's cache entry, so re-focusing opens nothing |
| AgentProps.EmptyFocusOpensNothing | apps/agent/src/index.ts:527 | focusing the empty id is focusing nothing, even with ports cached under `""` |
| AgentProps.UnfocusedCacheUnchanged | apps/agent/src/index.ts:238 | with no project focused, port lists leave the cache alone |
| Git.Classify | apps/api/src/services/git.ts:23-31 | a file is staged iff X is neither space nor `?`, modified iff Y is `M` or `D`, and untracked iff both are `?`; the path starts at index 3 |
| Git.ClassifyLine | apps/api/src/services/git.ts:24-30 | one line's file lands in exactly the lists its two columns call for |
| Git.AheadBehind | apps/api/src/services/git.ts:33-43 | no upstream gives zero counts |
| Git.AheadBehindOfCounts | apps/api/src/services/git.ts:36-40 | the two tab-separated counts that rev-list prints read back as ahead and behind |
| Git.GitStatus | apps/api/src/services/git.ts:8-46 | a failed status run fails the call; otherwise the branch defaults to `unknown` and the lists come from the non-empty lines |
| Git.CombinedDiff | apps/api/src/services/git.ts:51-56 | the non-empty unstaged and staged diffs, joined by a newline |
| Git.KeptRows | apps/api/src/services/git.ts:71-74 | the numstat loop keeps only lines whose path is non-empty and not seen before |
| Git.StatFiles | apps/api/src/services/git.ts:70-81 | one entry per kept line; every entry has a non-empty path not seen before and status `modified` |
| Git.StatFilesDistinct | apps/api/src/services/git.ts:71-78 | no two entries share a path |
| Git.StatCovers | apps/api/src/services/git.ts:71-74 | every path some numstat line carries is in the result |
| Git.KeptFirst | apps/api/src/services/git.ts:73-74 | each kept line is the first line with its path |
| Git.FirstWins | apps/api/src/services/git.ts:73-80 | each entry comes from the first line with its path |
| Git.GitDiff | apps/api/src/services/git.ts:48-84 | the combined diff, and the file list the numstat loop builds from both runs: unique non-empty paths, all marked modified |
| Git.DiffFilesFromNumstat | apps/api/src/services/git.ts:63-81 | every path a numstat row prints is in the diff's file list, and each entry is read from the first row carrying its path |
| Git.EntryOfBlock | apps/api/src/services/git.ts:99-109 | a block is an entry exactly when its trimmed text has at least five lines |
| Git.EntryOfPrintedBlock | apps/api/src/services/git.ts:100-108 | the block printed for a commit reads back as that commit, fields in format order |
| Git.LogRoundTrip | apps/api/src/services/git.ts:90-111 | parsing the log printed for commits whose fields have no newline or marker gives the commits back, in order |
| DockerEvents.MapEventToStatus | apps/api/src/docker/events.ts:72-88 | start and unpause give running, stop and die exited, destroy not_created, pause paused, and anything else nothing |
| DockerEvents.SubscribedActionsMapped | apps/api/src/docker/events.ts:15 | the subscribed actions are exactly those with a status |
| DockerEvents.ProjectIdOf | apps/api/src/docker/events.ts:43-44 | the project id is the non-empty project label, when the actor has attributes |
| DockerEvents.ActorId | apps/api/src/docker/events.ts:68 | the actor's id when non-empty, else `""` |
| DockerEvents.HandleDockerEvent | apps/api/src/docker/events.ts:42-70 | without a project id or a mapped status nothing happens; otherwise only that project's row changes and one event carrying status and actor id is broadcast |
| DockerEvents.HandledEvent | apps/api/src/docker/events.ts:51-61 | a handled event sets the status and time, and clears the container id only on destroy |
| DockerEvents.OnlyDestroyClears | apps/api/src/docker/events.ts:56-61 | a container id disappears only through a destroy event for that project |
| DockerEvents.LastEventWins | apps/api/src/docker/events.ts:42-70 | after a stream of events a project's status is the one its last status-changing event mapped to |
| Projects.RowToProject | apps/api/src/services/project.ts:100-112 | the project copies the row's columns, with a missing `github_repo` read as null |
| Projects.RowToProjectRoundTrip | apps/api/src/services/project.ts:100-112 | a project written as a row reads back as itself; a row reads back as itself once `github_repo` is present |
| Projects.GetProject | apps/api/src/services/project.ts:12-16 | a project exactly for an existing id, read from its row |
| Projects.CreateProject | apps/api/src/services/project.ts:18-41 | a missing directory, then a taken name, fail with a validation error; otherwise exactly one new row with the defaults |
| Projects.CreateFromGitHub | apps/api/src/services/project.ts:43-64 | a taken name fails before the clone; a failed clone fails; otherwise one new row with the clone directory and the repository |
| Projects.TakenNameBeforeClone | apps/api/src/services/project.ts:47-55 | with a taken name the outcome does not depend on the clone |
| Projects.UpdateProject | apps/api/src/services/project.ts:66-92 | an unknown id is NotFound; a name held by another row fails; otherwise only that row changes, and only in the given fields |
| Projects.KeepOwnName | apps/api/src/services/project.ts:71-77 | keeping a project's own name is allowed |
| Projects.RenameClash | apps/api/src/services/project.ts:71-77 | renaming to another project's name fails |
| Projects.DeleteProject | apps/api/src/services/project.ts:94-98 | an unknown id is NotFound; otherwise exactly that row is removed |
| Projects.CreateThenDelete | apps/api/src/services/project.ts:18-98 | deleting a project that was just created gives the table back |
| Projects.UpdateKeepsNamesUnique | apps/api/src/services/project.ts:71-82 | a successful update keeps project names unique |
| Projects.CreateKeepsNamesUnique | apps/api/src/services/project.ts:26-38 | a successful create keeps project names unique |
| ProjectStore.FetchProjects | apps/web/src/stores/projectStore.ts:26-34 | success replaces the list and clears the error; failure keeps the list and records the message; loading ends either way |
| ProjectStore.CreateProject | apps/web/src/stores/projectStore.ts:36-46 | the new project goes in front and the rest keep their order; a failure changes nothing |
| ProjectStore.Without | apps/web/src/stores/projectStore.ts:48-51 | an order-preserving subsequence holding exactly the projects with a different id |
| ProjectStore.DeleteProject | apps/web/src/stores/projectStore.ts:48-51 | after a successful delete the list is the old one without that id |
| ProjectStore.ContainerAction | apps/web/src/stores/projectStore.ts:53-72 | the returned project replaces the entries with the id; length and order are kept |
| ProjectStore.UpdateProjectStatus | apps/web/src/stores/projectStore.ts:74-80 | only matching entries change, and only in their container status |
| ProjectStore.UpdateProject | apps/web/src/stores/projectStore.ts:82-86 | entries with the project's id are replaced and the ids keep their order |
| ProjectStore.UpdateNeverInserts | apps/web/src/stores/projectStore.ts:82-86 | updating a project that is not listed changes nothing |
| ProjectStore.LastStatusWins | apps/web/src/stores/projectStore.ts:74-80 | two status updates leave the second status |
| ProjectStore.CreateThenDelete | apps/web/src/stores/projectStore.ts:36-51 | deleting a just-created, previously unlisted project gives the list back |
| ProjectStore.CreateKeepsIdsUnique | apps/web/src/stores/projectStore.ts:36-40 | creating keeps ids unique exactly when the new id was not listed |
| ProjectStore.DeleteKeepsIdsUnique | apps/web/src/stores/projectStore.ts:48-51 | deleting keeps ids unique |
| Containers.Sanitize | apps/api/src/docker/containers.ts:38 | each character is lower-cased and anything outside `[a-z0-9-]` becomes `-` |
| Containers.ContainerName | apps/api/src/docker/containers.ts:38 | the name is `dockpit-` followed, character by character, by each project-name character lower-cased, or `-` when it is outside `[a-z0-9-]` |
| Containers.ContainerNameOfCleanName | apps/api/src/docker/containers.ts:38 | a name already made of `[a-z0-9-]` is kept as it is |
| Containers.ContainerNameIgnoresCase | apps/api/src/docker/containers.ts:38 | names differing only in letter case share a container name |
| Containers.EventsOfCreatedContainer | apps/api/src/docker/containers.ts:39-43 | an event about a container created for a project names that project |
| Containers.CreateAndStart | apps/api/src/docker/containers.ts:36-64 | the project row records the container as running; the container uses the `dockpit-devenv:latest` image, the `dockpit-net` network, the directory bound read-write at `/workspace` and the three project labels |
| Containers.StopContainer | apps/api/src/docker/containers.ts:67-95 | without a container id nothing happens; otherwise stop and remove are attempted and the row ends with no container, exited |
| Containers.StopIdempotent | apps/api/src/docker/containers.ts:75 | stopping twice is stopping once |
| Containers.RestartContainer | apps/api/src/docker/containers.ts:97-109 | an unknown project fails; otherwise the old container gets exactly the calls a stop makes, the new one is created from the project's name and directory, and the row ends running the new container with its other fields kept |
| Containers.RestartAfterStop | apps/api/src/docker/containers.ts:97-109 | restarting an already stopped project gives the same row and makes no calls on an old container |
| Containers.StopAfterRestart | apps/api/src/docker/containers.ts:67-109 | after a restart, the next stop stops and removes the new container |
| Containers.GetContainerInfo | apps/api/src/docker/containers.ts:111-127 | a failed inspect gives null; the address is null when the network entry or its address is missing; the start time is the inspected one, or null when it is empty |
| Containers.GetContainerLogs | apps/api/src/docker/containers.ts:144-147 | exactly the non-empty pieces of the text split on newlines, in their order |
| Containers.LogLinesRoundTrip | apps/api/src/docker/containers.ts:144-147 | non-empty lines joined by newlines, with or without a final newline, split back into themselves |
| PortDetector.ScanPatterns | apps/api/src/docker/port-detector.ts:33-39 | patterns are tried in order and the first whose first match is in 1..65535 decides |
| PortDetector.OutOfRangeFallsThrough | apps/api/src/docker/port-detector.ts:35-38 | a match outside 1..65535 moves on to the next pattern |
| PortDetector.DetectFromLogs | apps/api/src/docker/port-detector.ts:20-45 | a failed log read gives null; otherwise the pattern scan decides, and a found port is in 1..65535 |
| PortDetector.LogsReportFirstHit | apps/api/src/docker/port-detector.ts:32-40 | the log scan reports the number of the first pattern that hits |
| PortDetector.FirstSsPort | apps/api/src/docker/port-detector.ts:62-69 | the first line whose port is in 3000..65535 decides; none gives null |
| PortDetector.SsFindsListener | apps/api/src/docker/port-detector.ts:63-67 | a listening line is found after lines that were skipped |
| PortDetector.DetectFromSs | apps/api/src/docker/port-detector.ts:47-75 | a failed exec gives null; otherwise null exactly when no line is accepted, else the first accepted line's port, in 3000..65535 |
| PortDetector.SsOutputReportsListener | apps/api/src/docker/port-detector.ts:59-70 | `ss` output with a listener after rejected lines reports that listener's port |
| PortDetector.DetectPort | apps/api/src/docker/port-detector.ts:11-18 | the log scan's port when there is one, else the `ss` fallback |
| PreviewProxy.TargetPort | apps/api/src/services/preview-proxy.ts:21-25 | the configured port when set, else the detected one, else none |
| PreviewProxy.GetPreviewPort | apps/api/src/services/preview-proxy.ts:14-40 | null exactly without a running container, an address or a port; an identical target is reused with no effect; otherwise the new port is returned, the old proxy stops and a new one starts; other projects are untouched |
| PreviewProxy.ReplacedProxyStopped | apps/api/src/services/preview-proxy.ts:33-39 | a proxy leaving or replaced in the registry is stopped before the new one starts |
| PreviewProxy.SecondCallReuses | apps/api/src/services/preview-proxy.ts:27-31 | asking again with the same answers reuses the running proxy |
| PreviewProxy.StopPreviewProxy | apps/api/src/services/preview-proxy.ts:128-134 | only that project's proxy is stopped and removed |
| PreviewProxy.StopAll | apps/api/src/services/preview-proxy.ts:136-141 | every proxy is stopped and the registry is emptied |
| Proxy.UpstreamPath | apps/api/src/routes/proxy.ts:34 | a non-empty path; a path without the base path is forwarded as it is |
| Proxy.UpstreamPathOfPrefixed | apps/api/src/routes/proxy.ts:33-34 | a request under the base path is forwarded without it, or as `/` when nothing remains |
| Proxy.Query | apps/api/src/routes/proxy.ts:35-37 | empty without `?`; otherwise `?` followed by text containing no `?` |
| Proxy.QueryBetweenMarks | apps/api/src/routes/proxy.ts:35-37 | the query is the text between the first and second `?` |
| Proxy.Strip | apps/api/src/routes/proxy.ts:64-69 | exactly the named headers are removed and the others keep their values |
| Proxy.RewriteOnlyInserts | apps/api/src/routes/proxy.ts:174 | with an empty base path the rewrite changes nothing |
| Proxy.RewriteAttr | apps/api/src/routes/proxy.ts:174 | a `src`, `href` or `action` value starting with `/` gets the base path in front |
| Proxy.ProtocolRelativeRewritten | apps/api/src/routes/proxy.ts:174 | a protocol-relative `//host` value is rewritten too |
| Proxy.InjectScript | apps/api/src/routes/proxy.ts:251-258 | the script goes after the first `<head>`, else after the first `<head...>` tag, else in front; the rest is unchanged |
| Proxy.UnclosedHeadGetsNoScript | apps/api/src/routes/proxy.ts:254-255 | a `<head` with no closing `>` after it gets no script at all |
| Proxy.RewriteTurbopack | apps/api/src/routes/proxy.ts:86-89 | the first chunk base path declaration gets the proxied base path; without one the text is unchanged |
| Proxy.FirstChunkMatchFrom | apps/api/src/routes/proxy.ts:86-89 | the non-global pattern replaces the leftmost match: a match with none before it is the one found |
| Proxy.FirstChunkMatchNone | apps/api/src/routes/proxy.ts:86-89 | when nothing is found, no position of the text matches the pattern |
| Proxy.TurbopackDeclarationRewritten | apps/api/src/routes/proxy.ts:86-89 | the runtime's declaration is rewritten whatever spacing surrounds `=` |
| Proxy.Resolve | apps/api/src/routes/proxy.ts:14-30 | a target exists exactly when the container runs, has an address and a port; otherwise the reply is 503 |
| Proxy.ProxyRoute | apps/api/src/routes/proxy.ts:6-103 | 404 for an unknown project, then the 503 of the failed lookup; the upstream request without stripped headers; 502 on fetch failure; HTML rewritten, a Turbopack script rewritten, anything else streamed, with the listed headers removed |
| Proxy.ProjectFromReferer | apps/api/src/routes/proxy.ts:116-121 | the id is a non-empty segment without `/`, and none exactly when no `/preview/` segment occurs |
| Proxy.RefererNamesProject | apps/api/src/routes/proxy.ts:116-121 | a referer into a preview names the project of its first `/preview/` segment |
| Proxy.NextCatchAll | apps/api/src/routes/proxy.ts:109-170 | 400 without a referer or a preview segment, then the 503 of the failed lookup; otherwise the request goes to the container address, port and the unchanged path and query; 502 on fetch failure, else the status and body streamed with only the transfer headers removed |
| Terminal.CreateTerminalSession | apps/api/src/services/terminal.ts:88-153 | a session is reused exactly when alive and disconnected under 60000 ms ago, with its disconnect time cleared; otherwise a new live session replaces it, or a failed start leaves the registry as it was |
| Terminal.GetTerminalSession | apps/api/src/services/terminal.ts:155-157 | the registered session, if any |
| Terminal.MarkDisconnected | apps/api/src/services/terminal.ts:159-164 | only a known session gets the disconnect time, and nothing else changes |
| Terminal.DestroySession | apps/api/src/services/terminal.ts:166-177 | the session is marked dead and removed; an unknown id is a no-op |
| Terminal.StreamEnded | apps/api/src/services/terminal.ts:138-150 | the end of a stream removes its session id |
| Terminal.DestroyWhere | apps/api/src/services/terminal.ts:179-198 | the loop destroys exactly the sessions the predicate picks and keeps the rest unchanged |
| Terminal.DestroyProjectSessions | apps/api/src/services/terminal.ts:179-185 | exactly the sessions of the project are destroyed |
| Terminal.Cleanup | apps/api/src/services/terminal.ts:188-198 | exactly the sessions disconnected more than 60000 ms ago are destroyed |
| Terminal.ReconnectWithinWindow | apps/api/src/services/terminal.ts:94-101 | reconnecting within the window gets the same session back without starting an exec |
| Terminal.ExpiredSessionReplaced | apps/api/src/services/terminal.ts:94-128 | reconnecting after the window starts a new session |
| Terminal.WindowBoundary | apps/api/src/services/terminal.ts:97 | at exactly 60000 ms a session is neither reused nor cleaned up |
| Terminal.DestroyIdempotent | apps/api/src/services/terminal.ts:166-177 | destroying twice is destroying once |
| Terminal.OperationsKeepAllAlive | apps/api/src/services/terminal.ts:88-177 | every registered session stays alive through every operation |
| Terminal.LateEndRemovesReplacement | apps/api/src/services/terminal.ts:138-150 | the end of an old stream removes a session that replaced it under the same id |
| Terminal.OnData | apps/api/src/services/terminal.ts:55-82 | input waits until `\r\n\r\n` arrives; then it is rejected unless it starts `HTTP/1.1 101`, and otherwise the bytes after the terminator are delivered |
| Terminal.StartExecDeliversBody | apps/api/src/services/terminal.ts:55-82 | however the response is cut into chunks, the upgrade succeeds and delivers exactly the bytes after the header |
| Terminal.SingleChunkHeaderAgrees | apps/api/src/services/terminal.ts:74-79 | when the terminator arrives within the first chunk, the code as written delivers the same bytes |
| Terminal.SplitHeaderLosesBytes | apps/api/src/services/terminal.ts:74-79 | when the terminator is split across chunks, the code as written delivers nothing and the corrected code delivers the tail |
| Terminal.HeaderSplitLosesBytes | apps/api/src/services/terminal.ts:74-79 | the concrete chunks `HTTP/1.1 101 OK\r\n` and `\r\nhi` lose `hi` as written and deliver it when corrected |
| Github.GetGhAuthStatus | apps/api/src/services/github.ts:18-31 | a non-zero exit is unauthenticated with no username; otherwise the first matching pattern names the account |
| Github.StatusReadFromStderr | apps/api/src/services/github.ts:23 | with empty standard output the account is read from standard error |
| Github.Limit | apps/api/src/services/github.ts:34 | the limit defaults to 30 |
| Github.PerPage | apps/api/src/services/github.ts:35 | the page size is min(limit + 1, 100) |
| Github.PageExceedsLimit | apps/api/src/services/github.ts:35 | below 100 the page asks for one more than the limit; from 99 on it asks for 100 |
| Github.FilterByQuery | apps/api/src/services/github.ts:47-54 | no query keeps everything; otherwise a subsequence of the repositories matching the query |
| Github.QueryIgnoresCase | apps/api/src/services/github.ts:48-53 | queries that differ only in letter case filter alike |
| Github.NameMatchFound | apps/api/src/services/github.ts:49-53 | a repository whose name contains the query is kept |
| Github.ToRepo | apps/api/src/services/github.ts:59-68 | missing fields default to owner `""`, description null, not private, branch `main`, language null and url `""` |
| Github.MissingFieldsDefault | apps/api/src/services/github.ts:59-68 | a bare repository reads with all the defaults |
| Github.ListGhRepos | apps/api/src/services/github.ts:33-71 | a failed `gh` run fails with its standard error; otherwise at most `limit` filtered repositories in order |
| Github.HasMoreIffTruncated | apps/api/src/services/github.ts:56-57 | `hasMore` holds exactly when the filtered list was longer than the limit, and the result is its first `limit` items |
| Github.ExpandHome | apps/api/src/services/github.ts:73-75 | only paths starting `~/` are rewritten, onto the home directory |
| Github.ExpandHomeIdempotent | apps/api/src/services/github.ts:73-75 | expanding an expanded path changes nothing |
| Github.CloneGhRepo | apps/api/src/services/github.ts:77-92 | an existing target is returned without cloning; a failed clone fails; otherwise the target is returned |
| Github.CloneTargetExpandsHome | apps/api/src/services/github.ts:79 | a `~/` target is placed under the home directory |
| Github.SecondCloneSkipped | apps/api/src/services/github.ts:81-84 | once the target exists, cloning again runs nothing and returns the same directory |
| Decimal.NatToString | apps/api/src/docker/port-watcher.ts:65 | the numeral is non-empty, has no leading zero and has the number's value |
| Decimal.ParseIntOfNatToString | apps/api/src/services/git.ts:39-40 | `parseInt` reads a printed number back |
| Text.SplitJoin | apps/api/src/docker/containers.ts:144-147 | splitting a join on a separator character the parts do not contain gives the parts back |

## Left out

- Sockets, WebSockets, timers and the `setInterval` polling loops are not modelled. Each delivered event is a step of its own, and outgoing messages are effects in a list.
- Docker, `ss`, `git`, `gh`, SQLite, the file system and `fetch` are not modelled. Their answers are parameters, with `None` or `Err` where the source catches a failure.
- `JSON.parse` and `JSON.stringify` are left out. Control messages are a datatype, and `TunnelWs.OnMessage` takes the decoding function as a parameter.
- The regular expressions in `PORT_PATTERNS`, the `gh auth status` account patterns and the `<head[^>]*>` tag are opaque `Matcher` functions. `\s`, `\w` and the other patterns the parsers rely on are written out.
- `Utf8.Decode`: malformed input is replaced one U+FFFD per maximal subpart, as the WHATWG decoder does, but no contract states how malformed input decodes. Only the decoding of well-formed input is claimed.
- Lower-casing covers ASCII letters only. `Containers.Sanitize` and `Github.FilterByQuery` do not model Unicode case mapping.
- `path.join` and `resolve` normalisation is not modelled. `Github.ExpandHome` and `Github.CloneTarget` concatenate with `/`.
- `Github.Limit`: non-integer limits are not modelled.
- `Github.GetGhAuthStatus` and `Github.ListGhRepos`: the process output is taken as already trimmed, as the `exec` helper returns it.
- `detectGitHubRemote` (apps/api/src/services/github.ts:94-103) is left out. It is two opaque regular expressions over one command's output.
- `listProjects` ordering by creation time is left out. The table is a map.
- The `terminal_sessions` database writes and the text of the exec HTTP request are left out. Neither is read back by the modelled code.
- The patch script injected into HTML is an opaque string parameter of `Proxy.RewriteHtml`.
- Rewriting the `referer` request header through the WHATWG URL parser (apps/api/src/routes/proxy.ts:45-52) is not modelled. The header is forwarded as received.
- Replacement strings: the `$1`, `$2` and `$&` patterns the rewrites use are modelled. Other `$` forms are not: the base path and the patch script are inserted literally, where the source would expand a `$` pattern inside them. Project ids come from `crypto.randomUUID()` (apps/api/src/services/project.ts:34) and hold no `$`.
- `PreviewProxy.StopAll`: the stop effects are a set, because the model's registry does not keep insertion order.
- The proxy servers' own request forwarding (apps/api/src/services/preview-proxy.ts:42-121) is left out, because it is socket glue.
- The agent's browser status broadcast, heartbeat timer and reconnect loop are left out (apps/agent/src/index.ts:111-207, 476-538). A heartbeat expiry is an event that closes every tunnel.
- `Agent.HandleControl`: `agent:shutdown` is modelled as closing every tunnel and the server socket (apps/agent/src/index.ts:450-469). The `process.exit(0)` that follows is not, so the model still accepts events after a shutdown, where the process would have ended.
- `Agent.BindFailed`: a container port of 0 that fails with address-in-use keeps retrying on port 0. The model takes one step per failure and does not claim that the retries end.
- `Decimal.NumberOf`: only optional white space around decimal digits is read as a number. JavaScript's `Number` also reads `0x0BB8`, `+3000`, `3e3` and `3000.0` as 3000 (apps/api/src/services/tunnel.ts:164-182), so `SimpleYaml.Coerce` keeps those as strings and such ports are missing from the tunnel allow-list.
- `SimpleYaml.Apply`: the `!result[section][key]` guard (apps/api/src/services/tunnel.ts:168) sees only the section's own keys. In JavaScript an inherited name such as `constructor` or `toString` is truthy, so the source skips those `key: value` lines; the model sets them.
- `Containers.Sanitize`: characters are Unicode scalar values. The source's regular expression has no `u` flag and works on UTF-16 code units (apps/api/src/docker/containers.ts:38), so a character outside the Basic Multilingual Plane becomes `--` there and `-` here.
- `Agent.SendBinary`: for a connection id of 2^32 or more the source's `writeUInt32BE` throws a `RangeError` inside the socket's `data` handler (apps/agent/src/index.ts:217-218), which nothing catches. The model sends nothing and carries on. Ids come from a counter starting at 1, so 2^32 connections would have to be accepted first.
- `Coordinator.UpstreamData`: for a connection id of 2^32 or more `writeUInt32BE` throws a `RangeError` before the `try` of `sendTcpData` (apps/api/src/services/tunnel.ts:320-323), called from the container socket's `data` handler (apps/api/src/services/tunnel.ts:280-282), and nothing catches it. The model sends nothing and carries on. The ids are the agent's counter values, which stay below 2^32 unless 2^32 connections are accepted.
- Async interleavings are left out, such as a dial completing after a later message. Each handler runs to completion.

## Findings

| source | as written | input that shows it | evidently intended | confidence | as-written member | corrected member |
|---|---|---|---|---|---|---|
| apps/api/src/services/terminal.ts:74-79 | after the headers, `data.slice(headerBytes)` cuts the current chunk at an offset counted over the whole accumulated header buffer | the exec socket delivers `HTTP/1.1 101 OK\r\n` and then `\r\nhi`: the second chunk is shorter than the header, so `hi` is never re-emitted | the bytes after `\r\n\r\n` are delivered whatever the chunking, i.e. the buffer is sliced after the terminator | not executed | Terminal.HeaderSplitLosesBytes | Terminal.StartExecDeliversBody |

=== FILE: agent.dfy ===
/**
 * The host agent: one local listener per container port the server asks
 * for, one local socket per accepted client, data buffered until the server
 * reports the container side connected, and a per-project cache of the last
 * port list so tunnels can open before the server answers. Every handler is a
 * pure step returning the next state and the effects it caused, in order.
 */
module Agent {
  import opened Common
  import opened Frames
  import opened TunnelProtocol

  /** A local listener: the port it was asked to bind and, once listening, the port it got. */
  datatype Listener = Listener(localPort: nat, bound: Option<nat>)

  datatype State = State(
    open: bool,                          // ws?.readyState === WebSocket.OPEN
    nextId: nat,                         // nextConnectionId
    tunnels: map<nat, Listener>,         // container port -> listener
    tunnelConns: map<nat, set<nat>>,     // container port -> its connection ids
    conns: set<nat>,                     // the ids of `connections`
    pending: map<nat, seq<seq<byte>>>,   // pendingData
    ready: map<nat, bool>,               // connectionReady
    connPort: map<nat, nat>,             // connectionPort
    cache: map<string, seq<nat>>,        // the per-project port cache
    currentProject: Option<string>       // currentProjectId
  )

  datatype Effect =
      /** A frame on the server socket. */
    | ToServer(frame: Frame)
      /** `startListener(port, localPort)`: a new listener binding 127.0.0.1:localPort. */
    | Listen(port: nat, localPort: nat)
      /** `server.close()` on these ports' listeners. */
    | CloseListeners(ports: set<nat>)
      /** `socket.destroy()` on these local sockets; each later reports its close. */
    | DestroyLocal(ids: set<nat>)
      /** `socket.write(payload)` on a local socket. */
    | WriteLocal(id: nat, bytes: seq<byte>)

  datatype Outcome = Outcome(state: State, effects: seq<Effect>)

  /** The state after `loadCache` and before the server socket opens. */
  function Initial(cache: map<string, seq<nat>>): (s: State)
    ensures s.nextId == 1 && s.tunnels == map[] && s.conns == {}
  {
    State(false, 1, map[], map[], {}, map[], map[], map[], cache, None)
  }

  /** `sendJson`: only on an open socket. */
  function SendJson(s: State, msg: ControlMessage): (r: seq<Effect>)
    ensures s.open ==> r == [ToServer(Text(msg))]
    ensures !s.open ==> r == []
  {
    if s.open then [ToServer(Text(msg))] else []
  }

  /** `sendBinary`: the frame is the id in four big-endian bytes, then the data. */
  function SendBinary(s: State, id: nat, data: seq<byte>): (r: seq<Effect>)
    ensures |r| <= 1
    ensures r != [] <==> s.open && id < U32_LIMIT
    ensures r != [] ==> r == [ToServer(Binary(EncodeDataFrame(id, data).value))]
  {
    if !s.open then []
    else match EncodeDataFrame(id, data)
      case None => []
      case Some(frame) => [ToServer(Binary(frame))]
  }

  // ---------------------------------------------------------------------
  // Connections

  /** The connection ids of the tunnels for `ports`. */
  function IdsOf(s: State, ports: set<nat>): (ids: set<nat>)
    ensures forall id :: id in ids <==> exists p :: p in ports && p in s.tunnelConns && id in s.tunnelConns[p]
  {
    set p, id | p in ports && p in s.tunnelConns && id in s.tunnelConns[p] :: id
  }

  /** Drops the ids from the four per-connection maps. */
  function Forget(s: State, ids: set<nat>): (r: State)
    ensures r == s.(conns := r.conns, pending := r.pending, ready := r.ready, connPort := r.connPort)
    ensures r.conns == s.conns - ids
    ensures r.pending.Keys == s.pending.Keys - ids && r.ready.Keys == s.ready.Keys - ids
    ensures r.connPort.Keys == s.connPort.Keys - ids
    ensures forall id :: id in r.pending ==> r.pending[id] == s.pending[id]
    ensures forall id :: id in r.ready ==> r.ready[id] == s.ready[id]
    ensures forall id :: id in r.connPort ==> r.connPort[id] == s.connPort[id]
  {
    s.(conns := s.conns - ids,
       pending := map id | id in s.pending && id !in ids :: s.pending[id],
       ready := map id | id in s.ready && id !in ids :: s.ready[id],
       connPort := map id | id in s.connPort && id !in ids :: s.connPort[id])
  }

  /**
   * `closeTunnel` for every port in `ports` (the loop in `syncTunnels` and
   * `closeAllTunnels`): the listeners close and only the connections that
   * belong to those tunnels are destroyed and forgotten.
   */
  function CloseTunnels(s: State, ports: set<nat>): (r: Outcome)
    ensures r.state.tunnels.Keys == s.tunnels.Keys - ports
    ensures forall p :: p in r.state.tunnels ==> r.state.tunnels[p] == s.tunnels[p]
    ensures r.state.nextId == s.nextId && r.state.open == s.open
    ensures r.state.cache == s.cache && r.state.currentProject == s.currentProject
    ensures forall i :: 0 <= i < |r.effects| ==> r.effects[i].DestroyLocal? || r.effects[i].CloseListeners?
  {
    var closing := ports * s.tunnels.Keys;
    var ids := IdsOf(s, closing);
    var forgotten := Forget(s, ids);
    var r := forgotten.(tunnels := map p | p in s.tunnels && p !in closing :: s.tunnels[p],
                        tunnelConns := map p | p in s.tunnelConns && p !in closing :: s.tunnelConns[p]);
    Outcome(r, (if ids * s.conns == {} then [] else [DestroyLocal(ids * s.conns)])
               + (if closing == {} then [] else [CloseListeners(closing)]))
  }

  /** `closeTunnel(port)`. */
  function CloseTunnel(s: State, port: nat): Outcome {
    CloseTunnels(s, {port})
  }

  /** `cleanupConnection`. */
  function Cleanup(s: State, id: nat): (r: State)
    ensures id !in r.conns && id !in r.pending && id !in r.ready && id !in r.connPort
    ensures r.tunnels == s.tunnels && r.nextId == s.nextId && r.cache == s.cache
  {
    var f := Forget(s, {id});
    if id in s.connPort && s.connPort[id] in s.tunnelConns then
      var p := s.connPort[id];
      f.(tunnelConns := s.tunnelConns[p := s.tunnelConns[p] - {id}])
    else f
  }

  /** A client connects to the listener of `port`: it gets the next id and is announced. */
  function Accept(s: State, port: nat): (r: Outcome)
    ensures r.state.nextId == s.nextId + 1
    ensures s.nextId in r.state.conns
    ensures s.nextId in r.state.ready && r.state.ready[s.nextId] == false
    ensures s.nextId in r.state.pending && r.state.pending[s.nextId] == []
    ensures s.nextId in r.state.connPort && r.state.connPort[s.nextId] == port
    ensures port in r.state.tunnelConns && s.nextId in r.state.tunnelConns[port]
    ensures r.state.tunnels == s.tunnels && r.state.open == s.open
    ensures r.effects == SendJson(s, TcpOpenMsg(s.nextId, port))
  {
    var id := s.nextId;
    var existing := if port in s.tunnelConns then s.tunnelConns[port] else {};
    var s1 := s.(nextId := id + 1, conns := s.conns + {id}, ready := s.ready[id := false],
                 connPort := s.connPort[id := port], pending := s.pending[id := []],
                 tunnelConns := s.tunnelConns[port := existing + {id}]);
    Outcome(s1, SendJson(s, TcpOpenMsg(id, port)))
  }

  /** A local socket's `data` event: forwarded once ready, buffered before. */
  function LocalData(s: State, id: nat, data: seq<byte>): (r: Outcome)
    ensures id in s.ready && s.ready[id] ==> r == Outcome(s, SendBinary(s, id, data))
    ensures !(id in s.ready && s.ready[id]) && id in s.pending ==>
      r == Outcome(s.(pending := s.pending[id := s.pending[id] + [data]]), [])
    ensures !(id in s.ready && s.ready[id]) && id !in s.pending ==> r == Outcome(s, [])
  {
    if id in s.ready && s.ready[id] then Outcome(s, SendBinary(s, id, data))
    else if id in s.pending then Outcome(s.(pending := s.pending[id := s.pending[id] + [data]]), [])
    else Outcome(s, [])
  }

  /** A local socket's `close` or `error` event: cleanup, then a close for the server. */
  function LocalClosed(s: State, id: nat): (r: Outcome)
    ensures r.state == Cleanup(s, id)
    ensures id !in r.state.conns && id !in r.state.pending && id !in r.state.ready && id !in r.state.connPort
    ensures s.open ==> r.effects == [ToServer(Text(TcpCloseMsg(id)))]
    ensures !s.open ==> r.effects == []
    ensures r.effects == SendJson(s, TcpCloseMsg(id))
  {
    Outcome(Cleanup(s, id), SendJson(s, TcpCloseMsg(id)))
  }

  /** The frames `sendBinary` emits for the buffered chunks, in order. */
  function Flush(s: State, id: nat, chunks: seq<seq<byte>>): (r: seq<Effect>)
    ensures |r| <= |chunks|
    ensures forall i :: 0 <= i < |r| ==> r[i].ToServer? && r[i].frame.Binary?
    decreases |chunks|
  {
    if |chunks| == 0 then [] else SendBinary(s, id, chunks[0]) + Flush(s, id, chunks[1..])
  }

  /** `handleTcpConnected`: the buffer goes out in order and is dropped. */
  function TcpConnected(s: State, id: nat): (r: Outcome)
    ensures r.state == s.(ready := s.ready[id := true], pending := r.state.pending)
    ensures r.state.pending.Keys == s.pending.Keys - {id}
    ensures forall j :: j in r.state.pending ==> r.state.pending[j] == s.pending[j]
    ensures id in s.pending ==> r.effects == Flush(s, id, s.pending[id])
    ensures id !in s.pending ==> r.effects == []
  {
    var flushed := if id in s.pending then Flush(s, id, s.pending[id]) else [];
    Outcome(s.(ready := s.ready[id := true], pending := s.pending - {id}), flushed)
  }

  /** `handleTcpClose`: only a tracked connection is destroyed and cleaned up. */
  function TcpClose(s: State, id: nat): (r: Outcome)
    ensures id !in s.conns ==> r == Outcome(s, [])
    ensures id in s.conns ==> r == Outcome(Cleanup(s, id), [DestroyLocal({id})])
  {
    if id in s.conns then Outcome(Cleanup(s, id), [DestroyLocal({id})]) else Outcome(s, [])
  }

  /** `handleBinaryFrame`: short frames and frames for unknown ids are dropped. */
  function BinaryFrame(s: State, frame: seq<byte>): (r: Outcome)
    ensures r.state == s
    ensures r.effects != [] <==> |frame| >= 4 && ReadU32BE(frame) in s.conns
    ensures r.effects != [] ==> r.effects == [WriteLocal(ReadU32BE(frame), frame[4..])]
  {
    match DecodeDataFrame(frame)
    case None => Outcome(s, [])
    case Some((id, payload)) => if id in s.conns then Outcome(s, [WriteLocal(id, payload)]) else Outcome(s, [])
  }

  // ---------------------------------------------------------------------
  // Tunnels

  /** The second loop of `syncTunnels`: open what is missing, re-report what is bound. */
  function OpenOrReport(s: State, ports: seq<nat>): (r: Outcome)
    ensures r.state == s.(tunnels := r.state.tunnels)
    ensures r.state.tunnels.Keys == s.tunnels.Keys + set p | p in ports
    ensures forall p :: p in s.tunnels ==> r.state.tunnels[p] == s.tunnels[p]
    ensures forall p :: p in r.state.tunnels && p !in s.tunnels ==> r.state.tunnels[p] == Listener(p, None)
    ensures forall i :: 0 <= i < |r.effects| ==>
      r.effects[i].Listen? || (r.effects[i].ToServer? && r.effects[i].frame.Text? && r.effects[i].frame.msg.ListeningMsg?)
    decreases |ports|
  {
    if |ports| == 0 then Outcome(s, [])
    else
      var port := ports[0];
      var first :=
        if port !in s.tunnels then Outcome(s.(tunnels := s.tunnels[port := Listener(port, None)]), [Listen(port, port)])
        else if s.tunnels[port].bound.Some? then Outcome(s, SendJson(s, ListeningMsg(port, s.tunnels[port].bound.value)))
        else Outcome(s, []);
      var rest := OpenOrReport(first.state, ports[1..]);
      Outcome(rest.state, first.effects + rest.effects)
  }

  /** `syncTunnels`. */
  function SyncTunnels(s: State, ports: seq<nat>): (r: Outcome)
    ensures r.state.tunnels.Keys == set p | p in ports
    ensures forall p :: p in s.tunnels && p in ports ==> r.state.tunnels[p] == s.tunnels[p]
    ensures forall p :: p in r.state.tunnels && p !in s.tunnels ==> r.state.tunnels[p] == Listener(p, None)
    ensures r.state.nextId == s.nextId && r.state.open == s.open && r.state.cache == s.cache
  {
    var closed := CloseTunnels(s, s.tunnels.Keys - set p | p in ports);
    var reopened := OpenOrReport(closed.state, ports);
    Outcome(reopened.state, closed.effects + reopened.effects)
  }

  /** How a bind attempt failed. */
  datatype BindError = InUse(message: string) | OtherError(message: string)

  /** A listener's `listening` event: it reports the port it got. */
  function Bound(s: State, port: nat, actual: nat): (r: Outcome)
    ensures port !in s.tunnels ==> r == Outcome(s, [])
    ensures port in s.tunnels ==>
      && r.state == s.(tunnels := s.tunnels[port := Listener(s.tunnels[port].localPort, Some(actual))])
      && r.effects == SendJson(s, ListeningMsg(port, actual))
  {
    if port !in s.tunnels then Outcome(s, [])
    else
      Outcome(s.(tunnels := s.tunnels[port := Listener(s.tunnels[port].localPort, Some(actual))]),
              SendJson(s, ListeningMsg(port, actual)))
  }

  /**
   * A listener's `error` event. Address-in-use on the port itself retries
   * once on port 0 (any free port); anything else reports the error and
   * forgets the tunnel.
   */
  function BindFailed(s: State, port: nat, err: BindError): (r: Outcome)
    ensures port !in s.tunnels ==> r == Outcome(s, [])
    ensures port in s.tunnels && err.InUse? && s.tunnels[port].localPort == port ==>
      && r.state == s.(tunnels := s.tunnels[port := Listener(0, None)])
      && r.effects == [Listen(port, 0)]
    ensures port in s.tunnels && !(err.InUse? && s.tunnels[port].localPort == port) ==>
      && r.state == s.(tunnels := s.tunnels - {port})
      && r.effects == SendJson(s, ErrorMsg(port, err.message))
  {
    if port !in s.tunnels then Outcome(s, [])
    else if err.InUse? && s.tunnels[port].localPort == port then
      Outcome(s.(tunnels := s.tunnels[port := Listener(0, None)]), [Listen(port, 0)])
    else
      Outcome(s.(tunnels := s.tunnels - {port}), SendJson(s, ErrorMsg(port, err.message)))
  }

  // ---------------------------------------------------------------------
  // Control messages and focus

  /** The cache update after `tunnel:ports`, when a project is focused. */
  function UpdateCache(cache: map<string, seq<nat>>, project: Option<string>, ports: seq<nat>): (r: map<string, seq<nat>>)
    ensures project.None? || project.value == "" ==> r == cache
    ensures project.Some? && project.value != "" ==>
      && (|ports| > 0 ==> r == cache[project.value := ports])
      && (|ports| == 0 ==> r == cache - {project.value})
  {
    if project.None? || project.value == "" then cache
    else if |ports| > 0 then cache[project.value := ports]
    else cache - {project.value}
  }

  /** `closeAllTunnels`. */
  function CloseAll(s: State): (r: Outcome)
    ensures r.state.tunnels == map[]
  {
    CloseTunnels(s, s.tunnels.Keys)
  }

  /** `handleControlMessage`, given the message the text decodes to. */
  function HandleControl(s: State, msg: ControlMessage): (r: Outcome)
    ensures msg.PortsMsg? ==>
      && r.state.tunnels.Keys == set p | p in msg.ports
      && r.state.cache == UpdateCache(s.cache, s.currentProject, msg.ports)
      && r.state == SyncTunnels(s, msg.ports).state.(cache := r.state.cache)
      && r.effects == SyncTunnels(s, msg.ports).effects
    ensures msg.TcpConnectedMsg? ==> r == TcpConnected(s, msg.connectionId)
    ensures msg.TcpCloseMsg? ==> r == TcpClose(s, msg.connectionId)
    ensures msg.ShutdownMsg? ==>
      && r.state.tunnels == map[] && !r.state.open
      && r.state == CloseAll(s).state.(open := false)
      && r.effects == CloseAll(s).effects
    ensures !(msg.PortsMsg? || msg.TcpConnectedMsg? || msg.TcpCloseMsg? || msg.ShutdownMsg?) ==> r == Outcome(s, [])
  {
    match msg
    case PortsMsg(ports) =>
      var synced := SyncTunnels(s, ports);
      Outcome(synced.state.(cache := UpdateCache(s.cache, s.currentProject, ports)), synced.effects)
    case TcpConnectedMsg(id) => TcpConnected(s, id)
    case TcpCloseMsg(id) => TcpClose(s, id)
    case ShutdownMsg =>
      var closed := CloseAll(s);
      Outcome(closed.state.(open := false), closed.effects)
    case _ => Outcome(s, [])
  }

  /** The focus the control server passes on: `msg.projectId || null`, so an empty id is none. */
  function FocusId(projectId: Option<string>): (r: Option<string>)
    ensures r.None? <==> projectId.None? || projectId == Some("")
    ensures r.Some? ==> r == projectId
  {
    if projectId == Some("") then None else projectId
  }

  /**
   * `handleProjectFocus` on the focus the control server passes on. Cached
   * ports open their tunnels at once, on focus and on re-focus alike.
   */
  function ProjectFocus(s: State, projectId: Option<string>): (r: Outcome)
    ensures r.state.currentProject == FocusId(projectId) && r.state.cache == s.cache
    ensures projectId == Some("") ==> r == Outcome(s.(currentProject := None), [])
    ensures projectId.None? || projectId.value !in s.cache || |s.cache[projectId.value]| == 0 ==>
      r == Outcome(s.(currentProject := FocusId(projectId)), [])
    ensures projectId.Some? && projectId.value != "" && projectId.value in s.cache && |s.cache[projectId.value]| > 0 ==>
      r.state.tunnels.Keys == set p | p in s.cache[projectId.value]
  {
    var id := FocusId(projectId);
    var s1 := s.(currentProject := id);
    if id.None? then Outcome(s1, [])
    else if id.value in s.cache && |s.cache[id.value]| > 0 then SyncTunnels(s1, s.cache[id.value])
    else Outcome(s1, [])
  }

  // ---------------------------------------------------------------------
  // All events

  datatype Event =
    | ServerOpened
    | ServerClosed                            // onclose: the socket is gone and every tunnel closes
    | HeartbeatExpired                        // no message for 60 s: every tunnel closes
    | ServerText(msg: ControlMessage)
    | ServerBinary(frame: seq<byte>)
    | Focus(projectId: Option<string>)
    | ListenOk(port: nat, actual: nat)
    | ListenFailed(port: nat, err: BindError)
    | Accepted(port: nat)
    | Data(id: nat, data: seq<byte>)
    | Closed(id: nat)

  function Step(s: State, e: Event): Outcome {
    match e
    case ServerOpened => Outcome(s.(open := true), [])
    case ServerClosed => CloseAll(s.(open := false))
    case HeartbeatExpired => CloseAll(s)
    case ServerText(msg) => HandleControl(s, msg)
    case ServerBinary(frame) => BinaryFrame(s, frame)
    case Focus(id) => ProjectFocus(s, id)
    case ListenOk(port, actual) => Bound(s, port, actual)
    case ListenFailed(port, err) => BindFailed(s, port, err)
    case Accepted(port) => Accept(s, port)
    case Data(id, data) => LocalData(s, id, data)
    case Closed(id) => LocalClosed(s, id)
  }

  function Run(s: State, events: seq<Event>): State
    decreases |events|
  {
    if |events| == 0 then s else Run(Step(s, events[0]).state, events[1..])
  }

  function Effects(s: State, events: seq<Event>): seq<Effect>
    decreases |events|
  {
    if |events| == 0 then [] else Step(s, events[0]).effects + Effects(Step(s, events[0]).state, events[1..])
  }
}

=== FILE: agent_props.dfy ===
/**
 * What the host agent guarantees: frames reach the socket they name, the
 * bytes of a connection leave in the order they arrived whether or not they
 * had to wait for the container side, connection ids only grow, and closing
 * one tunnel leaves the others' connections alone.
 */
module AgentProps {
  import opened Common
  import opened Frames
  import opened TunnelProtocol
  import opened Agent

  // ---------------------------------------------------------------------
  // Data frames

  /** A frame from the server reaches the local socket it names, payload intact. */
  lemma ServerFrameReachesSocket(s: State, id: nat, payload: seq<byte>)
    requires id < U32_LIMIT && id in s.conns
    ensures BinaryFrame(s, EncodeDataFrame(id, payload).value) == Outcome(s, [WriteLocal(id, payload)])
  {
    Frames.DecodeEncode(id, payload);
  }

  /** A frame for a connection the agent no longer holds is dropped. */
  lemma UnknownSocketDropped(s: State, id: nat, payload: seq<byte>)
    requires id < U32_LIMIT && id !in s.conns
    ensures BinaryFrame(s, EncodeDataFrame(id, payload).value) == Outcome(s, [])
  {
    Frames.DecodeEncode(id, payload);
  }

  // ---------------------------------------------------------------------
  // Buffer, then flush

  /** The payload `e` carries for `id`: one when it sends a data frame for `id`, none otherwise. */
  function PayloadOf(e: Effect, id: nat): seq<seq<byte>> {
    if e.ToServer? && e.frame.Binary? && DecodeDataFrame(e.frame.bytes).Some? && DecodeDataFrame(e.frame.bytes).value.0 == id
    then [DecodeDataFrame(e.frame.bytes).value.1] else []
  }

  /** The payloads of the data frames for `id` among the effects, in order. */
  function Payloads(effects: seq<Effect>, id: nat): seq<seq<byte>> {
    FlatMap(effects, e => PayloadOf(e, id))
  }

  lemma PayloadsOne(e: Effect, id: nat)
    ensures Payloads([e], id) == PayloadOf(e, id)
  {
    FlatMapOne(e, e' => PayloadOf(e', id));
  }

  lemma PayloadsAppend(a: seq<Effect>, b: seq<Effect>, id: nat)
    ensures Payloads(a + b, id) == Payloads(a, id) + Payloads(b, id)
  {
    FlatMapAppend(a, b, e => PayloadOf(e, id));
  }

  /** Flushing sends the buffered chunks, each in one frame, in buffer order. */
  lemma {:induction false} FlushPayloads(s: State, id: nat, chunks: seq<seq<byte>>)
    requires s.open && id < U32_LIMIT
    ensures Payloads(Flush(s, id, chunks), id) == chunks
    decreases |chunks|
  {
    if |chunks| > 0 {
      var head := SendBinary(s, id, chunks[0]);
      Frames.DecodeEncode(id, chunks[0]);
      PayloadsOne(head[0], id);
      assert Payloads(head, id) == [chunks[0]];
      PayloadsAppend(head, Flush(s, id, chunks[1..]), id);
      FlushPayloads(s, id, chunks[1..]);
    }
  }

  /** The agent knows whether `id` is ready, and holds a buffer exactly when it is not. */
  predicate Tracking(s: State, id: nat) {
    id in s.ready && (s.ready[id] <==> id !in s.pending)
  }

  /** What is still waiting for the container side. */
  function Buffered(s: State, id: nat): seq<seq<byte>>
    requires Tracking(s, id)
  {
    if s.ready[id] then [] else s.pending[id]
  }

  /** The events of one connection's life before it closes: its data and its connected message. */
  predicate OfConnection(e: Event, id: nat) {
    (e.Data? && e.id == id) || e == ServerText(TcpConnectedMsg(id))
  }

  /** The chunks the local client sent. */
  function Received(events: seq<Event>): seq<seq<byte>>
    decreases |events|
  {
    if |events| == 0 then []
    else (if events[0].Data? then [events[0].data] else []) + Received(events[1..])
  }

  /** One event of the connection keeps the accounting balanced. */
  lemma StepBalanced(s: State, id: nat, e: Event)
    requires s.open && id < U32_LIMIT && Tracking(s, id) && OfConnection(e, id)
    ensures Step(s, e).state.open && Tracking(Step(s, e).state, id)
    ensures Payloads(Step(s, e).effects, id) + Buffered(Step(s, e).state, id)
         == Buffered(s, id) + (if e.Data? then [e.data] else [])
  {
    if e.Data? {
      if s.ready[id] {
        Frames.DecodeEncode(id, e.data);
        PayloadsOne(Step(s, e).effects[0], id);
      }
    } else if !s.ready[id] {
      FlushPayloads(s, id, s.pending[id]);
    }
  }

  /**
   * Over any run of a connection's data and connected events, the chunks
   * sent to the server followed by those still buffered are the chunks
   * buffered at the start followed by those received: nothing is lost,
   * duplicated or reordered.
   */
  lemma {:induction false} SentInOrder(s: State, id: nat, events: seq<Event>)
    requires s.open && id < U32_LIMIT && Tracking(s, id)
    requires forall i :: 0 <= i < |events| ==> OfConnection(events[i], id)
    ensures Run(s, events).open && Tracking(Run(s, events), id)
    ensures Payloads(Effects(s, events), id) + Buffered(Run(s, events), id) == Buffered(s, id) + Received(events)
    decreases |events|
  {
    if |events| > 0 {
      var e := events[0];
      var next := Step(s, e);
      var here := if e.Data? then [e.data] else [];
      StepBalanced(s, id, e);
      assert forall i :: 0 <= i < |events[1..]| ==> OfConnection(events[1..][i], id) by {
        forall i | 0 <= i < |events[1..]| ensures OfConnection(events[1..][i], id) {
          assert events[1..][i] == events[i + 1];
        }
      }
      SentInOrder(next.state, id, events[1..]);
      Unroll(s, events);
      PayloadsAppend(next.effects, Effects(next.state, events[1..]), id);
      ReceivedUnroll(events);
      Regroup(Payloads(next.effects, id), Payloads(Effects(next.state, events[1..]), id),
              Buffered(next.state, id), Buffered(Run(next.state, events[1..]), id),
              Buffered(s, id), here, Received(events[1..]));
    }
  }

  /** Sent-then-buffered accounting composes over two stretches of a run. */
  lemma Regroup<T>(sent0: seq<T>, sent1: seq<T>, mid: seq<T>, last: seq<T>, first: seq<T>, got0: seq<T>, got1: seq<T>)
    requires sent0 + mid == first + got0
    requires sent1 + last == mid + got1
    ensures (sent0 + sent1) + last == first + (got0 + got1)
  {
    calc {
      (sent0 + sent1) + last;
      sent0 + (sent1 + last);
      sent0 + (mid + got1);
      (sent0 + mid) + got1;
      (first + got0) + got1;
    }
  }

  lemma ReceivedUnroll(events: seq<Event>)
    requires |events| > 0
    ensures Received(events) == (if events[0].Data? then [events[0].data] else []) + Received(events[1..])
  {
  }

  /** A run is its first step followed by the rest. */
  lemma Unroll(s: State, events: seq<Event>)
    requires |events| > 0
    ensures Run(s, events) == Run(Step(s, events[0]).state, events[1..])
    ensures Effects(s, events) == Step(s, events[0]).effects + Effects(Step(s, events[0]).state, events[1..])
  {
  }

  /** Once the container side is connected, the connection stays ready. */
  lemma {:induction false} StaysReady(s: State, id: nat, events: seq<Event>)
    requires Tracking(s, id) && s.ready[id]
    requires forall i :: 0 <= i < |events| ==> OfConnection(events[i], id)
    ensures Tracking(Run(s, events), id) && Run(s, events).ready[id]
    decreases |events|
  {
    if |events| > 0 {
      StaysReady(Step(s, events[0]).state, id, events[1..]);
    }
  }

  /** After the connected message nothing is left waiting. */
  lemma {:induction false} ConnectedEmptiesBuffer(s: State, id: nat, events: seq<Event>, k: nat)
    requires Tracking(s, id)
    requires forall i :: 0 <= i < |events| ==> OfConnection(events[i], id)
    requires k < |events| && events[k] == ServerText(TcpConnectedMsg(id))
    ensures Tracking(Run(s, events), id) && Buffered(Run(s, events), id) == []
    decreases |events|
  {
    var next := Step(s, events[0]).state;
    if k == 0 {
      StaysReady(next, id, events[1..]);
    } else {
      ConnectedEmptiesBuffer(next, id, events[1..], k - 1);
    }
  }

  /**
   * A connection with nothing buffered whose events include the connected
   * message has sent the server every chunk its client wrote, in order.
   */
  lemma NothingLost(s: State, id: nat, events: seq<Event>, k: nat)
    requires s.open && id < U32_LIMIT && Tracking(s, id) && Buffered(s, id) == []
    requires forall i :: 0 <= i < |events| ==> OfConnection(events[i], id)
    requires k < |events| && events[k] == ServerText(TcpConnectedMsg(id))
    ensures Payloads(Effects(s, events), id) == Received(events)
  {
    SentInOrder(s, id, events);
    ConnectedEmptiesBuffer(s, id, events, k);
    Settled(Payloads(Effects(s, events), id), Buffered(Run(s, events), id), Received(events));
  }

  lemma Settled<T>(sent: seq<T>, left: seq<T>, got: seq<T>)
    requires sent + left == [] + got && left == []
    ensures sent == got
  {
    assert sent + left == sent;
  }

  /** A freshly accepted connection starts unready with an empty buffer. */
  lemma AcceptedIsFresh(s: State, port: nat)
    ensures Tracking(Accept(s, port).state, s.nextId) && Buffered(Accept(s, port).state, s.nextId) == []
  {
  }

  // ---------------------------------------------------------------------
  // Connection ids

  predicate Announces(e: Effect) {
    e.ToServer? && e.frame.Text? && e.frame.msg.TcpOpenMsg?
  }

  /** The ids of the `tunnel:tcp:open` messages among the effects, in order. */
  function Announced(effects: seq<Effect>): seq<nat>
    decreases |effects|
  {
    if |effects| == 0 then []
    else (if Announces(effects[0]) then [effects[0].frame.msg.connectionId] else []) + Announced(effects[1..])
  }

  lemma {:induction false} AnnouncedAppend(a: seq<Effect>, b: seq<Effect>)
    ensures Announced(a + b) == Announced(a) + Announced(b)
    decreases |a|
  {
    if |a| == 0 {
      assert a + b == b;
    } else {
      assert (a + b)[0] == a[0];
      assert (a + b)[1..] == a[1..] + b;
      AnnouncedAppend(a[1..], b);
    }
  }

  lemma {:induction false} Quiet(effects: seq<Effect>)
    requires forall i :: 0 <= i < |effects| ==> !Announces(effects[i])
    ensures Announced(effects) == []
    decreases |effects|
  {
    if |effects| > 0 {
      Quiet(effects[1..]);
    }
  }

  lemma SyncQuiet(s: State, ports: seq<nat>)
    ensures Announced(SyncTunnels(s, ports).effects) == []
  {
    var closed := CloseTunnels(s, s.tunnels.Keys - set p | p in ports);
    var reopened := OpenOrReport(closed.state, ports);
    Quiet(closed.effects);
    Quiet(reopened.effects);
    AnnouncedAppend(closed.effects, reopened.effects);
  }

  lemma ControlQuiet(s: State, msg: ControlMessage)
    ensures Announced(HandleControl(s, msg).effects) == []
    ensures HandleControl(s, msg).state.nextId == s.nextId
  {
    match msg {
      case PortsMsg(ports) => SyncQuiet(s, ports);
      case TcpConnectedMsg(id) =>
        if id in s.pending {
          Quiet(Flush(s, id, s.pending[id]));
        }
      case ShutdownMsg => Quiet(CloseAll(s).effects);
      case _ =>
    }
  }

  lemma FocusQuiet(s: State, projectId: Option<string>)
    ensures Announced(ProjectFocus(s, projectId).effects) == []
    ensures ProjectFocus(s, projectId).state.nextId == s.nextId
  {
    if projectId.Some? && projectId.value in s.cache && |s.cache[projectId.value]| > 0 {
      SyncQuiet(s.(currentProject := projectId), s.cache[projectId.value]);
    }
  }

  /** Only an accepted connection is announced, under the counter's current value. */
  lemma StepAnnounces(s: State, e: Event)
    ensures Announced(Step(s, e).effects) == if e.Accepted? && s.open then [s.nextId] else []
  {
    match e {
      case ServerText(msg) => ControlQuiet(s, msg);
      case Focus(projectId) => FocusQuiet(s, projectId);
      case ServerClosed => Quiet(CloseAll(s.(open := false)).effects);
      case HeartbeatExpired => Quiet(CloseAll(s).effects);
      case _ =>
    }
  }

  /** Only an accepted connection moves the counter on, by one. */
  lemma StepCounts(s: State, e: Event)
    ensures Step(s, e).state.nextId == if e.Accepted? then s.nextId + 1 else s.nextId
  {
    match e {
      case ServerText(msg) => ControlQuiet(s, msg);
      case Focus(projectId) => FocusQuiet(s, projectId);
      case _ =>
    }
  }

  /** A control message sent to the server is announced exactly when it opens a connection. */
  lemma SendJsonAnnounces(s: State, msg: ControlMessage)
    ensures Announced(SendJson(s, msg)) == if s.open && msg.TcpOpenMsg? then [msg.connectionId] else []
  {
    if s.open {
      assert SendJson(s, msg)[1..] == [];
    }
  }

  predicate Increasing(ids: seq<nat>) {
    forall i, j :: 0 <= i < j < |ids| ==> ids[i] < ids[j]
  }

  /**
   * Connection ids are announced in strictly increasing order, all at least
   * the counter's value at the start and below its value at the end.
   */
  lemma {:induction false} IdsIncrease(s: State, events: seq<Event>)
    ensures Increasing(Announced(Effects(s, events)))
    ensures forall i :: 0 <= i < |Announced(Effects(s, events))| ==>
      s.nextId <= Announced(Effects(s, events))[i] < Run(s, events).nextId
    ensures s.nextId <= Run(s, events).nextId
    decreases |events|
  {
    if |events| > 0 {
      var next := Step(s, events[0]);
      StepAnnounces(s, events[0]);
      StepCounts(s, events[0]);
      IdsIncrease(next.state, events[1..]);
      Unroll(s, events);
      AnnouncedAppend(next.effects, Effects(next.state, events[1..]));
      var first, rest := Announced(next.effects), Announced(Effects(next.state, events[1..]));
      assert |first| <= 1 && (|first| == 1 ==> first[0] == s.nextId && next.state.nextId == s.nextId + 1);
      Ascending(first, rest, s.nextId, next.state.nextId, Run(next.state, events[1..]).nextId);
    }
  }

  lemma Ascending(first: seq<nat>, rest: seq<nat>, lo: nat, mid: nat, hi: nat)
    requires |first| <= 1 && lo <= mid
    requires |first| == 1 ==> first[0] == lo && lo < mid
    requires Increasing(rest) && forall i :: 0 <= i < |rest| ==> mid <= rest[i] < hi
    requires mid <= hi
    ensures Increasing(first + rest)
    ensures forall i :: 0 <= i < |first + rest| ==> lo <= (first + rest)[i] < hi
  {
  }

  // ---------------------------------------------------------------------
  // The per-connection maps

  /**
   * The bookkeeping agrees with itself: every tracked connection has an id
   * the counter has already handed out, sits in its tunnel's id set and in
   * no other, and only tracked connections have a buffer.
   */
  ghost predicate Valid(s: State) {
    && s.conns == s.connPort.Keys
    && s.pending.Keys <= s.conns
    && (forall id :: id in s.connPort ==> id < s.nextId)
    && (forall id :: id in s.connPort ==> s.connPort[id] in s.tunnelConns && id in s.tunnelConns[s.connPort[id]])
    && (forall p, id :: p in s.tunnelConns && id in s.tunnelConns[p] ==> id in s.connPort && s.connPort[id] == p)
  }

  lemma InitialValid(cache: map<string, seq<nat>>)
    ensures Valid(Initial(cache))
  {
  }

  /** A newly accepted connection gets an id no tracked connection holds. */
  lemma AcceptFresh(s: State, port: nat)
    requires Valid(s)
    ensures s.nextId !in s.conns
    ensures Valid(Accept(s, port).state)
  {
    var r := Accept(s, port).state;
    var id := s.nextId;
    forall p, j | p in r.tunnelConns && j in r.tunnelConns[p]
      ensures j in r.connPort && r.connPort[j] == p
    {
      if p != port || j != id {
        assert p in s.tunnelConns && j in s.tunnelConns[p];
      }
    }
  }

  /** `cleanupConnection` keeps the bookkeeping consistent. */
  lemma CleanupValid(s: State, id: nat)
    requires Valid(s)
    ensures Valid(Cleanup(s, id))
  {
    var f := Forget(s, {id});
    if id in s.connPort && s.connPort[id] in s.tunnelConns {
      var p := s.connPort[id];
      var r := f.(tunnelConns := s.tunnelConns[p := s.tunnelConns[p] - {id}]);
      forall j | j in r.connPort
        ensures r.connPort[j] in r.tunnelConns && j in r.tunnelConns[r.connPort[j]]
      {
        assert j != id && r.connPort[j] == s.connPort[j];
      }
      forall q, j | q in r.tunnelConns && j in r.tunnelConns[q]
        ensures j in r.connPort && r.connPort[j] == q
      {
        assert j in s.tunnelConns[q] && j != id;
      }
      assert Valid(r);
    } else {
      assert id !in s.connPort;
      forall q, j | q in f.tunnelConns && j in f.tunnelConns[q]
        ensures j in f.connPort && f.connPort[j] == q
      {
        assert j in s.connPort && j != id;
      }
      assert Valid(f);
    }
  }

  /** `cleanupConnection` forgets the id in its tunnel's set too. */
  lemma CleanupForgets(s: State, id: nat)
    requires Valid(s)
    ensures forall p :: p in Cleanup(s, id).tunnelConns ==> id !in Cleanup(s, id).tunnelConns[p]
  {
    var r := Cleanup(s, id);
    forall p | p in r.tunnelConns
      ensures id !in r.tunnelConns[p]
    {
      if id in s.connPort && p == s.connPort[id] {
      } else {
        assert p in s.tunnelConns && r.tunnelConns[p] == s.tunnelConns[p];
      }
    }
  }

  /** `cleanupConnection` leaves every other connection as it was. */
  lemma CleanupSparesOthers(s: State, id: nat, j: nat)
    requires j != id
    ensures j in Cleanup(s, id).conns <==> j in s.conns
    ensures j in Cleanup(s, id).connPort <==> j in s.connPort
    ensures j in Cleanup(s, id).connPort ==> Cleanup(s, id).connPort[j] == s.connPort[j]
    ensures j in Cleanup(s, id).pending <==> j in s.pending
    ensures j in Cleanup(s, id).pending ==> Cleanup(s, id).pending[j] == s.pending[j]
    ensures forall p :: p in s.tunnelConns ==> (p in Cleanup(s, id).tunnelConns && (j in Cleanup(s, id).tunnelConns[p] <==> j in s.tunnelConns[p]))
  {
  }

  /** Closing the tunnel of `port` destroys and forgets exactly that tunnel's connections. */
  lemma CloseTunnelForgets(s: State, port: nat, id: nat)
    requires Valid(s) && port in s.tunnels && id in s.connPort && s.connPort[id] == port
    ensures id !in CloseTunnel(s, port).state.conns && id !in CloseTunnel(s, port).state.pending
    ensures id !in CloseTunnel(s, port).state.ready && id !in CloseTunnel(s, port).state.connPort
    ensures DestroyLocal(IdsOf(s, {port}) * s.conns) in CloseTunnel(s, port).effects && id in IdsOf(s, {port})
    ensures port !in CloseTunnel(s, port).state.tunnels && port !in CloseTunnel(s, port).state.tunnelConns
  {
    assert id in s.tunnelConns[port];
    assert {port} * s.tunnels.Keys == {port};
    var ids := IdsOf(s, {port});
    assert id in ids && id in s.conns;
    assert id in ids * s.conns;
  }

  /** Closing one tunnel leaves every connection of the other tunnels as it was. */
  lemma CloseTunnelIsolated(s: State, port: nat, id: nat)
    requires Valid(s) && id in s.connPort && s.connPort[id] != port
    ensures id in CloseTunnel(s, port).state.conns
    ensures id in CloseTunnel(s, port).state.connPort && CloseTunnel(s, port).state.connPort[id] == s.connPort[id]
    ensures id in s.pending ==> id in CloseTunnel(s, port).state.pending && CloseTunnel(s, port).state.pending[id] == s.pending[id]
    ensures id in s.ready ==> id in CloseTunnel(s, port).state.ready && CloseTunnel(s, port).state.ready[id] == s.ready[id]
    ensures forall q :: q != port && q in s.tunnelConns ==>
      q in CloseTunnel(s, port).state.tunnelConns && CloseTunnel(s, port).state.tunnelConns[q] == s.tunnelConns[q]
    ensures Valid(CloseTunnel(s, port).state)
  {
    CloseTunnelsValid(s, {port});
    assert id !in IdsOf(s, {port} * s.tunnels.Keys);
  }

  lemma CloseTunnelsValid(s: State, ports: set<nat>)
    requires Valid(s)
    ensures Valid(CloseTunnels(s, ports).state)
  {
    CloseTunnelsLinked(s, ports);
    CloseTunnelsOwned(s, ports);
  }

  /** After closing, each remaining connection is still listed under its tunnel. */
  lemma CloseTunnelsLinked(s: State, ports: set<nat>)
    requires Valid(s)
    ensures var r := CloseTunnels(s, ports).state;
      forall j :: j in r.connPort ==> r.connPort[j] in r.tunnelConns && j in r.tunnelConns[r.connPort[j]]
  {
    var closing := ports * s.tunnels.Keys;
    var r := CloseTunnels(s, ports).state;
    forall j | j in r.connPort
      ensures r.connPort[j] in r.tunnelConns && j in r.tunnelConns[r.connPort[j]]
    {
      var q := s.connPort[j];
      assert q !in closing;
    }
  }

  /** After closing, each id listed under a remaining tunnel is still a connection of it. */
  lemma CloseTunnelsOwned(s: State, ports: set<nat>)
    requires Valid(s)
    ensures var r := CloseTunnels(s, ports).state;
      forall p, j :: p in r.tunnelConns && j in r.tunnelConns[p] ==> j in r.connPort && r.connPort[j] == p
  {
    var closing := ports * s.tunnels.Keys;
    var ids := IdsOf(s, closing);
    var r := CloseTunnels(s, ports).state;
    forall p, j | p in r.tunnelConns && j in r.tunnelConns[p]
      ensures j in r.connPort && r.connPort[j] == p
    {
      assert p in s.tunnelConns && j in s.tunnelConns[p] && p !in closing;
      forall q | q in s.tunnelConns && j in s.tunnelConns[q]
        ensures q == p
      {
        assert s.connPort[j] == q;
      }
      assert j !in ids;
    }
  }

  lemma SyncValid(s: State, ports: seq<nat>)
    requires Valid(s)
    ensures Valid(SyncTunnels(s, ports).state)
  {
    CloseTunnelsValid(s, s.tunnels.Keys - set p | p in ports);
  }

  lemma ControlValid(s: State, msg: ControlMessage)
    requires Valid(s)
    ensures Valid(HandleControl(s, msg).state)
  {
    match msg {
      case PortsMsg(ports) => SyncValid(s, ports);
      case TcpCloseMsg(id) => CleanupValid(s, id);
      case ShutdownMsg => CloseTunnelsValid(s, s.tunnels.Keys);
      case _ =>
    }
  }

  lemma FocusValid(s: State, projectId: Option<string>)
    requires Valid(s)
    ensures Valid(ProjectFocus(s, projectId).state)
  {
    var id := FocusId(projectId);
    SameBookkeeping(s, s.(currentProject := id));
    if id.Some? && id.value in s.cache && |s.cache[id.value]| > 0 {
      SyncValid(s.(currentProject := id), s.cache[id.value]);
    }
  }

  /** A step that leaves the connection bookkeeping alone keeps it consistent. */
  lemma SameBookkeeping(s: State, r: State)
    requires Valid(s)
    requires r.conns == s.conns && r.connPort == s.connPort && r.tunnelConns == s.tunnelConns
    requires r.pending.Keys <= s.pending.Keys && r.nextId == s.nextId
    ensures Valid(r)
  {
  }

  /** Every event keeps the bookkeeping consistent. */
  lemma StepValid(s: State, e: Event)
    requires Valid(s)
    ensures Valid(Step(s, e).state)
  {
    if e.ServerOpened? || e.ServerClosed? || e.HeartbeatExpired? || e.ServerText? || e.ServerBinary? {
      ServerStepValid(s, e);
    } else {
      LocalStepValid(s, e);
    }
  }

  /** The events coming from the server connection. */
  lemma ServerStepValid(s: State, e: Event)
    requires Valid(s)
    requires e.ServerOpened? || e.ServerClosed? || e.HeartbeatExpired? || e.ServerText? || e.ServerBinary?
    ensures Valid(Step(s, e).state)
  {
    match e {
      case ServerOpened => SameBookkeeping(s, s.(open := true));
      case ServerClosed => CloseTunnelsValid(s.(open := false), s.tunnels.Keys);
      case HeartbeatExpired => CloseTunnelsValid(s, s.tunnels.Keys);
      case ServerText(msg) => ControlValid(s, msg);
      case ServerBinary(frame) => SameBookkeeping(s, BinaryFrame(s, frame).state);
    }
  }

  /** The events coming from the focus, the listeners and the local sockets. */
  lemma LocalStepValid(s: State, e: Event)
    requires Valid(s)
    requires !(e.ServerOpened? || e.ServerClosed? || e.HeartbeatExpired? || e.ServerText? || e.ServerBinary?)
    ensures Valid(Step(s, e).state)
  {
    match e {
      case Focus(projectId) => FocusValid(s, projectId);
      case ListenOk(port, actual) => BoundValid(s, port, actual);
      case ListenFailed(port, err) => BindFailedValid(s, port, err);
      case Accepted(port) => AcceptFresh(s, port);
      case Data(id, data) => LocalDataValid(s, id, data);
      case Closed(id) => CleanupValid(s, id);
    }
  }

  lemma BoundValid(s: State, port: nat, actual: nat)
    requires Valid(s)
    ensures Valid(Bound(s, port, actual).state)
  {
    if port in s.tunnels {
      SameBookkeeping(s, s.(tunnels := s.tunnels[port := Listener(s.tunnels[port].localPort, Some(actual))]));
    }
  }

  lemma BindFailedValid(s: State, port: nat, err: BindError)
    requires Valid(s)
    ensures Valid(BindFailed(s, port, err).state)
  {
    if port in s.tunnels {
      if err.InUse? && s.tunnels[port].localPort == port {
        SameBookkeeping(s, s.(tunnels := s.tunnels[port := Listener(0, None)]));
      } else {
        SameBookkeeping(s, s.(tunnels := s.tunnels - {port}));
      }
    }
  }

  lemma LocalDataValid(s: State, id: nat, data: seq<byte>)
    requires Valid(s)
    ensures Valid(LocalData(s, id, data).state)
  {
    if !(id in s.ready && s.ready[id]) && id in s.pending {
      var r := s.(pending := s.pending[id := s.pending[id] + [data]]);
      assert r.pending.Keys == s.pending.Keys;
      SameBookkeeping(s, r);
    }
  }

  lemma {:induction false} RunValid(s: State, events: seq<Event>)
    requires Valid(s)
    ensures Valid(Run(s, events))
    decreases |events|
  {
    if |events| > 0 {
      StepValid(s, events[0]);
      RunValid(Step(s, events[0]).state, events[1..]);
    }
  }

  // ---------------------------------------------------------------------
  // Reconciling tunnels

  /**
   * For every desired port, `syncTunnels` starts a listener on the same
   * local port when none is open, and re-reports the bound port of the
   * listener that is.
   */
  lemma {:induction false} OpenOrReportEmits(s: State, ports: seq<nat>, p: nat)
    requires p in ports
    ensures p !in s.tunnels ==> Listen(p, p) in OpenOrReport(s, ports).effects
    ensures p in s.tunnels && s.tunnels[p].bound.Some? && s.open ==>
      ToServer(Text(ListeningMsg(p, s.tunnels[p].bound.value))) in OpenOrReport(s, ports).effects
    decreases |ports|
  {
    var port := ports[0];
    var r := OpenOrReport(s, ports);
    var first :=
      if port !in s.tunnels then Outcome(s.(tunnels := s.tunnels[port := Listener(port, None)]), [Listen(port, port)])
      else if s.tunnels[port].bound.Some? then Outcome(s, SendJson(s, ListeningMsg(port, s.tunnels[port].bound.value)))
      else Outcome(s, []);
    var rest := OpenOrReport(first.state, ports[1..]);
    assert r.effects == first.effects + rest.effects;
    if port == p {
      if p !in s.tunnels || (s.tunnels[p].bound.Some? && s.open) {
        assert first.effects[0] in r.effects;
      }
    } else {
      assert p in ports[1..];
      OpenOrReportEmits(first.state, ports[1..], p);
      assert p in first.state.tunnels <==> p in s.tunnels;
      assert p in s.tunnels ==> first.state.tunnels[p] == s.tunnels[p];
    }
  }

  lemma SyncEmits(s: State, ports: seq<nat>, p: nat)
    requires p in ports
    ensures p !in s.tunnels ==> Listen(p, p) in SyncTunnels(s, ports).effects
    ensures p in s.tunnels && s.tunnels[p].bound.Some? && s.open ==>
      ToServer(Text(ListeningMsg(p, s.tunnels[p].bound.value))) in SyncTunnels(s, ports).effects
  {
    var closed := CloseTunnels(s, s.tunnels.Keys - set q | q in ports);
    OpenOrReportEmits(closed.state, ports, p);
    assert p in closed.state.tunnels <==> p in s.tunnels;
  }

  /** Tunnels that stay desired keep their listener and every one of their connections. */
  lemma SyncKeepsDesired(s: State, ports: seq<nat>, id: nat)
    requires Valid(s) && id in s.connPort && s.connPort[id] in ports
    ensures id in SyncTunnels(s, ports).state.conns
    ensures SyncTunnels(s, ports).state.connPort[id] == s.connPort[id]
  {
    var closing := (s.tunnels.Keys - set q | q in ports) * s.tunnels.Keys;
    assert s.connPort[id] !in closing;
    assert id !in IdsOf(s, closing);
  }

  // ---------------------------------------------------------------------
  // Bind failures

  /**
   * A listener on its own port that finds the port in use moves to port 0;
   * if that fails too the tunnel is reported and dropped (a listener for
   * container port 0 would keep retrying).
   */
  lemma BindRetriesOnce(s: State, port: nat, inUse: string, err: BindError)
    requires port in s.tunnels && s.tunnels[port].localPort == port
    ensures var s1 := BindFailed(s, port, InUse(inUse)).state;
      && port in s1.tunnels && s1.tunnels[port] == Listener(0, None)
      && (port != 0 ==>
        && BindFailed(s1, port, err).state.tunnels == s.tunnels - {port}
        && BindFailed(s1, port, err).effects == SendJson(s, ErrorMsg(port, err.message)))
  {
  }

  // ---------------------------------------------------------------------
  // The port cache

  /**
   * The ports the server last sent for the focused project come back when
   * that project is focused again: the same tunnels open before the server
   * answers.
   */
  lemma CachedPortsReopen(s: State, project: string, ports: seq<nat>, other: State)
    requires s.currentProject == Some(project) && project != "" && |ports| > 0
    requires other.cache == HandleControl(s, PortsMsg(ports)).state.cache
    ensures ProjectFocus(other, Some(project)).state.tunnels.Keys == set p | p in ports
  {
  }

  /** An empty list for the focused project forgets its cache entry, so re-focusing opens nothing. */
  lemma EmptyListForgotten(s: State, project: string, other: State)
    requires s.currentProject == Some(project) && project != ""
    requires other.cache == HandleControl(s, PortsMsg([])).state.cache
    ensures ProjectFocus(other, Some(project)) == Outcome(other.(currentProject := Some(project)), [])
  {
  }

  /**
   * Focusing the empty id is focusing nothing: even with ports cached under
   * `""`, no tunnel opens and no project is recorded.
   */
  lemma EmptyFocusOpensNothing(cache: map<string, seq<nat>>)
    ensures ProjectFocus(Initial(cache), Some("")) == ProjectFocus(Initial(cache), None)
    ensures ProjectFocus(Initial(cache), Some("")) == Outcome(Initial(cache).(currentProject := None), [])
  {
  }

  /** With no project focused, port lists leave the cache alone. */
  lemma UnfocusedCacheUnchanged(s: State, ports: seq<nat>)
    requires s.currentProject.None? || s.currentProject == Some("")
    ensures HandleControl(s, PortsMsg(ports)).state.cache == s.cache
  {
  }
}

=== FILE: common.dfy ===
/** Shared value types and sequence helpers used by every other module. */
module Common {

  /** JavaScript's `T | null` / `T | undefined`. */
  datatype Option<+T> = None | Some(value: T) {
    function GetOr(default: T): T {
      match this
      case Some(v) => v
      case None => default
    }
  }

  /** A value, or the error a function of the source throws or returns. */
  datatype Result<+T, +E> = Ok(value: T) | Err(error: E)

  /** One octet of a Node `Buffer` / `Uint8Array`. */
  type byte = b: int | 0 <= b < 256

  /** `map.get(k) || 0` for counters, whose stored values are never 0. */
  function CountOf<K>(m: map<K, nat>, k: K): nat {
    if k in m then m[k] else 0
  }

  /** No element occurs twice. */
  predicate NoDup<T(==)>(s: seq<T>) {
    forall i, j :: 0 <= i < j < |s| ==> s[i] != s[j]
  }

  /** Index of the first occurrence of an element known to be present. */
  function IndexOfElem<T(==)>(s: seq<T>, x: T): (i: nat)
    requires x in s
    ensures i < |s| && s[i] == x && x !in s[..i]
  {
    if s[0] == x then 0
    else
      var i := IndexOfElem(s[1..], x) + 1;
      assert s[..i] == [s[0]] + s[1..][..i - 1];
      i
  }

  /** The first occurrence is the only index with nothing equal before it. */
  lemma IndexOfElemUnique<T>(s: seq<T>, x: T, i: nat)
    requires i < |s| && s[i] == x && x !in s[..i]
    ensures IndexOfElem(s, x) == i
  {
  }

  /** `a` can be obtained from `b` by deleting elements (order is kept). */
  predicate IsSubsequence<T(==)>(a: seq<T>, b: seq<T>)
    decreases |b|
  {
    if |a| == 0 then true
    else if |b| == 0 then false
    else (a[0] == b[0] && IsSubsequence(a[1..], b[1..])) || IsSubsequence(a, b[1..])
  }

  /** Every sequence is a subsequence of itself. */
  lemma {:induction false} SubsequenceRefl<T>(s: seq<T>)
    ensures IsSubsequence(s, s)
  {
    if |s| > 0 {
      SubsequenceRefl(s[1..]);
    }
  }

  /** When `p` fails on the head, a first success in the tail is a first success overall. */
  lemma FirstTrueShifts<T>(p: T -> bool, xs: seq<T>, k: int)
    requires |xs| > 0 && !p(xs[0]) && 0 <= k < |xs| - 1
    requires forall j :: 0 <= j < k ==> !p(xs[1..][j])
    ensures xs[k + 1] == xs[1..][k] && forall j :: 0 <= j < k + 1 ==> !p(xs[j])
  {
    forall j | 0 <= j < k + 1
      ensures !p(xs[j])
    {
      if j > 0 {
        assert xs[j] == xs[1..][j - 1];
      }
    }
  }

  /** When `p` fails on the head and throughout the tail, it fails throughout. */
  lemma NoTrueShifts<T>(p: T -> bool, xs: seq<T>)
    requires |xs| > 0 && !p(xs[0])
    requires forall k :: 0 <= k < |xs[1..]| ==> !p(xs[1..][k])
    ensures forall k :: 0 <= k < |xs| ==> !p(xs[k])
  {
    forall k | 0 <= k < |xs|
      ensures !p(xs[k])
    {
      if k > 0 {
        assert xs[k] == xs[1..][k - 1];
      }
    }
  }

  /** The results of `f` on the elements of `s`, concatenated in order. */
  function FlatMap<T, U>(s: seq<T>, f: T -> seq<U>): seq<U>
    decreases |s|
  {
    if |s| == 0 then [] else f(s[0]) + FlatMap(s[1..], f)
  }

  /** `FlatMap` over one element is `f` of that element. */
  lemma FlatMapOne<T, U>(x: T, f: T -> seq<U>)
    ensures FlatMap([x], f) == f(x)
  {
    assert [x][1..] == [];
  }

  /** `FlatMap` over a concatenation is the concatenation of the two `FlatMap`s. */
  lemma {:induction false} FlatMapAppend<T, U>(a: seq<T>, b: seq<T>, f: T -> seq<U>)
    ensures FlatMap(a + b, f) == FlatMap(a, f) + FlatMap(b, f)
    decreases |a|
  {
    if |a| == 0 {
      assert a + b == b;
    } else {
      assert (a + b)[0] == a[0];
      assert (a + b)[1..] == a[1..] + b;
      FlatMapAppend(a[1..], b, f);
    }
  }

  /** `Array.prototype.filter`. */
  function Filter<T(!new)>(s: seq<T>, keep: T -> bool): (r: seq<T>)
    ensures |r| <= |s|
    ensures forall x :: x in r <==> x in s && keep(x)
    ensures forall i :: 0 <= i < |r| ==> keep(r[i])
  {
    if |s| == 0 then []
    else if keep(s[0]) then [s[0]] + Filter(s[1..], keep)
    else Filter(s[1..], keep)
  }

  /** The filtered sequence keeps the original order. */
  lemma {:induction false} FilterIsSubsequence<T(!new)>(s: seq<T>, keep: T -> bool)
    ensures IsSubsequence(Filter(s, keep), s)
  {
    if |s| > 0 {
      FilterIsSubsequence(s[1..], keep);
      if keep(s[0]) {
        assert Filter(s, keep)[1..] == Filter(s[1..], keep);
      }
    }
  }

  /** Filtering with a test every element passes changes nothing. */
  lemma {:induction false} FilterAll<T(!new)>(s: seq<T>, keep: T -> bool)
    requires forall i :: 0 <= i < |s| ==> keep(s[i])
    ensures Filter(s, keep) == s
  {
    if |s| > 0 {
      FilterAll(s[1..], keep);
      assert [s[0]] + s[1..] == s;
    }
  }

  /** Filtering with a test no element passes leaves nothing. */
  lemma {:induction false} FilterNone<T(!new)>(s: seq<T>, keep: T -> bool)
    requires forall i :: 0 <= i < |s| ==> !keep(s[i])
    ensures Filter(s, keep) == []
  {
    if |s| > 0 {
      FilterNone(s[1..], keep);
    }
  }

  /** Keeps the first occurrence of every element (`if (!xs.includes(x)) xs.push(x)`). */
  function Dedup<T(==,!new)>(s: seq<T>): (r: seq<T>)
    ensures NoDup(r)
    ensures forall x :: x in r <==> x in s
  {
    DedupFrom(s, [])
  }

  /** Appends to `acc` every element of `s` that is not yet in it, in order. */
  function DedupFrom<T(==,!new)>(s: seq<T>, acc: seq<T>): (r: seq<T>)
    requires NoDup(acc)
    ensures NoDup(r)
    ensures |acc| <= |r| && r[..|acc|] == acc
    ensures forall x :: x in r <==> x in s || x in acc
    decreases |s|
  {
    if |s| == 0 then acc
    else if s[0] in acc then DedupFrom(s[1..], acc)
    else DedupFrom(s[1..], acc + [s[0]])
  }
}

=== FILE: containers.dfy ===
/**
 * Container lifecycle bookkeeping: the container name and labels a project's
 * container is created with, what starting, stopping and restarting write to
 * the projects table, how an inspect result becomes a `ContainerInfo`, and
 * how log text becomes lines. Docker itself is left out: its answers (the new
 * container's id, the inspect result, the log text) are inputs and the calls
 * made on it are an output list.
 */
module Containers {
  import opened Common
  import opened Text
  import opened Projects
  import DockerEvents

  const IMAGE_NAME := "dockpit-devenv:latest"

  /** The Docker network the containers are attached to. */
  const NETWORK_NAME := "dockpit-net"

  const NAME_PREFIX := "dockpit-"

  /** The characters `[a-z0-9-]` that survive in a container name. */
  predicate NameChar(c: char) {
    ('a' <= c <= 'z') || ('0' <= c <= '9') || c == '-'
  }

  /** One character of `toLowerCase().replace(/[^a-z0-9-]/g, "-")`. */
  function SanitizeChar(c: char): (d: char)
    ensures NameChar(d)
    ensures NameChar(c) ==> d == c
    ensures 'A' <= c <= 'Z' ==> d == AsciiLower(c)
    ensures !NameChar(c) && !('A' <= c <= 'Z') ==> d == '-'
  {
    var l := AsciiLower(c);
    if NameChar(l) then l else '-'
  }

  function Sanitize(s: string): (r: string)
    ensures |r| == |s|
    ensures forall i :: 0 <= i < |r| ==> r[i] == SanitizeChar(s[i])
  {
    if |s| == 0 then "" else [SanitizeChar(s[0])] + Sanitize(s[1..])
  }

  /** The name a project's container is created under. */
  function ContainerName(projectName: string): (n: string)
    ensures |n| == |NAME_PREFIX| + |projectName|
    ensures StartsWith(n, NAME_PREFIX)
    ensures forall i :: 0 <= i < |n| ==> NameChar(n[i])
    ensures forall i :: 0 <= i < |projectName| ==> n[|NAME_PREFIX| + i] == SanitizeChar(projectName[i])
  {
    var n := NAME_PREFIX + Sanitize(projectName);
    assert n[..|NAME_PREFIX|] == NAME_PREFIX;
    n
  }

  /** A name already made of `[a-z0-9-]` is used as it is. */
  lemma ContainerNameOfCleanName(projectName: string)
    requires forall i :: 0 <= i < |projectName| ==> NameChar(projectName[i])
    ensures ContainerName(projectName) == NAME_PREFIX + projectName
  {
    var s := Sanitize(projectName);
    assert forall i :: 0 <= i < |s| ==> s[i] == projectName[i];
  }

  /** Two names that differ only in upper and lower case share a container name. */
  lemma ContainerNameIgnoresCase(a: string, b: string)
    requires |a| == |b|
    requires forall i :: 0 <= i < |a| ==> AsciiLower(a[i]) == AsciiLower(b[i])
    ensures ContainerName(a) == ContainerName(b)
  {
    assert Sanitize(a) == Sanitize(b);
  }

  /** What `createContainer` is asked for. */
  datatype ContainerSpec = ContainerSpec(image: string, name: string, labels: map<string, string>, binds: seq<string>, network: string)

  function SpecFor(projectId: string, projectName: string, directory: string): ContainerSpec {
    ContainerSpec(IMAGE_NAME, ContainerName(projectName),
      map["dockpit.managed" := "true", DockerEvents.PROJECT_LABEL := projectId, "dockpit.project.name" := projectName],
      [directory + ":/workspace:rw"], NETWORK_NAME)
  }

  /** An event about a container created for a project names that project. */
  lemma EventsOfCreatedContainer(projectId: string, projectName: string, directory: string, e: DockerEvents.DockerEvent)
    requires projectId != ""
    requires e.actor.Some? && e.actor.value.attributes == Some(SpecFor(projectId, projectName, directory).labels)
    ensures DockerEvents.ProjectIdOf(e) == Some(projectId)
  {
  }

  /**
   * `createAndStartContainer`: the row gets the new container's id and the
   * status `running`. `containerId` is the id the inspect reports.
   */
  function CreateAndStart(t: Table, projectId: string, projectName: string, directory: string, containerId: string, now: string): (r: (Table, ContainerSpec))
    ensures r.0.Keys == t.Keys
    ensures forall k :: k in t && k != projectId ==> r.0[k] == t[k]
    ensures projectId in t ==> r.0[projectId] == t[projectId].(containerId := Some(containerId), containerStatus := "running", updatedAt := now)
    ensures DockerEvents.PROJECT_LABEL in r.1.labels && r.1.labels[DockerEvents.PROJECT_LABEL] == projectId
    ensures r.1.name == ContainerName(projectName)
    ensures r.1.image == IMAGE_NAME && r.1.network == NETWORK_NAME
    ensures r.1.binds == [directory + ":/workspace:rw"]
    ensures r.1.labels == map["dockpit.managed" := "true", DockerEvents.PROJECT_LABEL := projectId, "dockpit.project.name" := projectName]
  {
    var t' := DockerEvents.UpdateRow(t, projectId, (row: Row) => row.(containerId := Some(containerId), containerStatus := "running", updatedAt := now));
    (t', SpecFor(projectId, projectName, directory))
  }

  /** The calls made on an existing container. */
  datatype DockerCall = StopCall(id: string, timeoutSeconds: nat) | RemoveCall(id: string, force: bool)

  /**
   * `stopContainer`: without a container id nothing happens; otherwise the
   * container is stopped and removed (their failures are swallowed) and the
   * row ends with no container and the status `exited`.
   */
  function StopContainer(t: Table, projectId: string, now: string): (r: (Table, seq<DockerCall>))
    ensures !HasContainer(t, projectId) ==> r == (t, [])
    ensures HasContainer(t, projectId) ==>
      var id := t[projectId].containerId.value;
      && r.1 == [StopCall(id, 5), RemoveCall(id, true)]
      && r.0.Keys == t.Keys
      && (forall k :: k in t && k != projectId ==> r.0[k] == t[k])
      && r.0[projectId].containerId.None? && r.0[projectId].containerStatus == "exited"
      && r.0[projectId].updatedAt == now
      && r.0[projectId].(containerId := t[projectId].containerId, containerStatus := t[projectId].containerStatus,
                         updatedAt := t[projectId].updatedAt) == t[projectId]
  {
    if !HasContainer(t, projectId) then (t, [])
    else
      var id := t[projectId].containerId.value;
      (t[projectId := t[projectId].(containerId := None, containerStatus := "exited", updatedAt := now)],
       [StopCall(id, 5), RemoveCall(id, true)])
  }

  /** `project?.container_id` is truthy. */
  predicate HasContainer(t: Table, projectId: string) {
    projectId in t && t[projectId].containerId.Some? && t[projectId].containerId.value != ""
  }

  /** Stopping twice is stopping once: the second call finds no container. */
  lemma StopIdempotent(t: Table, projectId: string, now: string)
    ensures var (t1, _) := StopContainer(t, projectId, now);
      StopContainer(t1, projectId, now) == (t1, [])
  {
  }

  /** After a stop the project has no container, whatever it had. */
  lemma StopLeavesNoContainer(t: Table, projectId: string, now: string)
    requires HasContainer(t, projectId)
    ensures var t1 := StopContainer(t, projectId, now).0;
      t1[projectId].containerId.None? && t1[projectId].containerStatus == "exited"
  {
  }

  /**
   * `restartContainer`: an unknown project is an error; otherwise the old
   * container is stopped and removed and a new one created and started.
   */
  function RestartContainer(t: Table, projectId: string, containerId: string, now: string): (r: Result<(Table, seq<DockerCall>, ContainerSpec), string>)
    ensures r.Err? <==> projectId !in t
    ensures r.Err? ==> r.error == NOT_FOUND
    ensures r.Ok? ==> r.value.0.Keys == t.Keys && forall k :: k in t && k != projectId ==> r.value.0[k] == t[k]
    ensures r.Ok? ==> r.value.0[projectId].containerId == Some(containerId) && r.value.0[projectId].containerStatus == "running"
    ensures r.Ok? ==> r.value.2 == SpecFor(projectId, t[projectId].name, t[projectId].directory)
    ensures r.Ok? ==> r.value.1 == StopContainer(t, projectId, now).1
    ensures r.Ok? && HasContainer(t, projectId) ==>
      r.value.1 == [StopCall(t[projectId].containerId.value, 5), RemoveCall(t[projectId].containerId.value, true)]
    ensures r.Ok? && !HasContainer(t, projectId) ==> r.value.1 == []
    ensures r.Ok? ==> r.value.0[projectId].updatedAt == now
    ensures r.Ok? ==> r.value.0[projectId].(containerId := t[projectId].containerId, containerStatus := t[projectId].containerStatus,
                                            updatedAt := t[projectId].updatedAt) == t[projectId]
  {
    if projectId !in t then Err(NOT_FOUND)
    else
      var (t1, calls) := StopContainer(t, projectId, now);
      var (t2, spec) := CreateAndStart(t1, projectId, t[projectId].name, t[projectId].directory, containerId, now);
      Ok((t2, calls, spec))
  }

  /** Restarting a project whose container was already stopped gives the same row, with no calls on the old container. */
  lemma RestartAfterStop(t: Table, projectId: string, containerId: string, now: string)
    requires projectId in t
    ensures var t1 := StopContainer(t, projectId, now).0;
      && RestartContainer(t1, projectId, containerId, now).Ok?
      && RestartContainer(t1, projectId, containerId, now).value.0 == RestartContainer(t, projectId, containerId, now).value.0
      && RestartContainer(t1, projectId, containerId, now).value.1 == []
  {
  }

  /** After a restart, the next stop stops and removes the new container. */
  lemma StopAfterRestart(t: Table, projectId: string, containerId: string, now: string)
    requires projectId in t && containerId != ""
    ensures var t2 := RestartContainer(t, projectId, containerId, now).value.0;
      StopContainer(t2, projectId, now).1 == [StopCall(containerId, 5), RemoveCall(containerId, true)]
  {
  }

  /** The parts of `container.inspect()` that are read. */
  datatype Network = Network(ipAddress: Option<string>)
  datatype Inspect = Inspect(id: string, status: string, networks: Option<map<string, Network>>, startedAt: Option<string>)

  datatype ContainerInfo = ContainerInfo(id: string, status: string, ip: Option<string>, startedAt: Option<string>)

  /**
   * `getContainerInfo`. `inspect` is `None` when the inspect call fails;
   * reading the networks of a result that has none throws, which is also
   * answered with `None`.
   */
  function GetContainerInfo(inspect: Option<Inspect>): (r: Option<ContainerInfo>)
    ensures r.Some? <==> inspect.Some? && inspect.value.networks.Some?
    ensures r.Some? ==> r.value.id == inspect.value.id && r.value.status == inspect.value.status
    ensures r.Some? ==> (r.value.ip.Some? <==> HasIp(inspect.value.networks.value))
    ensures r.Some? && r.value.ip.Some? ==> r.value.ip == inspect.value.networks.value[NETWORK_NAME].ipAddress
    ensures r.Some? ==> r.value.ip != Some("") && r.value.startedAt != Some("")
    ensures r.Some? ==> (r.value.startedAt.Some? <==> inspect.value.startedAt.Some? && inspect.value.startedAt.value != "")
    ensures r.Some? && r.value.startedAt.Some? ==> r.value.startedAt == inspect.value.startedAt
  {
    match inspect
    case None => None
    case Some(info) =>
      match info.networks
      case None => None
      case Some(networks) =>
        var ip := if NETWORK_NAME in networks then Truthy(networks[NETWORK_NAME].ipAddress) else None;
        Some(ContainerInfo(info.id, info.status, ip, Truthy(info.startedAt)))
  }

  /** The container has a non-empty address on the project network. */
  predicate HasIp(networks: map<string, Network>) {
    && NETWORK_NAME in networks
    && networks[NETWORK_NAME].ipAddress.Some?
    && networks[NETWORK_NAME].ipAddress.value != ""
  }

  /** `x || null` for an optional string. */
  function Truthy(x: Option<string>): (r: Option<string>)
    ensures r.Some? <==> x.Some? && x.value != ""
    ensures r.Some? ==> r == x
  {
    if x.Some? && x.value != "" then x else None
  }

  /** `getContainerLogs`: the log text split on `"\n"`, empty lines dropped. */
  function GetContainerLogs(text: string): (r: seq<string>)
    ensures forall i :: 0 <= i < |r| ==> |r[i]| > 0 && '\n' !in r[i]
    ensures forall x :: x in r <==> x in Split(text, '\n') && |x| > 0
    ensures IsSubsequence(r, Split(text, '\n'))
    ensures r == Filter(Split(text, '\n'), NonEmpty)
  {
    FilterIsSubsequence(Split(text, '\n'), NonEmpty);
    Lines(text)
  }

  /**
   * Log lines written one per line, with or without a final newline, are
   * read back exactly.
   */
  lemma LogLinesRoundTrip(lines: seq<string>)
    requires forall i :: 0 <= i < |lines| ==> |lines[i]| > 0 && '\n' !in lines[i]
    ensures GetContainerLogs(Join(lines, "\n")) == lines
    ensures GetContainerLogs(Join(lines + [""], "\n")) == lines
  {
    if |lines| == 0 {
      assert Split("", '\n') == [""];
    } else {
      SplitJoin(lines, '\n');
      FilterAll(lines, NonEmpty);
    }
    var withEnd := lines + [""];
    SplitJoin(withEnd, '\n');
    FilterDropsLast(lines);
  }

  lemma {:induction false} FilterDropsLast(lines: seq<string>)
    requires forall i :: 0 <= i < |lines| ==> |lines[i]| > 0
    ensures Filter(lines + [""], NonEmpty) == lines
  {
    if |lines| == 0 {
      assert Filter([""], NonEmpty) == Filter([""][1..], NonEmpty);
    } else {
      assert (lines + [""])[1..] == lines[1..] + [""];
      FilterDropsLast(lines[1..]);
      assert [lines[0]] + lines[1..] == lines;
    }
  }
}

=== FILE: coordinator.dfy ===
/**
 * The server-side tunnel coordinator: which project is focused, which of its
 * ports the agent should tunnel (after the project's allow-list), the status
 * the agent reported for each port, and the container-side TCP connections
 * opened on the agent's behalf. Every exported handler is a pure step that
 * returns the next state and the effects it caused, in order.
 */
module Coordinator {
  import opened Common
  import opened Text
  import opened Frames
  import opened TunnelProtocol
  import opened SimpleYaml
  import PortWatcher

  /** `TunnelPortStatus.status`; `Failed` is the source's `"error"`. */
  datatype Status = Pending | Listening | Failed

  datatype PortStatus = PortStatus(port: nat, localPort: nat, status: Status)

  /** The fields of a project row the coordinator reads through `getProject`. */
  datatype ProjectView = ProjectView(directory: string, containerId: Option<string>, containerStatus: string)

  /**
   * `ProjectTunnelConfig`: the `ports` list of the config file's `tunnel`
   * section, if any. A scalar `ports` value never gets this far (see `LoadConfig`).
   */
  datatype TunnelConfig = TunnelConfig(ports: Option<seq<Scalar>>)

  datatype State = State(
    linked: bool,                     // agentWs !== null
    focus: Option<string>,            // focusedProjectId
    activePorts: seq<nat>,
    config: Option<TunnelConfig>,     // projectConfig
    statuses: map<nat, PortStatus>,   // portStatuses
    upstream: set<nat>,               // the ids of tcpConnections
    watcher: PortWatcher.Watcher,
    watchedProject: Option<string>    // the project the running watch session reports to
  )

  datatype Effect =
      /** `agentWs.send(...)`. */
    | ToAgent(frame: Frame)
      /** `socket.connect(port, ip)` for the connection id. */
    | Connect(id: nat, port: nat, host: string)
      /** `socket.write(data)` on the container-side connection. */
    | WriteUpstream(id: nat, bytes: seq<byte>)
      /** `socket.destroy()` on these connections; each later reports its close. */
    | DestroyUpstream(ids: set<nat>)
      /** `setDetectedPorts(projectId, ports)`. */
    | SaveDetected(projectId: string, ports: seq<nat>)

  datatype Outcome = Outcome(state: State, effects: seq<Effect>)

  const Initial: State := State(false, None, [], None, map[], {}, PortWatcher.Idle, None)

  /** JavaScript truthiness of a `string | null`. */
  predicate Truthy(s: Option<string>) {
    s.Some? && s.value != ""
  }

  predicate IsPortsMsg(e: Effect) {
    e.ToAgent? && e.frame.Text? && e.frame.msg.PortsMsg?
  }

  /** `sendPortsToAgent`: nothing is sent without an agent. */
  function SendPorts(s: State, ports: seq<nat>): (r: seq<Effect>)
    ensures s.linked ==> r == [ToAgent(Text(PortsMsg(ports)))]
    ensures !s.linked ==> r == []
  {
    if s.linked then [ToAgent(Text(PortsMsg(ports)))] else []
  }

  /** `sendTcpClose`. */
  function SendClose(s: State, id: nat): (r: seq<Effect>)
    ensures s.linked ==> r == [ToAgent(Text(TcpCloseMsg(id)))]
    ensures !s.linked ==> r == []
  {
    if s.linked then [ToAgent(Text(TcpCloseMsg(id)))] else []
  }

  /** The destroy loop over `tcpConnections`: nothing happens when it is empty. */
  function DestroyAll(ids: set<nat>): (r: seq<Effect>)
    ensures |r| <= 1 && (r == [] <==> ids == {})
  {
    if ids == {} then [] else [DestroyUpstream(ids)]
  }

  // ---------------------------------------------------------------------
  // Configuration and the allow-list

  /**
   * `loadProjectConfig`, run right after the focus change reset the
   * configuration: `configText` is the content of the project's
   * `.dockpit/config.yaml`, or `None` when reading it fails. A scalar `ports`
   * value is stored, but the log line after it calls `join` on it, which
   * throws a TypeError, and the catch resets the configuration to null.
   */
  function LoadConfig(project: Option<ProjectView>, configText: Option<string>): (r: Option<TunnelConfig>)
    ensures r.Some? ==> project.Some? && project.value.directory != "" && configText.Some?
    ensures r.Some? <==> && project.Some? && project.value.directory != "" && configText.Some?
                         && "tunnel" in Parse(configText.value)
                         && !(Get(Parse(configText.value)["tunnel"], "ports").Some? &&
                              Get(Parse(configText.value)["tunnel"], "ports").value.Single?)
    ensures r.Some? && Get(Parse(configText.value)["tunnel"], "ports").None? ==> r.value.ports.None?
    ensures r.Some? && Get(Parse(configText.value)["tunnel"], "ports").Some? ==>
      r.value.ports.Some? && Get(Parse(configText.value)["tunnel"], "ports") == Some(List(r.value.ports.value))
  {
    if project.None? || project.value.directory == "" then None
    else match configText
      case None => None
      case Some(text) =>
        var doc := Parse(text);
        if "tunnel" !in doc then None
        else match Get(doc["tunnel"], "ports")
          case None => Some(TunnelConfig(None))
          case Some(List(items)) => Some(TunnelConfig(Some(items)))
          case Some(Single(_)) => None
  }

  /** What `filterPorts` does for a given configuration. */
  datatype Allow =
    | AllowAll                  // returns its argument
    | AllowOnly(ports: set<nat>)  // keeps the listed ports

  /** The numbers of a list value; strings never equal a port number. */
  function NumbersOf(items: seq<Scalar>): (r: set<nat>)
    ensures forall p :: p in r <==> Num(p) in items
  {
    set i | 0 <= i < |items| && items[i].Num? :: items[i].n
  }

  /**
   * The allow-list of a configuration: no configuration, no `ports` or an
   * empty list allows everything; otherwise the list's numbers are allowed.
   */
  function AllowOf(config: Option<TunnelConfig>): (a: Allow)
    ensures a.AllowAll? <==> config.None? || config.value.ports.None? || |config.value.ports.value| == 0
    ensures a.AllowOnly? ==> a.ports == NumbersOf(config.value.ports.value)
  {
    if config.None? || config.value.ports.None? || |config.value.ports.value| == 0 then AllowAll
    else AllowOnly(NumbersOf(config.value.ports.value))
  }

  /** `filterPorts`. */
  function FilterPorts(config: Option<TunnelConfig>, ports: seq<nat>): (r: seq<nat>)
    ensures AllowOf(config).AllowAll? ==> r == ports
    ensures AllowOf(config).AllowOnly? ==>
      && IsSubsequence(r, ports)
      && forall p :: p in r <==> p in ports && p in AllowOf(config).ports
  {
    match AllowOf(config)
    case AllowAll => ports
    case AllowOnly(allowed) =>
      var keep := (p: nat) => p in allowed;
      FilterIsSubsequence(ports, keep);
      Filter(ports, keep)
  }

  /**
   * A scalar `ports` value resets the configuration, so every port passes,
   * exactly as without a config file.
   */
  lemma ScalarPortsAllowAll(project: ProjectView, text: string, v: Scalar, ports: seq<nat>)
    requires "tunnel" in Parse(text) && Get(Parse(text)["tunnel"], "ports") == Some(Single(v))
    ensures LoadConfig(Some(project), Some(text)) == None
    ensures FilterPorts(LoadConfig(Some(project), Some(text)), ports) == ports
  {
  }

  /**
   * A config file whose `tunnel` section gives `ports` one number lets every
   * port through, as if there were no config file.
   */
  lemma ScalarConfigAllowsAll(project: ProjectView, n: nat, ports: seq<nat>)
    ensures LoadConfig(Some(project), Some(ScalarPortsConfig("tunnel", n))) == None
    ensures FilterPorts(LoadConfig(Some(project), Some(ScalarPortsConfig("tunnel", n))), ports) == ports
  {
    var name := "tunnel";
    assert IsWord(name) by {
      assert forall i :: 0 <= i < |name| ==> IsWordChar(name[i]);
    }
    ScalarPortsConfigRoundTrip(name, n);
    ScalarPortsAllowAll(project, ScalarPortsConfig(name, n), Num(n), ports);
  }

  /**
   * A config file whose `tunnel` section lists ports inline allows exactly
   * those ports.
   */
  lemma ListedPortsAreAllowed(project: ProjectView, ports: seq<nat>)
    requires project.directory != "" && |ports| > 0
    ensures var allow := AllowOf(LoadConfig(Some(project), Some(PortsConfig("tunnel", ports))));
      allow.AllowOnly? && forall p :: p in allow.ports <==> p in ports
  {
    var items := ParsedPortsConfig("tunnel", ports);
    LoadedPorts(project, PortsConfig("tunnel", ports), items);
    NumScalarsMembers(ports);
  }

  /** A config whose `tunnel` section has a non-empty `ports` list allows that list's numbers. */
  lemma LoadedPorts(project: ProjectView, text: string, items: seq<Scalar>)
    requires project.directory != "" && |items| > 0
    requires "tunnel" in Parse(text) && Get(Parse(text)["tunnel"], "ports") == Some(List(items))
    ensures AllowOf(LoadConfig(Some(project), Some(text))) == AllowOnly(NumbersOf(items))
  {
  }

  /** A port is among the numbers written for a list exactly when it is in the list. */
  lemma NumScalarsMembers(ports: seq<nat>)
    ensures forall p :: Num(p) in NumScalars(ports) <==> p in ports
  {
    var items := NumScalars(ports);
    forall p | p in ports
      ensures Num(p) in items
    {
      var i :| 0 <= i < |ports| && ports[i] == p;
      assert items[i] == Num(p);
    }
  }

  /** The `ports` list read back from a generated config file. */
  lemma ParsedPortsConfig(name: string, ports: seq<nat>) returns (items: seq<Scalar>)
    requires name == "tunnel" && |ports| > 0
    ensures items == NumScalars(ports)
    ensures name in Parse(PortsConfig(name, ports))
    ensures Get(Parse(PortsConfig(name, ports))[name], "ports") == Some(List(items))
  {
    assert IsWord(name) by {
      assert forall i :: 0 <= i < |name| ==> IsWordChar(name[i]);
    }
    PortsConfigRoundTrip(name, ports);
    items := NumScalars(ports);
  }

  /** `ports: []` reads as the list `[0]` (`Number("")` is 0), so it allows no port. */
  lemma EmptyListAllowsNothing(ports: seq<nat>)
    ensures AllowOf(Some(TunnelConfig(Some(InlineItems(""))))) == AllowOnly({0})
    ensures 0 !in ports ==> FilterPorts(Some(TunnelConfig(Some(InlineItems("")))), ports) == []
  {
    EmptyInlineListIsZero();
    var config := Some(TunnelConfig(Some([Num(0)])));
    assert AllowOf(config) == AllowOnly({0}) by {
      assert NumbersOf([Num(0)]) == {0};
    }
    if 0 !in ports {
      NoAllowedPort(config, ports);
    }
  }

  /** A list with no allowed port filters down to nothing. */
  lemma NoAllowedPort(config: Option<TunnelConfig>, ports: seq<nat>)
    requires AllowOf(config).AllowOnly?
    requires forall i :: 0 <= i < |ports| ==> ports[i] !in AllowOf(config).ports
    ensures FilterPorts(config, ports) == []
  {
    var allowed := AllowOf(config).ports;
    FilterNone(ports, (p: nat) => p in allowed);
  }

  // ---------------------------------------------------------------------
  // Watching

  /** The project exists and its container exists and is running. */
  predicate Watchable(project: Option<ProjectView>) {
    project.Some? && Truthy(project.value.containerId) && project.value.containerStatus == "running"
  }

  /**
   * `startProjectPortWatching`: a watch session starts, seeded, only for a
   * project whose container exists and is running.
   */
  function StartProjectWatching(s: State, projectId: string, project: Option<ProjectView>, seeds: seq<nat>): (r: State)
    ensures r == s || (r == s.(watcher := r.watcher, watchedProject := Some(projectId)))
    ensures r != s ==> project.Some? && Truthy(project.value.containerId)
                       && project.value.containerStatus == "running"
                       && r.watcher == PortWatcher.StartWatching(s.watcher, project.value.containerId.value, seeds)
    ensures Watchable(project) ==>
      r == s.(watcher := PortWatcher.StartWatching(s.watcher, project.value.containerId.value, seeds),
              watchedProject := Some(projectId))
    ensures !Watchable(project) ==> r == s
  {
    if Watchable(project) then
      s.(watcher := PortWatcher.StartWatching(s.watcher, project.value.containerId.value, seeds),
         watchedProject := Some(projectId))
    else s
  }

  /** The statuses the watcher callback installs: every port pending on its own number. */
  function PendingStatuses(ports: seq<nat>): (r: map<nat, PortStatus>)
    ensures r.Keys == set p | p in ports
    ensures forall p :: p in r ==> r[p] == PortStatus(p, p, Pending)
  {
    map p | p in ports :: PortStatus(p, p, Pending)
  }

  /** The `onChange` callback the coordinator gives the watcher for `projectId`. */
  function OnPortsChanged(s: State, projectId: string, ports: seq<nat>): (r: Outcome)
    ensures s.focus != Some(projectId) ==> r == Outcome(s, [])
    ensures s.focus == Some(projectId) ==>
      var filtered := FilterPorts(s.config, ports);
      && r.state == s.(activePorts := filtered, statuses := r.state.statuses)
      && r.state.statuses.Keys == (set p | p in filtered)
      && (forall p :: p in r.state.statuses ==> r.state.statuses[p] == PortStatus(p, p, Pending))
      && r.effects == [SaveDetected(projectId, filtered)] + SendPorts(s, filtered)
  {
    if s.focus != Some(projectId) then Outcome(s, [])
    else
      var filtered := FilterPorts(s.config, ports);
      var s1 := s.(activePorts := filtered, statuses := PendingStatuses(filtered));
      Outcome(s1, [SaveDetected(projectId, filtered)] + SendPorts(s1, filtered))
  }

  /** After a poll left the watcher at `w` and emitted `emitted`: the callback runs only for an emission. */
  function AfterPoll(s: State, w: PortWatcher.Watcher, emitted: Option<seq<nat>>): (r: Outcome)
    ensures emitted.None? || s.watchedProject.None? ==> r == Outcome(s.(watcher := w), [])
    ensures emitted.Some? && s.watchedProject.Some? ==>
      r == OnPortsChanged(s.(watcher := w), s.watchedProject.value, emitted.value)
    ensures r.state.watcher == w
  {
    var s1 := s.(watcher := w);
    if emitted.None? || s.watchedProject.None? then Outcome(s1, [])
    else OnPortsChanged(s1, s.watchedProject.value, emitted.value)
  }

  /** One poll of the watch session, followed by the callback when the list changed. */
  function WatcherPolled(s: State, containerId: string, raw: seq<nat>): (r: Outcome)
    ensures r.state.watcher == PortWatcher.Poll(s.watcher, containerId, raw).0
    ensures PortWatcher.Poll(s.watcher, containerId, raw).1.None? || s.watchedProject.None? ==>
      r == Outcome(s.(watcher := PortWatcher.Poll(s.watcher, containerId, raw).0), [])
    ensures PortWatcher.Poll(s.watcher, containerId, raw).1.Some? && s.watchedProject.Some? ==>
      r == OnPortsChanged(s.(watcher := PortWatcher.Poll(s.watcher, containerId, raw).0),
                          s.watchedProject.value, PortWatcher.Poll(s.watcher, containerId, raw).1.value)
  {
    var polled := PortWatcher.Poll(s.watcher, containerId, raw);
    AfterPoll(s, polled.0, polled.1)
  }

  // ---------------------------------------------------------------------
  // Focus and the agent link

  /** `setAgentConnection`. */
  function SetAgentConnection(s: State): (r: Outcome)
    ensures r.state == s.(linked := true)
    ensures Truthy(s.focus) ==> r.effects == [ToAgent(Text(PortsMsg(s.activePorts)))]
    ensures !Truthy(s.focus) ==> r.effects == []
  {
    var s1 := s.(linked := true);
    Outcome(s1, if Truthy(s.focus) then SendPorts(s1, s.activePorts) else [])
  }

  /** `clearAgentConnection`: the link goes first, so the closes that follow send nothing. */
  function ClearAgentConnection(s: State): (r: Outcome)
    ensures !r.state.linked && r.state.upstream == {} && r.state.statuses == map[]
    ensures r.state == s.(linked := false, upstream := {}, statuses := map[])
    ensures r.effects == DestroyAll(s.upstream)
  {
    Outcome(s.(linked := false, upstream := {}, statuses := map[]), DestroyAll(s.upstream))
  }

  /**
   * `setFocusedProject`. `project` is what `getProject` returns for the new
   * project, `configText` the content of its config file, and `cached` what
   * `getDetectedPorts` returns for it.
   */
  function SetFocusedProject(s: State, projectId: Option<string>, project: Option<ProjectView>,
                             configText: Option<string>, cached: seq<nat>): (r: Outcome)
    ensures Truthy(projectId) && projectId == s.focus ==> r == Outcome(s, [])
    ensures !(Truthy(projectId) && projectId == s.focus) ==>
      && r.state.focus == projectId && r.state.statuses == map[] && r.state.upstream == {}
      && r.state.linked == s.linked
      && DestroyAll(s.upstream) <= r.effects
      && (r.state.watcher == PortWatcher.Idle || r.state.watchedProject == projectId)
    ensures !Truthy(projectId) ==>
      && r.state.activePorts == [] && r.state.config == None && r.state.watcher == PortWatcher.Idle
      && r.effects == DestroyAll(s.upstream) + SendPorts(s, [])
    ensures Truthy(projectId) && projectId != s.focus ==>
      var config := LoadConfig(project, configText);
      && r.state.config == config
      && r.state.activePorts == FilterPorts(config, cached)
      && r.effects == DestroyAll(s.upstream) +
           (if |FilterPorts(config, cached)| > 0 then SendPorts(s, FilterPorts(config, cached)) else [])
      && (Watchable(project) ==>
            && r.state.watcher == PortWatcher.StartWatching(s.watcher, project.value.containerId.value, FilterPorts(config, cached))
            && r.state.watchedProject == projectId)
      && (!Watchable(project) ==> r.state.watcher == PortWatcher.Idle && r.state.watchedProject == None)
  {
    if Truthy(projectId) && projectId == s.focus then Outcome(s, [])
    else
      var torn := s.(watcher := PortWatcher.StopWatching(s.watcher), watchedProject := None,
                     activePorts := [], statuses := map[], config := None, upstream := {},
                     focus := projectId);
      var destroyed := DestroyAll(s.upstream);
      if !Truthy(projectId) then Outcome(torn, destroyed + SendPorts(torn, []))
      else
        var loaded := torn.(config := LoadConfig(project, configText));
        var ports := FilterPorts(loaded.config, cached);
        var s1 := if |ports| > 0 then loaded.(activePorts := ports) else loaded;
        var sent := if |ports| > 0 then SendPorts(s1, ports) else [];
        Outcome(StartProjectWatching(s1, projectId.value, project, ports), destroyed + sent)
  }

  // ---------------------------------------------------------------------
  // Messages from the agent and the container-side connections

  /**
   * What the environment supplies to `handleAgentTcpOpen`: the focused
   * project's row, the container IP `getContainerInfo` resolves, and whether
   * the dial to the container port succeeds (`connect` callback) or fails
   * (`error` event).
   */
  datatype OpenContext = OpenContext(project: Option<ProjectView>, ip: Option<string>, connects: bool)

  /** `handleAgentTcpOpen`, with the dial's outcome. */
  function HandleTcpOpen(s: State, id: nat, port: nat, ctx: OpenContext): (r: Outcome)
    ensures r.state == s || r.state == s.(upstream := s.upstream + {id}) || r.state == s.(upstream := s.upstream - {id})
    ensures !Truthy(s.focus) || ctx.project.None? || !Truthy(ctx.project.value.containerId) ==> r == Outcome(s, [])
    ensures Truthy(s.focus) && ctx.project.Some? && Truthy(ctx.project.value.containerId) ==>
      if !Truthy(ctx.ip) then r == Outcome(s, SendClose(s, id))
      else
        && |r.effects| >= 1 && r.effects[0] == Connect(id, port, ctx.ip.value)
        && (id in r.state.upstream <==> ctx.connects)
        && (ctx.connects ==> r.effects[1..] == if s.linked then [ToAgent(Text(TcpConnectedMsg(id)))] else [])
        && (!ctx.connects ==> r.effects[1..] == SendClose(s, id))
  {
    if !Truthy(s.focus) then Outcome(s, [])
    else if ctx.project.None? || !Truthy(ctx.project.value.containerId) then Outcome(s, [])
    else if !Truthy(ctx.ip) then Outcome(s, SendClose(s, id))
    else
      var dial := [Connect(id, port, ctx.ip.value)];
      if ctx.connects then
        Outcome(s.(upstream := s.upstream + {id}),
                dial + if s.linked then [ToAgent(Text(TcpConnectedMsg(id)))] else [])
      else Outcome(s.(upstream := s.upstream - {id}), dial + SendClose(s, id))
  }

  /** `handleAgentTcpClose`: only a registered connection is destroyed. */
  function HandleAgentTcpClose(s: State, id: nat): (r: Outcome)
    ensures r.state.upstream == s.upstream - {id}
    ensures r.effects != [] <==> id in s.upstream
    ensures id in s.upstream ==> r == Outcome(s.(upstream := s.upstream - {id}), [DestroyUpstream({id})])
    ensures id !in s.upstream ==> r == Outcome(s, [])
  {
    if id in s.upstream then Outcome(s.(upstream := s.upstream - {id}), [DestroyUpstream({id})])
    else Outcome(s, [])
  }

  /** `handleAgentMessage`, given the message the text decodes to. */
  function HandleAgentMessage(s: State, msg: ControlMessage, ctx: OpenContext): (r: Outcome)
    ensures msg.ListeningMsg? ==>
      && r.effects == [] && r.state == s.(statuses := r.state.statuses)
      && r.state.statuses.Keys == s.statuses.Keys + {msg.port}
      && r.state.statuses[msg.port] == PortStatus(msg.port, msg.localPort, Listening)
      && forall q :: q in s.statuses && q != msg.port ==> r.state.statuses[q] == s.statuses[q]
    ensures msg.ErrorMsg? ==>
      && r.effects == [] && r.state == s.(statuses := r.state.statuses)
      && r.state.statuses.Keys == s.statuses.Keys + {msg.port}
      && r.state.statuses[msg.port] == PortStatus(msg.port, msg.port, Failed)
      && forall q :: q in s.statuses && q != msg.port ==> r.state.statuses[q] == s.statuses[q]
    ensures msg.TcpOpenMsg? ==> r == HandleTcpOpen(s, msg.connectionId, msg.port, ctx)
    ensures msg.TcpCloseMsg? ==> r == HandleAgentTcpClose(s, msg.connectionId)
    ensures !(msg.ListeningMsg? || msg.ErrorMsg? || msg.TcpOpenMsg? || msg.TcpCloseMsg?) ==> r == Outcome(s, [])
  {
    match msg
    case ListeningMsg(port, localPort) =>
      Outcome(s.(statuses := s.statuses[port := PortStatus(port, localPort, Listening)]), [])
    case ErrorMsg(port, _) =>
      Outcome(s.(statuses := s.statuses[port := PortStatus(port, port, Failed)]), [])
    case TcpOpenMsg(id, port) => HandleTcpOpen(s, id, port, ctx)
    case TcpCloseMsg(id) => HandleAgentTcpClose(s, id)
    case _ => Outcome(s, [])
  }

  /** `handleAgentTcpData`: bytes for an unknown connection are dropped. */
  function HandleAgentTcpData(s: State, id: nat, data: seq<byte>): (r: Outcome)
    ensures r.state == s
    ensures r.effects == [] <==> id !in s.upstream
    ensures id in s.upstream ==> r.effects == [WriteUpstream(id, data)]
  {
    if id in s.upstream then Outcome(s, [WriteUpstream(id, data)]) else Outcome(s, [])
  }

  /** A container-side socket's `data` event: the bytes are framed to the agent. */
  function UpstreamData(s: State, id: nat, data: seq<byte>): (r: Outcome)
    ensures r.state == s
    ensures r.effects != [] <==> s.linked && id < U32_LIMIT
    ensures s.linked && id < U32_LIMIT ==> r.effects == [ToAgent(Binary(EncodeDataFrame(id, data).value))]
  {
    if !s.linked then Outcome(s, [])
    else match EncodeDataFrame(id, data)
      case None => Outcome(s, [])
      case Some(frame) => Outcome(s, [ToAgent(Binary(frame))])
  }

  /** A container-side socket's `close` or `error` event. */
  function UpstreamClosed(s: State, id: nat): (r: Outcome)
    ensures r.state == s.(upstream := s.upstream - {id})
    ensures s.linked ==> r.effects == [ToAgent(Text(TcpCloseMsg(id)))]
    ensures !s.linked ==> r.effects == []
  {
    Outcome(s.(upstream := s.upstream - {id}), SendClose(s, id))
  }

  // ---------------------------------------------------------------------
  // Ports and the container lifecycle

  /** `disconnectPort`; the boolean is its return value. */
  function DisconnectPort(s: State, port: nat): (r: (Outcome, bool))
    ensures !r.1 <==> port !in s.statuses
    ensures !r.1 ==> r.0 == Outcome(s, [])
    ensures r.1 ==>
      var t := r.0.state;
      && t == s.(activePorts := t.activePorts, statuses := t.statuses)
      && t.statuses == s.statuses - {port}
      && port !in t.activePorts && IsSubsequence(t.activePorts, s.activePorts)
      && (forall q :: q != port ==> (q in t.activePorts <==> q in s.activePorts))
      && r.0.effects == SendPorts(s, t.activePorts)
  {
    if port !in s.statuses then (Outcome(s, []), false)
    else
      var keep := (p: nat) => p != port;
      FilterIsSubsequence(s.activePorts, keep);
      var s1 := s.(activePorts := Filter(s.activePorts, keep), statuses := s.statuses - {port});
      (Outcome(s1, SendPorts(s1, s1.activePorts)), true)
  }

  /** `onContainerStopped`. */
  function OnContainerStopped(s: State, projectId: string): (r: Outcome)
    ensures s.focus != Some(projectId) ==> r == Outcome(s, [])
    ensures s.focus == Some(projectId) ==>
      && r.state.watcher == PortWatcher.Idle && r.state.activePorts == [] && r.state.statuses == map[]
      && r.state.upstream == s.upstream && r.state.focus == s.focus && r.state.linked == s.linked
      && r.state.config == s.config && r.state.watchedProject == None
      && r.effects == SendPorts(s, [])
  {
    if s.focus != Some(projectId) then Outcome(s, [])
    else
      var s1 := s.(watcher := PortWatcher.StopWatching(s.watcher), watchedProject := None,
                   activePorts := [], statuses := map[]);
      Outcome(s1, SendPorts(s1, []))
  }

  /** `onContainerStarted`: the focused project's running container gets a watch session; nothing else changes. */
  function OnContainerStarted(s: State, projectId: string, project: Option<ProjectView>, cached: seq<nat>): (r: Outcome)
    ensures r.effects == []
    ensures r.state == s.(watcher := r.state.watcher, watchedProject := r.state.watchedProject)
    ensures r.state != s ==>
      && s.focus == Some(projectId) && r.state.watchedProject == Some(projectId)
      && project.Some? && project.value.containerId.Some?
      && r.state.watcher == PortWatcher.StartWatching(s.watcher, project.value.containerId.value, FilterPorts(s.config, cached))
    ensures s.focus == Some(projectId) && Watchable(project) ==>
      r == Outcome(s.(watcher := PortWatcher.StartWatching(s.watcher, project.value.containerId.value, FilterPorts(s.config, cached)),
                      watchedProject := Some(projectId)), [])
    ensures s.focus != Some(projectId) || !Watchable(project) ==> r == Outcome(s, [])
  {
    if s.focus != Some(projectId) then Outcome(s, [])
    else Outcome(StartProjectWatching(s, projectId, project, FilterPorts(s.config, cached)), [])
  }

  /** `shutdownTunnels`. */
  function Shutdown(s: State): (r: Outcome)
    ensures r.state.watcher == PortWatcher.Idle && r.state.upstream == {} && r.state.statuses == map[]
    ensures r.state.linked == s.linked && r.state.focus == s.focus && r.state.activePorts == s.activePorts
    ensures r.effects == DestroyAll(s.upstream)
  {
    Outcome(s.(watcher := PortWatcher.StopWatching(s.watcher), watchedProject := None,
               upstream := {}, statuses := map[]),
            DestroyAll(s.upstream))
  }

  // ---------------------------------------------------------------------
  // All events

  datatype Event =
    | AgentOpened
    | AgentGone
    | Focus(focusId: Option<string>, project: Option<ProjectView>, configText: Option<string>, cached: seq<nat>)
    | Polled(containerId: string, raw: seq<nat>)
    | FromAgent(msg: ControlMessage, ctx: OpenContext)
    | AgentData(id: nat, data: seq<byte>)
    | ContainerData(id: nat, data: seq<byte>)
    | ContainerClosed(id: nat)
    | Disconnect(port: nat)
    | Stopped(projectId: string)
    | Started(projectId: string, project: Option<ProjectView>, cached: seq<nat>)
    | ShutdownAll

  function Step(s: State, e: Event): Outcome {
    match e
    case AgentOpened => SetAgentConnection(s)
    case AgentGone => ClearAgentConnection(s)
    case Focus(id, project, text, cached) => SetFocusedProject(s, id, project, text, cached)
    case Polled(c, raw) => WatcherPolled(s, c, raw)
    case FromAgent(msg, ctx) => HandleAgentMessage(s, msg, ctx)
    case AgentData(id, data) => HandleAgentTcpData(s, id, data)
    case ContainerData(id, data) => UpstreamData(s, id, data)
    case ContainerClosed(id) => UpstreamClosed(s, id)
    case Disconnect(port) => DisconnectPort(s, port).0
    case Stopped(id) => OnContainerStopped(s, id)
    case Started(id, project, cached) => OnContainerStarted(s, id, project, cached)
    case ShutdownAll => Shutdown(s)
  }

  function Run(s: State, events: seq<Event>): State
    decreases |events|
  {
    if |events| == 0 then s else Run(Step(s, events[0]).state, events[1..])
  }

  // ---------------------------------------------------------------------
  // Properties

  /** Focusing the project that was just focused does nothing more. */
  lemma FocusTwice(s: State, id: string, project: Option<ProjectView>, text: Option<string>, cached: seq<nat>,
                   project2: Option<ProjectView>, text2: Option<string>, cached2: seq<nat>)
    requires id != ""
    ensures var t := SetFocusedProject(s, Some(id), project, text, cached).state;
      SetFocusedProject(t, Some(id), project2, text2, cached2) == Outcome(t, [])
  {
    var t := SetFocusedProject(s, Some(id), project, text, cached).state;
    assert t.focus == Some(id);
  }

  /**
   * The coordinator's standing invariant: the watcher's own invariant; a
   * running watch session belongs to the focused project; statuses are keyed
   * by their port; and nothing is active without a focused project.
   */
  ghost predicate Valid(s: State) {
    && PortWatcher.Valid(s.watcher)
    && (s.watcher.container.Some? ==> s.watchedProject.Some? && s.watchedProject == s.focus)
    && (forall p :: p in s.statuses ==> s.statuses[p].port == p)
    && (s.focus.None? ==> s.activePorts == [])
  }

  lemma InitialValid()
    ensures Valid(Initial)
  {
    PortWatcher.StartWatchingValid(PortWatcher.Idle, "", []);
  }

  lemma {:induction false} FocusValid(s: State, id: Option<string>, project: Option<ProjectView>, text: Option<string>, cached: seq<nat>)
    requires Valid(s)
    ensures Valid(SetFocusedProject(s, id, project, text, cached).state)
  {
    PortWatcher.StartWatchingValid(s.watcher, "", []);
    if project.Some? && project.value.containerId.Some? {
      var config := LoadConfig(project, text);
      PortWatcher.StartWatchingValid(s.watcher, project.value.containerId.value, FilterPorts(config, cached));
    }
  }

  lemma {:induction false} PolledValid(s: State, c: string, raw: seq<nat>)
    requires Valid(s)
    ensures Valid(WatcherPolled(s, c, raw).state)
  {
    PortWatcher.PollValid(s.watcher, c, raw);
    var (w, emitted) := PortWatcher.Poll(s.watcher, c, raw);
    var s1 := s.(watcher := w);
    assert Valid(s1);
    if emitted.Some? && s.watchedProject.Some? {
      CallbackValid(s1, s.watchedProject.value, emitted.value);
    }
  }

  lemma CallbackValid(s: State, id: string, ports: seq<nat>)
    requires Valid(s)
    ensures Valid(OnPortsChanged(s, id, ports).state)
  {
  }

  lemma {:induction false} StartedValid(s: State, id: string, project: Option<ProjectView>, cached: seq<nat>)
    requires Valid(s)
    ensures Valid(OnContainerStarted(s, id, project, cached).state)
  {
    var r := OnContainerStarted(s, id, project, cached);
    if r.state != s {
      PortWatcher.StartWatchingValid(s.watcher, project.value.containerId.value, FilterPorts(s.config, cached));
    }
  }

  /** Every event keeps the invariant. */
  lemma {:induction false} StepValid(s: State, e: Event)
    requires Valid(s)
    ensures Valid(Step(s, e).state)
  {
    match e
    case Focus(id, project, text, cached) => FocusValid(s, id, project, text, cached);
    case Polled(c, raw) => PolledValid(s, c, raw);
    case Started(id, project, cached) => StartedValid(s, id, project, cached);
    case Disconnect(_) => TeardownStepValid(s, e);
    case Stopped(_) => TeardownStepValid(s, e);
    case ShutdownAll => TeardownStepValid(s, e);
    case _ => LinkStepValid(s, e);
  }

  /** The agent's link and traffic leave the watcher, the focus and the ports alone. */
  lemma LinkStepValid(s: State, e: Event)
    requires Valid(s)
    requires e.AgentOpened? || e.AgentGone? || e.FromAgent? || e.AgentData? || e.ContainerData? || e.ContainerClosed?
    ensures Valid(Step(s, e).state)
  {
    if e.AgentOpened? || e.AgentGone? {
      LinkChangeValid(s, e);
    } else if e.FromAgent? {
      AgentMessageValid(s, e);
    } else {
      TrafficValid(s, e);
    }
  }

  lemma LinkChangeValid(s: State, e: Event)
    requires Valid(s) && (e.AgentOpened? || e.AgentGone?)
    ensures Valid(Step(s, e).state)
  {
  }

  lemma AgentMessageValid(s: State, e: Event)
    requires Valid(s) && e.FromAgent?
    ensures Valid(Step(s, e).state)
  {
  }

  lemma TrafficValid(s: State, e: Event)
    requires Valid(s) && (e.AgentData? || e.ContainerData? || e.ContainerClosed?)
    ensures Valid(Step(s, e).state)
  {
  }

  /** Disconnecting a port, a stopped container and shutdown keep the invariant. */
  lemma TeardownStepValid(s: State, e: Event)
    requires Valid(s)
    requires e.Disconnect? || e.Stopped? || e.ShutdownAll?
    ensures Valid(Step(s, e).state)
  {
    PortWatcher.StartWatchingValid(s.watcher, "", []);
  }

  lemma {:induction false} RunValid(s: State, events: seq<Event>)
    requires Valid(s)
    ensures Valid(Run(s, events))
    decreases |events|
  {
    if |events| > 0 {
      StepValid(s, events[0]);
      RunValid(Step(s, events[0]).state, events[1..]);
    }
  }

  /**
   * In a valid state the watcher's callback always reports to the focused
   * project, so its stale-project check never fires for handlers that run
   * to completion one at a time.
   */
  lemma PollReportsToFocus(s: State, c: string, raw: seq<nat>)
    requires Valid(s) && PortWatcher.Poll(s.watcher, c, raw).1.Some?
    ensures s.focus.Some? && s.watchedProject == s.focus
  {
  }

  /** No effect is a frame sent to the agent. */
  predicate Silent(effects: seq<Effect>) {
    forall i :: 0 <= i < |effects| ==> !effects[i].ToAgent?
  }

  /** The effects of a sequence of events, in order. */
  function Effects(s: State, events: seq<Event>): seq<Effect>
    decreases |events|
  {
    if |events| == 0 then [] else Step(s, events[0]).effects + Effects(Step(s, events[0]).state, events[1..])
  }

  lemma FocusUnlinked(s: State, id: Option<string>, project: Option<ProjectView>, text: Option<string>, cached: seq<nat>)
    requires !s.linked
    ensures var r := SetFocusedProject(s, id, project, text, cached);
      !r.state.linked && (r.effects == [] || r.effects == DestroyAll(s.upstream))
  {
  }

  lemma PolledUnlinked(s: State, c: string, raw: seq<nat>)
    requires !s.linked
    ensures var r := WatcherPolled(s, c, raw);
      !r.state.linked && Silent(r.effects)
  {
    var polled := PortWatcher.Poll(s.watcher, c, raw);
    var s1 := s.(watcher := polled.0);
    if polled.1.Some? && s.watchedProject.Some? {
      CallbackUnlinked(s1, s.watchedProject.value, polled.1.value);
      assert WatcherPolled(s, c, raw) == OnPortsChanged(s1, s.watchedProject.value, polled.1.value);
    } else {
      assert WatcherPolled(s, c, raw) == Outcome(s1, []);
    }
  }

  /** Without an agent the watcher's callback only saves the ports. */
  lemma CallbackUnlinked(s: State, id: string, ports: seq<nat>)
    requires !s.linked
    ensures var r := OnPortsChanged(s, id, ports);
      !r.state.linked && Silent(r.effects)
  {
    var r := OnPortsChanged(s, id, ports);
    assert r.effects == [] || r.effects == [SaveDetected(id, r.state.activePorts)];
  }

  lemma MessageUnlinked(s: State, msg: ControlMessage, ctx: OpenContext)
    requires !s.linked
    ensures var r := HandleAgentMessage(s, msg, ctx);
      !r.state.linked && Silent(r.effects)
  {
    if msg.TcpOpenMsg? {
      var r := HandleTcpOpen(s, msg.connectionId, msg.port, ctx);
      assert r.effects == [] || r.effects == [Connect(msg.connectionId, msg.port, ctx.ip.value)];
    }
  }

  /** Without an agent, no event but the agent connecting sends it anything or links it. */
  lemma UnlinkedStepSilent(s: State, e: Event)
    requires !s.linked && !e.AgentOpened?
    ensures !Step(s, e).state.linked && Silent(Step(s, e).effects)
  {
    match e
    case Focus(id, project, text, cached) => FocusUnlinked(s, id, project, text, cached);
    case Polled(c, raw) => PolledUnlinked(s, c, raw);
    case FromAgent(msg, ctx) => MessageUnlinked(s, msg, ctx);
    case _ =>
  }

  /**
   * After the agent disconnects, nothing is sent to it (in particular no
   * `tunnel:tcp:close` for the connections destroyed) until it connects again.
   */
  lemma {:induction false} NothingSentWhileUnlinked(s: State, events: seq<Event>)
    requires !s.linked
    requires forall i :: 0 <= i < |events| ==> !events[i].AgentOpened?
    ensures Silent(Effects(s, events))
    decreases |events|
  {
    if |events| > 0 {
      var o := Step(s, events[0]);
      UnlinkedStepSilent(s, events[0]);
      NothingSentWhileUnlinked(o.state, events[1..]);
      EffectsUnfold(s, events);
      SilentAppend(o.effects, Effects(o.state, events[1..]));
    }
  }

  /** The effects of a non-empty run: the first step's, then the rest's. */
  lemma EffectsUnfold(s: State, events: seq<Event>)
    requires |events| > 0
    ensures Effects(s, events) == Step(s, events[0]).effects + Effects(Step(s, events[0]).state, events[1..])
  {
  }

  /** Two silent lists of effects make a silent list. */
  lemma SilentAppend(a: seq<Effect>, b: seq<Effect>)
    requires Silent(a) && Silent(b)
    ensures Silent(a + b)
  {
    forall i | 0 <= i < |a + b| ensures !(a + b)[i].ToAgent? {
      if i >= |a| { assert (a + b)[i] == b[i - |a|]; }
    }
  }

  /** The close reported by a socket destroyed when the agent disconnected sends nothing. */
  lemma CloseAfterClearIsSilent(s: State, id: nat)
    ensures UpstreamClosed(ClearAgentConnection(s).state, id).effects == []
  {
  }
}

=== FILE: decimal.dfy ===
/**
 * Decimal numerals: the canonical rendering of a natural number (what
 * `String(n)` and `Array.join` print) and JavaScript's `parseInt(s, 10)`
 * and `Number(s)` restricted to decimal digit strings.
 */
module Decimal {
  import opened Common
  import opened Text

  predicate AllDigits(s: string) {
    forall i :: 0 <= i < |s| ==> IsDigit(s[i])
  }

  function DigitValue(c: char): nat
    requires IsDigit(c)
  {
    c as int - '0' as int
  }

  function DigitChar(d: nat): (c: char)
    requires d < 10
    ensures IsDigit(c) && DigitValue(c) == d
  {
    ('0' as int + d) as char
  }

  /** The value of a digit string, most significant digit first. */
  function ValueOf(s: string): nat
    requires AllDigits(s)
  {
    if |s| == 0 then 0 else ValueOf(s[..|s| - 1]) * 10 + DigitValue(s[|s| - 1])
  }

  /** `String(n)`: shortest decimal numeral, no leading zero. */
  function NatToString(n: nat): (r: string)
    ensures |r| >= 1 && AllDigits(r)
    ensures ValueOf(r) == n
    ensures |r| > 1 ==> r[0] != '0'
  {
    if n < 10 then [DigitChar(n)]
    else
      var r := NatToString(n / 10) + [DigitChar(n % 10)];
      assert r[..|r| - 1] == NatToString(n / 10);
      r
  }

  /** `String(n)` for any integer. */
  function IntToString(n: int): (r: string)
    ensures |r| >= 1
  {
    if n >= 0 then NatToString(n) else "-" + NatToString(-n)
  }

  /** The decimal numerals of a list of numbers, in order. */
  function Numerals(ns: seq<nat>): (r: seq<string>)
    ensures |r| == |ns|
    ensures forall k :: 0 <= k < |r| ==> r[k] == NatToString(ns[k])
  {
    if |ns| == 0 then [] else [NatToString(ns[0])] + Numerals(ns[1..])
  }

  /** Different numbers print differently. */
  lemma NatToStringInjective(a: nat, b: nat)
    requires NatToString(a) == NatToString(b)
    ensures a == b
  {
  }

  /** Length of the longest prefix of digits. */
  function DigitRun(s: string): (k: nat)
    ensures k <= |s| && AllDigits(s[..k])
    ensures k < |s| ==> !IsDigit(s[k])
  {
    if |s| > 0 && IsDigit(s[0]) then
      var k := DigitRun(s[1..]) + 1;
      assert s[..k] == [s[0]] + s[1..][..k - 1];
      k
    else 0
  }

  /**
   * `parseInt(s, 10)`: leading white space is skipped, one sign is allowed,
   * and the longest run of digits after it is read; `None` is `NaN`.
   */
  function ParseInt(s: string): (r: Option<int>)
    ensures r.Some? ==> exists i :: 0 <= i < |s| && IsDigit(s[i])
  {
    var t := TrimStart(s);
    var negative := |t| > 0 && t[0] == '-';
    var u := if |t| > 0 && (t[0] == '-' || t[0] == '+') then t[1..] else t;
    var k := DigitRun(u);
    if k == 0 then None
    else
      assert IsDigit(s[|s| - |u|]) by { assert s[|s| - |u|] == u[0]; }
      var v: int := ValueOf(u[..k]);
      Some(if negative then -v else v)
  }

  /** `parseInt(s, 10) || 0`: `NaN` (and zero) become 0. */
  function ParseIntOrZero(s: string): int {
    ParseInt(s).GetOr(0)
  }

  /** Reading back a printed number gives the number. */
  lemma ParseIntOfNatToString(n: nat)
    ensures ParseInt(NatToString(n)) == Some(n)
  {
    ParseIntOfDigits(NatToString(n));
  }

  /** A non-empty digit string reads as its value. */
  lemma ParseIntOfDigits(s: string)
    requires |s| > 0 && AllDigits(s)
    ensures ParseInt(s) == Some(ValueOf(s))
  {
    assert IsDigit(s[0]);
    assert TrimStart(s) == s by {
      assert !IsSpace(s[0]);
    }
    assert s[0] != '-' && s[0] != '+';
    DigitRunOfDigits(s);
    assert s[..|s|] == s;
  }

  /** Reading back any printed integer gives the integer. */
  lemma ParseIntOfIntToString(n: int)
    ensures ParseInt(IntToString(n)) == Some(n)
  {
    if n >= 0 {
      ParseIntOfNatToString(n);
    } else {
      var d := NatToString(-n);
      var s := IntToString(n);
      assert s == "-" + d;
      assert TrimStart(s) == s by {
        assert !IsSpace(s[0]);
      }
      assert s[1..] == d;
      DigitRunOfDigits(d);
      assert d[..|d|] == d;
    }
  }

  lemma {:induction false} DigitRunOfDigits(s: string)
    requires AllDigits(s)
    ensures DigitRun(s) == |s|
  {
    if |s| > 0 {
      DigitRunOfDigits(s[1..]);
    }
  }

  /**
   * `Number(s)` as the source's configuration parser uses it: white space is
   * trimmed, the empty string is 0, a digit string is its value; anything else
   * is treated as not a number.
   */
  function NumberOf(s: string): (r: Option<nat>)
    ensures Trim(s) == "" ==> r == Some(0)
    ensures r.Some? && Trim(s) != "" ==> AllDigits(Trim(s))
  {
    var t := Trim(s);
    if AllDigits(t) then Some(ValueOf(t)) else None
  }
}

=== FILE: docker_events.dfy ===
/**
 * The Docker event listener: a container event of a managed project sets the
 * project's `container_status`, a `destroy` also clears its `container_id`,
 * and a `container:event` message goes to every browser. The table is the
 * projects map; the clock is a parameter and the broadcast is an output list.
 */
module DockerEvents {
  import opened Common
  import opened Projects

  /** The label under which a managed container carries its project's id. */
  const PROJECT_LABEL := "dockpit.project.id"

  /** `event.Actor`; `attributes` is `None` when the event has no `Attributes`. */
  datatype Actor = Actor(id: Option<string>, attributes: Option<map<string, string>>)

  /** A decoded Docker event: its `Action` and its `Actor`, either of which may be missing. */
  datatype DockerEvent = DockerEvent(action: Option<string>, actor: Option<Actor>)

  /** The `container:event` message. */
  datatype Broadcast = ContainerEvent(projectId: string, status: string, containerId: string)

  /** The values of the shared `ContainerStatus` type. */
  predicate IsContainerStatus(s: string) {
    s in {"created", "running", "paused", "restarting", "removing", "exited", "dead", "not_created"}
  }

  /** `mapEventToStatus`: the status a container action leaves behind, or `None` for `null`. */
  function MapEventToStatus(action: string): (r: Option<string>)
    ensures r == Some("running") <==> action == "start" || action == "unpause"
    ensures r == Some("exited") <==> action == "stop" || action == "die"
    ensures r == Some("not_created") <==> action == "destroy"
    ensures r == Some("paused") <==> action == "pause"
    ensures r.Some? ==> IsContainerStatus(r.value)
  {
    match action
    case "start" => Some("running")
    case "stop" => Some("exited")
    case "die" => Some("exited")
    case "destroy" => Some("not_created")
    case "pause" => Some("paused")
    case "unpause" => Some("running")
    case _ => None
  }

  /** The actions the listener subscribes to are exactly the ones that map to a status. */
  lemma SubscribedActionsMapped(action: string)
    ensures MapEventToStatus(action).Some? <==> action in ["start", "stop", "die", "destroy", "pause", "unpause"]
  {
  }

  /** `event.Actor?.Attributes?.["dockpit.project.id"]`, when truthy. */
  function ProjectIdOf(e: DockerEvent): (r: Option<string>)
    ensures r.Some? ==> |r.value| > 0
    ensures r.Some? <==> (
      && e.actor.Some? && e.actor.value.attributes.Some?
      && PROJECT_LABEL in e.actor.value.attributes.value
      && e.actor.value.attributes.value[PROJECT_LABEL] != "")
  {
    if e.actor.None? || e.actor.value.attributes.None? then None
    else
      var attrs := e.actor.value.attributes.value;
      if PROJECT_LABEL in attrs && attrs[PROJECT_LABEL] != "" then Some(attrs[PROJECT_LABEL]) else None
  }

  /** `event.Actor?.ID || ""`. */
  function ActorId(e: DockerEvent): (r: string)
    ensures r != "" <==> e.actor.Some? && e.actor.value.id.Some? && e.actor.value.id.value != ""
  {
    if e.actor.Some? && e.actor.value.id.Some? then e.actor.value.id.value else ""
  }

  /** `UPDATE projects SET ... WHERE id = ?`: a missing row is left missing. */
  function UpdateRow(t: Table, id: string, f: Row -> Row): (t': Table)
    ensures t'.Keys == t.Keys
    ensures forall k :: k in t && k != id ==> t'[k] == t[k]
    ensures id in t ==> t'[id] == f(t[id])
  {
    if id in t then t[id := f(t[id])] else t
  }

  /** `handleDockerEvent`: the new table and the messages broadcast. */
  function HandleDockerEvent(t: Table, e: DockerEvent, now: string): (r: (Table, seq<Broadcast>))
    ensures ProjectIdOf(e).None? || e.action.None? || MapEventToStatus(e.action.value).None? ==> r == (t, [])
    ensures r.0.Keys == t.Keys
    ensures forall k :: k in t && Some(k) != ProjectIdOf(e) ==> r.0[k] == t[k]
    ensures |r.1| <= 1
    ensures |r.1| == 1 ==> r.1[0] == ContainerEvent(ProjectIdOf(e).value, MapEventToStatus(e.action.value).value, ActorId(e))
  {
    var pid := ProjectIdOf(e);
    if pid.None? then (t, [])
    else
      var action := e.action.GetOr("");
      var status := MapEventToStatus(action);
      if status.None? then (t, [])
      else
        var t1 := UpdateRow(t, pid.value, (row: Row) => row.(containerStatus := status.value, updatedAt := now));
        var t2 := if action == "destroy" then UpdateRow(t1, pid.value, (row: Row) => row.(containerId := None, updatedAt := now)) else t1;
        (t2, [ContainerEvent(pid.value, status.value, ActorId(e))])
  }

  /**
   * A handled event of a known project sets its status, clears its container
   * id exactly when the action is `destroy`, and touches nothing else in the
   * row; a broadcast goes out even when the project has no row.
   */
  lemma HandledEvent(t: Table, e: DockerEvent, now: string)
    requires ProjectIdOf(e).Some? && e.action.Some? && MapEventToStatus(e.action.value).Some?
    ensures var (t', out) := HandleDockerEvent(t, e, now);
      var id := ProjectIdOf(e).value;
      && out == [ContainerEvent(id, MapEventToStatus(e.action.value).value, ActorId(e))]
      && (id in t ==>
          && t'[id].containerStatus == MapEventToStatus(e.action.value).value
          && t'[id].containerId == (if e.action.value == "destroy" then None else t[id].containerId)
          && t'[id].updatedAt == now
          && t'[id].(containerStatus := t[id].containerStatus, containerId := t[id].containerId, updatedAt := t[id].updatedAt) == t[id])
      && (id !in t ==> t' == t)
  {
  }

  /** Only `destroy` clears a container id. */
  lemma OnlyDestroyClears(t: Table, e: DockerEvent, now: string, k: string)
    requires k in t && t[k].containerId.Some?
    requires HandleDockerEvent(t, e, now).0[k].containerId.None?
    ensures e.action == Some("destroy") && ProjectIdOf(e) == Some(k)
  {
  }

  /** The events of a stream, handled in order. */
  function HandleAll(t: Table, events: seq<DockerEvent>, now: string): (r: (Table, seq<Broadcast>))
    ensures r.0.Keys == t.Keys
    ensures |r.1| <= |events|
  {
    if |events| == 0 then (t, [])
    else
      var (t1, out1) := HandleDockerEvent(t, events[0], now);
      var (t2, out2) := HandleAll(t1, events[1..], now);
      (t2, out1 + out2)
  }

  /** Whether an event is for project `id` and changes its status. */
  predicate Moves(e: DockerEvent, id: string) {
    ProjectIdOf(e) == Some(id) && e.action.Some? && MapEventToStatus(e.action.value).Some?
  }

  /** Event `i` is the last one of the stream that moves project `id`. */
  predicate LastMove(events: seq<DockerEvent>, i: int, id: string) {
    && 0 <= i < |events|
    && Moves(events[i], id)
    && forall j :: i < j < |events| ==> !Moves(events[j], id)
  }

  /**
   * After a stream of events, a project's status is the one the last event
   * that concerns it maps to, and is untouched if there is none.
   */
  lemma {:induction false} LastEventWins(t: Table, events: seq<DockerEvent>, now: string, id: string)
    requires id in t
    ensures (forall i :: 0 <= i < |events| ==> !Moves(events[i], id)) ==>
      HandleAll(t, events, now).0[id] == t[id]
    ensures forall i :: LastMove(events, i, id) ==>
      HandleAll(t, events, now).0[id].containerStatus == MapEventToStatus(events[i].action.value).value
    decreases |events|
  {
    if |events| > 0 {
      var t1 := HandleDockerEvent(t, events[0], now).0;
      LastEventWins(t1, events[1..], now, id);
      if !Moves(events[0], id) {
        assert t1[id] == t[id];
      } else {
        HandledEvent(t, events[0], now);
      }
      LastMoveShifts(events, id);
    }
  }

  /** A last move after the first event is a last move of the tail. */
  lemma LastMoveShifts(events: seq<DockerEvent>, id: string)
    requires |events| > 0
    ensures forall i :: LastMove(events, i, id) && i > 0 ==> LastMove(events[1..], i - 1, id)
  {
    forall i | LastMove(events, i, id) && i > 0
      ensures LastMove(events[1..], i - 1, id)
    {
      forall j | i - 1 < j < |events[1..]|
        ensures !Moves(events[1..][j], id)
      {
        assert events[1..][j] == events[j + 1];
      }
    }
  }
}

=== FILE: frames.dfy ===
/**
 * The binary data channel shared by the agent and the server: every frame
 * is the connection id as a big-endian unsigned 32-bit integer followed by
 * the raw payload, with no length field and no flags.
 */
module Frames {
  import opened Common

  const U32_LIMIT: nat := 0x1_0000_0000

  /** `buf.writeUInt32BE(n, 0)`. */
  function U32BE(n: nat): (b: seq<byte>)
    requires n < U32_LIMIT
    ensures |b| == 4
  {
    [n / 0x100_0000, (n / 0x1_0000) % 0x100, (n / 0x100) % 0x100, n % 0x100]
  }

  /** `buf.readUInt32BE(0)`. */
  function ReadU32BE(b: seq<byte>): (n: nat)
    requires |b| >= 4
    ensures n < U32_LIMIT
  {
    (b[0] as int) * 0x100_0000 + (b[1] as int) * 0x1_0000 + (b[2] as int) * 0x100 + b[3] as int
  }

  lemma U32RoundTrip(n: nat)
    requires n < U32_LIMIT
    ensures ReadU32BE(U32BE(n)) == n
  {
    var b := U32BE(n);
    assert n == (n / 0x100) * 0x100 + n % 0x100;
    assert n / 0x100 == (n / 0x1_0000) * 0x100 + (n / 0x100) % 0x100;
    assert n / 0x1_0000 == (n / 0x100_0000) * 0x100 + (n / 0x1_0000) % 0x100;
  }

  lemma U32ReadRoundTrip(b: seq<byte>)
    requires |b| >= 4
    ensures U32BE(ReadU32BE(b)) == b[..4]
  {
    var n := ReadU32BE(b);
    assert n / 0x100_0000 == b[0];
    assert n / 0x1_0000 == (b[0] as int) * 0x100 + b[1] as int;
    assert n / 0x100 == (b[0] as int) * 0x1_0000 + (b[1] as int) * 0x100 + b[2] as int;
  }

  /**
   * The frame `sendBinary` / `sendTcpData` build. `writeUInt32BE` throws for
   * an id that does not fit in 32 bits, so no frame exists for it.
   */
  function EncodeDataFrame(id: nat, payload: seq<byte>): (f: Option<seq<byte>>)
    ensures f.Some? <==> id < U32_LIMIT
    ensures f.Some? ==> |f.value| == 4 + |payload| && f.value[4..] == payload
  {
    if id < U32_LIMIT then Some(U32BE(id) + payload) else None
  }

  /**
   * The decoding both `handleBinaryFrame` (agent) and the server's tunnel
   * socket perform: frames shorter than four bytes are dropped.
   */
  function DecodeDataFrame(frame: seq<byte>): (r: Option<(nat, seq<byte>)>)
    ensures r.None? <==> |frame| < 4
    ensures r.Some? ==> r.value.0 < U32_LIMIT && |r.value.1| == |frame| - 4
  {
    if |frame| < 4 then None else Some((ReadU32BE(frame), frame[4..]))
  }

  /** Decoding an encoded frame gives the same id and payload back. */
  lemma DecodeEncode(id: nat, payload: seq<byte>)
    requires id < U32_LIMIT
    ensures DecodeDataFrame(EncodeDataFrame(id, payload).value) == Some((id, payload))
  {
    var f := U32BE(id) + payload;
    assert f[..4] == U32BE(id);
    U32RoundTrip(id);
    assert f[4..] == payload;
  }

  /** Re-encoding a decoded frame gives the same bytes back. */
  lemma EncodeDecode(frame: seq<byte>)
    requires |frame| >= 4
    ensures EncodeDataFrame(DecodeDataFrame(frame).value.0, DecodeDataFrame(frame).value.1) == Some(frame)
  {
    U32ReadRoundTrip(frame);
    assert frame == frame[..4] + frame[4..];
  }
}

=== FILE: git.dfy ===
/**
 * The readers of `git` output behind the status, diff and log endpoints:
 * porcelain status lines, the ahead/behind counts, `--numstat` lines and
 * blocks of the fixed log format. The command runs are inputs: `None` is a
 * run that failed.
 */
module Git {
  import opened Common
  import opened Text
  import opened Decimal

  // ---------------------------------------------------------------------
  // Status

  /** Column X: the change is in the index. */
  predicate IsStaged(line: string) {
    |line| > 0 && line[0] != ' ' && line[0] != '?'
  }

  /** Column Y: the work tree has the file modified or deleted. */
  predicate IsModified(line: string) {
    |line| > 1 && (line[1] == 'M' || line[1] == 'D')
  }

  predicate IsUntracked(line: string) {
    |line| > 1 && line[0] == '?' && line[1] == '?'
  }

  /** `line.slice(3)`. */
  function PathOf(line: string): string {
    if |line| >= 3 then line[3..] else ""
  }

  datatype Changes = Changes(staged: seq<string>, modified: seq<string>, untracked: seq<string>)

  /** The loop over porcelain lines: each line's file goes to every list its columns call for. */
  function Classify(lines: seq<string>): (r: Changes)
    ensures forall f :: f in r.staged <==> exists i :: 0 <= i < |lines| && IsStaged(lines[i]) && PathOf(lines[i]) == f
    ensures forall f :: f in r.modified <==> exists i :: 0 <= i < |lines| && IsModified(lines[i]) && PathOf(lines[i]) == f
    ensures forall f :: f in r.untracked <==> exists i :: 0 <= i < |lines| && IsUntracked(lines[i]) && PathOf(lines[i]) == f
    ensures |r.staged| + |r.untracked| <= |lines|
    decreases |lines|
  {
    if |lines| == 0 then Changes([], [], [])
    else
      var rest := Classify(lines[1..]);
      var line, f := lines[0], PathOf(lines[0]);
      assert forall i :: 1 <= i < |lines| ==> lines[i] == lines[1..][i - 1];
      assert forall i :: 0 <= i < |lines| - 1 ==> lines[1..][i] == lines[i + 1];
      Changes((if IsStaged(line) then [f] else []) + rest.staged,
              (if IsModified(line) then [f] else []) + rest.modified,
              (if IsUntracked(line) then [f] else []) + rest.untracked)
  }

  /** A porcelain line: two status columns, a space, the path. */
  function PorcelainLine(x: char, y: char, path: string): string {
    [x, y, ' '] + path
  }

  /**
   * A line git prints for one file is read back as that file, staged iff X is
   * neither a space nor `?`, modified iff Y is `M` or `D`, untracked iff both
   * columns are `?`; staged and modified can hold together, staged and
   * untracked cannot.
   */
  lemma ClassifyLine(x: char, y: char, path: string)
    ensures var r := Classify([PorcelainLine(x, y, path)]);
      && r.staged == (if x != ' ' && x != '?' then [path] else [])
      && r.modified == (if y == 'M' || y == 'D' then [path] else [])
      && r.untracked == (if x == '?' && y == '?' then [path] else [])
  {
    var line := PorcelainLine(x, y, path);
    assert line[0] == x && line[1] == y && line[3..] == path;
  }

  /** `parseInt(part, 10) || 0` on the `i`th part, which may be missing. */
  function CountAt(parts: seq<string>, i: nat): int {
    if i < |parts| then ParseIntOrZero(parts[i]) else 0
  }

  /** The ahead and behind counts; a failed run (no upstream) gives zeros. */
  function AheadBehind(out: Option<string>): (r: (int, int))
    ensures out.None? ==> r == (0, 0)
  {
    match out
    case None => (0, 0)
    case Some(text) =>
      var parts := SplitSpaces(Trim(text));
      (CountAt(parts, 0), CountAt(parts, 1))
  }

  /** `rev-list --left-right --count` prints the two counts tab-separated; they are read back. */
  lemma AheadBehindOfCounts(ahead: nat, behind: nat)
    ensures AheadBehind(Some(NatToString(ahead) + "\t" + NatToString(behind) + "\n")) == (ahead, behind)
  {
    var a, b := NatToString(ahead), NatToString(behind);
    var core := a + "\t" + b;
    TrimDigits(core, a, b);
    SplitSpacesTwo(a, b);
    ParseIntOfNatToString(ahead);
    ParseIntOfNatToString(behind);
  }

  lemma TrimDigits(core: string, a: string, b: string)
    requires core == a + "\t" + b && |a| > 0 && |b| > 0 && AllDigits(a) && AllDigits(b)
    ensures Trim(core + "\n") == core
  {
    assert core[0] == a[0] && IsDigit(a[0]);
    assert core[|core| - 1] == b[|b| - 1] && IsDigit(b[|b| - 1]);
    TrimNewline(core);
  }

  /** A line without surrounding spaces, read with its newline, trims back to itself. */
  lemma TrimNewline(core: string)
    requires |core| > 0 && !IsSpace(core[0]) && !IsSpace(core[|core| - 1])
    ensures Trim(core + "\n") == core
  {
    var s := core + "\n";
    assert s[0] == core[0];
    assert TrimStart(s) == s;
    assert s[..|s| - 1] == core;
    assert TrimEnd(s) == TrimEnd(core);
  }

  lemma SplitSpacesTwo(a: string, b: string)
    requires |a| > 0 && |b| > 0 && AllDigits(a) && AllDigits(b)
    ensures SplitSpaces(a + "\t" + b) == [a, b]
  {
    var s := a + "\t" + b;
    assert s[|a|] == '\t' && s[|a|] in s;
    forall m | 0 <= m < |a| ensures !IsSpace(s[m]) {
      assert s[m] == a[m];
    }
    FirstSpaceAt(s, |a|);
    assert s[..|a|] == a;
    assert s[|a| + 1] == b[0];
    assert SpaceRunEnd(s, |a|) == |a| + 1;
    assert s[|a| + 1..] == b;
    forall c | c in b ensures !IsSpace(c) {
      var m :| 0 <= m < |b| && b[m] == c;
    }
  }

  lemma FirstSpaceAt(s: string, k: nat)
    requires k < |s| && IsSpace(s[k])
    requires forall m :: 0 <= m < k ==> !IsSpace(s[m])
    ensures FirstSpace(s) == k
  {
  }

  datatype Status = Status(branch: string, staged: seq<string>, modified: seq<string>, untracked: seq<string>, ahead: int, behind: int)

  /**
   * `getGitStatus`: a failed branch query reads as "unknown", a failed status
   * query fails the call, and a failed count query gives zero counts.
   */
  function GitStatus(branchOut: Option<string>, statusOut: Option<string>, countsOut: Option<string>): (r: Option<Status>)
    ensures r.None? <==> statusOut.None?
    ensures r.Some? ==>
      && r.value.branch == (if branchOut.Some? then Trim(branchOut.value) else "unknown")
      && (r.value.ahead, r.value.behind) == AheadBehind(countsOut)
      && Changes(r.value.staged, r.value.modified, r.value.untracked) == Classify(Lines(statusOut.value))
  {
    match statusOut
    case None => None
    case Some(text) =>
      var changes := Classify(Lines(text));
      var (ahead, behind) := AheadBehind(countsOut);
      Some(Status(if branchOut.Some? then Trim(branchOut.value) else "unknown",
                  changes.staged, changes.modified, changes.untracked, ahead, behind))
  }

  // ---------------------------------------------------------------------
  // Diff

  /** The unstaged and staged diffs, the non-empty ones joined by a newline. */
  function CombinedDiff(unstaged: Option<string>, staged: Option<string>): (r: string)
    ensures unstaged.GetOr("") == "" ==> r == staged.GetOr("")
    ensures staged.GetOr("") == "" ==> r == unstaged.GetOr("")
    ensures unstaged.GetOr("") != "" && staged.GetOr("") != "" ==> r == unstaged.GetOr("") + "\n" + staged.GetOr("")
  {
    var d, c := unstaged.GetOr(""), staged.GetOr("");
    var kept := Filter([d, c], NonEmpty);
    assert [d, c][1..] == [c];
    assert d == "" ==> kept == Filter([c], NonEmpty);
    assert d != "" ==> kept == [d] + Filter([c], NonEmpty);
    assert d != "" && c != "" ==> kept == [d, c] && Join(kept, "\n") == d + "\n" + Join([c], "\n");
    Join(kept, "\n")
  }

  datatype DiffFile = DiffFile(path: string, status: string, additions: int, deletions: int)

  /** The `i`th tab-separated field; a missing one reads as empty. */
  function Field(parts: seq<string>, i: nat): string {
    if i < |parts| then parts[i] else ""
  }

  /** The path column of a numstat line (`const [add, del, path] = line.split("\t")`). */
  function StatPath(row: seq<string>): string {
    Field(row, 2)
  }

  function StatEntry(row: seq<string>): DiffFile {
    DiffFile(StatPath(row), "modified", ParseIntOrZero(Field(row, 0)), ParseIntOrZero(Field(row, 1)))
  }

  /** Each line cut into its tab-separated fields. */
  function Rows(lines: seq<string>): (r: seq<seq<string>>)
    ensures |r| == |lines| && forall i :: 0 <= i < |lines| ==> r[i] == Split(lines[i], '\t')
  {
    seq(|lines|, i requires 0 <= i < |lines| => Split(lines[i], '\t'))
  }

  /**
   * The rows the numstat loop keeps: lines without a path, or whose path is
   * already in `seen`, are skipped, and each kept path joins `seen`.
   */
  function KeptRows(rows: seq<seq<string>>, seen: set<string>): (r: seq<seq<string>>)
    ensures forall i :: 0 <= i < |r| ==> StatPath(r[i]) != "" && StatPath(r[i]) !in seen
    decreases |rows|
  {
    if |rows| == 0 then []
    else
      var p := StatPath(rows[0]);
      if p == "" || p in seen then KeptRows(rows[1..], seen)
      else [rows[0]] + KeptRows(rows[1..], seen + {p})
  }

  /** The numstat loop: one entry per kept row. */
  function StatFiles(rows: seq<seq<string>>, seen: set<string>): (r: seq<DiffFile>)
    ensures |r| == |KeptRows(rows, seen)|
    ensures forall i :: 0 <= i < |r| ==> r[i].path != "" && r[i].path !in seen && r[i].status == "modified"
  {
    var kept := KeptRows(rows, seen);
    seq(|kept|, i requires 0 <= i < |kept| => StatEntry(kept[i]))
  }

  /** The kept rows carry distinct paths. */
  lemma {:induction false} KeptDistinct(rows: seq<seq<string>>, seen: set<string>)
    ensures forall i, j :: 0 <= i < j < |KeptRows(rows, seen)| ==> StatPath(KeptRows(rows, seen)[i]) != StatPath(KeptRows(rows, seen)[j])
    decreases |rows|
  {
    if |rows| > 0 {
      var p := StatPath(rows[0]);
      if p == "" || p in seen {
        KeptDistinct(rows[1..], seen);
        assert KeptRows(rows, seen) == KeptRows(rows[1..], seen);
      } else {
        var rest := KeptRows(rows[1..], seen + {p});
        KeptDistinct(rows[1..], seen + {p});
        PrependNewPath(rows[0], rest);
        assert KeptRows(rows, seen) == [rows[0]] + rest;
      }
    }
  }

  /** A row whose path the rest does not have keeps the paths distinct. */
  lemma PrependNewPath(row: seq<string>, rest: seq<seq<string>>)
    requires forall i, j :: 0 <= i < j < |rest| ==> StatPath(rest[i]) != StatPath(rest[j])
    requires forall j :: 0 <= j < |rest| ==> StatPath(rest[j]) != StatPath(row)
    ensures forall i, j :: 0 <= i < j < |[row] + rest| ==> StatPath(([row] + rest)[i]) != StatPath(([row] + rest)[j])
  {
    var r := [row] + rest;
    forall i, j | 0 <= i < j < |r|
      ensures StatPath(r[i]) != StatPath(r[j])
    {
      assert r[j] == rest[j - 1];
      if i > 0 { assert r[i] == rest[i - 1]; }
    }
  }

  /** No path is listed twice. */
  lemma StatFilesDistinct(rows: seq<seq<string>>, seen: set<string>)
    ensures forall i, j :: 0 <= i < j < |StatFiles(rows, seen)| ==> StatFiles(rows, seen)[i].path != StatFiles(rows, seen)[j].path
  {
    KeptDistinct(rows, seen);
  }

  /** A row with a path not seen before has a kept row with the same path. */
  lemma {:induction false} KeptCovers(rows: seq<seq<string>>, seen: set<string>, k: nat) returns (i: nat)
    requires k < |rows| && StatPath(rows[k]) != "" && StatPath(rows[k]) !in seen
    ensures i < |KeptRows(rows, seen)| && StatPath(KeptRows(rows, seen)[i]) == StatPath(rows[k])
    decreases |rows|
  {
    var p := StatPath(rows[0]);
    var r := KeptRows(rows, seen);
    if k == 0 {
      i := 0;
    } else {
      assert rows[k] == rows[1..][k - 1];
      if p == "" || p in seen {
        i := KeptCovers(rows[1..], seen, k - 1);
      } else if StatPath(rows[k]) == p {
        i := 0;
      } else {
        var i' := KeptCovers(rows[1..], seen + {p}, k - 1);
        i := i' + 1;
        assert r[i] == KeptRows(rows[1..], seen + {p})[i'];
      }
    }
  }

  /** Every path some row carries is in the result, unless it was seen before. */
  lemma StatCovers(rows: seq<seq<string>>, seen: set<string>, k: nat)
    requires k < |rows| && StatPath(rows[k]) != "" && StatPath(rows[k]) !in seen
    ensures StatPath(rows[k]) in Paths(StatFiles(rows, seen))
  {
    var i := KeptCovers(rows, seen, k);
    assert Paths(StatFiles(rows, seen))[i] == StatPath(rows[k]);
  }

  function Paths(files: seq<DiffFile>): (r: seq<string>)
    ensures |r| == |files| && forall i :: 0 <= i < |files| ==> r[i] == files[i].path
  {
    seq(|files|, i requires 0 <= i < |files| => files[i].path)
  }

  /** None of the first `k` rows names `path`. */
  predicate NoRowBefore(rows: seq<seq<string>>, k: nat, path: string)
    requires k <= |rows|
  {
    forall j :: 0 <= j < k ==> StatPath(rows[j]) != path
  }

  /** Kept row `i` is the first row with its path. */
  lemma {:induction false} KeptFirst(rows: seq<seq<string>>, seen: set<string>, i: nat) returns (k: nat)
    requires i < |KeptRows(rows, seen)|
    ensures k < |rows| && KeptRows(rows, seen)[i] == rows[k]
    ensures NoRowBefore(rows, k, StatPath(rows[k]))
    decreases |rows|
  {
    var p := StatPath(rows[0]);
    var r := KeptRows(rows, seen);
    if p == "" || p in seen {
      assert r == KeptRows(rows[1..], seen);
      var k' := KeptFirst(rows[1..], seen, i);
      k := k' + 1;
      NoEarlierPath(rows, k', StatPath(rows[k]));
    } else if i == 0 {
      k := 0;
    } else {
      var rest := KeptRows(rows[1..], seen + {p});
      assert r[i] == rest[i - 1];
      var k' := KeptFirst(rows[1..], seen + {p}, i - 1);
      k := k' + 1;
      assert rows[1..][k'] == rows[k];
      NoEarlierPath(rows, k', StatPath(rows[k]));
    }
  }

  /** A path missing from the first row and from the next `k'` rows is missing from the first `k' + 1`. */
  lemma NoEarlierPath(rows: seq<seq<string>>, k': nat, path: string)
    requires k' < |rows| - 1 && StatPath(rows[0]) != path
    requires NoRowBefore(rows[1..], k', path)
    ensures NoRowBefore(rows, k' + 1, path)
  {
    forall j | 0 < j < k' + 1 ensures StatPath(rows[j]) != path {
      assert rows[j] == rows[1..][j - 1];
    }
  }

  /**
   * Every entry is built from the first row that carries its path: later
   * rows for the same path, the staged ones included, are ignored.
   */
  lemma FirstWins(rows: seq<seq<string>>, seen: set<string>, i: nat) returns (k: nat)
    requires i < |StatFiles(rows, seen)|
    ensures k < |rows| && StatFiles(rows, seen)[i] == StatEntry(rows[k])
    ensures NoRowBefore(rows, k, StatFiles(rows, seen)[i].path)
  {
    k := KeptFirst(rows, seen, i);
  }

  /** The numstat rows of both runs, unstaged first; a failed run prints nothing. */
  function NumstatRows(unstagedStat: Option<string>, stagedStat: Option<string>): seq<seq<string>> {
    Rows(Lines(unstagedStat.GetOr("") + "\n" + stagedStat.GetOr("")))
  }

  /** `getGitDiff`: failed runs count as empty output. */
  function GitDiff(unstaged: Option<string>, staged: Option<string>, unstagedStat: Option<string>, stagedStat: Option<string>): (r: (string, seq<DiffFile>))
    ensures r.0 == CombinedDiff(unstaged, staged)
    ensures r.1 == StatFiles(NumstatRows(unstagedStat, stagedStat), {})
    ensures forall i, j :: 0 <= i < j < |r.1| ==> r.1[i].path != r.1[j].path
    ensures forall i :: 0 <= i < |r.1| ==> r.1[i].path != "" && r.1[i].status == "modified"
  {
    var rows := NumstatRows(unstagedStat, stagedStat);
    StatFilesDistinct(rows, {});
    (CombinedDiff(unstaged, staged), StatFiles(rows, {}))
  }

  /**
   * The file list of a diff names every path the numstat runs print, and
   * each entry is read from the first row carrying its path.
   */
  lemma DiffFilesFromNumstat(unstaged: Option<string>, staged: Option<string>, unstagedStat: Option<string>, stagedStat: Option<string>)
    ensures var rows := NumstatRows(unstagedStat, stagedStat);
      forall k :: 0 <= k < |rows| && StatPath(rows[k]) != "" ==>
        StatPath(rows[k]) in Paths(GitDiff(unstaged, staged, unstagedStat, stagedStat).1)
    ensures var rows := NumstatRows(unstagedStat, stagedStat);
      var files := GitDiff(unstaged, staged, unstagedStat, stagedStat).1;
      forall i :: 0 <= i < |files| ==>
        exists k :: 0 <= k < |rows| && files[i] == StatEntry(rows[k]) && NoRowBefore(rows, k, files[i].path)
  {
    var rows := NumstatRows(unstagedStat, stagedStat);
    var files := GitDiff(unstaged, staged, unstagedStat, stagedStat).1;
    forall k | 0 <= k < |rows| && StatPath(rows[k]) != ""
      ensures StatPath(rows[k]) in Paths(files)
    {
      StatCovers(rows, {}, k);
    }
    forall i | 0 <= i < |files|
      ensures exists k :: 0 <= k < |rows| && files[i] == StatEntry(rows[k]) && NoRowBefore(rows, k, files[i].path)
    {
      var k := FirstWins(rows, {}, i);
    }
  }

  // ---------------------------------------------------------------------
  // Log

  datatype LogEntry = LogEntry(hash: string, shortHash: string, author: string, date: string, message: string)

  /** What the format `%H%n%h%n%an%n%aI%n%s%n---` ends each commit with. */
  const MARKER: string := "---\n"

  function FieldsOf(e: LogEntry): seq<string> {
    [e.hash, e.shortHash, e.author, e.date, e.message]
  }

  /** A block: its lines trimmed as a whole; fewer than five lines is no entry. */
  function EntryOfBlock(block: string): (r: Option<LogEntry>)
    ensures r.Some? ==> |Split(Trim(block), '\n')| >= 5
    ensures r.None? <==> |Split(Trim(block), '\n')| < 5
  {
    var lines := Split(Trim(block), '\n');
    if |lines| < 5 then None else Some(LogEntry(lines[0], lines[1], lines[2], lines[3], lines[4]))
  }

  function Entries(blocks: seq<string>): (r: seq<LogEntry>)
    ensures |r| <= |blocks|
    decreases |blocks|
  {
    if |blocks| == 0 then []
    else
      match EntryOfBlock(blocks[0])
      case None => Entries(blocks[1..])
      case Some(e) => [e] + Entries(blocks[1..])
  }

  /** `getGitLog`'s parse: blocks split on the marker, empty ones dropped. */
  function ParseLog(out: Option<string>): seq<LogEntry> {
    Entries(Filter(SplitOn(out.GetOr(""), MARKER), NonEmpty))
  }

  /** The block of one commit, before its marker. */
  function Block(e: LogEntry): string {
    e.hash + "\n" + e.shortHash + "\n" + e.author + "\n" + e.date + "\n" + e.message + "\n"
  }

  /** What `git log --format=%H%n%h%n%an%n%aI%n%s%n---` prints for these commits. */
  function FormatLog(entries: seq<LogEntry>): string
    decreases |entries|
  {
    if |entries| == 0 then "" else Block(entries[0]) + MARKER + FormatLog(entries[1..])
  }

  /** A field that ends a line and cannot be mistaken for the end of a block. */
  predicate SafeField(f: string) {
    '\n' !in f && !EndsWith(f, "---")
  }

  /**
   * A commit the log reader can take back: one-line fields none of which ends
   * in `---`, and a hash and a subject that `trim()` leaves whole.
   */
  predicate Printable(e: LogEntry) {
    && (forall k :: 0 <= k < 5 ==> SafeField(FieldsOf(e)[k]))
    && |e.hash| > 0 && !IsSpace(e.hash[0])
    && |e.message| > 0 && !IsSpace(e.message[|e.message| - 1])
  }

  /** Lines, each followed by a newline. */
  function Terminated(fields: seq<string>): string
    decreases |fields|
  {
    if |fields| == 0 then "" else fields[0] + "\n" + Terminated(fields[1..])
  }

  /** The marker cannot start inside a run of safe lines, whatever follows them. */
  lemma {:induction false} NoMarkerInside(fields: seq<string>, tail: string, j: nat)
    requires forall k :: 0 <= k < |fields| ==> SafeField(fields[k])
    requires j < |Terminated(fields)|
    ensures !OccursAt(Terminated(fields) + tail, MARKER, j)
    decreases |fields|
  {
    var f := fields[0];
    var rest := Terminated(fields[1..]) + tail;
    assert Terminated(fields) + tail == f + "\n" + rest;
    if j <= |f| {
      NoMarkerInLine(f, rest, j);
    } else {
      NoMarkerInside(fields[1..], tail, j - |f| - 1);
      Shifted(f + "\n", rest, j - |f| - 1);
    }
  }

  /** The marker cannot start within a safe line or at its newline. */
  lemma NoMarkerInLine(f: string, rest: string, j: nat)
    requires SafeField(f) && j <= |f|
    ensures !OccursAt(f + "\n" + rest, MARKER, j)
  {
    var s := f + "\n" + rest;
    assert s[|f|] == '\n';
    if j + 4 <= |s| {
      var w := s[j..j + 4];
      if j + 3 < |f| {
        assert w[3] == f[j + 3] && f[j + 3] in f;
      } else if j + 3 == |f| {
        assert w[..3] == f[|f| - 3..];
      } else {
        assert w[|f| - j] == '\n';
      }
      assert w != MARKER;
    }
  }

  /** An occurrence after a prefix is an occurrence in what follows it. */
  lemma Shifted(prefix: string, rest: string, j: nat)
    ensures OccursAt(prefix + rest, MARKER, |prefix| + j) <==> OccursAt(rest, MARKER, j)
  {
    var s := prefix + rest;
    if |prefix| + j + 4 <= |s| {
      assert s[|prefix| + j..|prefix| + j + 4] == rest[j..j + 4];
    }
  }

  lemma BlockIsTerminated(e: LogEntry)
    ensures Block(e) == Terminated(FieldsOf(e))
    ensures Block(e) == Join(FieldsOf(e), "\n") + "\n"
  {
    var fs := FieldsOf(e);
    assert Terminated(fs[5..]) == "";
    assert Terminated(fs[4..]) == e.message + "\n" + Terminated(fs[5..]);
    assert Terminated(fs[3..]) == e.date + "\n" + Terminated(fs[4..]);
    assert Terminated(fs[2..]) == e.author + "\n" + Terminated(fs[3..]);
    assert Terminated(fs[1..]) == e.shortHash + "\n" + Terminated(fs[2..]);
    assert Terminated(fs) == e.hash + "\n" + Terminated(fs[1..]);
    assert Join(fs[4..], "\n") == e.message;
    assert Join(fs[3..], "\n") == e.date + "\n" + e.message;
    assert Join(fs[2..], "\n") == e.author + "\n" + e.date + "\n" + e.message;
    assert Join(fs[1..], "\n") == e.shortHash + "\n" + e.author + "\n" + e.date + "\n" + e.message;
  }

  /** A printable commit's block reads back as the commit. */
  lemma EntryOfPrintedBlock(e: LogEntry)
    requires Printable(e)
    ensures EntryOfBlock(Block(e)) == Some(e)
  {
    var fs := FieldsOf(e);
    var joined := Join(fs, "\n");
    BlockIsTerminated(e);
    assert Trim(Block(e)) == joined by {
      var b := Block(e);
      assert b[0] == e.hash[0];
      assert TrimStart(b) == b;
      assert b[..|b| - 1] == joined;
      assert joined == e.hash + "\n" + e.shortHash + "\n" + e.author + "\n" + e.date + "\n" + e.message;
      assert joined[|joined| - 1] == e.message[|e.message| - 1];
      assert TrimEnd(joined) == joined;
    }
    assert forall k :: 0 <= k < |fs| ==> '\n' !in fs[k];
    SplitJoin(fs, '\n');
  }

  /** The marker after a printable commit is the first one in the text. */
  lemma SplitAfterBlock(e: LogEntry, rest: string)
    requires Printable(e)
    ensures SplitOn(Block(e) + MARKER + rest, MARKER) == [Block(e)] + SplitOn(rest, MARKER)
  {
    BlockIsTerminated(e);
    forall j | 0 <= j < |Block(e)|
      ensures !OccursAt(Block(e) + MARKER + rest, MARKER, j)
    {
      assert Block(e) + MARKER + rest == Terminated(FieldsOf(e)) + (MARKER + rest);
      NoMarkerInside(FieldsOf(e), MARKER + rest, j);
    }
    SplitOnFirst(Block(e), MARKER, rest);
  }

  /** The blocks of a printed log, after empty pieces are dropped, are the commits' blocks. */
  lemma {:induction false} BlocksOfLog(entries: seq<LogEntry>)
    requires forall i :: 0 <= i < |entries| ==> Printable(entries[i])
    ensures Entries(Filter(SplitOn(FormatLog(entries), MARKER), NonEmpty)) == entries
    decreases |entries|
  {
    if |entries| == 0 {
      SplitOnNone("", MARKER);
      assert Filter([""], NonEmpty) == [];
    } else {
      forall i | 0 <= i < |entries[1..]| ensures Printable(entries[1..][i]) {
        assert entries[1..][i] == entries[i + 1];
      }
      BlocksOfLog(entries[1..]);
      LogStep(entries[0], FormatLog(entries[1..]), entries[1..]);
      assert [entries[0]] + entries[1..] == entries;
    }
  }

  /** One more printable commit in front adds its entry in front. */
  lemma LogStep(e: LogEntry, rest: string, later: seq<LogEntry>)
    requires Printable(e)
    requires Entries(Filter(SplitOn(rest, MARKER), NonEmpty)) == later
    ensures Entries(Filter(SplitOn(Block(e) + MARKER + rest, MARKER), NonEmpty)) == [e] + later
  {
    var pieces := SplitOn(rest, MARKER);
    var blocks := Filter(pieces, NonEmpty);
    SplitAfterBlock(e, rest);
    KeepFirst(Block(e), pieces);
    EntryOfPrintedBlock(e);
    EntriesCons(Block(e), blocks, e);
  }

  lemma KeepFirst(x: string, xs: seq<string>)
    requires |x| > 0
    ensures Filter([x] + xs, NonEmpty) == [x] + Filter(xs, NonEmpty)
  {
    assert ([x] + xs)[1..] == xs;
  }

  lemma EntriesCons(block: string, blocks: seq<string>, e: LogEntry)
    requires EntryOfBlock(block) == Some(e)
    ensures Entries([block] + blocks) == [e] + Entries(blocks)
  {
    assert ([block] + blocks)[1..] == blocks;
  }

  /** Reading the printed log of printable commits gives the commits back, in order. */
  lemma LogRoundTrip(entries: seq<LogEntry>)
    requires forall i :: 0 <= i < |entries| ==> Printable(entries[i])
    ensures ParseLog(Some(FormatLog(entries))) == entries
  {
    BlocksOfLog(entries);
  }
}

=== FILE: github.dfy ===
/**
 * The GitHub CLI wrapper: reading the login status, listing the user's
 * repositories with an optional search and a limit, and cloning one. The
 * `gh` processes are not run: their (trimmed) output and exit code are
 * parameters, as are the parsed JSON list, the home directory and whether a
 * path exists.
 */
module Github {
  import opened Common
  import opened Text
  import opened Decimal

  const GH := "/usr/bin/gh"

  /** A finished `gh` process: its trimmed output streams and its exit code. */
  datatype ExecResult = ExecResult(stdout: string, stderr: string, exitCode: int)

  // ---------------------------------------------------------------------
  // Login status

  datatype AuthStatus = AuthStatus(authenticated: bool, username: Option<string>)

  /** `stdout || stderr`: `gh` writes the status to standard error. */
  function StatusText(res: ExecResult): string {
    if res.stdout != "" then res.stdout else res.stderr
  }

  /** `p1 ?? p2 ?? p3`: the capture of the first pattern that matches. */
  function FirstCapture(text: string, ms: seq<Matcher>): (r: Option<string>)
    ensures r.None? <==> forall k :: 0 <= k < |ms| ==> ms[k](text).None?
    ensures r.Some? ==> exists k :: 0 <= k < |ms| && ms[k](text) == r && forall j :: 0 <= j < k ==> ms[j](text).None?
  {
    if |ms| == 0 then None
    else if ms[0](text).Some? then ms[0](text)
    else
      var r := FirstCapture(text, ms[1..]);
      assert forall k :: 1 <= k < |ms| ==> ms[k] == ms[1..][k - 1];
      if r.Some? then
        var k :| 0 <= k < |ms[1..]| && ms[1..][k](text) == r && forall j :: 0 <= j < k ==> ms[1..][j](text).None?;
        assert ms[k + 1](text) == r;
        r
      else r
  }

  /**
   * `getGhAuthStatus`: a failing `gh auth status` means not logged in;
   * otherwise the user is logged in and the account name is whatever the
   * account patterns find in the status text.
   */
  function GetGhAuthStatus(res: ExecResult, accountPatterns: seq<Matcher>): (r: AuthStatus)
    ensures r.authenticated <==> res.exitCode == 0
    ensures !r.authenticated ==> r.username.None?
    ensures r.authenticated ==> r.username == FirstCapture(StatusText(res), accountPatterns)
  {
    if res.exitCode != 0 then AuthStatus(false, None)
    else AuthStatus(true, FirstCapture(StatusText(res), accountPatterns))
  }

  /** With nothing on standard output, the account is read from standard error. */
  lemma StatusReadFromStderr(res: ExecResult, accountPatterns: seq<Matcher>)
    requires res.exitCode == 0 && res.stdout == ""
    ensures GetGhAuthStatus(res, accountPatterns).username == FirstCapture(res.stderr, accountPatterns)
  {
  }

  // ---------------------------------------------------------------------
  // Repository list

  /** The fields of one element of the `/user/repos` answer; `None` for a missing or null field. */
  datatype RawRepo = RawRepo(
    fullName: Option<string>, name: Option<string>, ownerLogin: Option<string>,
    description: Option<string>, isPrivate: Option<bool>, defaultBranch: Option<string>,
    language: Option<string>, htmlUrl: Option<string>)

  /** A `GitHubRepo` of the answer; the names are copied as found, possibly missing. */
  datatype Repo = Repo(
    fullName: Option<string>, name: Option<string>, owner: string, description: Option<string>,
    isPrivate: bool, defaultBranch: string, language: Option<string>, url: string)

  datatype ListOptions = ListOptions(query: Option<string>, limit: Option<int>)

  datatype Listing = Listing(repos: seq<Repo>, hasMore: bool)

  const DEFAULT_LIMIT := 30
  const MAX_PAGE := 100

  /** `opts?.limit ?? 30`: only a missing limit is defaulted, so `0` stays `0`. */
  function Limit(opts: ListOptions): (n: int)
    ensures opts.limit.None? ==> n == DEFAULT_LIMIT
    ensures opts.limit.Some? ==> n == opts.limit.value
  {
    opts.limit.GetOr(DEFAULT_LIMIT)
  }

  /** `Math.min(limit + 1, 100)`: one more than shown, so that a further page can be noticed. */
  function PerPage(limit: int): (n: int)
    ensures n <= MAX_PAGE && n <= limit + 1
    ensures n == MAX_PAGE || n == limit + 1
  {
    if limit + 1 < MAX_PAGE then limit + 1 else MAX_PAGE
  }

  /** The `gh api` call made for a listing. */
  function ListCommand(opts: ListOptions): seq<string> {
    [GH, "api", "/user/repos?sort=updated&per_page=" + IntToString(PerPage(Limit(opts)))
                + "&affiliation=owner,collaborator,organization_member"]
  }

  /** `r.field?.toLowerCase().includes(q)`. */
  predicate FieldMatches(field: Option<string>, q: string) {
    field.Some? && Contains(Lower(field.value), q)
  }

  /** The search test: the lower-cased query in the full name, the name or the description. */
  predicate MatchesQuery(r: RawRepo, q: string) {
    FieldMatches(r.fullName, q) || FieldMatches(r.name, q) || FieldMatches(r.description, q)
  }

  /** The client-side search, applied only when the query is truthy. */
  function FilterByQuery(raw: seq<RawRepo>, query: Option<string>): (r: seq<RawRepo>)
    ensures query.None? || query.value == "" ==> r == raw
    ensures query.Some? && query.value != "" ==>
      forall x :: x in r <==> x in raw && MatchesQuery(x, Lower(query.value))
    ensures IsSubsequence(r, raw)
  {
    if query.Some? && query.value != "" then
      var q := Lower(query.value);
      FilterIsSubsequence(raw, (x: RawRepo) => MatchesQuery(x, q));
      Filter(raw, (x: RawRepo) => MatchesQuery(x, q))
    else
      SubsequenceRefl(raw);
      raw
  }

  /** The end index `xs.slice(0, end)` uses for a list of `n` elements. */
  function SliceEnd(n: nat, end: int): (k: nat)
    ensures k <= n
    ensures 0 <= end ==> k == if end < n then end else n
    ensures end < 0 ==> k == if n + end < 0 then 0 else n + end
  {
    if end >= 0 then (if end < n then end else n)
    else if n + end < 0 then 0
    else n + end
  }

  /** The field defaults of the `items.map` in `listGhRepos`. */
  function ToRepo(r: RawRepo): (repo: Repo)
    ensures repo.fullName == r.fullName && repo.name == r.name
    ensures repo.owner == r.ownerLogin.GetOr("")
    ensures repo.description.Some? <==> r.description.Some? && r.description.value != ""
    ensures repo.description.Some? ==> repo.description == r.description
    ensures repo.isPrivate == r.isPrivate.GetOr(false)
    ensures repo.defaultBranch == r.defaultBranch.GetOr("main")
    ensures repo.language == r.language && repo.url == r.htmlUrl.GetOr("")
  {
    Repo(r.fullName, r.name, r.ownerLogin.GetOr(""),
         if r.description.Some? && r.description.value != "" then r.description else None,
         r.isPrivate.GetOr(false), r.defaultBranch.GetOr("main"), r.language, r.htmlUrl.GetOr(""))
  }

  /** `JSON.parse(stdout || "[]")`: `parsed` is the parse of a non-empty output. */
  function RawList(res: ExecResult, parsed: Result<seq<RawRepo>, string>): (r: Result<seq<RawRepo>, string>)
    ensures res.stdout == "" ==> r == Ok([])
    ensures res.stdout != "" ==> r == parsed
  {
    if res.stdout == "" then Ok([]) else parsed
  }

  /**
   * `listGhRepos`. `res` is the answer of `ListCommand(opts)`; `parsed` is the
   * JSON parse of its output, `Err` when that throws.
   */
  function ListGhRepos(opts: ListOptions, res: ExecResult, parsed: Result<seq<RawRepo>, string>): (r: Result<Listing, string>)
    ensures res.exitCode != 0 ==> r == Err("gh failed: " + res.stderr)
    ensures res.exitCode == 0 ==> (r.Ok? <==> RawList(res, parsed).Ok?)
    ensures res.exitCode == 0 && RawList(res, parsed).Err? ==> r == Err(parsed.error)
    ensures r.Ok? ==>
      var filtered := FilterByQuery(RawList(res, parsed).value, opts.query);
      && (r.value.hasMore <==> |filtered| > Limit(opts))
      && |r.value.repos| == SliceEnd(|filtered|, Limit(opts))
      && forall i :: 0 <= i < |r.value.repos| ==> r.value.repos[i] == ToRepo(filtered[i])
  {
    if res.exitCode != 0 then Err("gh failed: " + res.stderr)
    else
      match RawList(res, parsed)
      case Err(e) => Err(e)
      case Ok(raw) =>
        var filtered := FilterByQuery(raw, opts.query);
        var limit := Limit(opts);
        var items := filtered[..SliceEnd(|filtered|, limit)];
        Ok(Listing(seq(|items|, i requires 0 <= i < |items| => ToRepo(items[i])), |filtered| > limit))
  }

  /** For a limit of zero or more, `hasMore` says exactly that some matching repos were cut off. */
  lemma HasMoreIffTruncated(opts: ListOptions, res: ExecResult, parsed: Result<seq<RawRepo>, string>)
    requires Limit(opts) >= 0
    requires ListGhRepos(opts, res, parsed).Ok?
    ensures var r := ListGhRepos(opts, res, parsed).value;
      var filtered := FilterByQuery(RawList(res, parsed).value, opts.query);
      (r.hasMore <==> |r.repos| < |filtered|) && (!r.hasMore ==> |r.repos| == |filtered|)
  {
  }

  /** A page one longer than the limit is asked for, up to the cap of 100. */
  lemma PageExceedsLimit(limit: int)
    ensures limit < MAX_PAGE ==> PerPage(limit) == limit + 1
    ensures limit >= MAX_PAGE - 1 ==> PerPage(limit) == MAX_PAGE
  {
  }

  /** The search ignores the case of the query. */
  lemma QueryIgnoresCase(raw: seq<RawRepo>, a: string, b: string)
    requires Lower(a) == Lower(b) && a != "" && b != ""
    ensures FilterByQuery(raw, Some(a)) == FilterByQuery(raw, Some(b))
  {
  }

  /** A repo whose name contains the query in any case is found. */
  lemma NameMatchFound(raw: seq<RawRepo>, i: nat, q: string)
    requires i < |raw| && q != ""
    requires raw[i].name.Some? && Contains(Lower(raw[i].name.value), Lower(q))
    ensures raw[i] in FilterByQuery(raw, Some(q))
  {
  }

  /** A repo without any of the fields gets every default. */
  lemma MissingFieldsDefault(fullName: Option<string>, name: Option<string>)
    ensures ToRepo(RawRepo(fullName, name, None, None, None, None, None, None))
         == Repo(fullName, name, "", None, false, "main", None, "")
  {
  }

  // ---------------------------------------------------------------------
  // Cloning

  /** `expandHome`: a leading `~/` becomes the home directory. */
  function ExpandHome(home: string, p: string): (r: string)
    ensures !StartsWith(p, "~/") ==> r == p
    ensures StartsWith(p, "~/") ==> StartsWith(r, home + "/") && r[|home| + 1..] == p[2..]
  {
    if StartsWith(p, "~/") then
      var r := home + "/" + p[2..];
      assert r[..|home| + 1] == home + "/";
      r
    else p
  }

  /** With an absolute home directory, expanding twice is expanding once. */
  lemma ExpandHomeIdempotent(home: string, p: string)
    requires StartsWith(home, "/")
    ensures ExpandHome(home, ExpandHome(home, p)) == ExpandHome(home, p)
  {
    var r := ExpandHome(home, p);
    if StartsWith(p, "~/") {
      assert r[0] == '/';
    }
  }

  /** The directory a clone goes to: the given one with `~` expanded, else `~/dev/<repo>`. */
  function CloneTarget(home: string, repo: string, targetDir: Option<string>): string {
    if targetDir.Some? && targetDir.value != "" then ExpandHome(home, targetDir.value)
    else home + "/dev/" + repo
  }

  /** The `gh repo clone` call made, if any, and the directory or the error. */
  datatype CloneOutcome = CloneOutcome(command: Option<seq<string>>, result: Result<string, string>)

  /**
   * `cloneGhRepo`. `present` tells whether a path exists; `res` is the
   * answer of the clone command when one is made.
   */
  function CloneGhRepo(home: string, repo: string, targetDir: Option<string>, present: string -> bool, res: ExecResult): (o: CloneOutcome)
    ensures var dir := CloneTarget(home, repo, targetDir);
      && (present(dir) ==> o == CloneOutcome(None, Ok(dir)))
      && (!present(dir) ==> o.command == Some([GH, "repo", "clone", repo, dir]))
      && (!present(dir) ==> (o.result.Ok? <==> res.exitCode == 0))
      && (o.result.Ok? ==> o.result.value == dir)
      && (o.result.Err? ==> o.result.error == "Clone failed: " + res.stderr)
  {
    var dir := CloneTarget(home, repo, targetDir);
    if present(dir) then CloneOutcome(None, Ok(dir))
    else
      var command := [GH, "repo", "clone", repo, dir];
      if res.exitCode != 0 then CloneOutcome(Some(command), Err("Clone failed: " + res.stderr))
      else CloneOutcome(Some(command), Ok(dir))
  }

  /** A `~/` target is cloned under the home directory. */
  lemma CloneTargetExpandsHome(home: string, repo: string, rel: string)
    ensures CloneTarget(home, repo, Some("~/" + rel)) == home + "/" + rel
  {
    assert ("~/" + rel)[..2] == "~/";
    assert ("~/" + rel)[2..] == rel;
  }

  /** Once a clone has succeeded, asking again makes no further call. */
  lemma SecondCloneSkipped(home: string, repo: string, targetDir: Option<string>, present: string -> bool,
                           res: ExecResult, res2: ExecResult)
    requires CloneGhRepo(home, repo, targetDir, present, res).result.Ok?
    ensures var dir := CloneGhRepo(home, repo, targetDir, present, res).result.value;
      var after := (p: string) => p == dir || present(p);
      CloneGhRepo(home, repo, targetDir, after, res2) == CloneOutcome(None, Ok(dir))
  {
  }
}

=== FILE: port_detector.dfy ===
/**
 * Finding the port a project's dev server listens on: first from the
 * container's recent log text, by a list of patterns, then from the
 * listening sockets `ss -tlnp` reports. The patterns are opaque matchers;
 * the log text and the `ss` output are inputs, `None` when reading them failed.
 */
module PortDetector {
  import opened Common
  import opened Text
  import opened Decimal
  import SsProbe

  /** A port number `detectFromLogs` accepts. */
  predicate InLogRange(p: int) {
    0 < p < 65536
  }

  /** A port number `detectFromSs` accepts. */
  predicate InSsRange(p: int) {
    3000 <= p < 65536
  }

  /** The port one pattern yields, if it matches with an acceptable number. */
  function Hit(text: string, m: Matcher): (r: Option<nat>)
    ensures r.Some? ==> InLogRange(r.value)
  {
    match m(text)
    case None => None
    case Some(capture) =>
      match ParseInt(capture)
      case Some(p) => if InLogRange(p) then Some(p) else None
      case None => None
  }

  /** Index `k` holds the first pattern that yields a port. */
  predicate FirstHit(text: string, ms: seq<Matcher>, k: int) {
    0 <= k < |ms| && Hit(text, ms[k]).Some? && forall j :: 0 <= j < k ==> Hit(text, ms[j]).None?
  }

  /** The pattern loop of `detectFromLogs`. */
  function ScanPatterns(text: string, ms: seq<Matcher>): (r: Option<nat>)
    ensures r.None? <==> forall k :: 0 <= k < |ms| ==> Hit(text, ms[k]).None?
    ensures r.Some? ==> exists k :: FirstHit(text, ms, k) && r == Hit(text, ms[k])
  {
    if |ms| == 0 then None
    else
      var h := Hit(text, ms[0]);
      if h.Some? then
        assert FirstHit(text, ms, 0);
        h
      else
        var r := ScanPatterns(text, ms[1..]);
        if r.Some? then
          var k :| FirstHit(text, ms[1..], k) && r == Hit(text, ms[1..][k]);
          FirstHitShifts(text, ms, k);
          r
        else
          NoHitShifts(text, ms);
          r
  }

  /** A first hit in the tail is the first hit overall when the head misses. */
  lemma FirstHitShifts(text: string, ms: seq<Matcher>, k: int)
    requires |ms| > 0 && Hit(text, ms[0]).None? && FirstHit(text, ms[1..], k)
    ensures FirstHit(text, ms, k + 1) && Hit(text, ms[k + 1]) == Hit(text, ms[1..][k])
  {
    FirstTrueShifts(m => Hit(text, m).Some?, ms, k);
  }

  /** When the head misses and every pattern in the tail misses, every pattern misses. */
  lemma NoHitShifts(text: string, ms: seq<Matcher>)
    requires |ms| > 0 && Hit(text, ms[0]).None?
    requires forall k :: 0 <= k < |ms[1..]| ==> Hit(text, ms[1..][k]).None?
    ensures forall k :: 0 <= k < |ms| ==> Hit(text, ms[k]).None?
  {
    NoTrueShifts(m => Hit(text, m).Some?, ms);
  }

  /** `detectFromLogs`. */
  function DetectFromLogs(logs: Option<string>, ms: seq<Matcher>): (r: Option<nat>)
    ensures logs.None? ==> r.None?
    ensures logs.Some? ==> r == ScanPatterns(logs.value, ms)
    ensures r.Some? ==> InLogRange(r.value)
  {
    if logs.None? then None else ScanPatterns(logs.value, ms)
  }

  /** The line loop of `detectFromSs`. */
  function FirstSsPort(lines: seq<string>): (r: Option<nat>)
    ensures r.None? <==> forall k :: 0 <= k < |lines| ==> !SsAccepts(lines[k])
    ensures r.Some? ==> exists k :: FirstSsLine(lines, k) && SsProbe.LinePort(lines[k]) == r
  {
    if |lines| == 0 then None
    else if SsAccepts(lines[0]) then SsProbe.LinePort(lines[0])
    else
      var r := FirstSsPort(lines[1..]);
      if r.Some? then
        var k :| FirstSsLine(lines[1..], k) && SsProbe.LinePort(lines[1..][k]) == r;
        FirstTrueShifts(SsAccepts, lines, k);
        assert FirstSsLine(lines, k + 1);
        r
      else
        NoTrueShifts(SsAccepts, lines);
        r
  }

  /** Index `k` holds the first accepted line. */
  predicate FirstSsLine(lines: seq<string>, k: int) {
    0 <= k < |lines| && SsAccepts(lines[k]) && forall j :: 0 <= j < k ==> !SsAccepts(lines[j])
  }

  /** The first accepted line decides the result. */
  lemma FirstSsPortAt(lines: seq<string>, k: int)
    requires FirstSsLine(lines, k)
    ensures FirstSsPort(lines) == SsProbe.LinePort(lines[k])
  {
    var r := FirstSsPort(lines);
    var k' :| FirstSsLine(lines, k') && SsProbe.LinePort(lines[k']) == r;
    assert k' == k;
  }

  /** A line whose first `:<digits><space>` number is in the accepted range. */
  predicate SsAccepts(line: string) {
    SsProbe.LinePort(line).Some? && InSsRange(SsProbe.LinePort(line).value)
  }

  /** `detectFromSs`. */
  function DetectFromSs(output: Option<string>): (r: Option<nat>)
    ensures output.None? ==> r.None?
    ensures output.Some? ==> r == FirstSsPort(Split(output.value, '\n'))
    ensures output.Some? ==> (r.None? <==> forall k :: 0 <= k < |Split(output.value, '\n')| ==> !SsAccepts(Split(output.value, '\n')[k]))
    ensures r.Some? ==> InSsRange(r.value)
  {
    if output.None? then None else FirstSsPort(Split(output.value, '\n'))
  }

  /** `detectPort`: the log scan when it finds a port, the `ss` scan otherwise. */
  function DetectPort(logs: Option<string>, ms: seq<Matcher>, ssOutput: Option<string>): (r: Option<nat>)
    ensures DetectFromLogs(logs, ms).Some? ==> r == DetectFromLogs(logs, ms)
    ensures DetectFromLogs(logs, ms).None? ==> r == DetectFromSs(ssOutput)
    ensures r.Some? ==> r.value > 0
  {
    var fromLogs := DetectFromLogs(logs, ms);
    if fromLogs.Some? then fromLogs else DetectFromSs(ssOutput)
  }

  /**
   * A pattern that matches with an out-of-range number does not stop the
   * scan: the next pattern is tried.
   */
  lemma OutOfRangeFallsThrough(text: string, m: Matcher, rest: seq<Matcher>, p: int)
    requires m(text).Some? && ParseInt(m(text).value) == Some(p) && !InLogRange(p)
    ensures ScanPatterns(text, [m] + rest) == ScanPatterns(text, rest)
  {
    assert ([m] + rest)[1..] == rest;
  }

  /** The log scan reports the number of the first pattern that hits. */
  lemma LogsReportFirstHit(logs: string, ms: seq<Matcher>, k: int)
    requires FirstHit(logs, ms, k)
    ensures DetectFromLogs(Some(logs), ms) == Hit(logs, ms[k])
  {
    var r := ScanPatterns(logs, ms);
    var k' :| FirstHit(logs, ms, k') && r == Hit(logs, ms[k']);
    assert k' == k;
  }

  /** `ss` output whose lines hold a listener after lines it rejects reports that listener. */
  lemma SsOutputReportsListener(before: seq<string>, address: string, p: nat, rest: string)
    requires ':' !in address && InSsRange(p) && '\n' !in address && '\n' !in rest
    requires forall k :: 0 <= k < |before| ==> !SsAccepts(before[k]) && '\n' !in before[k]
    ensures DetectFromSs(Some(Join(before + [address + ":" + NatToString(p) + " " + rest], "\n"))) == Some(p)
  {
    var line := address + ":" + NatToString(p) + " " + rest;
    var lines := before + [line];
    assert '\n' !in line;
    assert forall k :: 0 <= k < |lines| ==> '\n' !in lines[k];
    SplitJoin(lines, '\n');
    SsFindsListener(before, address, p, rest);
  }

  /** A listening line in the `ss` format is found, and earlier system ports are skipped. */
  lemma SsFindsListener(before: seq<string>, address: string, p: nat, rest: string)
    requires ':' !in address && InSsRange(p)
    requires forall k :: 0 <= k < |before| ==> !SsAccepts(before[k])
    ensures FirstSsPort(before + [address + ":" + NatToString(p) + " " + rest]) == Some(p)
  {
    var line := address + ":" + NatToString(p) + " " + rest;
    SsProbe.LinePortOfAddress(address, p, ' ', rest);
    assert line == address + ":" + NatToString(p) + [' '] + rest;
    var lines := before + [line];
    assert lines[|before|] == line;
    assert forall k :: 0 <= k < |before| ==> lines[k] == before[k];
    assert FirstSsLine(lines, |before|);
    FirstSsPortAt(lines, |before|);
  }
}

=== FILE: port_watcher.dfy ===
/**
 * The port watcher of apps/api/src/docker/port-watcher.ts: a hysteresis
 * filter over raw per-poll port observations that reports a debounced,
 * sorted "confirmed" port list whenever it changes.
 *
 * The source's comments speak of "consecutive" polls; the code keeps the
 * seen count of a port that is not yet confirmed across polls that miss it,
 * so confirmation needs two observations in total, not two in a row. The
 * model follows the code (see `CumulativeConfirmation`).
 */
module PortWatcher {
  import opened Common
  import opened Text
  import opened Decimal

  const STABLE_THRESHOLD: nat := 2
  const ABSENT_THRESHOLD: nat := 2

  /** The module-level state of the watcher (the interval timer is left out). */
  datatype Watcher = Watcher(
    container: Option<string>,
    seen: map<nat, nat>,
    absent: map<nat, nat>,
    confirmed: set<nat>,
    lastReported: seq<nat>)

  predicate StrictlyIncreasing(s: seq<nat>) {
    forall i, j :: 0 <= i < j < |s| ==> s[i] < s[j]
  }

  /** A finite set of naturals has a least element. */
  lemma MinExists(s: set<nat>)
    requires s != {}
    ensures exists m :: m in s && forall y :: y in s ==> m <= y
  {
    var m := LeastOf(s);
  }

  /** The least element, found by taking one element out at a time. */
  lemma {:induction false} LeastOf(s: set<nat>) returns (m: nat)
    requires s != {}
    ensures m in s && forall y :: y in s ==> m <= y
    decreases |s|
  {
    var x :| x in s;
    if s == {x} {
      m := x;
    } else {
      var m' := LeastOf(s - {x});
      m := if x < m' then x else m';
      forall y | y in s ensures m <= y {
        if y != x { assert y in s - {x}; }
      }
    }
  }

  function MinOf(s: set<nat>): (m: nat)
    requires s != {}
    ensures m in s && forall y :: y in s ==> m <= y
  {
    MinExists(s);
    var m :| m in s && forall y :: y in s ==> m <= y;
    m
  }

  /** `Array.from(set).sort((a, b) => a - b)`. */
  function SortedList(s: set<nat>): (r: seq<nat>)
    ensures |r| == |s|
    ensures forall x :: x in r <==> x in s
    ensures StrictlyIncreasing(r)
    decreases |s|
  {
    if s == {} then []
    else
      var m := MinOf(s);
      var rest := SortedList(s - {m});
      assert forall k :: 0 <= k < |rest| ==> m < rest[k] by {
        forall k | 0 <= k < |rest| ensures m < rest[k] {
          assert rest[k] in s - {m};
        }
      }
      var r := [m] + rest;
      assert forall i :: 1 <= i < |r| ==> r[i] == rest[i - 1];
      r
  }

  /** `ports.join(",")`: the key two reports are compared by. */
  function Key(ports: seq<nat>): string {
    Join(Numerals(ports), ",")
  }

  /** Two port lists have the same key exactly when they are equal. */
  lemma KeyInjective(a: seq<nat>, b: seq<nat>)
    ensures Key(a) == Key(b) <==> a == b
  {
    KeyNonEmpty(a);
    KeyNonEmpty(b);
    if Key(a) == Key(b) && |a| > 0 && |b| > 0 {
      var na, nb := Numerals(a), Numerals(b);
      NumeralsHaveNoComma(a);
      NumeralsHaveNoComma(b);
      SplitJoin(na, ',');
      SplitJoin(nb, ',');
      assert na == nb;
      forall k | 0 <= k < |a| ensures a[k] == b[k] {
        NatToStringInjective(a[k], b[k]);
      }
    }
  }

  lemma NumeralsHaveNoComma(ports: seq<nat>)
    ensures forall k :: 0 <= k < |Numerals(ports)| ==> ',' !in Numerals(ports)[k]
  {
    forall k | 0 <= k < |Numerals(ports)| ensures ',' !in Numerals(ports)[k] {
      var d := NatToString(ports[k]);
      assert forall i :: 0 <= i < |d| ==> d[i] != ',';
    }
  }

  /** Only the empty list has the empty key. */
  lemma {:induction false} KeyNonEmpty(ports: seq<nat>)
    ensures |ports| > 0 <==> |Key(ports)| > 0
  {
    var n := Numerals(ports);
    if |n| == 0 {
    } else if |n| > 1 {
      assert Key(ports) == n[0] + "," + Join(n[1..], ",");
    } else {
      assert Key(ports) == n[0];
    }
  }

  /** A watcher with no session: what `stopWatching` leaves behind. */
  const Idle: Watcher := Watcher(None, map[], map[], {}, [])

  /** `stopWatching`: every counter, the confirmed set and the last report are cleared. */
  function StopWatching(w: Watcher): (r: Watcher)
    ensures r.container.None? && r.seen == map[] && r.absent == map[]
    ensures r.confirmed == {} && r.lastReported == []
  {
    Idle
  }

  /**
   * `startWatching`: the previous session is stopped, then every seed port
   * gets a seen count of `STABLE_THRESHOLD - 1` so one observation confirms it.
   */
  function StartWatching(w: Watcher, containerId: string, seeds: seq<nat>): (r: Watcher)
    ensures r.container == Some(containerId)
    ensures r.seen.Keys == set p | p in seeds
    ensures forall p :: p in r.seen ==> r.seen[p] == STABLE_THRESHOLD - 1
    ensures r.absent == map[] && r.confirmed == {} && r.lastReported == []
  {
    var stopped := StopWatching(w);
    stopped.(container := Some(containerId),
             seen := map p | p in seeds :: STABLE_THRESHOLD - 1)
  }

  /**
   * The first half of a poll: every observed port's seen count goes up by
   * one, its absent count is cleared, and it is confirmed once its seen count
   * reaches the threshold.
   */
  function Sighted(w: Watcher, cur: set<nat>): (r: Watcher)
    ensures r.container == w.container && r.lastReported == w.lastReported
    ensures r.seen.Keys == w.seen.Keys + cur && r.absent.Keys == w.absent.Keys - cur
    ensures forall p :: p in cur ==> CountOf(r.seen, p) == CountOf(w.seen, p) + 1
    ensures forall p :: p !in cur ==> CountOf(r.seen, p) == CountOf(w.seen, p)
    ensures forall p :: p !in cur ==> CountOf(r.absent, p) == CountOf(w.absent, p)
    ensures forall p :: p in r.confirmed <==> p in w.confirmed || (p in cur && CountOf(w.seen, p) + 1 >= STABLE_THRESHOLD)
  {
    var seen := map p | p in w.seen.Keys + cur :: if p in cur then CountOf(w.seen, p) + 1 else w.seen[p];
    w.(seen := seen,
       absent := map p | p in w.absent.Keys && p !in cur :: w.absent[p],
       confirmed := w.confirmed + set p | p in cur && seen[p] >= STABLE_THRESHOLD)
  }

  /**
   * The second half of a poll: every confirmed port missing from the poll
   * loses its seen count and gains an absent count, and once that count
   * reaches the threshold the port is dropped from the confirmed set together
   * with its absent count. Every other port is untouched.
   */
  function Missed(w: Watcher, cur: set<nat>): (r: Watcher)
    ensures r.container == w.container && r.lastReported == w.lastReported
    ensures r.confirmed <= w.confirmed
    ensures r.seen.Keys <= w.seen.Keys && r.absent.Keys <= w.absent.Keys + w.confirmed
    ensures forall p :: p in w.confirmed && p !in cur ==> p !in r.seen
    ensures forall p :: p in w.confirmed && p !in cur && CountOf(w.absent, p) + 1 >= ABSENT_THRESHOLD ==>
      p !in r.confirmed && p !in r.absent
    ensures forall p :: p in w.confirmed && p !in cur && CountOf(w.absent, p) + 1 < ABSENT_THRESHOLD ==>
      p in r.confirmed && CountOf(r.absent, p) == CountOf(w.absent, p) + 1
    ensures forall p :: !(p in w.confirmed && p !in cur) ==>
      CountOf(r.seen, p) == CountOf(w.seen, p) && CountOf(r.absent, p) == CountOf(w.absent, p)
      && (p in r.confirmed <==> p in w.confirmed)
  {
    var missing := w.confirmed - cur;
    var absent := map p | p in w.absent.Keys + missing :: if p in missing then CountOf(w.absent, p) + 1 else w.absent[p];
    var removed := set p | p in missing && absent[p] >= ABSENT_THRESHOLD;
    w.(seen := map p | p in w.seen.Keys && p !in missing :: w.seen[p],
       absent := map p | p in absent.Keys && p !in removed :: absent[p],
       confirmed := w.confirmed - removed)
  }

  /** The counters and confirmed set after one poll that observed `raw`. */
  function Observe(w: Watcher, raw: seq<nat>): Watcher {
    var cur := set p | p in raw;
    Missed(Sighted(w, cur), cur)
  }

  /**
   * One `poll` of the session watching `containerId`, given the ports the
   * probe reported. A poll of a session that is no longer current changes
   * nothing. The second result is the list passed to `onChange`, if called.
   */
  function Poll(w: Watcher, containerId: string, raw: seq<nat>): (r: (Watcher, Option<seq<nat>>))
    ensures w.container != Some(containerId) ==> r == (w, None)
    ensures w.container == Some(containerId) ==>
      && r.0 == Observe(w, raw).(lastReported := r.0.lastReported)
      && (r.1.Some? <==> SortedList(r.0.confirmed) != w.lastReported)
      && (r.1.Some? ==> r.1.value == SortedList(r.0.confirmed) && r.0.lastReported == r.1.value)
      && (r.1.None? ==> r.0.lastReported == w.lastReported)
  {
    if w.container != Some(containerId) then (w, None)
    else
      var w1 := Observe(w, raw);
      var sorted := SortedList(w1.confirmed);
      KeyInjective(sorted, w.lastReported);
      if Key(sorted) != Key(w.lastReported) then (w1.(lastReported := sorted), Some(sorted))
      else (w1, None)
  }

  /** Every observed port's seen count goes up by one and its absent count is cleared. */
  lemma ObservedPortCounts(w: Watcher, raw: seq<nat>, p: nat)
    requires p in raw
    ensures p in Observe(w, raw).seen && Observe(w, raw).seen[p] == CountOf(w.seen, p) + 1
    ensures p !in Observe(w, raw).absent
    ensures CountOf(w.seen, p) + 1 >= STABLE_THRESHOLD ==> p in Observe(w, raw).confirmed
  {
  }

  /** A port becomes confirmed only in a poll that observes it with seen count at least 2. */
  lemma ConfirmationNeedsTwoSightings(w: Watcher, raw: seq<nat>, p: nat)
    requires p !in w.confirmed && p in Observe(w, raw).confirmed
    ensures p in raw && CountOf(w.seen, p) + 1 >= STABLE_THRESHOLD
  {
  }

  /**
   * A port not confirmed and not observed keeps its seen count: the count is
   * cumulative over polls, not consecutive.
   */
  lemma UnconfirmedCountKept(w: Watcher, raw: seq<nat>, p: nat)
    requires p !in w.confirmed && p !in raw
    ensures CountOf(Observe(w, raw).seen, p) == CountOf(w.seen, p)
    ensures p !in Observe(w, raw).confirmed
  {
  }

  /**
   * A confirmed port missing from a poll loses its seen count; it stays
   * confirmed while its absent count is below 2 and is dropped, with its
   * absent count, when the count reaches 2.
   */
  lemma MissingConfirmedPort(w: Watcher, raw: seq<nat>, p: nat)
    requires p in w.confirmed && p !in raw
    ensures p !in Observe(w, raw).seen
    ensures CountOf(w.absent, p) + 1 < ABSENT_THRESHOLD ==>
      p in Observe(w, raw).confirmed && CountOf(Observe(w, raw).absent, p) == CountOf(w.absent, p) + 1
    ensures CountOf(w.absent, p) + 1 >= ABSENT_THRESHOLD ==>
      p !in Observe(w, raw).confirmed && p !in Observe(w, raw).absent
  {
  }

  /**
   * The invariant of the counters: absent counts exist only for confirmed
   * ports and are always 1 (reaching 2 removes the port), and seen counts are
   * positive.
   */
  ghost predicate CountsValid(w: Watcher) {
    && (forall p :: p in w.absent ==> p in w.confirmed && w.absent[p] == 1)
    && (forall p :: p in w.seen ==> w.seen[p] >= 1)
  }

  /** The watcher's standing invariant: valid counters and a sorted last report. */
  ghost predicate Valid(w: Watcher) {
    CountsValid(w) && StrictlyIncreasing(w.lastReported)
  }

  lemma StartWatchingValid(w: Watcher, containerId: string, seeds: seq<nat>)
    ensures Valid(StartWatching(w, containerId, seeds))
    ensures Valid(StopWatching(w))
  {
  }

  lemma {:induction false} ObserveValid(w: Watcher, raw: seq<nat>)
    requires CountsValid(w)
    ensures CountsValid(Observe(w, raw))
  {
    var cur := set p | p in raw;
    var w1 := Sighted(w, cur);
    forall p | p in w1.absent ensures p in w1.confirmed && w1.absent[p] == 1 {
      assert CountOf(w1.absent, p) == CountOf(w.absent, p);
    }
    forall p | p in w1.seen ensures w1.seen[p] >= 1 {
      if p !in cur {
        assert CountOf(w1.seen, p) == CountOf(w.seen, p);
      }
    }
    var w2 := Missed(w1, cur);
    forall p | p in w2.absent ensures p in w2.confirmed && w2.absent[p] == 1 {
      if p in w1.confirmed && p !in cur {
        assert p !in w1.absent;
      }
    }
    forall p | p in w2.seen ensures w2.seen[p] >= 1 {
      assert CountOf(w2.seen, p) == CountOf(w1.seen, p);
    }
  }

  /** Every poll keeps the invariant. */
  lemma {:induction false} PollValid(w: Watcher, containerId: string, raw: seq<nat>)
    requires Valid(w)
    ensures Valid(Poll(w, containerId, raw).0)
  {
    if w.container == Some(containerId) {
      ObserveValid(w, raw);
    }
  }

  /**
   * A confirmed port with no absent count (it was present in the latest poll)
   * that one poll misses stays confirmed; missed by the next poll as well, it
   * is removed.
   */
  lemma {:induction false} TwoAbsencesRemove(w: Watcher, c: string, raw1: seq<nat>, raw2: seq<nat>, p: nat)
    requires w.container == Some(c)
    requires p in w.confirmed && p !in w.absent && p !in raw1 && p !in raw2
    ensures p in Poll(w, c, raw1).0.confirmed
    ensures p !in Poll(Poll(w, c, raw1).0, c, raw2).0.confirmed
  {
    PollMissing(w, c, raw1, p);
    PollMissing(Poll(w, c, raw1).0, c, raw2, p);
  }

  /** A poll of the current session that misses a confirmed port, in terms of `Poll`. */
  lemma PollMissing(w: Watcher, c: string, raw: seq<nat>, p: nat)
    requires w.container == Some(c) && p in w.confirmed && p !in raw
    ensures Poll(w, c, raw).0.container == Some(c)
    ensures CountOf(w.absent, p) == 0 ==> p in Poll(w, c, raw).0.confirmed && CountOf(Poll(w, c, raw).0.absent, p) == 1
    ensures CountOf(w.absent, p) >= 1 ==> p !in Poll(w, c, raw).0.confirmed
  {
    MissingConfirmedPort(w, raw, p);
  }

  /** Seeded ports are confirmed by the first poll that observes them. */
  lemma SeedConfirmedByFirstSighting(w: Watcher, c: string, seeds: seq<nat>, raw: seq<nat>, p: nat)
    requires p in seeds && p in raw
    ensures p in Poll(StartWatching(w, c, seeds), c, raw).0.confirmed
  {
    ObservedPortCounts(StartWatching(w, c, seeds), raw, p);
  }

  /** Number of polls in `raws` that observe `p`. */
  function Sightings(raws: seq<seq<nat>>, p: nat): nat {
    if |raws| == 0 then 0 else (if p in raws[0] then 1 else 0) + Sightings(raws[1..], p)
  }

  /** The state after a session runs the polls `raws` in order. */
  function RunPolls(w: Watcher, c: string, raws: seq<seq<nat>>): Watcher
    decreases |raws|
  {
    if |raws| == 0 then w else RunPolls(Poll(w, c, raws[0]).0, c, raws[1..])
  }

  /**
   * Without a seed, a port seen in at most one poll of a session is never
   * confirmed, whatever the other polls report.
   */
  lemma {:induction false} OneSightingNeverConfirms(w: Watcher, c: string, raws: seq<seq<nat>>, p: nat)
    requires p !in w.confirmed && CountOf(w.seen, p) + Sightings(raws, p) < STABLE_THRESHOLD
    ensures p !in RunPolls(w, c, raws).confirmed
    decreases |raws|
  {
    if |raws| > 0 {
      var w1 := Poll(w, c, raws[0]).0;
      if w.container == Some(c) {
        if p in raws[0] {
          ObservedPortCounts(w, raws[0], p);
        } else {
          UnconfirmedCountKept(w, raws[0], p);
        }
      }
      OneSightingNeverConfirms(w1, c, raws[1..], p);
    }
  }

  /** A fresh unseeded session never confirms a port observed in at most one poll. */
  lemma FreshSessionOneSighting(w: Watcher, c: string, raws: seq<seq<nat>>, p: nat)
    requires Sightings(raws, p) <= 1
    ensures p !in RunPolls(StartWatching(w, c, []), c, raws).confirmed
  {
    OneSightingNeverConfirms(StartWatching(w, c, []), c, raws, p);
  }

  /**
   * Two sightings separated by a poll that misses the port still confirm it:
   * the counts are cumulative.
   */
  lemma CumulativeConfirmation(w: Watcher, c: string)
    ensures 3000 in RunPolls(StartWatching(w, c, []), c, [[3000], [], [3000]]).confirmed
  {
    var w0 := StartWatching(w, c, []);
    assert CountOf(w0.seen, 3000) == 0;
    PollSees(w0, c, 3000);
    var w1 := Poll(w0, c, [3000]).0;
    PollMisses(w1, c, 3000);
    var w2 := Poll(w1, c, []).0;
    PollSees(w2, c, 3000);
    RunThreePolls(w0, c, [3000], [], [3000]);
  }

  /** A poll that reports only `p` counts one more sighting of it. */
  lemma PollSees(v: Watcher, c: string, p: nat)
    requires v.container == Some(c)
    ensures Poll(v, c, [p]).0.container == Some(c)
    ensures CountOf(Poll(v, c, [p]).0.seen, p) == CountOf(v.seen, p) + 1
    ensures CountOf(v.seen, p) + 1 >= STABLE_THRESHOLD ==> p in Poll(v, c, [p]).0.confirmed
  {
    ObservedPortCounts(v, [p], p);
  }

  /** An empty poll leaves an unconfirmed port's count alone. */
  lemma PollMisses(v: Watcher, c: string, p: nat)
    requires v.container == Some(c) && p !in v.confirmed
    ensures Poll(v, c, []).0.container == Some(c)
    ensures CountOf(Poll(v, c, []).0.seen, p) == CountOf(v.seen, p)
    ensures p !in Poll(v, c, []).0.confirmed
  {
    UnconfirmedCountKept(v, [], p);
  }

  /** Three polls in a row. */
  lemma RunThreePolls(v: Watcher, c: string, a: seq<nat>, b: seq<nat>, d: seq<nat>)
    ensures RunPolls(v, c, [a, b, d]) == Poll(Poll(Poll(v, c, a).0, c, b).0, c, d).0
  {
    var v1 := Poll(v, c, a).0;
    var v2 := Poll(v1, c, b).0;
    var v3 := Poll(v2, c, d).0;
    assert [a, b, d][1..] == [b, d] && [b, d][1..] == [d] && [d][1..] == [];
    assert RunPolls(v2, c, [d]) == RunPolls(v3, c, []) == v3;
    assert RunPolls(v1, c, [b, d]) == RunPolls(v2, c, [d]);
    assert RunPolls(v, c, [a, b, d]) == RunPolls(v1, c, [b, d]);
  }
}

=== FILE: preview_proxy.dfy ===
/**
 * The registry of per-project preview proxies: one local HTTP server per
 * project forwarding to the dev server inside its container. The project
 * row, the container's info, the detected port and the port the new server
 * is given are inputs; starting and stopping servers are output effects.
 */
module PreviewProxy {
  import opened Common
  import Projects
  import Containers

  /** A running proxy: its own port and the container address it forwards to. */
  datatype Proxy = Proxy(port: int, targetIp: string, targetPort: int)

  type Registry = map<string, Proxy>

  datatype Effect = StopServer(projectId: string, port: int) | StartServer(projectId: string, targetIp: string, targetPort: int)

  datatype Outcome = Outcome(registry: Registry, port: Option<int>, effects: seq<Effect>)

  /** The project is running with a container: `project?.containerId && status === "running"`. */
  predicate Running(project: Option<Projects.Project>) {
    && project.Some?
    && project.value.containerId.Some? && project.value.containerId.value != ""
    && project.value.containerStatus == "running"
  }

  /** The address `info?.ip` gives, when truthy. */
  function IpOf(info: Option<Containers.ContainerInfo>): (r: Option<string>)
    ensures r.Some? ==> r.value != ""
  {
    if info.Some? && info.value.ip.Some? && info.value.ip.value != "" then info.value.ip else None
  }

  /** The configured preview port when truthy, else the detected one when truthy. */
  function TargetPort(project: Projects.Project, detected: Option<int>): (r: Option<int>)
    ensures r.Some? ==> r.value != 0
    ensures project.previewPort.Some? && project.previewPort.value != 0 ==> r == project.previewPort
    ensures (project.previewPort.None? || project.previewPort.value == 0) ==>
      (r.Some? <==> detected.Some? && detected.value != 0) && (r.Some? ==> r == detected)
  {
    if project.previewPort.Some? && project.previewPort.value != 0 then project.previewPort
    else if detected.Some? && detected.value != 0 then detected
    else None
  }

  /** A proxy can be served: the container runs, has an address and a port to forward to. */
  predicate Serves(project: Option<Projects.Project>, info: Option<Containers.ContainerInfo>, detected: Option<int>) {
    Running(project) && IpOf(info).Some? && TargetPort(project.value, detected).Some?
  }

  /** The registered proxy of `projectId` already forwards to this address and port. */
  predicate SameTarget(reg: Registry, projectId: string, ip: string, port: int) {
    projectId in reg && reg[projectId].targetIp == ip && reg[projectId].targetPort == port
  }

  /**
   * `getPreviewPort`. `project` is the row read, `info` the container's
   * info, `detected` what `detectPort` would find and `newPort` the port the
   * operating system gives a new server.
   */
  function GetPreviewPort(reg: Registry, projectId: string, project: Option<Projects.Project>,
                          info: Option<Containers.ContainerInfo>, detected: Option<int>, newPort: int): (o: Outcome)
    ensures !Serves(project, info, detected) ==> o == Outcome(reg, None, [])
    ensures Serves(project, info, detected) ==> o.port.Some?
    ensures Serves(project, info, detected) && SameTarget(reg, projectId, IpOf(info).value, TargetPort(project.value, detected).value) ==>
      o == Outcome(reg, Some(reg[projectId].port), [])
    ensures Serves(project, info, detected) && !SameTarget(reg, projectId, IpOf(info).value, TargetPort(project.value, detected).value) ==>
      && o.port == Some(newPort)
      && o.registry == (reg - {projectId})[projectId := Proxy(newPort, IpOf(info).value, TargetPort(project.value, detected).value)]
    ensures o.registry.Keys <= reg.Keys + {projectId}
    ensures forall k :: k in reg && k != projectId ==> k in o.registry && o.registry[k] == reg[k]
    ensures o.port.Some? ==> projectId in o.registry && o.registry[projectId].port == o.port.value
    ensures o.port.Some? ==> o.registry[projectId].targetIp == IpOf(info).value
    ensures o.port.Some? ==> o.registry[projectId].targetPort == TargetPort(project.value, detected).value
    ensures o.port.Some? && projectId in reg && reg[projectId] == o.registry[projectId] ==> o.effects == []
    ensures o.port.Some? && (projectId !in reg || reg[projectId] != o.registry[projectId]) ==>
      o.effects == (if projectId in reg then [StopServer(projectId, reg[projectId].port)] else [])
                   + [StartServer(projectId, IpOf(info).value, TargetPort(project.value, detected).value)]
  {
    if !Running(project) then Outcome(reg, None, [])
    else
      var ip := IpOf(info);
      if ip.None? then Outcome(reg, None, [])
      else
        var port := TargetPort(project.value, detected);
        if port.None? then Outcome(reg, None, [])
        else if SameTarget(reg, projectId, ip.value, port.value) then
          Outcome(reg, Some(reg[projectId].port), [])
        else
          var stops := if projectId in reg then [StopServer(projectId, reg[projectId].port)] else [];
          var reg' := (reg - {projectId})[projectId := Proxy(newPort, ip.value, port.value)];
          Outcome(reg', Some(newPort), stops + [StartServer(projectId, ip.value, port.value)])
  }

  /**
   * No server is lost: a proxy that leaves the registry or is replaced in it
   * is stopped, before the new one is started.
   */
  lemma ReplacedProxyStopped(reg: Registry, projectId: string, project: Option<Projects.Project>,
                             info: Option<Containers.ContainerInfo>, detected: Option<int>, newPort: int, k: string)
    requires k in reg
    requires var o := GetPreviewPort(reg, projectId, project, info, detected, newPort);
      k !in o.registry || o.registry[k] != reg[k]
    ensures var o := GetPreviewPort(reg, projectId, project, info, detected, newPort);
      k == projectId && |o.effects| == 2 && o.effects[0] == StopServer(k, reg[k].port) && o.effects[1].StartServer?
  {
  }

  /** Asking again with the same answers reuses the proxy the first call started. */
  lemma SecondCallReuses(reg: Registry, projectId: string, project: Option<Projects.Project>,
                         info: Option<Containers.ContainerInfo>, detected: Option<int>, newPort: int, otherPort: int)
    requires GetPreviewPort(reg, projectId, project, info, detected, newPort).port.Some?
    ensures var o := GetPreviewPort(reg, projectId, project, info, detected, newPort);
      GetPreviewPort(o.registry, projectId, project, info, detected, otherPort) == Outcome(o.registry, o.port, [])
  {
  }

  /** `stopPreviewProxy`. */
  function StopPreviewProxy(reg: Registry, projectId: string): (o: (Registry, seq<Effect>))
    ensures o.0.Keys == reg.Keys - {projectId}
    ensures forall k :: k in o.0 ==> o.0[k] == reg[k]
    ensures o.1 == if projectId in reg then [StopServer(projectId, reg[projectId].port)] else []
  {
    if projectId in reg then (reg - {projectId}, [StopServer(projectId, reg[projectId].port)])
    else (reg, [])
  }

  /**
   * `stopAllPreviewProxies`: every server is stopped and the registry
   * emptied. The result is the set of stopped (project, port) pairs, since the
   * iteration order of the source's map is its insertion order, which the
   * model does not keep.
   */
  function StopAll(reg: Registry): (o: (Registry, set<Effect>))
    ensures o.0 == map[]
    ensures forall e :: e in o.1 <==> e.StopServer? && e.projectId in reg && reg[e.projectId].port == e.port
  {
    (map[], set k | k in reg :: StopServer(k, reg[k].port))
  }
}

=== FILE: project_store.dfy ===
/**
 * The browser's project list. Each action applies the answer of an API call
 * to the list; the answer is a parameter (`Err` when the call throws, in
 * which case the action throws and the list is left as it was).
 */
module ProjectStore {
  import opened Common
  import opened Projects

  datatype Store = Store(projects: seq<Project>, loading: bool, error: Option<string>)

  /** The store the page starts with. */
  const INITIAL := Store([], false, None)

  /** The ids of a list, in order. */
  function Ids(ps: seq<Project>): (r: seq<string>)
    ensures |r| == |ps|
    ensures forall i :: 0 <= i < |ps| ==> r[i] == ps[i].id
  {
    seq(|ps|, i requires 0 <= i < |ps| => ps[i].id)
  }

  /** No two projects of the list share an id. */
  predicate UniqueIds(ps: seq<Project>) {
    forall i, j :: 0 <= i < j < |ps| ==> ps[i].id != ps[j].id
  }

  /** Some project of the list has this id. */
  predicate Listed(ps: seq<Project>, id: string) {
    exists i :: 0 <= i < |ps| && ps[i].id == id
  }

  // ---------------------------------------------------------------------
  // Loading

  /** The synchronous start of `fetchProjects`. */
  function BeginFetch(s: Store): (r: Store)
    ensures r.loading && r.error.None? && r.projects == s.projects
  {
    s.(loading := true, error := None)
  }

  /**
   * `fetchProjects`: the list the server sent replaces the one shown; a
   * failure keeps the old list and records the error's message.
   */
  function FetchProjects(s: Store, answer: Result<seq<Project>, string>): (r: Store)
    ensures !r.loading
    ensures answer.Ok? ==> r.projects == answer.value && r.error.None?
    ensures answer.Err? ==> r.projects == s.projects && r.error == Some(answer.error)
  {
    var started := BeginFetch(s);
    match answer
    case Ok(projects) => started.(projects := projects, loading := false)
    case Err(message) => started.(error := Some(message), loading := false)
  }

  // ---------------------------------------------------------------------
  // Creating and deleting

  /**
   * `createProject` and `createProjectFromGitHub`, which differ only in the
   * API call: the new project goes to the front of the list, and a failure
   * changes nothing.
   */
  function CreateProject(s: Store, answer: Result<Project, string>): (r: Result<(Store, Project), string>)
    ensures answer.Err? ==> r == Err(answer.error)
    ensures answer.Ok? ==> r.Ok? && r.value.1 == answer.value
    ensures answer.Ok? ==> |r.value.0.projects| == |s.projects| + 1
    ensures answer.Ok? ==> r.value.0.projects[0] == answer.value && r.value.0.projects[1..] == s.projects
    ensures answer.Ok? ==> Ids(r.value.0.projects) == [answer.value.id] + Ids(s.projects)
    ensures answer.Ok? ==> r.value.0.(projects := s.projects) == s
  {
    match answer
    case Err(message) => Err(message)
    case Ok(project) =>
      var ps := [project] + s.projects;
      assert Ids(ps) == [project.id] + Ids(s.projects);
      Ok((s.(projects := ps), project))
  }

  /** The list without the projects that have this id. */
  function Without(ps: seq<Project>, id: string): (r: seq<Project>)
    ensures forall p :: p in r <==> p in ps && p.id != id
    ensures !Listed(r, id)
    ensures IsSubsequence(r, ps)
  {
    FilterIsSubsequence(ps, (p: Project) => p.id != id);
    Filter(ps, (p: Project) => p.id != id)
  }

  /** `deleteProject`: after the server has deleted it, the project leaves the list. */
  function DeleteProject(s: Store, id: string, answer: Result<(), string>): (r: Result<Store, string>)
    ensures answer.Err? ==> r == Err(answer.error)
    ensures answer.Ok? ==> r.Ok? && r.value.projects == Without(s.projects, id)
    ensures answer.Ok? ==> r.value.(projects := s.projects) == s
  {
    match answer
    case Err(message) => Err(message)
    case Ok(_) => Ok(s.(projects := Without(s.projects, id)))
  }

  // ---------------------------------------------------------------------
  // Replacing in place

  /** `projects.map((p) => (p.id === id ? f(p) : p))`. */
  function ReplaceById(ps: seq<Project>, id: string, f: Project -> Project): (r: seq<Project>)
    ensures |r| == |ps|
    ensures forall i :: 0 <= i < |ps| && ps[i].id != id ==> r[i] == ps[i]
    ensures forall i :: 0 <= i < |ps| && ps[i].id == id ==> r[i] == f(ps[i])
  {
    seq(|ps|, i requires 0 <= i < |ps| => if ps[i].id == id then f(ps[i]) else ps[i])
  }

  /**
   * `startContainer`, `stopContainer` and `restartContainer`, which differ
   * only in the API call: the project the server returns replaces the listed
   * one with the id the call was made for.
   */
  function ContainerAction(s: Store, id: string, answer: Result<Project, string>): (r: Result<Store, string>)
    ensures answer.Err? ==> r == Err(answer.error)
    ensures answer.Ok? ==> r.Ok? && r.value.(projects := s.projects) == s
    ensures answer.Ok? ==> |r.value.projects| == |s.projects|
    ensures answer.Ok? ==> forall i :: 0 <= i < |s.projects| ==>
      r.value.projects[i] == (if s.projects[i].id == id then answer.value else s.projects[i])
    ensures answer.Ok? && answer.value.id == id ==> Ids(r.value.projects) == Ids(s.projects)
  {
    match answer
    case Err(message) => Err(message)
    case Ok(updated) => Ok(s.(projects := ReplaceById(s.projects, id, _ => updated)))
  }

  /** `updateProjectStatus`: the status a container event reports is shown. */
  function UpdateProjectStatus(s: Store, id: string, status: string): (r: Store)
    ensures r.(projects := s.projects) == s
    ensures Ids(r.projects) == Ids(s.projects)
    ensures forall i :: 0 <= i < |s.projects| && s.projects[i].id == id ==>
      r.projects[i] == s.projects[i].(containerStatus := status)
    ensures forall i :: 0 <= i < |s.projects| && s.projects[i].id != id ==> r.projects[i] == s.projects[i]
  {
    s.(projects := ReplaceById(s.projects, id, (p: Project) => p.(containerStatus := status)))
  }

  /** `updateProject`: the project takes the place of the listed one with its id. */
  function UpdateProject(s: Store, project: Project): (r: Store)
    ensures r.(projects := s.projects) == s
    ensures Ids(r.projects) == Ids(s.projects)
    ensures forall i :: 0 <= i < |s.projects| ==>
      r.projects[i] == (if s.projects[i].id == project.id then project else s.projects[i])
  {
    s.(projects := ReplaceById(s.projects, project.id, _ => project))
  }

  // ---------------------------------------------------------------------
  // Properties

  /** An update never adds a project: one that is not listed leaves the list as it was. */
  lemma UpdateNeverInserts(s: Store, project: Project)
    requires !Listed(s.projects, project.id)
    ensures UpdateProject(s, project) == s
  {
    var r := UpdateProject(s, project);
    assert r.projects == s.projects;
  }

  /** Likewise for a status update of a project that is not listed. */
  lemma StatusOfUnlistedIgnored(s: Store, id: string, status: string)
    requires !Listed(s.projects, id)
    ensures UpdateProjectStatus(s, id, status) == s
  {
    var r := UpdateProjectStatus(s, id, status);
    assert r.projects == s.projects;
  }

  /** Two status updates of one project leave the second status. */
  lemma LastStatusWins(s: Store, id: string, first: string, second: string)
    ensures UpdateProjectStatus(UpdateProjectStatus(s, id, first), id, second) == UpdateProjectStatus(s, id, second)
  {
    var a := UpdateProjectStatus(UpdateProjectStatus(s, id, first), id, second);
    var b := UpdateProjectStatus(s, id, second);
    assert a.projects == b.projects;
  }

  /** Updating with the same project twice is updating once. */
  lemma UpdateIdempotent(s: Store, project: Project)
    ensures UpdateProject(UpdateProject(s, project), project) == UpdateProject(s, project)
  {
    var a := UpdateProject(UpdateProject(s, project), project);
    assert a.projects == UpdateProject(s, project).projects;
  }

  /** Deleting a project that was just created gives the list back. */
  lemma CreateThenDelete(s: Store, project: Project)
    requires !Listed(s.projects, project.id)
    ensures var created := CreateProject(s, Ok(project)).value.0;
      DeleteProject(created, project.id, Ok(())) == Ok(s)
  {
    var keep := (p: Project) => p.id != project.id;
    assert forall i :: 0 <= i < |s.projects| ==> keep(s.projects[i]);
    FilterAll(s.projects, keep);
    assert ([project] + s.projects)[1..] == s.projects;
  }

  /** Creating keeps ids unique exactly when the new project's id is not listed yet. */
  lemma CreateKeepsIdsUnique(s: Store, project: Project)
    requires UniqueIds(s.projects)
    ensures UniqueIds(CreateProject(s, Ok(project)).value.0.projects) <==> !Listed(s.projects, project.id)
  {
    var ps := CreateProject(s, Ok(project)).value.0.projects;
    assert forall i :: 1 <= i < |ps| ==> ps[i] == s.projects[i - 1];
    if Listed(s.projects, project.id) {
      var k :| 0 <= k < |s.projects| && s.projects[k].id == project.id;
      assert ps[0].id == ps[k + 1].id;
    }
  }

  /** Deleting and replacing in place keep ids unique. */
  lemma DeleteKeepsIdsUnique(s: Store, id: string)
    requires UniqueIds(s.projects)
    ensures UniqueIds(DeleteProject(s, id, Ok(())).value.projects)
  {
    FilterKeepsIdsUnique(s.projects, (p: Project) => p.id != id);
  }

  lemma UpdateKeepsIdsUnique(s: Store, project: Project)
    requires UniqueIds(s.projects)
    ensures UniqueIds(UpdateProject(s, project).projects)
  {
    var ps := UpdateProject(s, project).projects;
    assert forall i :: 0 <= i < |ps| ==> ps[i].id == s.projects[i].id;
  }

  /** Dropping projects from a list with unique ids leaves unique ids. */
  lemma {:induction false} FilterKeepsIdsUnique(ps: seq<Project>, keep: Project -> bool)
    requires UniqueIds(ps)
    ensures UniqueIds(Filter(ps, keep))
  {
    if |ps| > 0 {
      var tail := ps[1..];
      assert UniqueIds(tail) by {
        assert forall i :: 0 <= i < |tail| ==> tail[i] == ps[i + 1];
      }
      FilterKeepsIdsUnique(tail, keep);
      if keep(ps[0]) {
        var r := Filter(ps, keep);
        assert r == [ps[0]] + Filter(tail, keep);
        forall j | 0 < j < |r|
          ensures r[0].id != r[j].id
        {
          assert r[j] in tail;
          var k :| 0 <= k < |tail| && tail[k] == r[j];
          assert ps[k + 1] == r[j];
        }
      }
    }
  }
}

=== FILE: projects.dfy ===
/**
 * The `projects` table and the service operations over it: read, create
 * (from a directory or from a GitHub clone), update and delete. The table is
 * a map from id to row; whether the directory exists, the outcome of the
 * clone, the generated id and the clock are inputs.
 */
module Projects {
  import opened Common

  /**
   * One row. `githubRepo` is `None` when the column is missing from the row
   * (a table created before the migration added it) and `Some(None)` when it
   * holds NULL.
   */
  datatype Row = Row(
    name: string,
    directory: string,
    containerId: Option<string>,
    containerStatus: string,
    previewPort: Option<int>,
    githubRepo: Option<Option<string>>,
    createdAt: string,
    updatedAt: string)

  type Table = map<string, Row>

  /** The API's `Project` record. */
  datatype Project = Project(
    id: string,
    name: string,
    directory: string,
    containerId: Option<string>,
    containerStatus: string,
    previewPort: Option<int>,
    githubRepo: Option<string>,
    createdAt: string,
    updatedAt: string)

  /**
   * `ValidationError`, `NotFoundError`, the clone's own failure, and the
   * primary-key constraint the insert would hit if the generated id were
   * already in use.
   */
  datatype Error = Validation(message: string) | NotFound(message: string) | CloneFailed(reason: string) | KeyInUse

  /** The column default of `container_status`. */
  const NOT_CREATED := "not_created"

  const NOT_FOUND := "Project not found"

  function NameExists(name: string): string {
    "Project name already exists: " + name
  }

  /** Some row other than `except` is called `name`. */
  predicate NameTakenExcept(t: Table, name: string, except: Option<string>) {
    exists k :: k in t && Some(k) != except && t[k].name == name
  }

  /** `SELECT id FROM projects WHERE name = ?` finds a row. */
  predicate NameTaken(t: Table, name: string) {
    NameTakenExcept(t, name, None)
  }

  /** The `UNIQUE` constraint on `name`. */
  predicate UniqueNames(t: Table) {
    forall a, b :: a in t && b in t && t[a].name == t[b].name ==> a == b
  }

  /** `rowToProject`. */
  function RowToProject(id: string, row: Row): (p: Project)
    ensures p.id == id && p.name == row.name && p.directory == row.directory
    ensures p.githubRepo.Some? <==> row.githubRepo.Some? && row.githubRepo.value.Some?
  {
    Project(id, row.name, row.directory, row.containerId, row.containerStatus, row.previewPort,
            if row.githubRepo.Some? then row.githubRepo.value else None,
            row.createdAt, row.updatedAt)
  }

  /** The row a project was read from, with the `github_repo` column present. */
  function ProjectToRow(p: Project): Row {
    Row(p.name, p.directory, p.containerId, p.containerStatus, p.previewPort, Some(p.githubRepo), p.createdAt, p.updatedAt)
  }

  /**
   * `rowToProject` loses nothing but the difference between a missing
   * `github_repo` column and a NULL one.
   */
  lemma RowToProjectRoundTrip(id: string, row: Row, p: Project)
    ensures row.githubRepo.Some? ==> ProjectToRow(RowToProject(id, row)) == row
    ensures row.githubRepo.None? ==> ProjectToRow(RowToProject(id, row)) == row.(githubRepo := Some(None))
    ensures RowToProject(p.id, ProjectToRow(p)) == p
  {
  }

  /** `getProject`. */
  function GetProject(t: Table, id: string): (r: Option<Project>)
    ensures r.Some? <==> id in t
    ensures r.Some? ==> ProjectToRow(r.value) == t[id].(githubRepo := Some(r.value.githubRepo)) && r.value.id == id
  {
    if id in t then Some(RowToProject(id, t[id])) else None
  }

  /** What `INSERT INTO projects` stores: the given columns and the defaults. */
  function NewRow(name: string, directory: string, githubRepo: Option<string>, now: string): Row {
    Row(name, directory, None, NOT_CREATED, None, Some(githubRepo), now, now)
  }

  /** `t` gains exactly the row `id`, and every other row is kept. */
  predicate InsertedOnly(t: Table, t': Table, id: string) {
    && id !in t
    && t'.Keys == t.Keys + {id}
    && forall k :: k in t ==> t'[k] == t[k]
  }

  /** The insert both create paths end with, and the `getProject` after it. */
  function Insert(t: Table, id: string, row: Row): (r: Result<(Table, Project), Error>)
    ensures r.Ok? <==> id !in t
    ensures r.Ok? ==> InsertedOnly(t, r.value.0, id) && GetProject(r.value.0, id) == Some(r.value.1)
    ensures r.Ok? ==> ProjectToRow(r.value.1) == row.(githubRepo := Some(r.value.1.githubRepo))
  {
    if id in t then Err(KeyInUse)
    else
      var t' := t[id := row];
      Ok((t', RowToProject(id, row)))
  }

  datatype CreateInput = CreateInput(name: string, directory: string)

  /** `createProject`: the directory must exist and the name be free. */
  function CreateProject(t: Table, input: CreateInput, dirExists: bool, id: string, now: string): (r: Result<(Table, Project), Error>)
    ensures !dirExists ==> r == Err(Validation("Directory does not exist: " + input.directory))
    ensures dirExists && NameTaken(t, input.name) ==> r == Err(Validation(NameExists(input.name)))
    ensures r.Ok? <==> dirExists && !NameTaken(t, input.name) && id !in t
    ensures r.Ok? ==> InsertedOnly(t, r.value.0, id) && GetProject(r.value.0, id) == Some(r.value.1)
    ensures r.Ok? ==> r.value.1 == Project(id, input.name, input.directory, None, NOT_CREATED, None, None, now, now)
  {
    if !dirExists then Err(Validation("Directory does not exist: " + input.directory))
    else if NameTaken(t, input.name) then Err(Validation(NameExists(input.name)))
    else Insert(t, id, NewRow(input.name, input.directory, None, now))
  }

  datatype GitHubInput = GitHubInput(name: string, repo: string, directory: Option<string>)

  /**
   * `createProjectFromGitHub`. `cloned` is what `cloneGhRepo` would return:
   * the directory of the clone, or its failure.
   */
  function CreateFromGitHub(t: Table, input: GitHubInput, cloned: Result<string, string>, id: string, now: string): (r: Result<(Table, Project), Error>)
    ensures NameTaken(t, input.name) ==> r == Err(Validation(NameExists(input.name)))
    ensures !NameTaken(t, input.name) && cloned.Err? ==> r == Err(CloneFailed(cloned.error))
    ensures r.Ok? <==> !NameTaken(t, input.name) && cloned.Ok? && id !in t
    ensures r.Ok? ==> InsertedOnly(t, r.value.0, id) && GetProject(r.value.0, id) == Some(r.value.1)
    ensures r.Ok? ==> r.value.1 == Project(id, input.name, cloned.value, None, NOT_CREATED, None, Some(input.repo), now, now)
  {
    if NameTaken(t, input.name) then Err(Validation(NameExists(input.name)))
    else if cloned.Err? then Err(CloneFailed(cloned.error))
    else Insert(t, id, NewRow(input.name, cloned.value, Some(input.repo), now))
  }

  /** A taken name is refused whatever the clone would have done: the clone is never reached. */
  lemma TakenNameBeforeClone(t: Table, input: GitHubInput, c1: Result<string, string>, c2: Result<string, string>, id: string, now: string)
    requires NameTaken(t, input.name)
    ensures CreateFromGitHub(t, input, c1, id, now) == CreateFromGitHub(t, input, c2, id, now)
    ensures CreateFromGitHub(t, input, c1, id, now).Err?
  {
  }

  /** `UpdateProjectInput`: `None` is a field left out; `previewPort: Some(None)` is an explicit `null`. */
  datatype UpdateInput = UpdateInput(name: Option<string>, previewPort: Option<Option<int>>)

  /** `updateProject`. */
  function UpdateProject(t: Table, id: string, input: UpdateInput, now: string): (r: Result<(Table, Project), Error>)
    ensures id !in t ==> r == Err(NotFound(NOT_FOUND))
    ensures r.Err? && id in t ==> input.name.Some? && r == Err(Validation(NameExists(input.name.value)))
    ensures r.Ok? <==> id in t && (input.name.Some? ==> !NameTakenExcept(t, input.name.value, Some(id)))
    ensures r.Ok? ==> r.value.0.Keys == t.Keys && forall k :: k in t && k != id ==> r.value.0[k] == t[k]
    ensures r.Ok? ==> GetProject(r.value.0, id) == Some(r.value.1)
    ensures r.Ok? ==> Updated(t[id], r.value.0[id], input, now)
  {
    if id !in t then Err(NotFound(NOT_FOUND))
    else if input.name.Some? && NameTakenExcept(t, input.name.value, Some(id)) then
      Err(Validation(NameExists(input.name.value)))
    else
      var row := t[id];
      var row := if input.name.Some? then row.(name := input.name.value, updatedAt := now) else row;
      var row := if input.previewPort.Some? then row.(previewPort := input.previewPort.value, updatedAt := now) else row;
      var t' := t[id := row];
      Ok((t', RowToProject(id, row)))
  }

  /**
   * The row after an update: the provided fields take their new values, the
   * others keep theirs, and the timestamp moves only if something was provided.
   */
  predicate Updated(before: Row, after: Row, input: UpdateInput, now: string) {
    && after.name == input.name.GetOr(before.name)
    && after.previewPort == input.previewPort.GetOr(before.previewPort)
    && after.updatedAt == (if input.name.Some? || input.previewPort.Some? then now else before.updatedAt)
    && after.directory == before.directory
    && after.containerId == before.containerId
    && after.containerStatus == before.containerStatus
    && after.githubRepo == before.githubRepo
    && after.createdAt == before.createdAt
  }

  /** Keeping a project's own name is never a clash, in a table whose names are unique. */
  lemma KeepOwnName(t: Table, id: string, now: string)
    requires UniqueNames(t) && id in t
    ensures UpdateProject(t, id, UpdateInput(Some(t[id].name), None), now).Ok?
  {
  }

  /** Renaming to the name another project has is refused. */
  lemma RenameClash(t: Table, id: string, other: string, input: UpdateInput, now: string)
    requires id in t && other in t && other != id
    requires input.name == Some(t[other].name)
    ensures UpdateProject(t, id, input, now) == Err(Validation(NameExists(t[other].name)))
  {
  }

  /** `deleteProject`: no deleted row is `NotFoundError`. */
  function DeleteProject(t: Table, id: string): (r: Result<Table, Error>)
    ensures r.Ok? <==> id in t
    ensures r.Err? ==> r.error == NotFound(NOT_FOUND)
    ensures r.Ok? ==> GetProject(r.value, id).None? && r.value.Keys == t.Keys - {id}
    ensures r.Ok? ==> forall k :: k in r.value ==> r.value[k] == t[k]
  {
    if id in t then Ok(t - {id}) else Err(NotFound(NOT_FOUND))
  }

  /** Deleting a row that was just created gives the table back. */
  lemma CreateThenDelete(t: Table, input: CreateInput, id: string, now: string)
    requires CreateProject(t, input, true, id, now).Ok?
    ensures DeleteProject(CreateProject(t, input, true, id, now).value.0, id) == Ok(t)
  {
    var t' := CreateProject(t, input, true, id, now).value.0;
    assert t' - {id} == t;
  }

  /** Every operation that succeeds keeps the names unique. */
  lemma CreateKeepsNamesUnique(t: Table, input: CreateInput, dirExists: bool, id: string, now: string)
    requires UniqueNames(t)
    requires CreateProject(t, input, dirExists, id, now).Ok?
    ensures UniqueNames(CreateProject(t, input, dirExists, id, now).value.0)
  {
    var t' := CreateProject(t, input, dirExists, id, now).value.0;
    forall a, b | a in t' && b in t' && t'[a].name == t'[b].name
      ensures a == b
    {
      assert a != id ==> t'[a] == t[a];
      assert b != id ==> t'[b] == t[b];
    }
  }

  lemma CreateFromGitHubKeepsNamesUnique(t: Table, input: GitHubInput, cloned: Result<string, string>, id: string, now: string)
    requires UniqueNames(t)
    requires CreateFromGitHub(t, input, cloned, id, now).Ok?
    ensures UniqueNames(CreateFromGitHub(t, input, cloned, id, now).value.0)
  {
    var t' := CreateFromGitHub(t, input, cloned, id, now).value.0;
    forall a, b | a in t' && b in t' && t'[a].name == t'[b].name
      ensures a == b
    {
      assert a != id ==> t'[a] == t[a];
      assert b != id ==> t'[b] == t[b];
    }
  }

  lemma UpdateKeepsNamesUnique(t: Table, id: string, input: UpdateInput, now: string)
    requires UniqueNames(t)
    requires UpdateProject(t, id, input, now).Ok?
    ensures UniqueNames(UpdateProject(t, id, input, now).value.0)
  {
    var t' := UpdateProject(t, id, input, now).value.0;
    forall a, b | a in t' && b in t' && t'[a].name == t'[b].name
      ensures a == b
    {
      if input.name.Some? {
        assert b != id ==> t'[b] == t[b];
        assert a != id ==> t'[a] == t[a];
      }
    }
  }

  lemma DeleteKeepsNamesUnique(t: Table, id: string)
    requires UniqueNames(t)
    requires DeleteProject(t, id).Ok?
    ensures UniqueNames(DeleteProject(t, id).value)
  {
  }
}

=== FILE: proxy.dfy ===
/**
 * The `/preview/{id}` reverse proxy route and the catch-all for `/_next/` requests: which
 * error a request gets, the upstream URL it is forwarded to, the response
 * headers dropped, and the rewriting of HTML pages (absolute attribute paths
 * and the injected patch script) and of the Turbopack runtime. The project
 * row, the container info, the detected port and the upstream response are
 * inputs; the patch script is an opaque string.
 */
module Proxy {
  import opened Common
  import opened Text
  import opened Decimal
  import Projects
  import Containers
  import PreviewProxy

  // ---------------------------------------------------------------------
  // Upstream URL

  function BasePath(projectId: string): string {
    "/preview/" + projectId
  }

  /** `path.replace(basePath, "") || "/"`. */
  function UpstreamPath(path: string, basePath: string): (r: string)
    ensures |r| > 0
    ensures IndexOf(path, basePath).None? && path != "" ==> r == path
  {
    var p := ReplaceFirst(path, basePath, "");
    if p == "" then "/" else p
  }

  /** A request path under the base path is forwarded without it. */
  lemma UpstreamPathOfPrefixed(projectId: string, rest: string)
    ensures UpstreamPath(BasePath(projectId) + rest, BasePath(projectId)) == if rest == "" then "/" else rest
  {
    var b := BasePath(projectId);
    var path := b + rest;
    assert OccursAt(path, b, 0);
    assert IndexOf(path, b) == Some(0);
    assert path[|b|..] == rest;
  }

  /** `url.includes("?") ? "?" + url.split("?")[1] : ""`. */
  function Query(url: string): (r: string)
    ensures '?' !in url ==> r == ""
    ensures '?' in url ==> |r| >= 1 && r[0] == '?' && '?' !in r[1..]
  {
    if '?' in url then "?" + Split(url, '?')[1] else ""
  }

  /**
   * The query is the text between the first and the second `?`: a second
   * `?` and everything after it are lost.
   */
  lemma QueryBetweenMarks(base: string, q: string, more: seq<string>)
    requires '?' !in base && '?' !in q
    requires forall k :: 0 <= k < |more| ==> '?' !in more[k]
    ensures Query(Join([base, q] + more, "?")) == "?" + q
  {
    var parts := [base, q] + more;
    forall k | 0 <= k < |parts| ensures '?' !in parts[k] {
      if k >= 2 { assert parts[k] == more[k - 2]; }
    }
    assert "?" == ['?'];
    SplitJoin(parts, '?');
    var url := Join(parts, "?");
    assert Split(url, '?') == parts;
    SeparatorPresent(url, '?');
  }

  /** A text that splits into two or more pieces holds the separator. */
  lemma SeparatorPresent(s: string, c: char)
    requires |Split(s, c)| >= 2
    ensures c in s
  {
  }

  /** `http://${ip}:${port}${path}${query}`. */
  function TargetUrl(ip: string, port: int, path: string, query: string): (u: string)
    ensures StartsWith(u, "http://" + ip + ":")
  {
    var u := "http://" + ip + ":" + IntToString(port) + path + query;
    assert u == ("http://" + ip + ":") + (IntToString(port) + path + query);
    u
  }

  // ---------------------------------------------------------------------
  // Headers

  /** Header maps use lower-case names, as `Headers` compares them. */
  type Headers = map<string, string>

  /** The response headers the preview route drops. */
  const STRIPPED: set<string> := {"transfer-encoding", "content-encoding", "content-length", "x-frame-options", "content-security-policy"}

  /** The response headers the catch-all drops. */
  const CATCH_ALL_STRIPPED: set<string> := {"transfer-encoding", "content-encoding", "content-length"}

  /** The request headers both routes drop before forwarding. */
  const REQUEST_STRIPPED: set<string> := {"host", "accept-encoding"}

  function Strip(h: Headers, names: set<string>): (r: Headers)
    ensures r.Keys == h.Keys - names
    ensures forall k :: k in r ==> r[k] == h[k]
  {
    map k | k in h && k !in names :: h[k]
  }

  /** `headers.get(name) || ""`. */
  function HeaderOr(h: Headers, name: string): string {
    if name in h then h[name] else ""
  }

  // ---------------------------------------------------------------------
  // HTML rewriting

  predicate IsQuote(c: char) {
    c == '"' || c == '\''
  }

  /** `name=` followed by a quote and `/` starts at index `i`. */
  predicate AttrAt(html: string, i: nat, name: string) {
    && OccursAt(html, name + "=", i)
    && i + |name| + 2 < |html|
    && IsQuote(html[i + |name| + 1])
    && html[i + |name| + 2] == '/'
  }

  /** Length of the `(src|href|action)=(["'])\/` match at index `i`, or 0. */
  function AttrMatchAt(html: string, i: nat): (n: nat)
    ensures n == 0 || n == 6 || n == 7 || n == 9
    ensures n > 0 ==> i + n <= |html| && html[i + n - 1] == '/'
  {
    if AttrAt(html, i, "src") then 6
    else if AttrAt(html, i, "href") then 7
    else if AttrAt(html, i, "action") then 9
    else 0
  }

  /**
   * `html.replace(/(src|href|action)=(["'])\//g, "$1=$2" + basePath + "/")`:
   * matches are found left to right and do not overlap, and the base path is
   * put between the quote and the slash.
   */
  function RewriteAttrs(html: string, basePath: string): (r: string)
    ensures |r| >= |html|
    decreases |html|
  {
    if |html| == 0 then ""
    else
      var n := AttrMatchAt(html, 0);
      if n > 0 then html[..n - 1] + basePath + "/" + RewriteAttrs(html[n..], basePath)
      else [html[0]] + RewriteAttrs(html[1..], basePath)
  }

  /**
   * The rewrite only inserts the base path: with an empty base path it is the
   * identity.
   */
  lemma {:induction false} RewriteOnlyInserts(html: string)
    ensures RewriteAttrs(html, "") == html
    decreases |html|
  {
    if |html| > 0 {
      var n := AttrMatchAt(html, 0);
      if n > 0 {
        RewriteOnlyInserts(html[n..]);
        SlashPutBack(html, n, RewriteAttrs(html[n..], ""));
      } else {
        RewriteOnlyInserts(html[1..]);
        assert [html[0]] + html[1..] == html;
      }
    }
  }

  /** Putting the matched `/` back between the two halves gives the text again. */
  lemma SlashPutBack(html: string, n: nat, rest: string)
    requires 0 < n <= |html| && html[n - 1] == '/' && rest == html[n..]
    ensures html[..n - 1] + "" + "/" + rest == html
  {
    assert html[..n - 1] + "" + "/" == html[..n];
    assert html[..n] + html[n..] == html;
  }

  /** An attribute whose value starts with `/` gets the base path in front of it. */
  lemma RewriteAttr(name: string, quote: char, rest: string, basePath: string)
    requires name == "src" || name == "href" || name == "action"
    requires IsQuote(quote)
    ensures RewriteAttrs(name + "=" + [quote] + "/" + rest, basePath)
         == name + "=" + [quote] + basePath + "/" + RewriteAttrs(rest, basePath)
  {
    var html := name + "=" + [quote] + "/" + rest;
    assert OccursAt(html, name + "=", 0);
    assert html[|name| + 1] == quote && html[|name| + 2] == '/';
    assert AttrAt(html, 0, name);
    var n := AttrMatchAt(html, 0);
    assert n == |name| + 3;
    assert html[..n - 1] == name + "=" + [quote];
    assert html[n..] == rest;
  }

  /**
   * A protocol-relative URL (`//host/...`) starts with `/` too, so it is
   * turned into a path under the preview.
   */
  lemma ProtocolRelativeRewritten(quote: char, host: string, basePath: string)
    requires IsQuote(quote)
    ensures RewriteAttrs("src=" + [quote] + "//" + host, basePath)
         == "src=" + [quote] + basePath + "/" + RewriteAttrs("/" + host, basePath)
  {
    var open := "src=" + [quote];
    assert "src" + "=" == "src=";
    assert open + "//" + host == open + "/" + ("/" + host);
    RewriteAttr("src", quote, "/" + host, basePath);
  }

  /** The script goes after `<head>`, else after the first `<head...>` tag, else in front. */
  function InjectScript(html: string, script: string): (r: string)
    ensures r == html || exists k :: 0 <= k <= |html| && r == html[..k] + script + html[k..]
    ensures !Contains(html, "<head") ==> r == script + html
    ensures IndexOf(html, "<head>").Some? ==>
      var i := IndexOf(html, "<head>").value; r == html[..i + 6] + script + html[i + 6..]
  {
    match IndexOf(html, "<head>")
    case Some(i) =>
      HeadReplaced(html, script, i);
      ReplaceFirst(html, "<head>", "<head>" + script)
    case None =>
      match IndexOf(html, "<head")
      case None =>
        assert html[..0] == [] && html[0..] == html;
        script + html
      case Some(i) =>
        match IndexFrom(html, ">", i + 5)
        case None => html
        case Some(j) => html[..j + 1] + script + html[j + 1..]
  }

  /** Replacing the first `<head>` puts the script right after it; that tag also opens with `<head`. */
  lemma HeadReplaced(html: string, script: string, i: nat)
    requires IndexOf(html, "<head>") == Some(i)
    ensures Contains(html, "<head")
    ensures ReplaceFirst(html, "<head>", "<head>" + script) == html[..i + 6] + script + html[i + 6..]
  {
    assert html[i..i + 6] == "<head>";
    assert html[..i] + "<head>" == html[..i + 6];
    assert OccursAt(html, "<head", i) by {
      assert html[i..i + 5] == html[i..i + 6][..5];
    }
  }

  /** `rewriteHtml`. */
  function RewriteHtml(html: string, basePath: string, script: string): string {
    InjectScript(RewriteAttrs(html, basePath), script)
  }

  /**
   * When the only `<head` has no `>` after it, the tag pattern finds nothing
   * and the page is returned without the script.
   */
  lemma UnclosedHeadGetsNoScript(before: string, after: string, script: string)
    requires !Contains(before + "<head" + after, "<head>")
    requires '>' !in after && '<' !in before
    ensures InjectScript(before + "<head" + after, script) == before + "<head" + after
  {
    var html := before + "<head" + after;
    assert OccursAt(html, "<head", |before|);
    forall j | 0 <= j < |before|
      ensures !OccursAt(html, "<head", j)
    {
      assert html[j] == before[j];
    }
    forall j | |before| + 5 <= j < |html|
      ensures !OccursAt(html, ">", j)
    {
      assert html[j] == after[j - |before| - 5];
    }
  }

  // ---------------------------------------------------------------------
  // Turbopack runtime

  const CHUNK_DECL := "const CHUNK_BASE_PATH"
  const CHUNK_VALUE := "\"/_next/\""

  /** The first index at or after `i` that is not white space. */
  function SkipSpaces(s: string, i: nat): (j: nat)
    requires i <= |s|
    ensures i <= j <= |s|
    ensures forall k :: i <= k < j ==> IsSpace(s[k])
    ensures j < |s| ==> !IsSpace(s[j])
    decreases |s| - i
  {
    if i < |s| && IsSpace(s[i]) then SkipSpaces(s, i + 1) else i
  }

  /** End of a `const CHUNK_BASE_PATH\s*=\s*"\/_next\/"` match at index `i`. */
  function ChunkMatchAt(js: string, i: nat): (r: Option<nat>)
    ensures r.Some? ==> i < r.value <= |js|
  {
    if !OccursAt(js, CHUNK_DECL, i) then None
    else
      var j := SkipSpaces(js, i + |CHUNK_DECL|);
      if j == |js| || js[j] != '=' then None
      else
        var k := SkipSpaces(js, j + 1);
        if OccursAt(js, CHUNK_VALUE, k) then Some(k + |CHUNK_VALUE|) else None
  }

  /** The leftmost match at or after `i`. */
  function FirstChunkMatch(js: string, i: nat): (r: Option<(nat, nat)>)
    requires i <= |js|
    ensures r.Some? ==> i <= r.value.0 && ChunkMatchAt(js, r.value.0) == Some(r.value.1)
    decreases |js| - i
  {
    match ChunkMatchAt(js, i)
    case Some(e) => Some((i, e))
    case None => if i == |js| then None else FirstChunkMatch(js, i + 1)
  }

  /** A match at `i` with none in `[j, i)` is the one found from `j`. */
  lemma {:induction false} FirstChunkMatchFrom(js: string, j: nat, i: nat, e: nat)
    requires j <= i <= |js| && ChunkMatchAt(js, i) == Some(e)
    requires forall m :: j <= m < i ==> ChunkMatchAt(js, m).None?
    ensures FirstChunkMatch(js, j) == Some((i, e))
    decreases i - j
  {
    if j < i {
      assert ChunkMatchAt(js, j).None?;
      FirstChunkMatchFrom(js, j + 1, i, e);
    }
  }

  /** Finding nothing from `j` means no index from `j` on matches. */
  lemma {:induction false} FirstChunkMatchNone(js: string, j: nat)
    requires j <= |js| && FirstChunkMatch(js, j).None?
    ensures forall m :: j <= m <= |js| ==> ChunkMatchAt(js, m).None?
    decreases |js| - j
  {
    if j < |js| {
      FirstChunkMatchNone(js, j + 1);
    }
  }

  /** The declaration that replaces the first match. */
  function ChunkReplacement(basePath: string): string {
    "const CHUNK_BASE_PATH=\"" + basePath + "/_next/\""
  }

  /** The Turbopack runtime rewrite: the first declaration gets the proxied base path. */
  function RewriteTurbopack(js: string, basePath: string): (r: string)
    ensures FirstChunkMatch(js, 0).None? ==> r == js
    ensures FirstChunkMatch(js, 0).Some? ==>
      exists i, e :: 0 <= i < e <= |js| && r == js[..i] + ChunkReplacement(basePath) + js[e..]
  {
    match FirstChunkMatch(js, 0)
    case None => js
    case Some((i, e)) => js[..i] + ChunkReplacement(basePath) + js[e..]
  }

  /** The runtime's own declaration is rewritten, whatever spacing surrounds `=`. */
  lemma TurbopackDeclarationRewritten(prefix: string, sp1: string, sp2: string, rest: string, basePath: string)
    requires 'c' !in prefix
    requires forall k :: 0 <= k < |sp1| ==> IsSpace(sp1[k])
    requires forall k :: 0 <= k < |sp2| ==> IsSpace(sp2[k])
    ensures RewriteTurbopack(prefix + (CHUNK_DECL + sp1 + "=" + sp2 + CHUNK_VALUE) + rest, basePath)
         == prefix + ChunkReplacement(basePath) + rest
  {
    DeclarationMatches(prefix, sp1, sp2, rest);
    RewriteAtMatch(prefix, CHUNK_DECL + sp1 + "=" + sp2 + CHUNK_VALUE, rest, basePath);
  }

  /** A match right after a prefix without `c` is the one the rewrite replaces. */
  lemma RewriteAtMatch(prefix: string, decl: string, rest: string, basePath: string)
    requires 'c' !in prefix
    requires ChunkMatchAt(prefix + decl + rest, |prefix|) == Some(|prefix| + |decl|)
    ensures RewriteTurbopack(prefix + decl + rest, basePath) == prefix + ChunkReplacement(basePath) + rest
  {
    var js := prefix + decl + rest;
    NoMatchInPrefix(prefix, decl, rest);
    FirstChunkMatchAt(js, |prefix|, |prefix| + |decl|);
    DeclWindow(prefix, decl, rest);
  }

  /** No match starts inside a prefix without `c`, the first letter of the declaration. */
  lemma NoMatchInPrefix(prefix: string, decl: string, rest: string)
    requires 'c' !in prefix
    ensures forall m :: 0 <= m < |prefix| ==> ChunkMatchAt(prefix + decl + rest, m).None?
  {
    var js := prefix + decl + rest;
    forall m | 0 <= m < |prefix|
      ensures ChunkMatchAt(js, m).None?
    {
      assert js[m] == prefix[m];
      OccursAtHead(js, CHUNK_DECL, m);
    }
  }

  /** The declaration written with any spacing around `=` is a match. */
  lemma DeclarationMatches(prefix: string, sp1: string, sp2: string, rest: string)
    requires forall k :: 0 <= k < |sp1| ==> IsSpace(sp1[k])
    requires forall k :: 0 <= k < |sp2| ==> IsSpace(sp2[k])
    ensures var decl := CHUNK_DECL + sp1 + "=" + sp2 + CHUNK_VALUE;
      ChunkMatchAt(prefix + decl + rest, |prefix|) == Some(|prefix| + |decl|)
  {
    var decl := CHUNK_DECL + sp1 + "=" + sp2 + CHUNK_VALUE;
    var js := prefix + decl + rest;
    var i := |prefix|;
    var j0 := |CHUNK_DECL| + |sp1|;
    var k0 := j0 + 1 + |sp2|;
    DeclLayout(sp1, sp2);
    DeclWindow(prefix, decl, rest);
    WindowOccurs(js, i, decl, 0, CHUNK_DECL);
    WindowOccurs(js, i, decl, k0, CHUNK_VALUE);
    WindowSpaces(js, i, decl, |CHUNK_DECL|, j0);
    WindowSpaces(js, i, decl, j0 + 1, k0);
    ChunkMatchOfParts(js, i, i + j0, i + k0);
  }

  /** A pattern at offset `a` of a window is a pattern at `i + a` of the text. */
  lemma WindowOccurs(js: string, i: nat, w: string, a: nat, pat: string)
    requires i + |w| <= |js| && js[i..i + |w|] == w
    requires a + |pat| <= |w| && w[a..a + |pat|] == pat
    ensures OccursAt(js, pat, i + a)
  {
    forall m | 0 <= m < |pat| ensures js[i + a + m] == pat[m] {
      assert js[i + a + m] == js[i..i + |w|][a + m];
      assert pat[m] == w[a..a + |pat|][m];
    }
    assert js[i + a..i + a + |pat|] == pat;
  }

  /** White space in a window is white space in the text. */
  lemma WindowSpaces(js: string, i: nat, w: string, lo: nat, hi: nat)
    requires i + |w| <= |js| && js[i..i + |w|] == w
    requires lo <= hi <= |w| && forall m :: lo <= m < hi ==> IsSpace(w[m])
    ensures forall m :: i + lo <= m < i + hi ==> IsSpace(js[m])
  {
    forall m | i + lo <= m < i + hi ensures IsSpace(js[m]) {
      assert js[m] == w[m - i];
    }
  }

  /** Where the name, the spaces, `=` and the value sit inside the declaration. */
  lemma DeclLayout(sp1: string, sp2: string)
    requires forall k :: 0 <= k < |sp1| ==> IsSpace(sp1[k])
    requires forall k :: 0 <= k < |sp2| ==> IsSpace(sp2[k])
    ensures var decl := CHUNK_DECL + sp1 + "=" + sp2 + CHUNK_VALUE;
      && var j := |CHUNK_DECL| + |sp1|;
      && var k := j + 1 + |sp2|;
      && decl[..|CHUNK_DECL|] == CHUNK_DECL
      && (forall m :: |CHUNK_DECL| <= m < j ==> IsSpace(decl[m]))
      && decl[j] == '='
      && (forall m :: j + 1 <= m < k ==> IsSpace(decl[m]))
      && decl[k..] == CHUNK_VALUE
  {
    var decl := CHUNK_DECL + sp1 + "=" + sp2 + CHUNK_VALUE;
    var j := |CHUNK_DECL| + |sp1|;
    assert forall m :: 0 <= m < |sp1| ==> decl[|CHUNK_DECL| + m] == sp1[m];
    assert forall m :: 0 <= m < |sp2| ==> decl[j + 1 + m] == sp2[m];
  }

  /** The declaration's characters, read at their place in the whole text. */
  lemma DeclWindow(prefix: string, decl: string, rest: string)
    ensures var js := prefix + decl + rest;
      && js[..|prefix|] == prefix
      && js[|prefix|..|prefix| + |decl|] == decl
      && js[|prefix| + |decl|..] == rest
  {
    var js := prefix + decl + rest;
    assert js[..|prefix|] == prefix;
    assert js[|prefix|..|prefix| + |decl|] == decl;
    assert js[|prefix| + |decl|..] == rest;
  }

  /** A match spelled out by its positions: the name at `i`, `=` at `j`, the value at `k`. */
  lemma ChunkMatchOfParts(js: string, i: nat, j: nat, k: nat)
    requires OccursAt(js, CHUNK_DECL, i)
    requires i + |CHUNK_DECL| <= j < |js| && js[j] == '='
    requires forall m :: i + |CHUNK_DECL| <= m < j ==> IsSpace(js[m])
    requires j < k <= |js| && forall m :: j + 1 <= m < k ==> IsSpace(js[m])
    requires OccursAt(js, CHUNK_VALUE, k)
    ensures ChunkMatchAt(js, i) == Some(k + |CHUNK_VALUE|)
  {
    assert !IsSpace(js[j]);
    SkipSpacesOver(js, i + |CHUNK_DECL|, j);
    assert !IsSpace(js[k]);
    SkipSpacesOver(js, j + 1, k);
  }

  /** The first index with a match decides `FirstChunkMatch`. */
  lemma FirstChunkMatchAt(js: string, i: nat, e: nat)
    requires i <= |js| && ChunkMatchAt(js, i) == Some(e)
    requires forall m :: 0 <= m < i ==> ChunkMatchAt(js, m).None?
    ensures FirstChunkMatch(js, 0) == Some((i, e))
  {
    FirstChunkMatchFrom(js, 0, i, e);
  }

  lemma SkipSpacesOver(s: string, i: nat, j: nat)
    requires i <= j <= |s|
    requires forall k :: i <= k < j ==> IsSpace(s[k])
    requires j < |s| ==> !IsSpace(s[j])
    ensures SkipSpaces(s, i) == j
    decreases j - i
  {
    if i < j {
      SkipSpacesOver(s, i + 1, j);
    }
  }

  // ---------------------------------------------------------------------
  // Routes

  datatype Body = Streamed | Rewritten(text: string)

  datatype Reply =
    | JsonError(status: int, error: string)
    | TextReply(status: int, text: string)
    | Forwarded(status: int, headers: Headers, body: Body)

  /** What the container's server answered: `None` for a failed fetch, with its message. */
  datatype UpstreamResponse = UpstreamResponse(status: int, headers: Headers, text: string)

  /** The request made to the container. */
  datatype Fetch = Fetch(url: string, headers: Headers)

  datatype Request = Request(path: string, url: string, headers: Headers)

  const NOT_RUNNING := "Container not running"
  const NO_IP := "Cannot resolve container IP"

  /** The container address and port, or the 503 reply the route gives instead. */
  function Resolve(project: Option<Projects.Project>, info: Option<Containers.ContainerInfo>, detected: Option<int>, noPort: string): (r: Result<(string, int), Reply>)
    ensures r.Err? ==> r.error.TextReply? && r.error.status == 503
    ensures r.Ok? <==> PreviewProxy.Running(project) && PreviewProxy.IpOf(info).Some? && PreviewProxy.TargetPort(project.value, detected).Some?
    ensures r.Ok? ==> r.value == (PreviewProxy.IpOf(info).value, PreviewProxy.TargetPort(project.value, detected).value)
  {
    if !PreviewProxy.Running(project) then Err(TextReply(503, NOT_RUNNING))
    else if PreviewProxy.IpOf(info).None? then Err(TextReply(503, NO_IP))
    else
      match PreviewProxy.TargetPort(project.value, detected)
      case None => Err(TextReply(503, noPort))
      case Some(port) => Ok((PreviewProxy.IpOf(info).value, port))
  }

  /** `proxyRoute`: the request made upstream, if any, and the reply. */
  function ProxyRoute(projectId: string, req: Request, project: Option<Projects.Project>,
                      info: Option<Containers.ContainerInfo>, detected: Option<int>,
                      script: string, upstream: Result<UpstreamResponse, string>): (o: (Option<Fetch>, Reply))
    ensures project.None? ==> o == (None, JsonError(404, Projects.NOT_FOUND))
    ensures project.Some? && !PreviewProxy.Running(project) ==> o == (None, TextReply(503, NOT_RUNNING))
    ensures o.0.Some? <==> Resolve(project, info, detected, "").Ok?
    ensures o.0.Some? ==> o.0.value.headers.Keys == req.headers.Keys - REQUEST_STRIPPED
    ensures o.0.Some? ==> var (ip, port) := Resolve(project, info, detected, "").value;
      o.0.value.url == TargetUrl(ip, port, UpstreamPath(req.path, BasePath(projectId)), Query(req.url))
    ensures o.0.Some? && upstream.Err? ==> o.1 == TextReply(502, "Proxy error: " + upstream.error)
    ensures o.0.Some? && upstream.Ok? ==> o.1.Forwarded? && o.1.status == upstream.value.status
    ensures o.0.Some? && upstream.Ok? ==> o.1.Forwarded? && o.1.headers.Keys == upstream.value.headers.Keys - STRIPPED
    ensures project.Some? && Resolve(project, info, detected, ROUTE_NO_PORT).Err? ==>
      o == (None, Resolve(project, info, detected, ROUTE_NO_PORT).error)
    ensures o.0.Some? && upstream.Ok? && Contains(HeaderOr(upstream.value.headers, "content-type"), "text/html") ==>
      o.1.body == Rewritten(RewriteHtml(upstream.value.text, BasePath(projectId), script))
    ensures o.0.Some? && upstream.Ok? && !Contains(HeaderOr(upstream.value.headers, "content-type"), "text/html")
            && Contains(HeaderOr(upstream.value.headers, "content-type"), "javascript")
            && Contains(UpstreamPath(req.path, BasePath(projectId)), "turbopack") ==>
      o.1.body == Rewritten(RewriteTurbopack(upstream.value.text, BasePath(projectId)))
    ensures o.0.Some? && upstream.Ok? && !Contains(HeaderOr(upstream.value.headers, "content-type"), "text/html")
            && !(Contains(HeaderOr(upstream.value.headers, "content-type"), "javascript")
                 && Contains(UpstreamPath(req.path, BasePath(projectId)), "turbopack")) ==>
      o.1.body == Streamed
  {
    if project.None? then (None, JsonError(404, Projects.NOT_FOUND))
    else
      match Resolve(project, info, detected, ROUTE_NO_PORT)
      case Err(reply) => (None, reply)
      case Ok((ip, port)) =>
        var basePath := BasePath(projectId);
        var path := UpstreamPath(req.path, basePath);
        var fetch := Fetch(TargetUrl(ip, port, path, Query(req.url)), Strip(req.headers, REQUEST_STRIPPED));
        match upstream
        case Err(message) => (Some(fetch), TextReply(502, "Proxy error: " + message))
        case Ok(resp) =>
          var headers := Strip(resp.headers, STRIPPED);
          var contentType := HeaderOr(resp.headers, "content-type");
          var body :=
            if Contains(contentType, "text/html") then Rewritten(RewriteHtml(resp.text, basePath, script))
            else if Contains(contentType, "javascript") && Contains(path, "turbopack") then Rewritten(RewriteTurbopack(resp.text, basePath))
            else Streamed;
          (Some(fetch), Forwarded(resp.status, headers, body))
  }

  const ROUTE_NO_PORT := "No port detected. Start a dev server or set port manually."
  const CATCH_ALL_NO_PORT := "No port detected"

  /** The project id the `/\/preview\/([^/]+)/` pattern takes out of a referer. */
  function ProjectFromReferer(referer: string): (r: Option<string>)
    ensures r.Some? ==> |r.value| > 0 && '/' !in r.value
    ensures r.None? <==> forall i :: 0 <= i <= |referer| ==> !RefererMatchAt(referer, i)
  {
    match FirstRefererMatch(referer, 0)
    case None => None
    case Some(i) => Some(SegmentAt(referer, i + |PREVIEW|))
  }

  const PREVIEW := "/preview/"

  /** `/preview/` followed by at least one character that is not `/`. */
  predicate RefererMatchAt(s: string, i: nat) {
    OccursAt(s, PREVIEW, i) && i + |PREVIEW| < |s| && s[i + |PREVIEW|] != '/'
  }

  function FirstRefererMatch(s: string, i: nat): (r: Option<nat>)
    ensures r.Some? ==> i <= r.value && RefererMatchAt(s, r.value)
    ensures r.Some? ==> forall j :: i <= j < r.value ==> !RefererMatchAt(s, j)
    ensures r.None? ==> forall j :: i <= j <= |s| ==> !RefererMatchAt(s, j)
    decreases |s| + 1 - i
  {
    if i > |s| then None
    else if RefererMatchAt(s, i) then Some(i)
    else FirstRefererMatch(s, i + 1)
  }

  /** The longest run of non-`/` characters from index `i`. */
  function SegmentAt(s: string, i: nat): (seg: string)
    requires i < |s| && s[i] != '/'
    ensures |seg| > 0 && '/' !in seg
    ensures i + |seg| <= |s| && seg == s[i..i + |seg|]
    ensures i + |seg| < |s| ==> s[i + |seg|] == '/'
    decreases |s| - i
  {
    if i + 1 < |s| && s[i + 1] != '/' then
      var rest := SegmentAt(s, i + 1);
      assert [s[i]] + rest == s[i..i + 1 + |rest|];
      [s[i]] + rest
    else [s[i]]
  }

  /** A referer pointing into a preview names the project of its first `/preview/` segment. */
  lemma RefererNamesProject(origin: string, projectId: string, rest: string)
    requires |projectId| > 0 && '/' !in projectId
    requires forall i :: 0 <= i < |origin| ==> !RefererMatchAt(origin + PREVIEW + projectId + "/" + rest, i)
    ensures ProjectFromReferer(origin + PREVIEW + projectId + "/" + rest) == Some(projectId)
  {
    var s := origin + PREVIEW + projectId + "/" + rest;
    var i := |origin|;
    assert s[i..i + |PREVIEW|] == PREVIEW;
    assert s[i + |PREVIEW|] == projectId[0];
    assert RefererMatchAt(s, i);
    var start := i + |PREVIEW|;
    assert s[start..start + |projectId|] == projectId;
    assert s[start + |projectId|] == '/';
    SegmentOf(s, start, projectId);
  }

  /** A run of non-`/` characters followed by `/` is the segment `SegmentAt` takes. */
  lemma {:induction false} SegmentOf(s: string, i: nat, seg: string)
    requires |seg| > 0 && '/' !in seg
    requires i + |seg| < |s| && s[i..i + |seg|] == seg && s[i + |seg|] == '/'
    ensures SegmentAt(s, i) == seg
    decreases |seg|
  {
    assert s[i] == seg[0];
    if |seg| > 1 {
      assert s[i + 1] == seg[1];
      assert s[i + 1..i + 1 + |seg[1..]|] == seg[1..];
      SegmentOf(s, i + 1, seg[1..]);
      assert [seg[0]] + seg[1..] == seg;
    } else {
      assert s[i + 1] == '/';
    }
  }

  /** The project a request's referer names, if it has one. */
  function RefererProject(req: Request): Option<string> {
    ProjectFromReferer(HeaderOr(req.headers, "referer"))
  }

  /** `nextCatchAllRoute`. */
  function NextCatchAll(req: Request, project: string -> Option<Projects.Project>,
                        info: Option<Containers.ContainerInfo>, detected: Option<int>,
                        upstream: Result<UpstreamResponse, string>): (o: (Option<Fetch>, Reply))
    ensures HeaderOr(req.headers, "referer") == "" ==> o == (None, TextReply(400, "Missing referer"))
    ensures HeaderOr(req.headers, "referer") != "" && ProjectFromReferer(req.headers["referer"]).None? ==>
      o == (None, TextReply(400, "Cannot determine project from referer"))
    ensures HeaderOr(req.headers, "referer") != "" && RefererProject(req).Some?
            && Resolve(project(RefererProject(req).value), info, detected, CATCH_ALL_NO_PORT).Err? ==>
      o == (None, Resolve(project(RefererProject(req).value), info, detected, CATCH_ALL_NO_PORT).error)
    ensures o.0.Some? <==> HeaderOr(req.headers, "referer") != "" && RefererProject(req).Some?
                           && Resolve(project(RefererProject(req).value), info, detected, CATCH_ALL_NO_PORT).Ok?
    ensures o.0.Some? ==>
      o.0.value.url == TargetUrl(Resolve(project(RefererProject(req).value), info, detected, CATCH_ALL_NO_PORT).value.0,
                                 Resolve(project(RefererProject(req).value), info, detected, CATCH_ALL_NO_PORT).value.1,
                                 req.path, Query(req.url))
    ensures o.0.Some? ==> o.0.value.headers.Keys == req.headers.Keys - REQUEST_STRIPPED
    ensures o.0.Some? && upstream.Err? ==> o.1 == TextReply(502, "Proxy error: " + upstream.error)
    ensures o.0.Some? && upstream.Ok? ==> o.1.Forwarded? && o.1.status == upstream.value.status
    ensures o.0.Some? && upstream.Ok? ==> o.1.Forwarded? && o.1.body == Streamed
    ensures o.0.Some? && upstream.Ok? ==> o.1.Forwarded? && o.1.headers.Keys == upstream.value.headers.Keys - CATCH_ALL_STRIPPED
  {
    var referer := HeaderOr(req.headers, "referer");
    if referer == "" then (None, TextReply(400, "Missing referer"))
    else
      match ProjectFromReferer(referer)
      case None => (None, TextReply(400, "Cannot determine project from referer"))
      case Some(projectId) =>
        match Resolve(project(projectId), info, detected, CATCH_ALL_NO_PORT)
        case Err(reply) => (None, reply)
        case Ok((ip, port)) =>
          var fetch := Fetch(TargetUrl(ip, port, req.path, Query(req.url)), Strip(req.headers, REQUEST_STRIPPED));
          match upstream
          case Err(message) => (Some(fetch), TextReply(502, "Proxy error: " + message))
          case Ok(resp) => (Some(fetch), Forwarded(resp.status, Strip(resp.headers, CATCH_ALL_STRIPPED), Streamed))
  }
}

=== FILE: simple_yaml.dfy ===
/**
 * The minimal YAML reader `parseSimpleYaml` of
 * apps/api/src/services/tunnel.ts: unindented `word:` lines open sections,
 * and inside a section `key: [a, b]`, `key: value` and `- item` lines set or
 * extend keys. Anything else is ignored.
 *
 * A section is a JavaScript object, so its keys are kept in insertion order
 * and "the last key" is the last one `Object.keys` lists: keys that are
 * array indices come first in ascending numeric order, then the others in
 * insertion order.
 */
module SimpleYaml {
  import opened Common
  import opened Text
  import opened Decimal

  /** A scalar after `Number` coercion: a number, or the text when it is not one. */
  datatype Scalar = Num(n: nat) | Str(s: string)

  datatype Value = Single(scalar: Scalar) | List(items: seq<Scalar>)

  /** The entries of one section, in insertion order. */
  type Section = seq<(string, Value)>

  /** JavaScript truthiness of a stored value: arrays are always truthy. */
  predicate Truthy(v: Value) {
    match v
    case Single(Num(n)) => n != 0
    case Single(Str(s)) => s != ""
    case List(_) => true
  }

  /** `isNaN(Number(v)) ? v : Number(v)` for an already trimmed `v`. */
  function Coerce(v: string): Scalar {
    match NumberOf(v)
    case Some(n) => Num(n)
    case None => Str(v)
  }

  function Keys(s: Section): (r: seq<string>)
    ensures |r| == |s| && forall i :: 0 <= i < |s| ==> r[i] == s[i].0
  {
    if |s| == 0 then [] else [s[0].0] + Keys(s[1..])
  }

  predicate KeysUnique(s: Section) {
    NoDup(Keys(s))
  }

  /** `section[k]`, `None` standing for `undefined`. */
  function Get(s: Section, k: string): (r: Option<Value>)
    ensures r.None? <==> k !in Keys(s)
    ensures r.Some? ==> (k, r.value) in s
  {
    if k in Keys(s) then
      var i := IndexOfElem(Keys(s), k);
      assert s[i] == (k, s[i].1);
      Some(s[i].1)
    else None
  }

  /** `section[k] = v`: an existing key keeps its place, a new key goes last. */
  function Put(s: Section, k: string, v: Value): (r: Section)
    requires KeysUnique(s)
    ensures KeysUnique(r)
    ensures k in Keys(s) ==> Keys(r) == Keys(s)
    ensures k !in Keys(s) ==> Keys(r) == Keys(s) + [k]
  {
    if k in Keys(s) then
      var r := s[IndexOfElem(Keys(s), k) := (k, v)];
      assert Keys(r) == Keys(s);
      r
    else
      var r := s + [(k, v)];
      assert Keys(r) == Keys(s) + [k];
      r
  }

  /** After `Put`, the key holds the new value and every other key is unchanged. */
  lemma PutGet(s: Section, k: string, v: Value)
    requires KeysUnique(s)
    ensures Get(Put(s, k, v), k) == Some(v)
    ensures forall j :: j != k ==> Get(Put(s, k, v), j) == Get(s, j)
  {
    var r := Put(s, k, v);
    if k in Keys(s) {
      var i := IndexOfElem(Keys(s), k);
      IndexOfElemUnique(Keys(r), k, i);
      assert Keys(r)[..i] == Keys(s)[..i];
      forall j | j != k ensures Get(r, j) == Get(s, j) {
        if j in Keys(s) {
          var i' := IndexOfElem(Keys(s), j);
          assert Keys(r)[..i'] == Keys(s)[..i'];
          IndexOfElemUnique(Keys(r), j, i');
        }
      }
    } else {
      IndexOfElemUnique(Keys(r), k, |s|);
      assert Keys(r)[..|s|] == Keys(s);
      forall j | j != k ensures Get(r, j) == Get(s, j) {
        if j in Keys(s) {
          var i' := IndexOfElem(Keys(s), j);
          assert Keys(r)[..i'] == Keys(s)[..i'];
          IndexOfElemUnique(Keys(r), j, i');
        }
      }
    }
  }

  /** The canonical numeral of an integer below 2^32 - 1: what makes a key an array index. */
  predicate IsArrayIndex(k: string) {
    && |k| > 0 && AllDigits(k)
    && (k[0] != '0' || |k| == 1)
    && ValueOf(k) < 0xFFFF_FFFF
  }

  /** The last key of `s` that is not an array index. */
  function LastNamed(s: Section): (r: Option<string>)
    ensures r.Some? ==> r.value in Keys(s) && !IsArrayIndex(r.value)
    ensures r.None? ==> forall i :: 0 <= i < |s| ==> IsArrayIndex(s[i].0)
    ensures |s| > 0 && !IsArrayIndex(s[|s| - 1].0) ==> r == Some(s[|s| - 1].0)
  {
    if |s| == 0 then None
    else if !IsArrayIndex(s[|s| - 1].0) then Some(s[|s| - 1].0)
    else
      var r := LastNamed(s[..|s| - 1]);
      assert forall i :: 0 <= i < |s| - 1 ==> s[..|s| - 1][i] == s[i];
      assert r.Some? ==> r.value in Keys(s) by {
        if r.Some? {
          var i :| 0 <= i < |s| - 1 && Keys(s[..|s| - 1])[i] == r.value;
          assert Keys(s)[i] == r.value;
        }
      }
      r
  }

  /** The array-index key of largest value. */
  function MaxIndexKey(s: Section): (r: string)
    requires |s| > 0 && forall i :: 0 <= i < |s| ==> IsArrayIndex(s[i].0)
    ensures r in Keys(s) && IsArrayIndex(r)
    ensures forall i :: 0 <= i < |s| ==> IsArrayIndex(s[i].0) && ValueOf(s[i].0) <= ValueOf(r)
  {
    if |s| == 1 then s[0].0
    else
      var m := MaxIndexKey(s[1..]);
      assert IsArrayIndex(s[0].0);
      assert Keys(s) == [s[0].0] + Keys(s[1..]);
      assert forall i :: 1 <= i < |s| ==> s[i] == s[1..][i - 1];
      if ValueOf(s[0].0) > ValueOf(m) then s[0].0 else m
  }

  /**
   * `keys[keys.length - 1]` for `keys = Object.keys(section)`: the last
   * non-index key in insertion order, or, when every key is an array index,
   * the largest one.
   */
  function LastKey(s: Section): (r: Option<string>)
    ensures r.Some? <==> |s| > 0
    ensures r.Some? ==> r.value in Keys(s)
    ensures |s| > 0 && !IsArrayIndex(s[|s| - 1].0) ==> r == Some(s[|s| - 1].0)
    ensures r.Some? && IsArrayIndex(r.value) ==>
      forall i :: 0 <= i < |s| ==> IsArrayIndex(s[i].0) && ValueOf(s[i].0) <= ValueOf(r.value)
  {
    match LastNamed(s)
    case Some(k) => Some(k)
    case None => if |s| == 0 then None else Some(MaxIndexKey(s))
  }

  predicate NoLineTerminator(s: string) {
    forall i :: 0 <= i < |s| ==> !IsLineTerminator(s[i])
  }

  /** Length of the longest prefix of `\w` characters. */
  function WordRun(t: string): (k: nat)
    ensures k <= |t| && forall i :: 0 <= i < k ==> IsWordChar(t[i])
    ensures k < |t| ==> !IsWordChar(t[k])
  {
    if |t| > 0 && IsWordChar(t[0]) then WordRun(t[1..]) + 1 else 0
  }

  /** `^(\w+):`: the key and the text after the colon. */
  function KeyColon(t: string): (r: Option<(string, string)>)
    ensures r.Some? ==> t == r.value.0 + ":" + r.value.1
    ensures r.Some? ==> |r.value.0| > 0 && forall i :: 0 <= i < |r.value.0| ==> IsWordChar(r.value.0[i])
  {
    var k := WordRun(t);
    if 0 < k < |t| && t[k] == ':' then
      assert t == t[..k] + ":" + t[k + 1..];
      Some((t[..k], t[k + 1..]))
    else None
  }

  /** `^(\w+):$`. */
  function Header(t: string): Option<string> {
    match KeyColon(t)
    case Some((key, rest)) => if rest == "" then Some(key) else None
    case None => None
  }

  /** `^(\w+):\s*\[([^\]]*)\]$`: the key and the text between the brackets. */
  function InlineList(t: string): Option<(string, string)> {
    match KeyColon(t)
    case None => None
    case Some((key, rest)) =>
      var u := TrimStart(rest);
      if |u| >= 2 && u[0] == '[' && u[|u| - 1] == ']' && ']' !in u[1..|u| - 1]
      then Some((key, u[1..|u| - 1])) else None
  }

  /** `^(\w+):\s*(.+)$`: the key and the value text. */
  function KeyValue(t: string): Option<(string, string)> {
    match KeyColon(t)
    case None => None
    case Some((key, rest)) =>
      var u := TrimStart(rest);
      if |u| > 0 && NoLineTerminator(u) then Some((key, u)) else None
  }

  /** `^-\s+(.+)$`: the item text. */
  function ArrayItem(t: string): Option<string> {
    if |t| >= 2 && t[0] == '-' && IsSpace(t[1]) then
      var u := TrimStart(t[1..]);
      if |u| > 0 && NoLineTerminator(u) then Some(u) else None
    else None
  }

  /** `inner.split(",").map(v => coerce(v.trim()))`. */
  function InlineItems(inner: string): seq<Scalar> {
    CoerceAll(Split(inner, ','))
  }

  function CoerceAll(parts: seq<string>): (r: seq<Scalar>)
    ensures |r| == |parts| && forall i :: 0 <= i < |parts| ==> r[i] == Coerce(Trim(parts[i]))
  {
    if |parts| == 0 then [] else [Coerce(Trim(parts[0]))] + CoerceAll(parts[1..])
  }

  /** What one line of the input is, in the order the parser tests for it. */
  datatype LineKind =
    | Skipped                                   // blank or `#` comment
    | SectionHeader(name: string)               // unindented `word:`
    | InlineListLine(key: string, items: seq<Scalar>)
    | KeyValueLine(key: string, value: Scalar)
    | ItemLine(item: Scalar)
    | Unmatched

  function Indented(line: string): bool {
    StartsWith(line, " ") || StartsWith(line, "\t")
  }

  function Classify(line: string): LineKind {
    ClassifyTrimmed(Trim(line), Indented(line))
  }

  /** What a line is, from its trimmed text and whether it is indented. */
  function ClassifyTrimmed(t: string, indented: bool): (k: LineKind)
    ensures k.SectionHeader? ==> !indented
  {
    if |t| == 0 || StartsWith(t, "#") then Skipped
    else if Header(t).Some? && !indented then SectionHeader(Header(t).value)
    else if InlineList(t).Some? then InlineListLine(InlineList(t).value.0, InlineItems(InlineList(t).value.1))
    else if KeyValue(t).Some? then KeyValueLine(KeyValue(t).value.0, Coerce(Trim(KeyValue(t).value.1)))
    else if ArrayItem(t).Some? then ItemLine(Coerce(Trim(ArrayItem(t).value)))
    else Unmatched
  }

  /**
   * A `key: value` line never matches `- item`, so testing the item pattern
   * after the key-value one (as the parser does when the key is already set)
   * finds nothing.
   */
  lemma KeyValueIsNotItem(t: string)
    requires KeyValue(t).Some?
    ensures ArrayItem(t).None?
  {
    assert IsWordChar(t[0]);
  }

  /** The parser's state: the sections read so far and the current section. */
  datatype Parser = Parser(doc: map<string, Section>, current: Option<string>)

  ghost predicate Valid(p: Parser) {
    && (p.current.Some? ==> p.current.value in p.doc)
    && forall name :: name in p.doc ==> KeysUnique(p.doc[name])
  }

  const Start: Parser := Parser(map[], None)

  /** The existing value of `key` is truthy. */
  predicate IsSet(entries: Section, key: string) {
    Get(entries, key).Some? && Truthy(Get(entries, key).value)
  }

  /** The list `- item` extends: the key's list, or a fresh one for any other value. */
  function ListOf(v: Option<Value>): seq<Scalar> {
    match v
    case Some(List(items)) => items
    case _ => []
  }

  /** The change a line makes to the current section's entries. */
  function Edit(entries: Section, kind: LineKind): (r: Section)
    requires KeysUnique(entries)
    ensures KeysUnique(r)
  {
    match kind
    case InlineListLine(key, items) => Put(entries, key, List(items))
    case KeyValueLine(key, value) => if IsSet(entries, key) then entries else Put(entries, key, Single(value))
    case ItemLine(item) =>
      (match LastKey(entries)
       case None => entries
       case Some(key) => Put(entries, key, List(ListOf(Get(entries, key)) + [item])))
    case _ => entries
  }

  /** One line of the loop of `parseSimpleYaml`, given what the line is. */
  function Apply(p: Parser, kind: LineKind): (r: Parser)
    requires Valid(p)
    ensures Valid(r)
  {
    match kind
    case SectionHeader(name) => Parser(p.doc[name := []], Some(name))
    case Skipped => p
    case Unmatched => p
    case _ =>
      match p.current
      case None => p
      case Some(name) => p.(doc := p.doc[name := Edit(p.doc[name], kind)])
  }

  function Step(p: Parser, line: string): (r: Parser)
    requires Valid(p)
    ensures Valid(r)
  {
    Apply(p, Classify(line))
  }

  function Run(p: Parser, lines: seq<string>): (r: Parser)
    requires Valid(p)
    ensures Valid(r)
    decreases |lines|
  {
    if |lines| == 0 then p else Run(Step(p, lines[0]), lines[1..])
  }

  /** `parseSimpleYaml(text)`. */
  function Parse(text: string): (r: map<string, Section>)
    ensures forall name :: name in r ==> KeysUnique(r[name])
  {
    Run(Start, Split(text, '\n')).doc
  }

  /** Blank lines and comment lines change nothing. */
  lemma BlankAndCommentLinesSkipped(p: Parser, line: string)
    requires Valid(p)
    requires Trim(line) == "" || StartsWith(Trim(line), "#")
    ensures Step(p, line) == p
  {
  }

  /** An unindented `word:` line opens the section `word`, empty even if it existed before. */
  lemma HeaderOpensSection(p: Parser, line: string, word: string)
    requires Valid(p)
    requires Trim(line) == word + ":" && |word| > 0 && forall i :: 0 <= i < |word| ==> IsWordChar(word[i])
    requires !Indented(line)
    ensures Step(p, line).current == Some(word)
    ensures Step(p, line).doc == p.doc[word := []]
  {
    HeaderOfWord(word);
    assert Classify(line) == ClassifyTrimmed(word + ":", false);
  }

  /** `word:` is a section header line naming `word`. */
  lemma HeaderOfWord(word: string)
    requires |word| > 0 && forall i :: 0 <= i < |word| ==> IsWordChar(word[i])
    ensures ClassifyTrimmed(word + ":", false) == SectionHeader(word)
  {
    var t := word + ":";
    WordRunOfKey(word, "");
    assert t == word + ":" + "";
    assert t[|word|] == ':';
    assert t[..|word|] == word;
    assert Header(t) == Some(word);
    assert !StartsWith(t, "#") by {
      assert t[0] == word[0] != '#';
    }
  }

  /** `WordRun` of a key followed by a colon stops at the colon. */
  lemma {:induction false} WordRunOfKey(key: string, rest: string)
    requires |key| > 0 && forall i :: 0 <= i < |key| ==> IsWordChar(key[i])
    ensures WordRun(key + ":" + rest) == |key|
    decreases |key|
  {
    var t := key + ":" + rest;
    if |key| > 1 {
      assert t[1..] == key[1..] + ":" + rest;
      WordRunOfKey(key[1..], rest);
    } else {
      assert t[1..] == ":" + rest;
      assert !IsWordChar(':');
    }
  }

  /** An indented bare `key:` line creates nothing. */
  lemma IndentedBareKeyDropped(p: Parser, line: string)
    requires Valid(p)
    requires Header(Trim(line)).Some? && Indented(line)
    ensures Step(p, line) == p
  {
    var t := Trim(line);
    var key := Header(t).value;
    assert KeyColon(t) == Some((key, ""));
    assert InlineList(t).None? && KeyValue(t).None?;
    assert t[0] != '-' by { assert IsWordChar(t[0]); }
    assert Classify(line) == Unmatched;
  }

  /** Before the first section only a section header has any effect. */
  lemma LinesOutsideSectionIgnored(p: Parser, line: string)
    requires Valid(p) && p.current.None?
    requires !Classify(line).SectionHeader?
    ensures Step(p, line) == p
  {
  }

  /**
   * In a section, `key: [a, b]` always sets `key` to the list of its items,
   * whatever `key` held; nothing else changes.
   */
  lemma InlineListOverwrites(p: Parser, key: string, items: seq<Scalar>)
    requires Valid(p) && p.current.Some?
    ensures Apply(p, InlineListLine(key, items)).current == p.current
    ensures Apply(p, InlineListLine(key, items)).doc.Keys == p.doc.Keys
    ensures Get(Apply(p, InlineListLine(key, items)).doc[p.current.value], key) == Some(List(items))
    ensures forall j :: j != key ==> Get(Apply(p, InlineListLine(key, items)).doc[p.current.value], j) == Get(p.doc[p.current.value], j)
    ensures forall name :: name in p.doc && name != p.current.value ==> Apply(p, InlineListLine(key, items)).doc[name] == p.doc[name]
  {
    var name := p.current.value;
    var sec := Put(p.doc[name], key, List(items));
    assert Apply(p, InlineListLine(key, items)) == p.(doc := p.doc[name := sec]);
    PutGet(p.doc[name], key, List(items));
  }

  /**
   * In a section, `key: value` sets `key` exactly when its current value is
   * falsy; a truthy value is kept and the line is ignored.
   */
  lemma KeyValueSetsOnlyFalsy(p: Parser, key: string, value: Scalar)
    requires Valid(p) && p.current.Some?
    ensures IsSet(p.doc[p.current.value], key) ==> Apply(p, KeyValueLine(key, value)) == p
    ensures !IsSet(p.doc[p.current.value], key) ==>
      && Apply(p, KeyValueLine(key, value)).current == p.current
      && Get(Apply(p, KeyValueLine(key, value)).doc[p.current.value], key) == Some(Single(value))
      && forall j :: j != key ==> Get(Apply(p, KeyValueLine(key, value)).doc[p.current.value], j) == Get(p.doc[p.current.value], j)
  {
    PutGet(p.doc[p.current.value], key, Single(value));
  }

  /**
   * In a section, `- item` appends the item to the section's last key (a
   * non-list value is first replaced by an empty list), and is dropped when
   * the section has no key yet.
   */
  lemma ItemAppendsToLastKey(entries: Section, item: Scalar)
    requires KeysUnique(entries)
    ensures LastKey(entries).None? ==> Edit(entries, ItemLine(item)) == entries
    ensures LastKey(entries).Some? ==>
      var key := LastKey(entries).value;
      && Get(Edit(entries, ItemLine(item)), key) == Some(List(ListOf(Get(entries, key)) + [item]))
      && forall j :: j != key ==> Get(Edit(entries, ItemLine(item)), j) == Get(entries, j)
  {
    if LastKey(entries).Some? {
      var key := LastKey(entries).value;
      var r := Put(entries, key, List(ListOf(Get(entries, key)) + [item]));
      assert Edit(entries, ItemLine(item)) == r;
      PutGet(entries, key, List(ListOf(Get(entries, key)) + [item]));
    }
  }

  /** A config file whose section `name` lists the given ports inline. */
  function PortsConfig(name: string, ports: seq<nat>): string {
    name + ":" + "\n" + PortsLine(ports)
  }

  predicate IsWord(s: string) {
    |s| > 0 && forall i :: 0 <= i < |s| ==> IsWordChar(s[i])
  }

  /** The `ports` line of a tunnel section listing the given ports. */
  function PortsLine(ports: seq<nat>): string {
    "  ports: [" + Join(Numerals(ports), ",") + "]"
  }

  function NumScalars(ports: seq<nat>): (r: seq<Scalar>)
    ensures |r| == |ports| && forall i :: 0 <= i < |r| ==> r[i] == Num(ports[i])
  {
    if |ports| == 0 then [] else [Num(ports[0])] + NumScalars(ports[1..])
  }

  /**
   * Reading back a config file that lists ports inline under `tunnel:` gives
   * the ports, as numbers, in order.
   */
  lemma PortsConfigRoundTrip(name: string, ports: seq<nat>)
    requires IsWord(name) && |ports| > 0
    ensures name in Parse(PortsConfig(name, ports))
    ensures Get(Parse(PortsConfig(name, ports))[name], "ports") == Some(List(NumScalars(ports)))
  {
    var doc := PortsConfigLines(name, ports);
    SplitTwoLines(PortsConfig(name, ports), name + ":", PortsLine(ports));
  }

  /** The two lines of the config file, run from the start, give the ports. */
  lemma PortsConfigLines(name: string, ports: seq<nat>) returns (doc: map<string, Section>)
    requires IsWord(name) && |ports| > 0
    ensures '\n' !in name + ":" && '\n' !in PortsLine(ports)
    ensures Run(Start, [name + ":", PortsLine(ports)]).doc == doc
    ensures name in doc && Get(doc[name], "ports") == Some(List(NumScalars(ports)))
  {
    var p1 := HeaderStep(name);
    var p2 := PortsLineStep(p1, name, ports);
    assert '\n' !in name + ":" by { assert !IsWordChar('\n'); }
    RunTwoLines(name + ":", PortsLine(ports), p1, p2);
    doc := p2.doc;
  }

  /** An unindented `name:` line at the start opens the section `name`. */
  lemma HeaderStep(name: string) returns (p: Parser)
    requires IsWord(name)
    ensures p == Step(Start, name + ":") && Valid(p)
    ensures p.current == Some(name) && p.doc == map[name := []]
  {
    var line := name + ":";
    assert !IsSpace(line[0]) && !IsSpace(line[|line| - 1]) by { assert IsWordChar(line[0]); }
    TrimNoop(line);
    assert !Indented(line) by { assert IsWordChar(line[0]); }
    HeaderOpensSection(Start, line, name);
    p := Step(Start, line);
  }

  /** A text of two lines without line breaks splits into exactly those lines. */
  lemma SplitTwoLines(text: string, a: string, b: string)
    requires text == a + "\n" + b && '\n' !in a && '\n' !in b
    ensures Split(text, '\n') == [a, b]
  {
    var lines := [a, b];
    assert Join(lines, "\n") == a + "\n" + Join([b], "\n");
    SplitJoin(lines, '\n');
  }

  /** Two lines are run as two steps. */
  lemma RunTwoLines(a: string, b: string, p1: Parser, p2: Parser)
    requires p1 == Step(Start, a) && Valid(p1) && p2 == Step(p1, b)
    ensures Run(Start, [a, b]) == p2
  {
    var lines := [a, b];
    assert lines[1..] == [b];
    assert Run(p1, [b]) == Run(p2, []);
  }

  lemma ClassifyPortsLine(ports: seq<nat>)
    requires |ports| > 0
    ensures Classify(PortsLine(ports)) == InlineListLine("ports", NumScalars(ports))
  {
    var inner := Join(Numerals(ports), ",");
    var items := InlineItemsOfNumerals(ports);
    PortsLineParts(ports);
    assert PortsLine(ports)[0] == ' ';
    ClassifyIndentedInline(PortsLine(ports), "ports", inner);
  }

  /** An indented line that matches the inline-list pattern is classified as one. */
  lemma ClassifyIndentedInline(line: string, key: string, inner: string)
    requires |line| > 0 && line[0] == ' '
    requires InlineList(Trim(line)) == Some((key, inner))
    ensures Classify(line) == InlineListLine(key, InlineItems(inner))
  {
    assert Indented(line);
    ClassifyInline(Trim(line), key, inner);
  }

  lemma ClassifyInline(t: string, key: string, inner: string)
    requires InlineList(t) == Some((key, inner))
    ensures ClassifyTrimmed(t, true) == InlineListLine(key, InlineItems(inner))
  {
    assert |t| > 0 && IsWordChar(t[0]);
    NotComment(t);
  }

  lemma PortsLineStep(p1: Parser, name: string, ports: seq<nat>) returns (p2: Parser)
    requires |ports| > 0
    requires Valid(p1) && p1.current == Some(name) && p1.doc == map[name := []]
    ensures p2 == Step(p1, PortsLine(ports))
    ensures '\n' !in PortsLine(ports)
    ensures name in p2.doc && Get(p2.doc[name], "ports") == Some(List(NumScalars(ports)))
  {
    var line := PortsLine(ports);
    PortsLineParts(ports);
    ClassifyPortsLine(ports);
    InlineListOverwrites(p1, "ports", NumScalars(ports));
    p2 := Step(p1, line);
  }

  lemma NumeralsNoSeparators(ports: seq<nat>)
    ensures forall k :: 0 <= k < |ports| ==> ',' !in Numerals(ports)[k] && ']' !in Numerals(ports)[k] && '\n' !in Numerals(ports)[k]
  {
    forall k | 0 <= k < |ports|
      ensures ',' !in Numerals(ports)[k] && ']' !in Numerals(ports)[k] && '\n' !in Numerals(ports)[k]
    {
      var d := NatToString(ports[k]);
      assert forall i :: 0 <= i < |d| ==> IsDigit(d[i]);
    }
  }

  /** Separators not occurring in the parts do not occur in their join. */
  lemma {:induction false} JoinAvoids(parts: seq<string>, sep: string, c: char)
    requires c !in sep && forall k :: 0 <= k < |parts| ==> c !in parts[k]
    ensures c !in Join(parts, sep)
  {
    if |parts| > 1 {
      JoinAvoids(parts[1..], sep, c);
    }
  }

  lemma InlineItemsOfNumerals(ports: seq<nat>) returns (items: seq<Scalar>)
    requires |ports| > 0
    ensures items == InlineItems(Join(Numerals(ports), ",")) == NumScalars(ports)
  {
    NumeralsNoSeparators(ports);
    SplitJoin(Numerals(ports), ',');
    CoerceNumerals(ports);
    items := CoerceAll(Numerals(ports));
  }

  /** Printed numbers coerce back to the numbers, in order. */
  lemma CoerceNumerals(ports: seq<nat>)
    ensures CoerceAll(Numerals(ports)) == NumScalars(ports)
  {
    var items := CoerceAll(Numerals(ports));
    forall i | 0 <= i < |ports| ensures items[i] == Num(ports[i]) {
      CoerceNumeral(ports[i]);
    }
  }

  /** How the `ports` line reads as a line of a section. */
  lemma PortsLineParts(ports: seq<nat>)
    requires |ports| > 0
    ensures '\n' !in PortsLine(ports)
    ensures Trim(PortsLine(ports)) == "ports: [" + Join(Numerals(ports), ",") + "]"
    ensures InlineList(Trim(PortsLine(ports))) == Some(("ports", Join(Numerals(ports), ",")))
  {
    var inner := Join(Numerals(ports), ",");
    NumeralsNoSeparators(ports);
    JoinAvoids(Numerals(ports), ",", ']');
    JoinAvoids(Numerals(ports), ",", '\n');
    InlinePortsLine(inner);
  }

  lemma InlinePortsLine(inner: string)
    requires ']' !in inner && '\n' !in inner
    ensures '\n' !in "  ports: [" + inner + "]"
    ensures Trim("  ports: [" + inner + "]") == "ports: [" + inner + "]"
    ensures InlineList("ports: [" + inner + "]") == Some(("ports", inner))
  {
    var t := "ports: [" + inner + "]";
    PortsLineHasNoNewline(inner);
    assert Trim("  ports: [" + inner + "]") == t by {
      assert "  ports: [" + inner + "]" == "  " + t;
      TrimIndented(t);
    }
    KeyColonOfPorts(inner);
    InlineListOfBrackets(t, "ports", inner);
  }

  lemma PortsLineHasNoNewline(inner: string)
    requires '\n' !in inner
    ensures '\n' !in "  ports: [" + inner + "]"
  {
    var head := "  ports: [";
    assert forall i :: 0 <= i < |head| ==> head[i] != '\n';
    assert '\n' !in head;
  }

  /** Two leading spaces are what `trim` removes from an indented line. */
  lemma TrimIndented(t: string)
    requires |t| > 0 && !IsSpace(t[0]) && !IsSpace(t[|t| - 1])
    ensures Trim("  " + t) == t
  {
    var line := "  " + t;
    assert line[1..] == " " + t && line[1..][1..] == t;
    assert TrimStart(line) == t;
    TrimNoop(t);
  }

  lemma KeyColonOfPorts(inner: string)
    ensures KeyColon("ports: [" + inner + "]") == Some(("ports", " [" + inner + "]"))
  {
    var t := "ports: [" + inner + "]";
    assert t == "ports" + ":" + (" [" + inner + "]");
    assert forall i :: 0 <= i < |"ports"| ==> IsWordChar("ports"[i]);
    WordRunOfKey("ports", " [" + inner + "]");
    assert t[..5] == "ports" && t[6..] == " [" + inner + "]";
  }

  /** A value that is one bracketed list after one space gives an inline list. */
  lemma InlineListOfBrackets(t: string, key: string, inner: string)
    requires KeyColon(t) == Some((key, " [" + inner + "]"))
    requires ']' !in inner
    ensures InlineList(t) == Some((key, inner))
  {
    var u := "[" + inner + "]";
    SpaceBeforeBracket(inner);
    assert |u| >= 2 && u[0] == '[' && u[|u| - 1] == ']';
    assert u[1..|u| - 1] == inner;
  }

  /** `trimStart` drops the one space in front of the bracket. */
  lemma SpaceBeforeBracket(inner: string)
    ensures TrimStart(" [" + inner + "]") == "[" + inner + "]"
  {
    var rest := " [" + inner + "]";
    var u := "[" + inner + "]";
    assert rest[1..] == u;
    assert !IsSpace(u[0]);
  }

  /** A printed number coerces back to itself. */
  lemma CoerceNumeral(n: nat)
    ensures Coerce(Trim(NatToString(n))) == Num(n)
  {
    var d := NatToString(n);
    assert !IsSpace(d[0]) && !IsSpace(d[|d| - 1]);
    TrimNoop(d);
  }

  /** The `ports` line of a section giving one number instead of a list. */
  function ScalarPortsLine(n: nat): string {
    "  ports: " + NatToString(n)
  }

  /** How a `ports: <number>` line classifies: a key with one value, not an inline list. */
  lemma ClassifyScalarPortsLine(n: nat)
    ensures '\n' !in ScalarPortsLine(n)
    ensures Classify(ScalarPortsLine(n)) == KeyValueLine("ports", Num(n))
  {
    var d := NatToString(n);
    assert forall i :: 0 <= i < |d| ==> IsDigit(d[i]);
    ScalarPortsLineParts(d);
    ScalarKeyValue(d);
    ClassifyIndentedKeyValue(ScalarPortsLine(n), "ports", d);
    CoerceNumeral(n);
  }

  /** The line `  ports: <digits>` has no line break and trims to `ports: <digits>`. */
  lemma ScalarPortsLineParts(d: string)
    requires |d| > 0 && forall i :: 0 <= i < |d| ==> IsDigit(d[i])
    ensures '\n' !in "  ports: " + d
    ensures Trim("  ports: " + d) == "ports: " + d
  {
    var line := "  ports: " + d;
    var t := "ports: " + d;
    assert IsDigit(t[|t| - 1]);
    assert line == "  " + t;
    TrimIndented(t);
    assert forall i :: 0 <= i < |line| ==> line[i] != '\n' by {
      assert forall i :: 9 <= i < |line| ==> line[i] == d[i - 9];
    }
  }

  /** An indented line that matches only the key-value pattern is classified as a key with one value. */
  lemma ClassifyIndentedKeyValue(line: string, key: string, v: string)
    requires |line| > 0 && line[0] == ' '
    requires |Trim(line)| > 0 && IsWordChar(Trim(line)[0])
    requires Header(Trim(line)).None? && InlineList(Trim(line)).None? && KeyValue(Trim(line)) == Some((key, v))
    ensures Classify(line) == KeyValueLine(key, Coerce(Trim(v)))
  {
    assert Indented(line);
    ClassifyKeyValue(Trim(line), key, v);
  }

  lemma ClassifyKeyValue(t: string, key: string, v: string)
    requires |t| > 0 && IsWordChar(t[0])
    requires Header(t).None? && InlineList(t).None? && KeyValue(t) == Some((key, v))
    ensures ClassifyTrimmed(t, true) == KeyValueLine(key, Coerce(Trim(v)))
  {
    NotComment(t);
  }

  /** A text starting with a word character is not a comment. */
  lemma NotComment(t: string)
    requires |t| > 0 && IsWordChar(t[0])
    ensures !StartsWith(t, "#")
  {
    assert t[..1][0] != "#"[0];
  }

  /** The trimmed `ports: <digits>` text matches the key-value pattern and no other. */
  lemma ScalarKeyValue(d: string)
    requires |d| > 0 && forall i :: 0 <= i < |d| ==> IsDigit(d[i])
    ensures Header("ports: " + d).None? && InlineList("ports: " + d).None?
    ensures KeyValue("ports: " + d) == Some(("ports", d))
  {
    KeyColonOfScalar(d);
    assert IsDigit(d[0]);
    SpaceBeforeValue(d);
    DigitsArePlain(d);
    PlainValue("ports: " + d, "ports", " " + d, d);
  }

  /** `trimStart` drops the one space in front of a value starting with a digit. */
  lemma SpaceBeforeValue(d: string)
    requires |d| > 0 && IsDigit(d[0])
    ensures TrimStart(" " + d) == d
  {
    var rest := " " + d;
    assert rest[1..] == d;
    assert !IsSpace(d[0]);
  }

  /** `ports: <value>` splits at its colon. */
  lemma KeyColonOfScalar(d: string)
    ensures KeyColon("ports: " + d) == Some(("ports", " " + d))
  {
    var t := "ports: " + d;
    assert forall i :: 0 <= i < |"ports"| ==> IsWordChar("ports"[i]);
    assert t == "ports" + ":" + (" " + d);
    WordRunOfKey("ports", " " + d);
    assert t[..5] == "ports" && t[6..] == " " + d;
  }

  /** Digits hold no line terminator and no opening bracket. */
  lemma DigitsArePlain(d: string)
    requires |d| > 0 && forall i :: 0 <= i < |d| ==> IsDigit(d[i])
    ensures d[0] != '[' && NoLineTerminator(d)
  {
    assert IsDigit(d[0]);
    forall i | 0 <= i < |d| ensures !IsLineTerminator(d[i]) {
      assert IsDigit(d[i]);
    }
  }

  /** After `key:`, a value that is neither empty nor bracketed matches only the key-value pattern. */
  lemma PlainValue(t: string, key: string, rest: string, u: string)
    requires KeyColon(t) == Some((key, rest)) && TrimStart(rest) == u
    requires |u| > 0 && u[0] != '[' && NoLineTerminator(u)
    ensures Header(t).None? && InlineList(t).None?
    ensures KeyValue(t) == Some((key, u))
  {
  }

  /** A `ports: <number>` line under a section header reads back as that single number, not as a list. */
  lemma ScalarPortsConfigRoundTrip(name: string, n: nat)
    requires IsWord(name)
    ensures name in Parse(ScalarPortsConfig(name, n))
    ensures Get(Parse(ScalarPortsConfig(name, n))[name], "ports") == Some(Single(Num(n)))
  {
    var doc := ScalarConfigLines(name, n);
    SplitTwoLines(ScalarPortsConfig(name, n), name + ":", ScalarPortsLine(n));
  }

  /** A config file whose section `name` gives `ports` one number. */
  function ScalarPortsConfig(name: string, n: nat): string {
    name + ":" + "\n" + ScalarPortsLine(n)
  }

  /** The two lines of that file, run from the start, give the single number. */
  lemma ScalarConfigLines(name: string, n: nat) returns (doc: map<string, Section>)
    requires IsWord(name)
    ensures '\n' !in name + ":" && '\n' !in ScalarPortsLine(n)
    ensures Run(Start, [name + ":", ScalarPortsLine(n)]).doc == doc
    ensures name in doc && Get(doc[name], "ports") == Some(Single(Num(n)))
  {
    var p1 := HeaderStep(name);
    var p2 := ScalarPortsLineStep(p1, name, n);
    assert '\n' !in name + ":" by { assert !IsWordChar('\n'); }
    RunTwoLines(name + ":", ScalarPortsLine(n), p1, p2);
    doc := p2.doc;
  }

  /** Right after the header, a `ports: <number>` line sets `ports` to that number. */
  lemma ScalarPortsLineStep(p1: Parser, name: string, n: nat) returns (p2: Parser)
    requires Valid(p1) && p1.current == Some(name) && p1.doc == map[name := []]
    ensures p2 == Step(p1, ScalarPortsLine(n))
    ensures '\n' !in ScalarPortsLine(n)
    ensures name in p2.doc && Get(p2.doc[name], "ports") == Some(Single(Num(n)))
  {
    ClassifyScalarPortsLine(n);
    KeyValueSetsOnlyFalsy(p1, "ports", Num(n));
    p2 := Step(p1, ScalarPortsLine(n));
  }

  /** An empty inline list reads as the single number 0, since `Number("")` is 0. */
  lemma EmptyInlineListIsZero()
    ensures InlineItems("") == [Num(0)]
  {
    assert Split("", ',') == [""];
    assert Trim("") == "";
    assert AllDigits("");
  }
}

=== FILE: ss_probe.dfy ===
/**
 * Reading listening ports out of `ss -tlnp` output, as the port watcher's
 * `detectAllPorts` (apps/api/src/docker/port-watcher.ts) does.
 */
module SsProbe {
  import opened Common
  import opened Text
  import opened Decimal

  /** Ports above this are the ephemeral range and are never forwarded. */
  const MAX_PORT: nat := 32767
  /** Ports below this are system ports. */
  const MIN_PORT: nat := 1024
  /** Ports never forwarded even inside the range. */
  const EXCLUDED_PORTS: set<nat> := {22}

  /** The regular expression `/:(\d+)\s/` matches at index `i` of `line`. */
  predicate MatchesAt(line: string, i: nat) {
    && i < |line|
    && line[i] == ':'
    && var k := DigitRun(line[i + 1..]);
    && k > 0
    && i + 1 + k < |line|
    && IsSpace(line[i + 1 + k])
  }

  /** The leftmost index at or after `i` where the pattern matches. */
  function FirstMatchFrom(line: string, i: nat): (r: Option<nat>)
    ensures r.Some? ==> i <= r.value && MatchesAt(line, r.value)
    ensures r.Some? ==> forall j :: i <= j < r.value ==> !MatchesAt(line, j)
    ensures r.None? ==> forall j :: i <= j ==> !MatchesAt(line, j)
    decreases |line| - i
  {
    if i >= |line| then None
    else if MatchesAt(line, i) then Some(i)
    else FirstMatchFrom(line, i + 1)
  }

  /**
   * `line.match(/:(\d+)\s/)` followed by `parseInt(match[1], 10)`. Since the
   * digits must be followed by white space, the capture is always the whole
   * run of digits after the colon.
   */
  function LinePort(line: string): Option<nat> {
    match FirstMatchFrom(line, 0)
    case None => None
    case Some(i) =>
      var digits := line[i + 1..][..DigitRun(line[i + 1..])];
      Some(ValueOf(digits))
  }

  /** The range and exclusion filter of `detectAllPorts`. */
  predicate Watchable(p: nat) {
    MIN_PORT <= p <= MAX_PORT && p !in EXCLUDED_PORTS
  }

  /** `line` gives port `p` and the filter lets it through. */
  predicate Yields(line: string, p: nat) {
    LinePort(line) == Some(p) && Watchable(p)
  }

  /** Every line's port that passes the filter, in line order, duplicates kept. */
  function Candidates(lines: seq<string>): (r: seq<nat>)
    ensures forall p :: p in r <==> YieldedFrom(lines, 0, p)
  {
    if |lines| == 0 then []
    else
      var rest := Candidates(lines[1..]);
      YieldsInTail(lines);
      match LinePort(lines[0])
      case Some(p) => if Watchable(p) then [p] + rest else rest
      case None => rest
  }

  /** Some line from index `lo` on yields `p`. */
  predicate YieldedFrom(lines: seq<string>, lo: nat, p: nat) {
    exists k :: lo <= k < |lines| && Yields(lines[k], p)
  }

  /** A line of the tail is a line of the whole, one place later. */
  lemma YieldsInTail(lines: seq<string>)
    requires |lines| > 0
    ensures forall p :: YieldedFrom(lines[1..], 0, p) <==> YieldedFrom(lines, 1, p)
  {
    forall p ensures YieldedFrom(lines[1..], 0, p) <==> YieldedFrom(lines, 1, p) {
      if YieldedFrom(lines[1..], 0, p) {
        var k :| 0 <= k < |lines[1..]| && Yields(lines[1..][k], p);
        assert lines[k + 1] == lines[1..][k];
      }
      if YieldedFrom(lines, 1, p) {
        var k :| 1 <= k < |lines| && Yields(lines[k], p);
        assert lines[1..][k - 1] == lines[k];
      }
    }
  }

  /** The loop of `detectAllPorts`: scan lines, keep first occurrences that pass the filter. */
  function ScanLines(lines: seq<string>, acc: seq<nat>): seq<nat>
    decreases |lines|
  {
    if |lines| == 0 then acc
    else
      var acc' :=
        match LinePort(lines[0])
        case Some(p) => if Watchable(p) && p !in acc then acc + [p] else acc
        case None => acc;
      ScanLines(lines[1..], acc')
  }

  /**
   * `detectAllPorts`: `None` stands for a failed exec (no `ss`, container
   * gone), which yields no ports.
   */
  function DetectAllPorts(output: Option<string>): seq<nat> {
    match output
    case None => []
    case Some(text) => ScanLines(Split(text, '\n'), [])
  }

  /** The scan is the first-seen deduplication of the filtered candidates. */
  lemma {:induction false} ScanIsDedupOfCandidates(lines: seq<string>, acc: seq<nat>)
    requires NoDup(acc)
    ensures ScanLines(lines, acc) == DedupFrom(Candidates(lines), acc)
    decreases |lines|
  {
    if |lines| > 0 {
      var c := Candidates(lines);
      match LinePort(lines[0])
      case Some(p) =>
        if Watchable(p) {
          assert c == [p] + Candidates(lines[1..]);
          assert c[1..] == Candidates(lines[1..]);
          if p in acc {
            ScanIsDedupOfCandidates(lines[1..], acc);
          } else {
            ScanIsDedupOfCandidates(lines[1..], acc + [p]);
          }
        } else {
          ScanIsDedupOfCandidates(lines[1..], acc);
        }
      case None =>
        ScanIsDedupOfCandidates(lines[1..], acc);
    }
  }

  /**
   * What `detectAllPorts` returns: exactly the filtered ports of the output's
   * lines, each once, in first-seen order; nothing when the exec failed.
   */
  lemma DetectAllPortsSpec(output: Option<string>)
    ensures output.None? ==> DetectAllPorts(output) == []
    ensures output.Some? ==> DetectAllPorts(output) == Dedup(Candidates(Split(output.value, '\n')))
    ensures NoDup(DetectAllPorts(output))
    ensures forall p :: p in DetectAllPorts(output) ==> Watchable(p)
    ensures output.Some? ==> forall p :: p in DetectAllPorts(output) <==>
      exists k :: 0 <= k < |Split(output.value, '\n')| && LinePort(Split(output.value, '\n')[k]) == Some(p) && Watchable(p)
  {
    if output.Some? {
      ScanIsDedupOfCandidates(Split(output.value, '\n'), []);
    }
  }

  /**
   * The pattern finds the port of a typical `ss` column: a local address whose
   * text before the port has no colon, then `:port` and white space.
   */
  lemma {:induction false} LinePortOfAddress(prefix: string, p: nat, space: char, rest: string)
    requires ':' !in prefix
    requires IsSpace(space)
    ensures LinePort(prefix + ":" + NatToString(p) + [space] + rest) == Some(p)
  {
    var line := prefix + ":" + NatToString(p) + [space] + rest;
    var i := |prefix|;
    var digits := NatToString(p);
    assert line[i + 1..] == digits + ([space] + rest);
    assert !IsDigit(space);
    DigitRunPrefix(digits, [space] + rest);
    assert line[i] == ':';
    assert line[i + 1 + |digits|] == space;
    assert MatchesAt(line, i);
    forall j | 0 <= j < i ensures !MatchesAt(line, j) {
      assert line[j] == prefix[j];
    }
    NoMatchBefore(line, i);
    assert line[i + 1..][..|digits|] == digits;
  }

  /** The first match is at `i` when no earlier index matches. */
  lemma {:induction false} NoMatchBefore(line: string, i: nat)
    requires MatchesAt(line, i)
    requires forall j :: 0 <= j < i ==> !MatchesAt(line, j)
    ensures FirstMatchFrom(line, 0) == Some(i)
  {
    var r := FirstMatchFrom(line, 0);
    assert r.Some?;
  }

  /** A digit run stops at the first non-digit. */
  lemma {:induction false} DigitRunPrefix(digits: string, rest: string)
    requires |digits| > 0 && AllDigits(digits)
    requires |rest| > 0 && !IsDigit(rest[0])
    ensures DigitRun(digits + rest) == |digits|
    decreases |digits|
  {
    if |digits| > 1 {
      assert (digits + rest)[1..] == digits[1..] + rest;
      DigitRunPrefix(digits[1..], rest);
    } else {
      assert (digits + rest)[1..] == rest;
    }
  }
}

=== FILE: terminal.dfy ===
/**
 * Terminal sessions: the registry of `docker exec` sessions kept open across
 * short browser disconnections, and the reading of the HTTP `101` answer
 * that turns the Docker socket into a raw byte stream. The clock, the exec
 * that Docker creates and the bytes the socket delivers are inputs; bytes are
 * characters below 256, as the source reads them with the `binary` encoding.
 */
module Terminal {
  import opened Common
  import opened Text

  /** How long a disconnected session can still be taken over, in milliseconds. */
  const RECONNECT_WINDOW_MS := 60000

  /** A registered session; the exec and socket objects are represented by the exec's id. */
  datatype Session = Session(projectId: string, sessionId: string, execId: string, containerId: string,
                             alive: bool, disconnectedAt: Option<int>)

  /** The `sessions` map, by session id. */
  type Sessions = map<string, Session>

  /** `session.disconnectedAt` is truthy. */
  predicate Disconnected(s: Session) {
    s.disconnectedAt.Some? && s.disconnectedAt.value != 0
  }

  /** An alive session disconnected less than the window ago can be taken over. */
  predicate Reusable(s: Session, now: int) {
    s.alive && Disconnected(s) && now - s.disconnectedAt.value < RECONNECT_WINDOW_MS
  }

  /** A session disconnected more than the window ago is removed by the cleanup. */
  predicate Stale(s: Session, now: int) {
    Disconnected(s) && now - s.disconnectedAt.value > RECONNECT_WINDOW_MS
  }

  /** Every registered session is alive: a session leaves the map when it dies. */
  predicate AllAlive(t: Sessions) {
    forall k :: k in t ==> t[k].alive
  }

  // ---------------------------------------------------------------------
  // Registry

  /** The registry after `createTerminalSession`, its result, and whether a new exec was started. */
  datatype Created = Created(sessions: Sessions, session: Result<Session, string>, execStarted: bool)

  /**
   * `createTerminalSession`. `start` is the new exec's id when creating and
   * starting it succeeds, and the error thrown otherwise; it is only used
   * when no session is taken over.
   */
  function CreateTerminalSession(t: Sessions, projectId: string, sessionId: string, containerId: string,
                                 now: int, start: Result<string, string>): (c: Created)
    ensures c.execStarted <==> !(sessionId in t && Reusable(t[sessionId], now))
    ensures !c.execStarted ==> c.session == Ok(t[sessionId].(disconnectedAt := None))
    ensures c.execStarted ==> (c.session.Ok? <==> start.Ok?)
    ensures c.execStarted && c.session.Ok? ==>
      c.session.value == Session(projectId, sessionId, start.value, containerId, true, None)
    ensures c.session.Err? ==> c.sessions == t && c.session.error == start.error
    ensures c.session.Ok? ==> sessionId in c.sessions && c.sessions[sessionId] == c.session.value
    ensures c.session.Ok? ==> c.session.value.alive && c.session.value.disconnectedAt.None?
    ensures c.sessions.Keys <= t.Keys + {sessionId}
    ensures forall k :: k in t && k != sessionId ==> k in c.sessions && c.sessions[k] == t[k]
  {
    if sessionId in t && Reusable(t[sessionId], now) then
      var s := t[sessionId].(disconnectedAt := None);
      Created(t[sessionId := s], Ok(s), false)
    else
      match start
      case Err(message) => Created(t, Err(message), true)
      case Ok(execId) =>
        var s := Session(projectId, sessionId, execId, containerId, true, None);
        Created(t[sessionId := s], Ok(s), true)
  }

  /** `getTerminalSession`. */
  function GetTerminalSession(t: Sessions, sessionId: string): (r: Option<Session>)
    ensures r.Some? <==> sessionId in t
    ensures r.Some? ==> r.value == t[sessionId]
  {
    if sessionId in t then Some(t[sessionId]) else None
  }

  /** `markDisconnected`: the time is recorded only for a registered session. */
  function MarkDisconnected(t: Sessions, sessionId: string, now: int): (r: Sessions)
    ensures r.Keys == t.Keys
    ensures forall k :: k in t && k != sessionId ==> r[k] == t[k]
    ensures sessionId in t ==> r[sessionId].disconnectedAt == Some(now)
    ensures sessionId in t ==> r[sessionId].(disconnectedAt := t[sessionId].disconnectedAt) == t[sessionId]
  {
    if sessionId in t then t[sessionId := t[sessionId].(disconnectedAt := Some(now))] else t
  }

  /** `destroySession`: the session, marked dead, is removed; its stream is destroyed. */
  function DestroySession(t: Sessions, sessionId: string): (r: (Sessions, Option<Session>))
    ensures r.0.Keys == t.Keys - {sessionId}
    ensures forall k :: k in r.0 ==> r.0[k] == t[k]
    ensures r.1.Some? <==> sessionId in t
    ensures r.1.Some? ==> !r.1.value.alive && r.1.value.(alive := t[sessionId].alive) == t[sessionId]
  {
    if sessionId in t then (t - {sessionId}, Some(t[sessionId].(alive := false)))
    else (t, None)
  }

  /**
   * The `end` and `close` handlers of a session's stream: they remove
   * whatever is registered under the session's id, even when that is a
   * newer session that has replaced the one whose stream ended.
   */
  function StreamEnded(t: Sessions, sessionId: string): (r: Sessions)
    ensures r.Keys == t.Keys - {sessionId}
    ensures forall k :: k in r ==> r[k] == t[k]
  {
    t - {sessionId}
  }

  /**
   * Visits the sessions in `order` (the map's insertion order) and destroys
   * each one `doomed` picks, as the loops of `destroyProjectSessions` and of
   * the periodic cleanup do.
   */
  method DestroyWhere(t: Sessions, order: seq<string>, doomed: Session -> bool) returns (r: Sessions, destroyed: seq<string>)
    requires NoDup(order)
    requires forall k :: k in t <==> k in order
    ensures r == map k | k in t && !doomed(t[k]) :: t[k]
    ensures forall k :: k in destroyed <==> k in t && doomed(t[k])
  {
    r := t;
    destroyed := [];
    var i := 0;
    while i < |order|
      invariant 0 <= i <= |order|
      invariant forall k :: k in r <==> k in t && (k in order[i..] || !doomed(t[k]))
      invariant forall k :: k in r ==> r[k] == t[k]
      invariant forall k :: k in destroyed <==> k in order[..i] && doomed(t[k])
    {
      var id := order[i];
      assert order[..i + 1] == order[..i] + [id];
      assert id !in order[i + 1..] by {
        assert forall j :: i + 1 <= j < |order| ==> order[j] != order[i];
      }
      assert order[i..] == [id] + order[i + 1..];
      if doomed(r[id]) {
        r := DestroySession(r, id).0;
        destroyed := destroyed + [id];
      }
      i := i + 1;
    }
  }

  /** `destroyProjectSessions`: exactly the project's sessions are destroyed. */
  method DestroyProjectSessions(t: Sessions, order: seq<string>, projectId: string) returns (r: Sessions, destroyed: seq<string>)
    requires NoDup(order)
    requires forall k :: k in t <==> k in order
    ensures forall k :: k in r <==> k in t && t[k].projectId != projectId
    ensures forall k :: k in r ==> r[k] == t[k]
    ensures forall k :: k in destroyed <==> k in t && t[k].projectId == projectId
  {
    r, destroyed := DestroyWhere(t, order, (s: Session) => s.projectId == projectId);
  }

  /** The periodic cleanup: every session disconnected for longer than the window is destroyed. */
  method Cleanup(t: Sessions, order: seq<string>, now: int) returns (r: Sessions, destroyed: seq<string>)
    requires NoDup(order)
    requires forall k :: k in t <==> k in order
    ensures forall k :: k in r <==> k in t && !Stale(t[k], now)
    ensures forall k :: k in r ==> r[k] == t[k]
    ensures forall k :: k in destroyed <==> k in t && Stale(t[k], now)
  {
    r, destroyed := DestroyWhere(t, order, (s: Session) => Stale(s, now));
  }

  // ---------------------------------------------------------------------
  // Registry properties

  /**
   * A browser that comes back within the window gets its old session, with
   * the same exec, and no new exec is started.
   */
  lemma ReconnectWithinWindow(t: Sessions, sessionId: string, left: int, now: int,
                              projectId: string, containerId: string, start: Result<string, string>)
    requires sessionId in t && t[sessionId].alive && t[sessionId].disconnectedAt.None?
    requires left != 0 && now - left < RECONNECT_WINDOW_MS
    ensures var c := CreateTerminalSession(MarkDisconnected(t, sessionId, left), projectId, sessionId, containerId, now, start);
      c == Created(t, Ok(t[sessionId]), false)
  {
    var t1 := MarkDisconnected(t, sessionId, left);
    assert t1[sessionId := t[sessionId]] == t;
  }

  /** After the window a new exec replaces the session under the same id. */
  lemma ExpiredSessionReplaced(t: Sessions, sessionId: string, left: int, now: int,
                               projectId: string, containerId: string, execId: string)
    requires sessionId in t && left != 0 && now - left >= RECONNECT_WINDOW_MS
    ensures var c := CreateTerminalSession(MarkDisconnected(t, sessionId, left), projectId, sessionId, containerId, now, Ok(execId));
      c.execStarted && c.sessions[sessionId].execId == execId
  {
  }

  /**
   * At exactly the window's length a disconnected session is neither taken
   * over nor cleaned up: reuse needs less, cleanup needs more.
   */
  lemma WindowBoundary(s: Session, now: int)
    requires Disconnected(s) && now - s.disconnectedAt.value == RECONNECT_WINDOW_MS
    ensures !Reusable(s, now) && !Stale(s, now)
  {
  }

  /** Every registered session that survives a cleanup can still be taken over or is connected. */
  lemma SurvivorsAreFresh(s: Session, now: int)
    requires s.alive && !Stale(s, now)
    ensures Disconnected(s) ==> Reusable(s, now) || now - s.disconnectedAt.value == RECONNECT_WINDOW_MS
  {
  }

  /** Destroying twice is destroying once. */
  lemma DestroyIdempotent(t: Sessions, sessionId: string)
    ensures var t1 := DestroySession(t, sessionId).0;
      DestroySession(t1, sessionId) == (t1, None)
  {
  }

  /** The registry only ever holds live sessions. */
  lemma OperationsKeepAllAlive(t: Sessions, sessionId: string, projectId: string, containerId: string,
                               now: int, start: Result<string, string>)
    requires AllAlive(t)
    ensures AllAlive(CreateTerminalSession(t, projectId, sessionId, containerId, now, start).sessions)
    ensures AllAlive(MarkDisconnected(t, sessionId, now))
    ensures AllAlive(DestroySession(t, sessionId).0)
    ensures AllAlive(StreamEnded(t, sessionId))
  {
  }

  /**
   * When a session is replaced under its id and the replaced session's stream
   * ends afterwards, the replacement is removed from the registry although
   * its exec is still running.
   */
  lemma LateEndRemovesReplacement(t: Sessions, sessionId: string, projectId: string, containerId: string,
                                  now: int, execId: string)
    requires sessionId in t && !Reusable(t[sessionId], now)
    ensures var c := CreateTerminalSession(t, projectId, sessionId, containerId, now, Ok(execId));
      c.sessions[sessionId].execId == execId && sessionId !in StreamEnded(c.sessions, sessionId)
  {
  }

  // ---------------------------------------------------------------------
  // The HTTP upgrade answer

  const HEADER_END := "\r\n\r\n"
  const UPGRADED := "HTTP/1.1 101"

  /** One `data` event while the answer's header is being read. */
  datatype Step =
    | Wait(buf: string)
    | Failed(message: string)
    | Upgraded(remaining: string)

  /** The error for an answer that is not `101`: its status line. */
  function StartFailure(headers: string): string {
    "Docker exec start failed: " + SplitOn(headers, "\r\n")[0]
  }

  /**
   * `onData` as written: the bytes after the header are taken from the
   * current chunk at the header's offset in the whole buffer.
   */
  function OnDataAsWritten(buf: string, data: string): (r: Step) {
    var all := buf + data;
    match IndexOf(all, HEADER_END)
    case None => Wait(all)
    case Some(e) =>
      var headers := all[..e];
      if !StartsWith(headers, UPGRADED) then Failed(StartFailure(headers))
      else
        var headerBytes := |headers| + |HEADER_END|;
        Upgraded(if |data| > headerBytes then data[headerBytes..] else "")
  }

  /** `onData` with the bytes after the header taken from the whole buffer. */
  function OnData(buf: string, data: string): (r: Step)
    ensures r.Wait? <==> !Contains(buf + data, HEADER_END)
    ensures r.Wait? ==> r.buf == buf + data
    ensures r.Upgraded? ==> var e := IndexOf(buf + data, HEADER_END).value;
      StartsWith(buf + data, UPGRADED) && buf + data == (buf + data)[..e] + HEADER_END + r.remaining
  {
    var all := buf + data;
    match IndexOf(all, HEADER_END)
    case None => Wait(all)
    case Some(e) =>
      var headers := all[..e];
      if !StartsWith(headers, UPGRADED) then Failed(StartFailure(headers))
      else
        assert all[..|UPGRADED|] == headers[..|UPGRADED|];
        assert all == headers + HEADER_END + all[e + |HEADER_END|..];
        Upgraded(all[e + |HEADER_END|..])
  }

  /** The bytes of a sequence of chunks. */
  function Concat(chunks: seq<string>): (r: string)
    ensures |chunks| > 0 ==> r == chunks[0] + Concat(chunks[1..])
  {
    if |chunks| == 0 then "" else chunks[0] + Concat(chunks[1..])
  }

  /** What the socket's consumer ends up with. */
  datatype Outcome = Pending | Rejected(message: string) | Open(received: string)

  /** Feeds the chunks to `step` until the header is read; the later chunks pass through. */
  function Run(chunks: seq<string>, buf: string, step: (string, string) -> Step): (r: Outcome)
    decreases |chunks|
  {
    if |chunks| == 0 then Pending
    else
      match step(buf, chunks[0])
      case Wait(b) => Run(chunks[1..], b, step)
      case Failed(m) => Rejected(m)
      case Upgraded(rest) => Open(rest + Concat(chunks[1..]))
  }

  /** `startExecRaw` as written. */
  function StartExecAsWritten(chunks: seq<string>): Outcome {
    Run(chunks, "", OnDataAsWritten)
  }

  /** `startExecRaw` with the corrected offset. */
  function StartExec(chunks: seq<string>): Outcome {
    Run(chunks, "", OnData)
  }

  /** The header `h` is followed by the first `\r\n\r\n` of the stream. */
  predicate HeaderEndsAt(h: string) {
    IndexOf(h + HEADER_END, HEADER_END) == Some(|h|)
  }

  /**
   * However the socket splits a `101` answer into chunks, the consumer
   * receives exactly the bytes after the header.
   */
  lemma StartExecDeliversBody(chunks: seq<string>, h: string, body: string)
    requires StartsWith(h, UPGRADED) && HeaderEndsAt(h)
    requires Concat(chunks) == h + HEADER_END + body
    ensures StartExec(chunks) == Open(body)
  {
    DeliversFrom(chunks, "", h, body);
  }

  lemma {:induction false} DeliversFrom(chunks: seq<string>, buf: string, h: string, body: string)
    requires StartsWith(h, UPGRADED) && HeaderEndsAt(h)
    requires buf + Concat(chunks) == h + HEADER_END + body
    requires |buf| < |h| + |HEADER_END|
    ensures Run(chunks, buf, OnData) == Open(body)
    decreases |chunks|
  {
    var whole := h + HEADER_END + body;
    assert |chunks| > 0;
    var all := buf + chunks[0];
    assert whole == all + Concat(chunks[1..]);
    assert all == whole[..|all|];
    if |all| < |h| + |HEADER_END| {
      PrefixBeforeEnd(all, h, body);
      DeliversFrom(chunks[1..], all, h, body);
    } else {
      HeaderInChunk(buf, chunks[0], Concat(chunks[1..]), h, body);
    }
  }

  /** A chunk that completes the header upgrades, leaving exactly the body's first bytes. */
  lemma HeaderInChunk(buf: string, c: string, rest: string, h: string, body: string)
    requires StartsWith(h, UPGRADED) && HeaderEndsAt(h)
    requires buf + c + rest == h + HEADER_END + body
    requires |h| + |HEADER_END| <= |buf + c|
    ensures OnData(buf, c) == Upgraded((buf + c)[|h| + |HEADER_END|..])
    ensures (buf + c)[|h| + |HEADER_END|..] + rest == body
  {
    var all := buf + c;
    var whole := h + HEADER_END + body;
    assert whole == all + rest;
    assert all == whole[..|all|];
    PrefixThroughEnd(all, h, body);
    assert all[..|h|][..|UPGRADED|] == h[..|UPGRADED|];
    assert whole[|h| + |HEADER_END|..] == body;
  }

  /** A prefix of the stream that stops short of the header's end holds no `\r\n\r\n`. */
  lemma PrefixBeforeEnd(all: string, h: string, body: string)
    requires HeaderEndsAt(h)
    requires |all| < |h| + |HEADER_END| && |all| <= |h + HEADER_END + body|
    requires all == (h + HEADER_END + body)[..|all|]
    ensures !Contains(all, HEADER_END)
  {
    var whole := h + HEADER_END + body;
    FirstEndInWhole(h, body);
    forall j | 0 <= j <= |all|
      ensures !OccursAt(all, HEADER_END, j)
    {
      OccursInPrefix(all, whole, HEADER_END, j);
    }
  }

  /** A prefix of the stream that reaches the header's end finds it after `h`. */
  lemma PrefixThroughEnd(all: string, h: string, body: string)
    requires HeaderEndsAt(h)
    requires |h| + |HEADER_END| <= |all| <= |h + HEADER_END + body|
    requires all == (h + HEADER_END + body)[..|all|]
    ensures IndexOf(all, HEADER_END) == Some(|h|)
    ensures all[..|h|] == h
  {
    var whole := h + HEADER_END + body;
    FirstEndInWhole(h, body);
    OccursInPrefix(all, whole, HEADER_END, |h|);
    assert OccursAt(whole, HEADER_END, |h|) by {
      assert whole[|h|..|h| + |HEADER_END|] == HEADER_END;
    }
    forall j | 0 <= j < |h|
      ensures !OccursAt(all, HEADER_END, j)
    {
      OccursInPrefix(all, whole, HEADER_END, j);
    }
    assert all[..|h|] == whole[..|h|];
  }

  /** In the whole stream the first `\r\n\r\n` is the one after `h`. */
  lemma FirstEndInWhole(h: string, body: string)
    requires HeaderEndsAt(h)
    ensures forall j :: 0 <= j < |h| ==> !OccursAt(h + HEADER_END + body, HEADER_END, j)
  {
    var whole := h + HEADER_END + body;
    forall j | 0 <= j < |h|
      ensures !OccursAt(whole, HEADER_END, j)
    {
      assert !OccursAt(h + HEADER_END, HEADER_END, j);
      assert whole[j..j + |HEADER_END|] == (h + HEADER_END)[j..j + |HEADER_END|];
    }
  }

  /** When the whole header comes in the first chunk, the code as written agrees. */
  lemma SingleChunkHeaderAgrees(first: string, rest: seq<string>)
    requires Contains(first, HEADER_END)
    ensures StartExecAsWritten([first] + rest) == StartExec([first] + rest)
  {
    assert ([first] + rest)[0] == first && ([first] + rest)[1..] == rest;
    var e := IndexOf(first, HEADER_END).value;
    assert "" + first == first;
    if StartsWith(first[..e], UPGRADED) && |first| <= e + |HEADER_END| {
      assert first[e + |HEADER_END|..] == "";
    }
  }

  /**
   * A `101` answer whose header ends in the second chunk: the bytes after it
   * are lost as written when the second chunk is shorter than the whole
   * header, and delivered by the corrected reading.
   */
  lemma SplitHeaderLosesBytes(h: string, tail: string)
    requires StartsWith(h, UPGRADED) && '\r' !in h
    requires |tail| <= |h| + 2
    ensures StartExecAsWritten([h + "\r\n", "\r\n" + tail]) == Open("")
    ensures StartExec([h + "\r\n", "\r\n" + tail]) == Open(tail)
  {
    var c1, c2 := h + "\r\n", "\r\n" + tail;
    var chunks := [c1, c2];
    FirstHalfWaits(h);
    SecondHalfUpgradesEmpty(h, tail);
    assert chunks[1..] == [c2] && [c2][1..] == [];
    assert StartExecAsWritten(chunks) == Run([c2], c1, OnDataAsWritten);
    assert Run([c2], c1, OnDataAsWritten) == Open("" + Concat([]));
    SplitHeaderCorrected(h, tail);
  }

  /** The first half of the terminator does not end the header yet. */
  lemma FirstHalfWaits(h: string)
    requires '\r' !in h
    ensures OnDataAsWritten("", h + "\r\n") == Wait(h + "\r\n")
  {
    var c1 := h + "\r\n";
    forall j | 0 <= j <= |c1|
      ensures !OccursAt(c1, HEADER_END, j)
    {
      if j + 4 <= |c1| {
        assert c1[j] == h[j] != '\r';
        OccursAtHead(c1, HEADER_END, j);
      }
    }
    assert ("" + c1) == c1;
  }

  /** As written, the second half's slice starts past its end. */
  lemma SecondHalfUpgradesEmpty(h: string, tail: string)
    requires StartsWith(h, UPGRADED) && '\r' !in h
    requires |tail| <= |h| + 2
    ensures OnDataAsWritten(h + "\r\n", "\r\n" + tail) == Upgraded("")
  {
    var all := h + "\r\n" + ("\r\n" + tail);
    assert all == h + HEADER_END + tail;
    NoCrHeaderEnds(h);
    FirstEndInWhole(h, tail);
    assert OccursAt(all, HEADER_END, |h|);
    assert IndexOf(all, HEADER_END) == Some(|h|);
    assert all[..|h|] == h;
  }

  /** The corrected reading delivers the tail for the same two chunks. */
  lemma SplitHeaderCorrected(h: string, tail: string)
    requires StartsWith(h, UPGRADED) && '\r' !in h
    ensures StartExec([h + "\r\n", "\r\n" + tail]) == Open(tail)
  {
    var chunks := [h + "\r\n", "\r\n" + tail];
    assert Concat(chunks) == h + "\r\n" + ("\r\n" + tail);
    assert Concat(chunks) == h + HEADER_END + tail;
    NoCrHeaderEnds(h);
    StartExecDeliversBody(chunks, h, tail);
  }

  /** A header line without `\r` is ended by the `\r\n\r\n` that follows it. */
  lemma NoCrHeaderEnds(h: string)
    requires '\r' !in h
    ensures HeaderEndsAt(h)
  {
    var s := h + HEADER_END;
    forall j | 0 <= j < |h|
      ensures !OccursAt(s, HEADER_END, j)
    {
      assert s[j] == h[j] != '\r';
      OccursAtHead(s, HEADER_END, j);
    }
    assert s[|h|..|h| + |HEADER_END|] == HEADER_END;
    assert OccursAt(s, HEADER_END, |h|);
  }

  /** The smallest such answer: `hi` after a header split before its last `\r\n`. */
  lemma HeaderSplitLosesBytes()
    ensures StartExecAsWritten(["HTTP/1.1 101 OK" + "\r\n", "\r\n" + "hi"]) == Open("")
    ensures StartExec(["HTTP/1.1 101 OK" + "\r\n", "\r\n" + "hi"]) == Open("hi")
  {
    var h := "HTTP/1.1 101 OK";
    assert h[..|UPGRADED|] == UPGRADED;
    SplitHeaderLosesBytes(h, "hi");
  }
}

=== FILE: text.dfy ===
/**
 * String helpers with the semantics of the JavaScript built-ins the source
 * uses: `trim`, `split`, `join`, `indexOf`, `startsWith`, `replace` with a
 * string pattern, and the `\s`, `\w`, `\d` regular-expression classes.
 */
module Text {
  import opened Common

  /** JavaScript WhiteSpace or LineTerminator: the `\s` class and what `trim()` removes. */
  predicate IsSpace(c: char) {
    || c == '\t' || c == '\n' || c == '\U{B}' || c == '\U{C}' || c == '\r' || c == ' '
    || c == '\U{A0}' || c == '\U{1680}' || ('\U{2000}' <= c <= '\U{200A}')
    || c == '\U{2028}' || c == '\U{2029}' || c == '\U{202F}' || c == '\U{205F}'
    || c == '\U{3000}' || c == '\U{FEFF}'
  }

  /** The characters `.` does not match. */
  predicate IsLineTerminator(c: char) {
    c == '\n' || c == '\r' || c == '\U{2028}' || c == '\U{2029}'
  }

  /** `\d`. */
  predicate IsDigit(c: char) {
    '0' <= c <= '9'
  }

  /** `\w`. */
  predicate IsWordChar(c: char) {
    ('a' <= c <= 'z') || ('A' <= c <= 'Z') || IsDigit(c) || c == '_'
  }

  predicate StartsWith(s: string, prefix: string) {
    |prefix| <= |s| && s[..|prefix|] == prefix
  }

  predicate EndsWith(s: string, suffix: string) {
    |suffix| <= |s| && s[|s| - |suffix|..] == suffix
  }

  /** `pat` occurs in `s` starting at index `i`. */
  predicate OccursAt(s: string, pat: string, i: nat) {
    i + |pat| <= |s| && s[i..i + |pat|] == pat
  }

  /** An occurrence starts with the pattern's first character. */
  lemma OccursAtHead(s: string, pat: string, i: nat)
    ensures OccursAt(s, pat, i) && |pat| > 0 ==> s[i] == pat[0]
  {
    if OccursAt(s, pat, i) && |pat| > 0 {
      assert s[i..i + |pat|][0] == s[i];
    }
  }

  /** Whether a pattern occurs at `j` is the same in a string and in a longer one it begins. */
  lemma OccursInPrefix(s: string, t: string, pat: string, j: nat)
    requires |s| <= |t| && s == t[..|s|]
    ensures j + |pat| <= |s| ==> (OccursAt(s, pat, j) <==> OccursAt(t, pat, j))
  {
    if j + |pat| <= |s| {
      assert forall k :: j <= k < j + |pat| ==> s[k] == t[k];
      assert s[j..j + |pat|] == t[j..j + |pat|];
    }
  }

  /** `s.indexOf(pat)`: the first index at which `pat` occurs. */
  function IndexOf(s: string, pat: string): (r: Option<nat>)
    ensures r.Some? ==> OccursAt(s, pat, r.value)
    ensures r.Some? ==> forall j :: 0 <= j < r.value ==> !OccursAt(s, pat, j)
    ensures r.None? ==> forall j :: 0 <= j <= |s| ==> !OccursAt(s, pat, j)
  {
    IndexFrom(s, pat, 0)
  }

  /** The first index at or after `i` at which `pat` occurs. */
  function IndexFrom(s: string, pat: string, i: nat): (r: Option<nat>)
    ensures r.Some? ==> i <= r.value && OccursAt(s, pat, r.value)
    ensures r.Some? ==> forall j :: i <= j < r.value ==> !OccursAt(s, pat, j)
    ensures r.None? ==> forall j :: i <= j <= |s| ==> !OccursAt(s, pat, j)
    decreases |s| + 1 - i
  {
    if i > |s| then None
    else if OccursAt(s, pat, i) then Some(i)
    else IndexFrom(s, pat, i + 1)
  }

  /** `s.includes(pat)`. */
  predicate Contains(s: string, pat: string) {
    IndexOf(s, pat).Some?
  }

  /** `s.replace(pat, rep)` with a string pattern: only the first occurrence is replaced. */
  function ReplaceFirst(s: string, pat: string, rep: string): (r: string)
    ensures IndexOf(s, pat).None? ==> r == s
  {
    match IndexOf(s, pat)
    case None => s
    case Some(i) => s[..i] + rep + s[i + |pat|..]
  }

  function TrimStart(s: string): (r: string)
    ensures |r| <= |s| && r == s[|s| - |r|..]
    ensures forall i :: 0 <= i < |s| - |r| ==> IsSpace(s[i])
    ensures |r| > 0 ==> !IsSpace(r[0])
  {
    if |s| > 0 && IsSpace(s[0]) then TrimStart(s[1..]) else s
  }

  function TrimEnd(s: string): (r: string)
    ensures |r| <= |s| && r == s[..|r|]
    ensures forall i :: |r| <= i < |s| ==> IsSpace(s[i])
    ensures |r| > 0 ==> !IsSpace(r[|r| - 1])
  {
    if |s| > 0 && IsSpace(s[|s| - 1]) then TrimEnd(s[..|s| - 1]) else s
  }

  /** `s.trim()`. */
  function Trim(s: string): (r: string)
    ensures |r| <= |s|
    ensures |r| > 0 ==> !IsSpace(r[0]) && !IsSpace(r[|r| - 1])
  {
    TrimEnd(TrimStart(s))
  }

  /** A string that `trim()` leaves alone. */
  lemma TrimNoop(s: string)
    requires |s| > 0 ==> !IsSpace(s[0]) && !IsSpace(s[|s| - 1])
    ensures Trim(s) == s
  {
  }

  /** `parts.join(sep)`. */
  function Join(parts: seq<string>, sep: string): string {
    if |parts| == 0 then ""
    else if |parts| == 1 then parts[0]
    else parts[0] + sep + Join(parts[1..], sep)
  }

  /** `s.split(sep)` for a one-character separator. */
  function Split(s: string, sep: char): (r: seq<string>)
    ensures |r| >= 1
    ensures forall k :: 0 <= k < |r| ==> sep !in r[k]
    ensures Join(r, [sep]) == s
    decreases |s|
  {
    if sep !in s then [s]
    else
      var i := FirstIndexOf(s, sep);
      [s[..i]] + Split(s[i + 1..], sep)
  }

  /** Index of the first occurrence of a character known to be present. */
  function FirstIndexOf(s: string, c: char): (i: nat)
    requires c in s
    ensures i < |s| && s[i] == c && c !in s[..i]
  {
    if s[0] == c then 0 else FirstIndexOf(s[1..], c) + 1
  }

  /** Splitting a join of separator-free parts gives the parts back. */
  lemma {:induction false} SplitJoin(parts: seq<string>, sep: char)
    requires |parts| >= 1
    requires forall k :: 0 <= k < |parts| ==> sep !in parts[k]
    ensures Split(Join(parts, [sep]), sep) == parts
  {
    if |parts| > 1 {
      var s := Join(parts, [sep]);
      assert s == parts[0] + [sep] + Join(parts[1..], [sep]);
      assert s[|parts[0]|] == sep;
      assert s[..|parts[0]|] == parts[0];
      assert sep in s;
      var i := FirstIndexOf(s, sep);
      assert forall k :: 0 <= k < |parts[0]| ==> s[k] == parts[0][k];
      assert forall k :: 0 <= k < i ==> s[k] == s[..i][k];
      assert i == |parts[0]|;
      assert s[i + 1..] == Join(parts[1..], [sep]);
      SplitJoin(parts[1..], sep);
    } else {
      assert Join(parts, [sep]) == parts[0];
    }
  }

  /** `s.split(sep)` for a non-empty string separator, matched left to right. */
  function SplitOn(s: string, sep: string): (r: seq<string>)
    requires |sep| > 0
    ensures |r| >= 1
    ensures Join(r, sep) == s
    decreases |s|
  {
    match IndexOf(s, sep)
    case None => [s]
    case Some(i) =>
      var rest := SplitOn(s[i + |sep|..], sep);
      assert ([s[..i]] + rest)[1..] == rest;
      assert s == s[..i] + sep + s[i + |sep|..];
      [s[..i]] + rest
  }

  /** A piece in which the separator does not start is cut off whole. */
  lemma SplitOnFirst(a: string, sep: string, rest: string)
    requires |sep| > 0
    requires forall j :: 0 <= j < |a| ==> !OccursAt(a + sep + rest, sep, j)
    ensures SplitOn(a + sep + rest, sep) == [a] + SplitOn(rest, sep)
  {
    var s := a + sep + rest;
    assert OccursAt(s, sep, |a|) by { assert s[|a|..|a| + |sep|] == sep; }
    assert IndexOf(s, sep) == Some(|a|);
    assert s[..|a|] == a && s[|a| + |sep|..] == rest;
  }

  /** A string in which the separator never starts is one piece. */
  lemma SplitOnNone(s: string, sep: string)
    requires |sep| > 0
    requires forall j :: 0 <= j <= |s| ==> !OccursAt(s, sep, j)
    ensures SplitOn(s, sep) == [s]
  {
    assert IndexOf(s, sep).None?;
  }

  /** `s.split(/\s+/)`: pieces separated by maximal runs of white space. */
  function SplitSpaces(s: string): (r: seq<string>)
    ensures |r| >= 1
    ensures forall k :: 0 <= k < |r| ==> forall c :: c in r[k] ==> !IsSpace(c)
    decreases |s|
  {
    if forall c :: c in s ==> !IsSpace(c) then [s]
    else
      var i := FirstSpace(s);
      var j := SpaceRunEnd(s, i);
      [s[..i]] + SplitSpaces(s[j..])
  }

  function FirstSpace(s: string): (i: nat)
    requires exists c :: c in s && IsSpace(c)
    ensures i < |s| && IsSpace(s[i])
    ensures forall c :: c in s[..i] ==> !IsSpace(c)
  {
    if IsSpace(s[0]) then 0
    else
      assert exists c :: c in s[1..] && IsSpace(c) by {
        var c :| c in s && IsSpace(c);
        assert c != s[0];
      }
      FirstSpace(s[1..]) + 1
  }

  /** End of the run of white space that starts at `i`. */
  function SpaceRunEnd(s: string, i: nat): (j: nat)
    requires i < |s| && IsSpace(s[i])
    ensures i < j <= |s|
    ensures forall k :: i <= k < j ==> IsSpace(s[k])
    ensures j < |s| ==> !IsSpace(s[j])
    decreases |s| - i
  {
    if i + 1 < |s| && IsSpace(s[i + 1]) then SpaceRunEnd(s, i + 1) else i + 1
  }

  /** JavaScript truthiness of a string: `filter(Boolean)` keeps exactly these. */
  predicate NonEmpty(s: string) {
    |s| > 0
  }

  /** `text.split("\n").filter(Boolean)`. */
  function Lines(text: string): (r: seq<string>)
    ensures forall i :: 0 <= i < |r| ==> |r[i]| > 0 && '\n' !in r[i]
  {
    Filter(Split(text, '\n'), NonEmpty)
  }

  /** `s.toLowerCase()` on ASCII letters. */
  function AsciiLower(c: char): char {
    if 'A' <= c <= 'Z' then (c as int + 32) as char else c
  }

  /** `s.toLowerCase()`, with only the ASCII letters changed. */
  function Lower(s: string): (r: string)
    ensures |r| == |s|
    ensures forall i :: 0 <= i < |s| ==> r[i] == AsciiLower(s[i])
  {
    seq(|s|, i requires 0 <= i < |s| => AsciiLower(s[i]))
  }

  /**
   * A regular expression with one capture group, as an opaque function: the
   * text of the group in the first match, or `None` when there is no match.
   */
  type Matcher = string -> Option<string>
}

=== FILE: tunnel_protocol.dfy ===
/**
 * The control messages the server and the host agent exchange as JSON text
 * on the tunnel WebSocket, and the two kinds of frame that socket carries.
 * JSON encoding and decoding are not modelled: a text frame is represented
 * by the message it decodes to.
 */
module TunnelProtocol {
  import opened Common

  datatype ControlMessage =
      /** `tunnel:ports`: server to agent, the full list of ports to tunnel. */
    | PortsMsg(ports: seq<nat>)
      /** `tunnel:listening`: agent to server, a local listener is bound. */
    | ListeningMsg(port: nat, localPort: nat)
      /** `tunnel:error`: agent to server, binding a listener failed. */
    | ErrorMsg(port: nat, error: string)
      /** `tunnel:tcp:open`: agent to server, a local client connected. */
    | TcpOpenMsg(connectionId: nat, port: nat)
      /** `tunnel:tcp:connected`: server to agent, the container side is up. */
    | TcpConnectedMsg(connectionId: nat)
      /** `tunnel:tcp:close`: either direction, the connection is gone. */
    | TcpCloseMsg(connectionId: nat)
      /** `agent:shutdown`: server to agent. */
    | ShutdownMsg
      /** Text that is not JSON, or JSON with any other `type`. */
    | Unrecognised

  /** One WebSocket frame. */
  datatype Frame =
    | Text(msg: ControlMessage)
    | Binary(bytes: seq<byte>)
}

=== FILE: tunnel_ws.dfy ===
/**
 * The server's end of the agent's tunnel WebSocket: text frames are control
 * messages for the coordinator, binary frames carry connection data, and
 * losing the socket, by close or by error, drops the agent link.
 */
module TunnelWs {
  import opened Common
  import opened Frames
  import opened TunnelProtocol
  import opened Coordinator

  /** `event.data` of a message event. */
  datatype MessageData =
    | TextData(text: string)
    | ArrayBufferData(bytes: seq<byte>)
    | BufferData(bytes: seq<byte>)
    | OtherData            // a Blob or anything else

  /**
   * `onMessage`. `decode` stands for `JSON.parse` followed by the switch on
   * `type`; `ctx` is what the environment supplies should the message be a
   * `tunnel:tcp:open`.
   */
  function OnMessage(s: State, data: MessageData, decode: string -> ControlMessage, ctx: OpenContext): (r: Outcome)
    ensures data.TextData? ==> r == HandleAgentMessage(s, decode(data.text), ctx)
    ensures data.OtherData? ==> r == Outcome(s, [])
    ensures (data.ArrayBufferData? || data.BufferData?) ==>
      && r.state == s
      && (|data.bytes| < 4 ==> r.effects == [])
      && (|data.bytes| >= 4 ==> r == HandleAgentTcpData(s, ReadU32BE(data.bytes), data.bytes[4..]))
  {
    match data
    case TextData(text) => HandleAgentMessage(s, decode(text), ctx)
    case OtherData => Outcome(s, [])
    case ArrayBufferData(bytes) => OnBinary(s, bytes)
    case BufferData(bytes) => OnBinary(s, bytes)
  }

  /** A binary frame: short frames are dropped, others go to `handleAgentTcpData`. */
  function OnBinary(s: State, bytes: seq<byte>): (r: Outcome)
    ensures r.state == s
    ensures r.effects == [] <==> DecodeDataFrame(bytes).None? || DecodeDataFrame(bytes).value.0 !in s.upstream
  {
    match DecodeDataFrame(bytes)
    case None => Outcome(s, [])
    case Some((id, payload)) => HandleAgentTcpData(s, id, payload)
  }

  /** `onClose` and `onError` alike. */
  function OnClose(s: State): (r: Outcome)
    ensures !r.state.linked && r.state.upstream == {} && r.state.statuses == map[]
  {
    ClearAgentConnection(s)
  }

  /**
   * A frame the agent builds for a connection the server has open reaches
   * that connection with exactly the payload the agent sent.
   */
  lemma AgentFrameReachesUpstream(s: State, id: nat, payload: seq<byte>)
    requires id < U32_LIMIT && id in s.upstream
    ensures OnBinary(s, EncodeDataFrame(id, payload).value) == Outcome(s, [WriteUpstream(id, payload)])
  {
    DecodeEncode(id, payload);
  }

  /** A frame for a connection the server does not hold is dropped without effect. */
  lemma UnknownConnectionDropped(s: State, id: nat, payload: seq<byte>)
    requires id < U32_LIMIT && id !in s.upstream
    ensures OnBinary(s, EncodeDataFrame(id, payload).value) == Outcome(s, [])
  {
    DecodeEncode(id, payload);
  }
}

=== FILE: utf8.dfy ===
/**
 * UTF-8 as the platform's `TextEncoder` and `TextDecoder` (label "utf-8",
 * default options) implement it. Dafny's `char` is a Unicode scalar value,
 * so a `string` here is a well-formed JavaScript string: one without lone
 * surrogates, which the encoder would otherwise replace by U+FFFD.
 */
module Utf8 {
  import opened Common

  const REPLACEMENT: char := '\U{FFFD}'
  const BOM: char := '\U{FEFF}'

  /** The one-to-four byte encoding of a scalar value. */
  function EncodeChar(c: char): (b: seq<byte>)
    ensures 1 <= |b| <= 4
    ensures |b| == 1 <==> (c as int) < 0x80
  {
    var cp := c as int;
    if cp < 0x80 then [cp]
    else if cp < 0x800 then [0xC0 + cp / 0x40, 0x80 + cp % 0x40]
    else if cp < 0x1_0000 then [0xE0 + cp / 0x1000, 0x80 + (cp / 0x40) % 0x40, 0x80 + cp % 0x40]
    else [0xF0 + cp / 0x4_0000, 0x80 + (cp / 0x1000) % 0x40, 0x80 + (cp / 0x40) % 0x40, 0x80 + cp % 0x40]
  }

  /** `TextEncoder.encode`. */
  function Encode(s: string): (b: seq<byte>)
    ensures |b| >= |s|
    ensures |s| == 0 <==> |b| == 0
  {
    if |s| == 0 then [] else EncodeChar(s[0]) + Encode(s[1..])
  }

  predicate IsCont(b: byte) {
    0x80 <= b < 0xC0
  }

  /** How many bytes follow a lead byte, or 0 for an ASCII or invalid lead. */
  function Needed(lead: byte): nat {
    if 0xC2 <= lead <= 0xDF then 1
    else if 0xE0 <= lead <= 0xEF then 2
    else if 0xF0 <= lead <= 0xF4 then 3
    else 0
  }

  /**
   * The range the first continuation byte must fall in: it excludes overlong
   * forms (after E0 and F0), surrogates (after ED) and values above U+10FFFF
   * (after F4).
   */
  function LowerBound(lead: byte): byte {
    if lead == 0xE0 then 0xA0 else if lead == 0xF0 then 0x90 else 0x80
  }

  function UpperBound(lead: byte): byte {
    if lead == 0xED then 0x9F else if lead == 0xF4 then 0x8F else 0xBF
  }

  /**
   * How many of the bytes that should follow `b[0]` are present and
   * acceptable; decoding stops at the first one that is not.
   */
  function ValidTail(b: seq<byte>): (k: nat)
    requires |b| >= 1
    ensures k <= Needed(b[0]) && k < |b|
  {
    var n := Needed(b[0]);
    if n == 0 || |b| < 2 || !(LowerBound(b[0]) <= b[1] <= UpperBound(b[0])) then 0
    else if n == 1 || |b| < 3 || !IsCont(b[2]) then 1
    else if n == 2 || |b| < 4 || !IsCont(b[3]) then 2
    else 3
  }

  /** The scalar value of a complete, valid sequence. */
  function Scalar(b: seq<byte>): (c: char)
    requires |b| >= 1 && Needed(b[0]) > 0 && ValidTail(b) == Needed(b[0])
  {
    var n := Needed(b[0]);
    if n == 1 then
      ((b[0] as int - 0xC0) * 0x40 + (b[1] as int - 0x80)) as char
    else if n == 2 then
      var cp := (b[0] as int - 0xE0) * 0x1000 + (b[1] as int - 0x80) * 0x40 + (b[2] as int - 0x80);
      assert cp < 0xD800 || 0xE000 <= cp < 0x1_0000;
      cp as char
    else
      var cp := (b[0] as int - 0xF0) * 0x4_0000 + (b[1] as int - 0x80) * 0x1000 + (b[2] as int - 0x80) * 0x40 + (b[3] as int - 0x80);
      assert 0x1_0000 <= cp < 0x11_0000;
      cp as char
  }

  /**
   * One step of the decoder: the character the bytes start with and how many
   * bytes it takes. An invalid lead byte gives U+FFFD for itself; a valid lead
   * followed by too few acceptable bytes gives one U+FFFD for the lead and
   * the acceptable bytes (the maximal subpart).
   */
  function DecodeOne(b: seq<byte>): (r: (char, nat))
    requires |b| >= 1
    ensures 1 <= r.1 <= |b|
  {
    if b[0] < 0x80 then (b[0] as char, 1)
    else if Needed(b[0]) > 0 && ValidTail(b) == Needed(b[0]) then (Scalar(b), 1 + Needed(b[0]))
    else (REPLACEMENT, 1 + ValidTail(b))
  }

  /** Decoding without the byte-order-mark check. */
  function DecodeBody(b: seq<byte>): string
    decreases |b|
  {
    if |b| == 0 then []
    else
      var (c, n) := DecodeOne(b);
      [c] + DecodeBody(b[n..])
  }

  /** `TextDecoder.decode`: a leading UTF-8 byte-order mark is dropped. */
  function Decode(b: seq<byte>): (s: string)
    ensures |b| == 0 ==> s == []
  {
    if |b| >= 3 && b[..3] == [0xEF, 0xBB, 0xBF] then DecodeBody(b[3..]) else DecodeBody(b)
  }

  /** A character's encoding decodes, as the first step, to that character. */
  lemma DecodeOneEncodeChar(c: char, rest: seq<byte>)
    ensures DecodeOne(EncodeChar(c) + rest) == (c, |EncodeChar(c)|)
  {
    var cp := c as int;
    if cp < 0x80 {
    } else if cp < 0x800 {
      DecodeTwo(c, rest);
    } else if cp < 0x1_0000 {
      DecodeThree(c, rest);
    } else {
      DecodeFour(c, rest);
    }
  }

  lemma DecodeTwo(c: char, rest: seq<byte>)
    requires 0x80 <= c as int < 0x800
    ensures DecodeOne(EncodeChar(c) + rest) == (c, 2)
  {
    var cp := c as int;
    var b := EncodeChar(c) + rest;
    assert b[0] == 0xC0 + cp / 0x40 && b[1] == 0x80 + cp % 0x40;
    assert Needed(b[0]) == 1 && ValidTail(b) == 1;
    assert Scalar(b) as int == (cp / 0x40) * 0x40 + cp % 0x40;
  }

  lemma DecodeThree(c: char, rest: seq<byte>)
    requires 0x800 <= c as int < 0x1_0000
    ensures DecodeOne(EncodeChar(c) + rest) == (c, 3)
  {
    var cp := c as int;
    var b := EncodeChar(c) + rest;
    var x, y, z := cp / 0x1000, (cp / 0x40) % 0x40, cp % 0x40;
    assert b[0] == 0xE0 + x && b[1] == 0x80 + y && b[2] == 0x80 + z;
    assert x * 0x1000 + y * 0x40 + z == cp;
    assert Needed(b[0]) == 2;
    assert LowerBound(b[0]) <= b[1] <= UpperBound(b[0]);
    assert ValidTail(b) == 2;
    assert Scalar(b) as int == x * 0x1000 + y * 0x40 + z;
  }

  lemma DecodeFour(c: char, rest: seq<byte>)
    requires 0x1_0000 <= c as int
    ensures DecodeOne(EncodeChar(c) + rest) == (c, 4)
  {
    var cp := c as int;
    var b := EncodeChar(c) + rest;
    var w, x, y, z := FourDigits(cp);
    assert b[0] == 0xF0 + w && b[1] == 0x80 + x && b[2] == 0x80 + y && b[3] == 0x80 + z;
    assert Needed(b[0]) == 3;
    assert LowerBound(b[0]) <= b[1] <= UpperBound(b[0]);
    assert ValidTail(b) == 3;
    assert Scalar(b) as int == w * 0x4_0000 + x * 0x1000 + y * 0x40 + z;
  }

  /** The base-64 digits a four-byte sequence carries, with the bounds the decoder checks. */
  lemma FourDigits(cp: int) returns (w: int, x: int, y: int, z: int)
    requires 0x1_0000 <= cp < 0x11_0000
    ensures w == cp / 0x4_0000 && x == (cp / 0x1000) % 0x40 && y == (cp / 0x40) % 0x40 && z == cp % 0x40
    ensures w * 0x4_0000 + x * 0x1000 + y * 0x40 + z == cp
    ensures 0 <= w <= 4 && 0 <= x < 0x40 && 0 <= y < 0x40 && 0 <= z < 0x40
    ensures w == 0 ==> x >= 0x10
    ensures w == 4 ==> x < 0x10
  {
    var a := cp / 0x40;
    var d := a / 0x40;
    assert cp == a * 0x40 + cp % 0x40;
    assert a == d * 0x40 + a % 0x40;
    assert d == cp / 0x1000;
    assert d == (d / 0x40) * 0x40 + d % 0x40;
    assert d / 0x40 == cp / 0x4_0000;
    w, x, y, z := cp / 0x4_0000, (cp / 0x1000) % 0x40, (cp / 0x40) % 0x40, cp % 0x40;
  }

  lemma {:induction false} DecodeBodyEncode(s: string)
    ensures DecodeBody(Encode(s)) == s
  {
    if |s| > 0 {
      var e := EncodeChar(s[0]);
      var b := Encode(s);
      assert b == e + Encode(s[1..]);
      DecodeOneEncodeChar(s[0], Encode(s[1..]));
      assert b[|e|..] == Encode(s[1..]);
      DecodeBodyEncode(s[1..]);
    }
  }

  /** Only U+FEFF encodes to the byte-order mark. */
  lemma EncodeStartsWithBom(s: string)
    requires |Encode(s)| >= 3 && Encode(s)[..3] == [0xEF, 0xBB, 0xBF]
    ensures |s| > 0 && s[0] == BOM
  {
    var e := EncodeChar(s[0]);
    assert Encode(s) == e + Encode(s[1..]);
    var cp := s[0] as int;
    assert Encode(s)[0] == e[0];
    if 0x800 <= cp < 0x1_0000 {
      assert Encode(s)[..3] == e;
      var a := cp / 0x40;
      assert cp == a * 0x40 + cp % 0x40;
      assert a == (a / 0x40) * 0x40 + a % 0x40;
      assert a / 0x40 == cp / 0x1000;
      assert e[0] == 0xEF && e[1] == 0xBB && e[2] == 0xBF;
      assert cp / 0x1000 == 0xF && a % 0x40 == 0x3B && cp % 0x40 == 0x3F;
      assert cp == 0xFEFF;
      assert s[0] == (0xFEFF as char);
    }
  }

  /**
   * Decoding an encoding gives the string back unless the string starts with
   * U+FEFF, which the decoder takes for a byte-order mark and drops.
   */
  lemma DecodeEncode(s: string)
    ensures |s| == 0 || s[0] != BOM ==> Decode(Encode(s)) == s
    ensures |s| > 0 && s[0] == BOM ==> Decode(Encode(s)) == s[1..]
  {
    var b := Encode(s);
    if |s| > 0 && s[0] == BOM {
      BomDropped(s);
    } else {
      if |b| >= 3 && b[..3] == [0xEF, 0xBB, 0xBF] {
        EncodeStartsWithBom(s);
      }
      DecodeBodyEncode(s);
    }
  }

  lemma BomDropped(s: string)
    requires |s| > 0 && s[0] == BOM
    ensures Decode(Encode(s)) == s[1..]
  {
    var b := Encode(s);
    var e := EncodeChar(BOM);
    assert e == [0xEF, 0xBB, 0xBF];
    assert b == e + Encode(s[1..]);
    assert b[..3] == e;
    assert b[3..] == Encode(s[1..]);
    DecodeBodyEncode(s[1..]);
  }
}

=== FILE: ws_protocol.dfy ===
/**
 * The browser's terminal socket protocol: input frames are a zero byte
 * followed by the UTF-8 text, output frames the same shape in the other
 * direction, and the two socket URLs derived from the page location.
 */
module WsProtocol {
  import opened Common
  import opened Text
  import Utf8

  /** `encodeTerminalInput`. */
  function EncodeTerminalInput(data: string): (f: seq<byte>)
    ensures |f| == |Utf8.Encode(data)| + 1
    ensures f[0] == 0x00 && f[1..] == Utf8.Encode(data)
  {
    [0x00] + Utf8.Encode(data)
  }

  /** `decodeTerminalOutput`: `None` is the source's `null`. */
  function DecodeTerminalOutput(data: seq<byte>): (r: Option<string>)
    ensures r.None? <==> |data| == 0 || data[0] != 0x00
    ensures r.Some? ==> r.value == Utf8.Decode(data[1..])
  {
    if |data| == 0 then None
    else if data[0] != 0x00 then None
    else Some(Utf8.Decode(data[1..]))
  }

  /**
   * A frame built by the encoder decodes to the text it carries, except that a
   * leading U+FEFF is taken for a byte-order mark and dropped.
   */
  lemma TerminalRoundTrip(s: string)
    ensures |s| == 0 || s[0] != Utf8.BOM ==> DecodeTerminalOutput(EncodeTerminalInput(s)) == Some(s)
    ensures |s| > 0 && s[0] == Utf8.BOM ==> DecodeTerminalOutput(EncodeTerminalInput(s)) == Some(s[1..])
  {
    Utf8.DecodeEncode(s);
  }

  /** The socket scheme for a page served over `protocol`. */
  function Scheme(protocol: string): (r: string)
    ensures r == "wss:" || r == "ws:"
    ensures r == "wss:" <==> protocol == "https:"
  {
    if protocol == "https:" then "wss:" else "ws:"
  }

  /** `createTerminalWsUrl`, with `location.protocol` and `location.host` as parameters. */
  function TerminalWsUrl(protocol: string, host: string, projectId: string, sessionId: string): (u: string)
    ensures StartsWith(u, "wss:") <==> protocol == "https:"
    ensures u == Scheme(protocol) + "//" + host + TerminalPath(projectId, sessionId)
  {
    var u := Scheme(protocol) + "//" + host + "/ws/terminal/" + projectId + "/" + sessionId;
    SchemePrefix(protocol, "//" + host + "/ws/terminal/" + projectId + "/" + sessionId);
    assert u == Scheme(protocol) + ("//" + host + "/ws/terminal/" + projectId + "/" + sessionId);
    u
  }

  /** The terminal path the server routes on. */
  function TerminalPath(projectId: string, sessionId: string): string {
    "/ws/terminal/" + projectId + "/" + sessionId
  }

  /** `createEventsWsUrl`. */
  function EventsWsUrl(protocol: string, host: string): (u: string)
    ensures StartsWith(u, "wss:") <==> protocol == "https:"
    ensures EndsWith(u, EVENTS_PATH)
    ensures u == Scheme(protocol) + "//" + host + EVENTS_PATH
  {
    var u := Scheme(protocol) + "//" + host + EVENTS_PATH;
    SchemePrefix(protocol, "//" + host + EVENTS_PATH);
    assert u == Scheme(protocol) + ("//" + host + EVENTS_PATH);
    assert u[|u| - |EVENTS_PATH|..] == EVENTS_PATH;
    u
  }

  /** The events path the server routes on. */
  const EVENTS_PATH := "/ws/events"

  /**
   * A socket URL reads back into its parts: the scheme, `//`, the page's host
   * and the path, each at its own place.
   */
  lemma SocketUrlParts(protocol: string, host: string, path: string)
    ensures var u := Scheme(protocol) + "//" + host + path;
      var a := |Scheme(protocol)|;
      && |u| == a + 2 + |host| + |path|
      && u[..a] == Scheme(protocol) && u[a..a + 2] == "//"
      && u[a + 2..|u| - |path|] == host && u[|u| - |path|..] == path
  {
  }

  /** The events URL carries the page's host and the events path, nothing else. */
  lemma EventsUrlParts(protocol: string, host: string)
    ensures var u := EventsWsUrl(protocol, host);
      && u[|Scheme(protocol)| + 2..|u| - |EVENTS_PATH|] == host
      && u[|u| - |EVENTS_PATH|..] == EVENTS_PATH
      && (u[..|Scheme(protocol)|] == "wss:" <==> protocol == "https:")
  {
    SocketUrlParts(protocol, host, EVENTS_PATH);
  }

  /** The terminal URL carries the page's host and the terminal path of the project and session. */
  lemma TerminalUrlParts(protocol: string, host: string, projectId: string, sessionId: string)
    ensures var u := TerminalWsUrl(protocol, host, projectId, sessionId);
      var path := TerminalPath(projectId, sessionId);
      && u[|Scheme(protocol)| + 2..|u| - |path|] == host
      && u[|u| - |path|..] == path
  {
    SocketUrlParts(protocol, host, TerminalPath(projectId, sessionId));
  }

  lemma SchemePrefix(protocol: string, rest: string)
    ensures StartsWith(Scheme(protocol) + rest, "wss:") <==> protocol == "https:"
  {
    var u := Scheme(protocol) + rest;
    if protocol != "https:" {
      assert u[1] == 's' && "wss:"[1] == 's';
      assert u[2] == ':' && "wss:"[2] == 's';
    }
  }

  /**
   * The path of a terminal URL names the project and the session, which can
   * be read back when neither contains a `/`.
   */
  lemma TerminalPathParts(projectId: string, sessionId: string)
    requires '/' !in projectId && '/' !in sessionId
    ensures Split(TerminalPath(projectId, sessionId), '/') == ["", "ws", "terminal", projectId, sessionId]
  {
    var parts := ["", "ws", "terminal", projectId, sessionId];
    JoinFive("", "ws", "terminal", projectId, sessionId, "/");
    var tail := projectId + "/" + sessionId;
    assert "" + "/" + ("ws" + "/" + ("terminal" + "/" + tail)) == "/ws/terminal/" + tail;
    assert "/ws/terminal/" + tail == TerminalPath(projectId, sessionId);
    SplitJoin(parts, '/');
  }

  /** Joining five parts puts the separator between each neighbouring pair. */
  lemma JoinFive(a: string, b: string, c: string, d: string, e: string, sep: string)
    ensures Join([a, b, c, d, e], sep) == a + sep + (b + sep + (c + sep + (d + sep + e)))
  {
    var parts := [a, b, c, d, e];
    assert Join(parts[4..], sep) == e;
    assert Join(parts[3..], sep) == d + sep + e;
    assert Join(parts[2..], sep) == c + sep + (d + sep + e);
    assert Join(parts[1..], sep) == b + sep + (c + sep + (d + sep + e));
  }
}
